=== FILE: README.md ===
# Career-guidance backend: a verified model of its decision logic

This project models, in Dafny, the rule-based core of a Django career-guidance
backend and proves properties of it. The backend runs an adaptive skill quiz,
predicts a job role from nineteen quiz answers, explains that prediction, plans
a learning path, grades assessments, answers labor-market questions, scores
resumes and builds portfolios. The model keeps the decisions these services
make and drops their storage and transport:

- **Adaptive testing** (`irt.dfy`, `item_bank.dfy`, `adaptive_engine.dfy`,
  `adaptive_session.dfy`, `adaptive_properties.dfy`): the 2PL item-response
  model, the hard-coded item bank, response standardisation, the one-step
  ability update, the standard error, the termination rule, item selection
  with its fallback, A/B text variants, and the session state machine with its
  analytics. `exp` and `sqrt` are passed in as a `Numerics` record, and
  `Irt.ValidNumerics` states the laws the proofs use.
- **Learning paths** (`learning_path.dfy`): skill-gap detection against the
  role curricula, priority sorting, dependency-ordered milestones built from
  groups of at most three related skills, hour estimates, the week timeline
  and the overall skill level.
- **Assessments** (`assessment.dfy`, `skill_assessments.dfy`,
  `advanced_views.dfy`): MCQ and coding grading, letter grades, Jaccard and
  longest-common-substring similarity, the plagiarism verdict, skill-set
  attempts with their numbering, question order, answer scoring, pass marks,
  badges and peer percentiles, and the start/submit protocol of the
  assessments endpoint.
- **Labor market** (`labor_market.dfy`, `labor_views.dfy`,
  `advanced_views.dfy`): salary bands with their fallbacks and currency, gap
  priorities, job trends, regional comparison, match and gap scores, transition
  times, recommendations, and the band reshaping of the labor-market endpoint.
- **Everything else**: resume keyword scoring and suggestions (`resume.dfy`),
  explainable-AI helpers (`explainable_ai.dfy`), the category quiz and the
  skill profile (`category_quiz.dfy`), portfolio slugs and date arithmetic
  (`portfolio.dfy`), the prediction endpoint's encoding and decoding
  (`prediction.dfy`), and the analytics funnel (`advanced_views.dfy`).

Shared pieces live in `wrappers.dfy` (`Option`, `Result`), `seqs.dfy`
(filters, sums, distinctness), `sorting.dfy` (one stable sort by a
lexicographic key, used wherever the source calls `sorted`), `numbers.dfy`
(Python's `round(x, 2)` and real-arithmetic lemmas) and `text.dfy`
(lower-casing, splitting, substring search, `int()` and `str()` on integers).

Database queries become sequences, maps and sets passed in. Django
`get_or_create`, `filter().count()` and `aggregate` become functions over
them. The classifier, the clock, random draws, regex detectors and `slugify`
become parameters. Python's `/` on two integers is real division, and `//`
and `%` with a positive divisor agree with Dafny's. Where the code and its
documentation disagree, the model follows the code:

- item selection maximises information rather than picking the closest
  difficulty;
- `process_response` has no guard against a completed session;
- completion leaves the current item in place.

## Model

| member | source | states |
|---|---|---|
| ItemBank.MaxQuestions | Backend/utils/adaptive_quiz.py:269-277 | the per-level budget lies between 6 and 12, and is 10 for an unknown level |
| ItemBank.DefaultWellFormed | Backend/utils/adaptive_quiz.py:20-243 | the engine's own item, branch and variant tables are well formed |
| ItemBank.PoolIdsDistinct | Backend/utils/adaptive_quiz.py:20-204 | no two items a user of one level can meet share an id |
| ItemBank.PoolSize | Backend/utils/adaptive_quiz.py:20-204 | every pool holds 12 items for a known level and the 10 bank items otherwise |
| ItemBank.DiscriminationBounds | Backend/utils/adaptive_quiz.py:20-204 | every discrimination a user can meet lies in (0, 1.8] |
| ItemBank.StudentItemsFlatterThanTech001 | Backend/utils/adaptive_quiz.py:20-204 | among the items a student can meet, only `tech_001` has a discrimination above 1.1 |
| AdaptiveSession.LevelCriteria | Backend/utils/adaptive_quiz.py:256-260 | the corrected termination criteria: threshold 0.3, at least 5 answers, and the level's own budget as the cap |
| AdaptiveSession.Open | Backend/utils/adaptive_quiz.py:245-267 | a new session starts at ability 0 with standard error 1 and nothing asked, and has a first item exactly when the level's pool is non-empty |
| AdaptiveSession.StartAsWritten | Backend/utils/adaptive_quiz.py:245-267 | the session as the source opens it: termination cap 15, while the level's budget is 12, 10, 8 or 6 |
| AdaptiveSession.Start | Backend/utils/adaptive_quiz.py:255-260 | the corrected opening: the termination cap equals the level's budget |
| AdaptiveSession.ProcessResponse | Backend/utils/adaptive_quiz.py:279-302 | an answer fails only when it cannot be scored or the pool is used up; otherwise the estimate is updated, and unless the session terminates the next item is the selection for the new ability |
| AdaptiveSession.QuizAnalytics | Backend/utils/adaptive_quiz.py:464-479 | an error for an unfinished session; otherwise the questions saved plus those asked make up the cap, efficiency is their ratio, and precision is the reciprocal of a positive standard error |
| AdaptiveProperties.AnalyticsAtCap | Backend/utils/adaptive_quiz.py:464-479 | a session completed at its cap with the standard error above 0.3 reports no questions saved, efficiency 0 and a precision below 1/0.3 |
| AdaptiveProperties.SelectedFromPool | Backend/utils/adaptive_quiz.py:304-348 | a selected item is an unasked pool item with discrimination in (0, 1.8] |
| AdaptiveProperties.OpenEstablishesInv | Backend/utils/adaptive_quiz.py:245-267 | a newly opened session satisfies the session invariant (distinct asked ids from the pool, a current unasked item, standard error above 0.3) |
| AdaptiveProperties.ProcessPreservesInv | Backend/utils/adaptive_quiz.py:279-302 | an answer that does not complete the session keeps the invariant |
| AdaptiveProperties.StandardErrorExitNeverFires | Backend/utils/adaptive_quiz.py:413-434 | the standard error never falls to 0.3, so a session completes exactly when the answer count reaches both the minimum and the cap |
| AdaptiveProperties.AskedBelowPool | Backend/utils/adaptive_quiz.py:304-348 | a running session has asked fewer items than its pool holds |
| AdaptiveProperties.AllAsked | Backend/utils/adaptive_quiz.py:326-332 | as many distinct asked pool ids as the pool holds means every pool item was asked |
| AdaptiveProperties.SomeUnasked | Backend/utils/adaptive_quiz.py:326-332 | fewer distinct asked ids than the pool holds leave some pool item unasked |
| AdaptiveProperties.AsWrittenNeverCompletes | Backend/utils/adaptive_quiz.py:255-260 | with the cap at 15 and every pool at most 12 items, no answer completes a session |
| AdaptiveProperties.AsWrittenExhaustsPool | Backend/utils/adaptive_quiz.py:326-348 | the answer that uses up the pool makes the next selection index an empty list |
| AdaptiveProperties.CorrectedNeverExhausts | Backend/utils/adaptive_quiz.py:269-277 | with the level's budget as the cap, no answer under budget finds the pool exhausted |
| AdaptiveProperties.CorrectedCompletesAtBudget | Backend/utils/adaptive_quiz.py:269-277 | with the level's budget as the cap, a session completes exactly on the answer that reaches the budget |
| AdaptiveProperties.CompletedAtCap | Backend/utils/adaptive_quiz.py:413-434 | under the level's budget every completed session stops at its cap with the standard error above 0.3, so its analytics report nothing saved |
| AdaptiveProperties.StartEstablishesInv | Backend/utils/adaptive_quiz.py:245-267 | both the as-written and the corrected opening with the engine's own tables satisfy the invariant |
| AdaptiveProperties.StudentStartsWithTech001 | Backend/utils/adaptive_quiz.py:334-342 | selection maximises information rather than matching difficulty: a student's first item is `tech_001` |
| Irt.Probability | Backend/utils/adaptive_quiz.py:368-372 | the two-parameter logistic probability lies strictly between 0 and 1 |
| Irt.ProbabilityIncreasing | Backend/utils/adaptive_quiz.py:368-372 | for a positive discrimination the probability strictly rises with ability |
| Irt.ProbabilityAtDifficulty | Backend/utils/adaptive_quiz.py:368-372 | at an ability equal to the difficulty the probability is one half |
| Irt.Information | Backend/utils/adaptive_quiz.py:350-366 | information is between 0 and a quarter of the squared discrimination, for every question type alike |
| Irt.StandardError | Backend/utils/adaptive_quiz.py:416 | the standard error is positive and its square times (information + 1e-6) is 1 |
| Irt.StandardErrorLowerBound | Backend/utils/adaptive_quiz.py:416 | information at most 0.81 gives a standard error above 1.11 |
| Irt.InformationOfEasyItemAtZero | Backend/utils/adaptive_quiz.py:350-372 | an item of difficulty -0.5 and discrimination 1.2 carries information above 0.317 at ability 0 |
| Irt.InformationOfFlatItem | Backend/utils/adaptive_quiz.py:350-372 | an item of discrimination at most 1.1 carries information at most 0.3025 at any ability |
| AdaptiveEngine.AsNumber | Backend/utils/adaptive_quiz.py:379 | `float(response)`: a number as itself, a boolean as 1 or 0, text by Python's float literal reading (`Text.ParseReal`); it fails exactly for a multi-select list or for text that is not a float literal |
| AdaptiveEngine.AsNumberFraction | Backend/utils/adaptive_quiz.py:379 | the answer text "7.5" reads as 7.5 |
| AdaptiveEngine.AsNumberSigned | Backend/utils/adaptive_quiz.py:379 | the answer text "-3" reads as -3 |
| AdaptiveEngine.AsNumberExponent | Backend/utils/adaptive_quiz.py:379 | the answer text "1.5e3" reads as 1500 |
| AdaptiveEngine.AsNumberWord | Backend/utils/adaptive_quiz.py:379 | the answer text "seven" is not a number |
| AdaptiveEngine.Standardize | Backend/utils/adaptive_quiz.py:376-393 | the answer's score on a 0-1 scale: a rating is the `float()` value divided by the scale maximum, a boolean 1 or 0 by truthiness, a multi-select the share of options chosen, a single choice lies in (0, 1] (its 1-based position share, `AdaptiveEngine.ChoicePosition`), other types 0.5; it fails exactly for a rating that `float()` rejects, a zero scale maximum, or a multi-select against no options |
| AdaptiveEngine.ChoicePosition | Backend/utils/adaptive_quiz.py:387-391 | a single-choice answer scores by the position of its first occurrence among the options, and 0.5 when it is not an option |
| AdaptiveEngine.RatingScoreInRange | Backend/utils/adaptive_quiz.py:377-379 | a rating inside the item's scale scores strictly above 0 and at most 1 |
| AdaptiveEngine.Info | Backend/utils/adaptive_quiz.py:350-366 | Fisher information is never negative and never above a quarter of the squared discrimination |
| AdaptiveEngine.AbilityStep | Backend/utils/adaptive_quiz.py:396-411 | the ability moves up exactly when the score is above one half, down otherwise, and by less than a tenth of the discrimination |
| AdaptiveEngine.SlopeBounds | Backend/utils/adaptive_quiz.py:404-408 | for a positive discrimination the likelihood slope lies strictly between minus and plus the discrimination, and is positive exactly after a correct answer |
| AdaptiveEngine.NextStandardError | Backend/utils/adaptive_quiz.py:413-416 | with positive information the new standard error is the positive root of 1/(information + 1e-6); otherwise it is kept |
| AdaptiveEngine.UpdateEstimate | Backend/utils/adaptive_quiz.py:374-416 | for a positive discrimination the ability rises exactly when the score is above 0.5 and falls otherwise, by less than a tenth of the discrimination; with positive information at the new ability the standard error is the positive root of 1/(info + 1e-6), otherwise it is unchanged |
| AdaptiveEngine.StandardErrorForgetsHistory | Backend/utils/adaptive_quiz.py:374-416 | the new ability, and the new standard error whenever information is positive, do not depend on the previous standard error |
| AdaptiveEngine.AbilityOrderedByCorrectness | Backend/utils/adaptive_quiz.py:374-416 | for a positive discrimination a wrong answer leaves the ability below where a right answer puts it, with the old ability strictly between |
| AdaptiveEngine.StandardErrorStaysAbove | Backend/utils/adaptive_quiz.py:413-416 | with discriminations at most 1.8, an update never brings the standard error from above 0.3 to 0.3 or below |
| AdaptiveEngine.ShouldTerminate | Backend/utils/adaptive_quiz.py:418-434 | never stops before the minimum count, always stops at the maximum, and in between stops exactly when the standard error reaches the threshold |
| AdaptiveEngine.Unasked | Backend/utils/adaptive_quiz.py:314-318 | exactly the items whose id was not asked; `AdaptiveEngine.UnaskedIsFilter` shows they keep bank order |
| AdaptiveEngine.UnaskedIsFilter | Backend/utils/adaptive_quiz.py:314-318 | the unasked items are the bank filtered by "id not asked", in bank order |
| AdaptiveEngine.ForLevel | Backend/utils/adaptive_quiz.py:314-318 | exactly the unasked items that list the experience level |
| AdaptiveEngine.FirstUnasked | Backend/utils/adaptive_quiz.py:329-332 | the earliest unasked item of a category, and nothing exactly when every item of it was asked |
| AdaptiveEngine.Available | Backend/utils/adaptive_quiz.py:311-324 | exactly the unasked general items listing the level together with the unasked items of the level's own branch |
| AdaptiveEngine.Fallback | Backend/utils/adaptive_quiz.py:326-332 | at most one unasked item per category, and none exactly when the whole bank was asked; `AdaptiveEngine.FallbackConcatenates` shows it is each category's first unasked item, in category order |
| AdaptiveEngine.FallbackConcatenates | Backend/utils/adaptive_quiz.py:326-332 | the fallback is the concatenation, over the categories in order, of each category's first unasked item |
| AdaptiveEngine.Candidates | Backend/utils/adaptive_quiz.py:311-332 | only unasked items of the level's pool, and empty exactly when the pool is exhausted |
| AdaptiveEngine.BestIndex | Backend/utils/adaptive_quiz.py:335-342 | the first item of maximal information: nothing later is more informative and nothing earlier is as informative |
| AdaptiveEngine.Weights | Backend/utils/adaptive_quiz.py:445 | one weight per variant, each `weight * (1 + performance_score)` |
| AdaptiveEngine.PickIndex | Backend/utils/adaptive_quiz.py:452-455 | the weighted draw picks the variant whose cumulative-weight interval holds the draw, and that variant has positive weight |
| AdaptiveEngine.RewordedKeepsParameters | Backend/utils/adaptive_quiz.py:457-460 | a variant copy keeps the item's id, difficulty, discrimination and type |
| AdaptiveEngine.VariantWeightsNonNegative | Backend/utils/adaptive_quiz.py:206-243 | every variant in the bank has a non-negative weight |
| AdaptiveEngine.SelectVariant | Backend/utils/adaptive_quiz.py:436-462 | without variants or with zero total weight the item is returned unchanged; otherwise its text and variant name come from the variant `Drawn` picks for the draw |
| AdaptiveEngine.Drawn | Backend/utils/adaptive_quiz.py:445-456 | the variant picked for a uniform draw `u` has positive weight, and its cumulative-weight interval holds `u` times the total weight |
| AdaptiveEngine.PickIndexUnique | Backend/utils/adaptive_quiz.py:452-455 | the weighted draw picks the only index whose interval holds the draw, so each variant is picked for its weight's share of the draws |
| AdaptiveEngine.IntervalsDisjoint | Backend/utils/adaptive_quiz.py:452-455 | with non-negative weights no draw lies in the cumulative intervals of two variants |
| AdaptiveEngine.SelectNext | Backend/utils/adaptive_quiz.py:304-348 | nothing exactly when the pool is exhausted (the `available_questions[0]` fallback on an empty list); otherwise the first candidate of maximal information, possibly reworded, and it is unasked and at least as informative as every candidate |
| LearningPath.LevelOf | Backend/utils/learning_path_generator.py:430 | a skill the user did not rate has level 0; otherwise the level is the one recorded for it |
| LearningPath.GapsIn | Backend/utils/learning_path_generator.py:429-471 | a skill of the list yields a gap exactly when its level is below the threshold, with the list's priority and category and size = required minus current |
| LearningPath.ListGaps | Backend/utils/learning_path_generator.py:429-471 | inside the whole gap list, a skill of one list has a gap of that category exactly when it is below the list's threshold |
| LearningPath.SkillGaps | Backend/utils/learning_path_generator.py:424-477 | the gaps of the curriculum, a permutation of the unsorted gaps, ordered by priority rank then gap size, both descending |
| LearningPath.SkillGapsStable | Backend/utils/learning_path_generator.py:474-475 | gaps of equal priority and size stay in curriculum order |
| LearningPath.GroupFrom | Backend/utils/learning_path_generator.py:533-546 | the grouping loop continues the open group, and the groups concatenate back to the skills |
| LearningPath.Group | Backend/utils/learning_path_generator.py:528-548 | the groups concatenate to the ready list, there are none exactly for an empty list, and each group shares its head's category and priority with at most 3 members |
| LearningPath.GroupUnique | Backend/utils/learning_path_generator.py:528-548 | any split with the same properties whose heads could not have joined the previous group is the one grouping returns |
| LearningPath.Choose | Backend/utils/learning_path_generator.py:490-502 | a round takes exactly the ready gaps in order, or, when none is ready, the first gap of largest size |
| LearningPath.ReadyGaps | Backend/utils/learning_path_generator.py:490-494 | the gaps with every prerequisite completed, each ready gap and only those |
| LearningPath.Largest | Backend/utils/learning_path_generator.py:497-500 | a gap of largest size, with every earlier gap strictly smaller |
| LearningPath.Plan | Backend/utils/learning_path_generator.py:479-517 | milestone generation terminates and schedules every gap exactly once; each milestone is homogeneous and a forced one holds a single skill |
| LearningPath.PlanRespectsPrerequisites | Backend/utils/learning_path_generator.py:490-502 | a skill scheduled as ready has every prerequisite completed beforehand or in a strictly earlier milestone |
| LearningPath.PlanCoversEveryGap | Backend/utils/learning_path_generator.py:479-517 | every gap appears in some milestone |
| LearningPath.MasteredPrerequisiteForcesFallback | Backend/utils/learning_path_generator.py:486-502 | a skill whose prerequisite the user already masters is never ready, so only the fallback schedules it |
| LearningPath.ExperienceMultiplier | Backend/utils/learning_path_generator.py:557-563 | the experience multiplier lies between 0.7 and 1.5 |
| LearningPath.BaseHours | Backend/utils/learning_path_generator.py:555 | the base hours of a group of positive gaps are positive |
| LearningPath.MilestoneType | Backend/utils/learning_path_generator.py:581-595 | the first keyword rule any skill of the group triggers decides the type: project, then foundation, then certification, then practice |
| LearningPath.GroupPrerequisites | Backend/utils/learning_path_generator.py:606-613 | exactly the prerequisites of some skill of the group |
| LearningPath.CreateMilestone | Backend/utils/learning_path_generator.py:550-579 | the milestone keeps its order, the group's skills and the head's priority, and its hours are the truncated product of base hours and the experience multiplier |
| LearningPath.BeginnerHoursAtLeastAdvanced | Backend/utils/learning_path_generator.py:557-563 | a beginner's estimate is never below an advanced learner's for the same skills |
| LearningPath.Milestones | Backend/utils/learning_path_generator.py:503-515 | one milestone per stage, numbered consecutively from 1 |
| LearningPath.FilterResources | Backend/utils/learning_path_generator.py:671-691 | the three filter passes keep exactly the admitted resources in their original order |
| LearningPath.SkippedPasses | Backend/utils/learning_path_generator.py:675-686 | a skipped cost or type pass is the same as running it, since it would admit everything |
| LearningPath.IntensityMultiplier | Backend/utils/learning_path_generator.py:701-707 | the intensity multiplier lies between 0.7 and 1.4 |
| LearningPath.ScheduleFrom | Backend/utils/learning_path_generator.py:712-725 | one slot per milestone, each at least a week, ending at start + weeks - 1, with each start one week after the previous end |
| LearningPath.CalculateTimeline | Backend/utils/learning_path_generator.py:693-733 | a zero weekly rate is a division error; otherwise the total is at least one week and the schedule starts at week 1 |
| LearningPath.ScheduleStartsAfterEarlier | Backend/utils/learning_path_generator.py:712-725 | each milestone starts right after the durations of all earlier milestones |
| LearningPath.OverallSkillLevel | Backend/utils/learning_path_generator.py:762-774 | beginner for no skills or a mean below 3, intermediate below 6, advanced otherwise |
| LearningPath.OverallSkillLevelMonotone | Backend/utils/learning_path_generator.py:762-774 | raising one self-assessed level never lowers the overall band |
| LearningPath.Assemble | Backend/utils/learning_path_generator.py:374-422 | the path carries the role and level, the gaps it reports, the milestones planned from the gaps, and a week count equal to the timeline's total of at least one week; it fails exactly when the weekly rate is zero |
| LearningPath.GenerateAsWritten | Backend/utils/learning_path_generator.py:374-422 | the path as written: an unknown role is an error |
| LearningPath.AsWrittenReportsNoGaps | Backend/utils/learning_path_generator.py:413 | the reported gap count is always 0, because milestone generation emptied the list |
| LearningPath.AsWrittenUndercounts | Backend/utils/learning_path_generator.py:413 | a one-skill curriculum the user has not started reports 0 gaps as written and 1 when corrected |
| LearningPath.Generate | Backend/utils/learning_path_generator.py:374-422 | an unknown role and a zero weekly rate are the only errors; otherwise the milestones cover exactly the skills with a gap and the count of gaps is reported |
| LearningPath.PlanSkills | Backend/utils/learning_path_generator.py:479-517 | the milestones of the plan name exactly the skills that have gaps |
| Assessment.LetterGrade | Backend/utils/assessment_engine.py:309-320 | each grade exactly on its band: A from 90, B in [80, 90), C in [70, 80), D in [60, 70), F below 60 |
| Assessment.GradeMonotone | Backend/utils/assessment_engine.py:309-320 | a higher percentage never earns a lower letter |
| Assessment.Summarise | Backend/utils/assessment_engine.py:292-301 | the percentage lies in [0, 100] and is 0 when nothing could be scored; passed exactly when the score is at least 70 percent of a positive maximum, which is exactly a letter of C or better |
| Assessment.CountCorrect | Backend/utils/assessment_engine.py:254-262 | no more correct answers than answers submitted |
| Assessment.GradeAssessment | Backend/utils/assessment_engine.py:247-301 | MCQ: the maximum is the number of answers and the total those equal to the key; coding: the maximum is the number of listed tests and the total 0; any other type scores nothing |
| Assessment.CodingAlwaysFails | Backend/utils/assessment_engine.py:271-290 | a coding submission always scores 0 percent, fails and gets an F, because the test runner always reports failure |
| Assessment.NullAnswerToUnknownQuestionScores | Backend/utils/assessment_engine.py:255-258 | a null answer to a question the key lacks counts as correct, since both sides read as None |
| Assessment.McqPassesAtSeventyPercent | Backend/utils/assessment_engine.py:253-299 | an MCQ test passes exactly when at least 70 percent of the answers match the key |
| Assessment.LongestCommonIsLongest | Backend/utils/assessment_engine.py:153-166 | the reference value is the length of some common substring, and no common substring is longer |
| Assessment.LongestCommonSymmetric | Backend/utils/assessment_engine.py:153-166 | the longest common substring does not depend on the order of the texts |
| Assessment.SuffixStep | Backend/utils/assessment_engine.py:162-164 | a table cell is the cell diagonally before plus one when the characters agree, and 0 otherwise |
| Assessment.LongestCommonSubstring | Backend/utils/assessment_engine.py:153-166 | the dynamic-programming loop returns the length of a longest common substring, at most the length of either text |
| Assessment.Jaccard | Backend/utils/assessment_engine.py:139-142 | the Jaccard index lies in [0, 1] and is 1 exactly for equal word sets |
| Assessment.SubstringRatio | Backend/utils/assessment_engine.py:146-148 | twice the common substring over the total length lies in [0, 1] |
| Assessment.Similarity | Backend/utils/assessment_engine.py:130-151 | 0 when either text has no word; otherwise at least the Jaccard index, and exactly it unless both texts exceed 50 characters, when it is the larger of the Jaccard index and the substring ratio; always in [0, 1] |
| Assessment.SimilaritySymmetric | Backend/utils/assessment_engine.py:130-151 | similarity does not depend on the order of the texts |
| Assessment.SimilarToItself | Backend/utils/assessment_engine.py:130-151 | a text with a word is fully similar to itself |
| Assessment.Label | Backend/utils/assessment_engine.py:61 | a source up to 100 characters is kept; a longer one is cut to 100 characters plus an ellipsis |
| Assessment.Matches | Backend/utils/assessment_engine.py:56-64 | the sources above the threshold, and none exactly when no source is above it; `Assessment.MatchesFilterSources` shows they are each kept source with its similarity, in order |
| Assessment.MatchesFilterSources | Backend/utils/assessment_engine.py:56-64 | one match per source above the threshold, in source order, each labelled with its source and similarity |
| Assessment.BestScore | Backend/utils/assessment_engine.py:64 | the largest match similarity, or 0 without matches |
| Assessment.CheckPlagiarism | Backend/utils/assessment_engine.py:42-80 | an empty answer gets a clean report; otherwise the score is 0 or above the threshold, and the answer is flagged exactly when the score exceeds 0.85 |
| Assessment.PlagiarizedIff | Backend/utils/assessment_engine.py:42-80 | an answer is flagged exactly when it is non-empty and the copy-paste detector fired or some source is more similar than the threshold |
| Assessment.WarningsIffPlagiarized | Backend/utils/assessment_engine.py:216-228 | a flagged answer always carries a warning and a clean one never does |
| LaborMarket.SalaryDataWellFormed | Backend/utils/labor_market.py:16-50 | every band of the salary table has min <= median <= max |
| LaborMarket.GetSalaryBand | Backend/utils/labor_market.py:75-97 | region and level echo the request, the currency follows the requested region, the band is ordered, the default band serves an unknown role, and a known entry is reported as stored |
| LaborMarket.MissingRegionUsesUs | Backend/utils/labor_market.py:80-82 | a region the role has no data for reports the role's US figures |
| LaborMarket.UnknownLevelUsesDefault | Backend/utils/labor_market.py:84-86 | an unknown experience level reports the default band |
| LaborMarket.CurrencyIgnoresFallback | Backend/utils/labor_market.py:80-95 | a Web Developer in India is reported the US figures labelled in rupees |
| LaborMarket.Factor | Backend/utils/labor_market.py:193-199 | 1.5 for a hot skill, 0.7 for a declining one, both when it is both, and always positive |
| LaborMarket.Priority | Backend/utils/labor_market.py:185-201 | every positive gap has a positive priority |
| LaborMarket.PriorityMonotone | Backend/utils/labor_market.py:185-201 | for one skill a larger gap has a larger priority |
| LaborMarket.TrendOrdersPriority | Backend/utils/labor_market.py:193-199 | with equal gaps a hot skill outranks a plain one, which outranks a declining one |
| LaborMarket.DefaultRequired | Backend/utils/labor_market.py:147-183 | the default requirements are non-empty and every required level is positive |
| LaborMarket.Gaps | Backend/utils/labor_market.py:111-125 | exactly the requirements the user falls short of, each with gap = required minus the user's level (0 when unrated) and a positive priority |
| LaborMarket.MetRequirementIsNoGap | Backend/utils/labor_market.py:111-125 | a requirement the user meets yields no gap entry |
| LaborMarket.AnalyzeSkillGap | Backend/utils/labor_market.py:99-145 | empty requirements fall back to the role's defaults; the total counts the gaps; the priority list holds min(10, number of gaps) of the gaps without repetition, by priority descending; the advice reads the whole ranked list |
| LaborMarket.TopOfGaps | Backend/utils/labor_market.py:127-137 | the first ten after the priority sort are gaps, each at most as often as it occurs, in priority order |
| LaborMarket.HotGapSkills | Backend/utils/labor_market.py:215-219 | exactly the gap skills that mention one of the role's hot skills, case-insensitively |
| LaborMarket.Advise | Backend/utils/labor_market.py:203-243 | a focus skill exactly when there is a gap, taken from the head of the ranked list; up to three gaps in hot skills, none exactly when no gap mentions one; the growth rate exactly when it is above 15%; the many-gaps note exactly above ten gaps and the well-aligned note exactly below three |
| LaborMarket.AdviceNeverEmpty | Backend/utils/labor_market.py:203-243 | every analysis advises something: a focus skill when there is a gap, otherwise the well-aligned note |
| LaborMarket.AdviceFocusesOnTopPriority | Backend/utils/labor_market.py:128-144 | the skill to focus on heads the priority list, and no gap has a higher priority |
| LaborMarket.GrowthAdviceByRole | Backend/utils/labor_market.py:226-231 | a Data Scientist is told of 25% growth; a Software Developer, at exactly 15%, is not |
| LaborMarket.PriorityListKeepsLargest | Backend/utils/labor_market.py:128-131 | no gap left off the priority list outranks one on it |
| LaborMarket.GetJobTrends | Backend/utils/labor_market.py:245-272 | increasing demand is min(1, 1 + growth), decreasing is max(0.3, 1 - growth), otherwise 0.7; job postings per day stay between 10 and 33 |
| LaborMarket.KnownRolesDemand | Backend/utils/labor_market.py:52-73 | every role in the trend table has demand 1 when increasing and 0.7 otherwise |
| LaborMarket.CompareSalaryByRegion | Backend/utils/labor_market.py:274-295 | one entry per compared region with its band and currency; the highest is the entry `LaborMarket.Highest` picks and the lowest the one `LaborMarket.Lowest` picks, so every median lies between theirs |
| LaborMarket.Highest | Backend/utils/labor_market.py:292 | `max` by median: an entry whose median is at least every other, and every earlier entry's median is strictly lower, so ties go to the first |
| LaborMarket.Lowest | Backend/utils/labor_market.py:293 | `min` by median: an entry whose median is at most every other, and every earlier entry's median is strictly higher, so ties go to the first |
| LaborMarket.UnknownRoleComparesUs | Backend/utils/labor_market.py:276-294 | for an unknown role every region ties and the US is both highest and lowest |
| Resume.Classify | Backend/utils/resume_builder.py:243-263 | the found and missing lists are the role keywords that are and are not found, in role order, and together as many as the keywords |
| Resume.ClassifyPartitions | Backend/utils/resume_builder.py:246-263 | each role keyword is found or missing, never both |
| Resume.DatabaseFoundThroughSql | Backend/utils/resume_builder.py:250-259 | a resume that says "sql" is credited with "database" through the synonym table |
| Resume.KeywordScore | Backend/utils/resume_builder.py:266 | the keyword score lies in [0, 100], is 0 for a role without keywords or with none found, and 100 when all are found |
| Resume.AtsSuggestions | Backend/utils/resume_builder.py:337-356 | never empty; the all-clear message appears exactly when no weakness (missing keywords, formatting or structure below 80, text below 500 characters) does, and then alone |
| Resume.CalculateAtsScore | Backend/utils/resume_builder.py:235-285 | found and missing partition the role keywords in list order, missing is cut to 10, the keyword score is the rounded share of keywords found, formatting and structure are the rounded detector scores, the ATS score is the rounded sum of half the keyword score and a quarter each of formatting and structure, within [0, 100], and the suggestions are those for the full missing list |
| Resume.AtsMonotone | Backend/utils/resume_builder.py:235-285 | better formatting and structure scores never lower the ATS score |
| Resume.AllKeywordsFullMarks | Backend/utils/resume_builder.py:246-266 | a resume with every role keyword scores 100 on keywords and misses none |
| Resume.AddQuiz | Backend/utils/resume_builder.py:365-369 | the skills are the old ones plus every skill a quiz answer names, and a skill no answer names keeps its old level; `Resume.AddQuizLastWins` shows a named skill takes the level of the last answer naming it |
| Resume.AddQuizLastWins | Backend/utils/resume_builder.py:365-369 | a skill named by some answer has the level of the last answer naming it |
| Resume.AddAssessments | Backend/utils/resume_builder.py:372-381 | the named assessments add their skills to the mapping |
| Resume.AddAssessmentsRaises | Backend/utils/resume_builder.py:380-381 | merging assessments never lowers a level and leaves each assessed skill at least at each of its normalised scores |
| Resume.AddAssessmentsAttains | Backend/utils/resume_builder.py:374-381 | each level is the earlier one (0 when absent) or one of the skill's normalised scores, and unassessed skills keep their level |
| Resume.MapSkillsFromQuiz | Backend/utils/resume_builder.py:358-383 | the skills are those named by quiz answers or assessments; a skill no assessment names keeps its quiz level; every level is at least its quiz level and each assessment's normalised score, and equals one of them, so it is their maximum |
| Resume.StarSurvivesContext | Backend/utils/resume_builder.py:464-474 | surrounding a STAR bullet with more text keeps it a STAR bullet |
| Resume.FormatStarBullet | Backend/utils/resume_builder.py:198-215 | action, then "Resulting in" and the lower-cased result, joined by ". " when both are present; with neither, situation and task or the fixed fallback; never empty |
| Resume.StarBulletMentions | Backend/utils/resume_builder.py:198-215 | the bullet contains the action and the lower-cased result whenever they are given |
| Resume.StarBulletIgnoresResultCase | Backend/utils/resume_builder.py:198-215 | two results that differ only in case give the same bullet |
| Resume.Hits | Backend/utils/resume_builder.py:433-445 | exactly the capitalised keywords occurring in the text, without duplicates; `Resume.HitsInOrder` shows they keep list order |
| Resume.HitsInOrder | Backend/utils/resume_builder.py:433-445 | the hits are the capitalised keywords that occur in the text, one per such keyword, in list order |
| Resume.ExtractKeywords | Backend/utils/resume_builder.py:430-445 | exactly the technology keywords occurring in the lower-cased text, capitalised, each once |
| Resume.JavascriptAlsoYieldsJava | Backend/utils/resume_builder.py:438-443 | matching is by substring, so "javascript" also yields "Java" |
| ExplainableAi.ImpactLevel | Backend/utils/explainable_ai.py:238-245 | High exactly above 0.1, Medium exactly in (0.05, 0.1], Low otherwise |
| ExplainableAi.ConfidenceLevel | Backend/utils/explainable_ai.py:313-330 | every probability falls in exactly one band: high above 0.7, medium from 0.3 to 0.7 inclusive, low below 0.3 |
| ExplainableAi.ImpactMonotone | Backend/utils/explainable_ai.py:238-245 | a larger score never gets a lower impact or confidence level |
| ExplainableAi.RoleClass | Backend/utils/explainable_ai.py:261-266 | the first class whose name equals the query ignoring case, and nothing exactly when no name does |
| ExplainableAi.RoleClassIgnoresCase | Backend/utils/explainable_ai.py:264 | the lookup depends on the name only up to case |
| ExplainableAi.RoleClassFindsRole | Backend/utils/explainable_ai.py:261-266 | when no two roles differ only in case, every role is found under its own name |
| ExplainableAi.Reliability | Backend/utils/explainable_ai.py:302-311 | 0 without data, otherwise max(0, 1 - mean absolute error), in [0, 1] and 1 exactly when the two curves agree |
| ExplainableAi.EceZeroIff | Backend/utils/explainable_ai.py:308 | the mean absolute error is non-negative and 0 exactly when the curves agree |
| ExplainableAi.ProbabilitiesNeverClip | Backend/utils/explainable_ai.py:309 | for curves of probabilities the max(0, ...) never clips |
| ExplainableAi.Clip | Backend/utils/explainable_ai.py:226 | the clip lies in [0, 10] and leaves values in range unchanged |
| ExplainableAi.SyntheticRow | Backend/utils/explainable_ai.py:212-234 | a synthetic row has the user's categorical answers at positions 6 and 7 and every other entry is the noisy answer clipped to [0, 10] |
| ExplainableAi.NoNoiseKeepsAnswers | Backend/utils/explainable_ai.py:222-232 | without noise, an answer sheet on the 0-10 scale is its own synthetic row |
| ExplainableAi.Band | Backend/utils/explainable_ai.py:315-330 | a band lists only probabilities of its level, in descending order |
| ExplainableAi.ConfidenceBands | Backend/utils/explainable_ai.py:313-330 | an error exactly when a class has no role name (the KeyError reported at explainable_ai.py:209-210); otherwise the three bands together list every class once, each in the band of its probability, in descending probability |
| ExplainableAi.RankedClasses | Backend/utils/explainable_ai.py:315 | the ranking holds each class exactly once with its probability |
| ExplainableAi.EveryClassBanded | Backend/utils/explainable_ai.py:316-330 | every class appears under its role name in the band of its probability |
| ExplainableAi.Raise | Backend/utils/explainable_ai.py:284 | the suggested value is min(10, value + 2) |
| ExplainableAi.TipsFrom | Backend/utils/explainable_ai.py:274-299 | at most one tip per remaining feature, each for the target role and suggesting the raised value |
| ExplainableAi.TipsForTarget | Backend/utils/explainable_ai.py:268-300 | at most one tip per feature, each for the target role and suggesting the raised value |
| ExplainableAi.TipsForTargetExactly | Backend/utils/explainable_ai.py:274-299 | the tips are exactly those for the non-categorical features whose raise makes the target predicted or above 0.3 |
| ExplainableAi.Probabilities | Backend/utils/explainable_ai.py:135 | one probability per class, as the classifier gives it |
| ExplainableAi.Alternatives | Backend/utils/explainable_ai.py:146-147 | the up to three classes ranked right after the most probable one |
| ExplainableAi.AlternativeTips | Backend/utils/explainable_ai.py:147-149 | every tip targets one of the alternative classes; `ExplainableAi.AlternativeTipsConcatenate` shows they are each alternative's tips, in order |
| ExplainableAi.AlternativeTipsConcatenate | Backend/utils/explainable_ai.py:147-149 | the tips are the concatenation of each alternative class's tips, in the alternatives' order |
| ExplainableAi.CounterfactualTips | Backend/utils/explainable_ai.py:121-158 | an error exactly for a mismatched answer sheet or a named target whose class the classifier lacks (when there are features to try); otherwise min(10, number of candidate tips) tips sorted by impact, taken from the candidates without repetition, none for an unknown named target and only that role's for a known one |
| ExplainableAi.CandidateTips | Backend/utils/explainable_ai.py:139-149 | the tips before sorting: none for an unknown named target, the target's own tips for a known one, and without a target the tips for the runner-up classes, which are all known roles |
| ExplainableAi.CounterfactualsKeepBest | Backend/utils/explainable_ai.py:153-155 | a tip left out of the best ten has no higher impact than any tip kept |
| ExplainableAi.NoTipForLeader | Backend/utils/explainable_ai.py:145-149 | without a target, no tip points at the most probable class |
| CategoryQuiz.Percent | Backend/adaptive_quiz/models.py:101-111 | a share of a whole as a percentage in [0, 100], within half a hundredth of the exact share: 0 for an empty whole or no part, 100 for the whole |
| CategoryQuiz.Accuracy | Backend/adaptive_quiz/models.py:101-105 | accuracy lies in [0, 100], within half a hundredth of correct answers over questions times 100, and is 0 before any question |
| CategoryQuiz.ScorePercentage | Backend/adaptive_quiz/models.py:107-111 | the score percentage lies in [0, 100], within half a hundredth of the score over the maximum times 100, and is 0 when nothing could be scored |
| CategoryQuiz.UpdateDifficulty | Backend/adaptive_quiz/views.py:345-364 | easy before any answer; otherwise at most one rung up or down, up only from 80% accuracy, down only below 50%, never past the ends |
| CategoryQuiz.FirstAt | Backend/adaptive_quiz/views.py:318-322 | the first question at a difficulty, and none exactly when no question has it |
| CategoryQuiz.FirstFrom | Backend/adaptive_quiz/views.py:324-336 | a question on the lowest rung at or above the start that has one, and none exactly when every question is below it |
| CategoryQuiz.NextQuestion | Backend/adaptive_quiz/views.py:309-343 | none exactly when no active question is left; otherwise an active question not excluded, at the current rung or the nearest harder one when one exists |
| CategoryQuiz.SubmitAnswer | Backend/adaptive_quiz/views.py:140-214 | a completed quiz, an unknown or answered question, or a foreign option is rejected; otherwise the points, score, maximum, question count and correct count advance by this answer and the difficulty is the one the updated counters select |
| CategoryQuiz.AnswerMovesOneRung | Backend/adaptive_quiz/views.py:353-362 | each accepted answer moves the difficulty by at most one rung |
| CategoryQuiz.AnswersKeepConsistent | Backend/adaptive_quiz/views.py:190-194 | any run of answers keeps the score within the maximum and the correct count within the question count |
| CategoryQuiz.Complete | Backend/adaptive_quiz/views.py:216-238 | a completed quiz is rejected; otherwise only the completed flag changes |
| CategoryQuiz.GetQuestion | Backend/adaptive_quiz/views.py:116-138 | a completed quiz is rejected; otherwise any question returned is not yet answered |
| CategoryQuiz.Start | Backend/adaptive_quiz/views.py:76-114 | an unfinished quiz for the category is resumed; otherwise a fresh easy quiz opens with its first question |
| CategoryQuiz.Row | Backend/adaptive_quiz/views.py:250-262 | a statistics row counts the attempts at its difficulty and the correct ones, with accuracy in [0, 100] |
| CategoryQuiz.StatsFromRows | Backend/adaptive_quiz/views.py:247-263 | the rows are exactly those of the difficulties that have attempts |
| CategoryQuiz.Results | Backend/adaptive_quiz/views.py:240-279 | only a completed quiz has results, with one row exactly for each difficulty that has attempts |
| CategoryQuiz.ResultsCountEveryAttempt | Backend/adaptive_quiz/views.py:240-279 | the rows' totals add up to the number of questions answered |
| CategoryQuiz.TotalsFrom | Backend/adaptive_quiz/views.py:251-266 | the rows from a rung on hold exactly the attempts at those rungs |
| CategoryQuiz.RungsPartition | Backend/adaptive_quiz/views.py:251-266 | every attempt is at exactly one difficulty |
| CategoryQuiz.Find | Backend/adaptive_quiz/models.py:165 | the position of a skill in the profile, or none exactly when it is absent |
| CategoryQuiz.RunningMean | Backend/adaptive_quiz/models.py:178-181 | the running mean lies between the old level and the performance |
| CategoryQuiz.UpdateSkill | Backend/adaptive_quiz/models.py:163-189 | the skill's entry (fresh at 0 when unseen) gets one more attempt, the performance as last score and the running mean as level; other entries and their order are unchanged |
| CategoryQuiz.UpdateSkillBetween | Backend/adaptive_quiz/models.py:178-185 | with whole-hundredth inputs, the stored level lies between the old level and the performance |
| CategoryQuiz.FirstAttemptTakesPerformance | Backend/adaptive_quiz/models.py:166-185 | a first attempt sets the level to the rounded performance |
| CategoryQuiz.UpdateTags | Backend/adaptive_quiz/views.py:366-377 | each text tag of the question becomes a profile skill, no other skill appears, and skills stay unique; `CategoryQuiz.UpdateTagsKeeps`, `CategoryQuiz.UpdateTagsLastScore` and `CategoryQuiz.UpdateTagsAttempts` give the per-skill statistics |
| CategoryQuiz.UpdateTagsKeeps | Backend/adaptive_quiz/views.py:366-377 | a skill no tag names keeps its statistics |
| CategoryQuiz.UpdateTagsLastScore | Backend/adaptive_quiz/views.py:366-377 | a tagged skill's last score is 100 for a correct answer and 0 otherwise |
| CategoryQuiz.UpdateTagsAttempts | Backend/adaptive_quiz/views.py:366-377 | a skill's attempts grow by the number of times the question's tags name it |
| CategoryQuiz.TopSkills | Backend/adaptive_quiz/models.py:191-201 | min(limit, profile size) profile entries without repetition, highest level first |
| CategoryQuiz.TopSkillsKeepBest | Backend/adaptive_quiz/models.py:191-201 | a skill left out of the top list is at no higher level than any listed |
| CategoryQuiz.WeakSkills | Backend/adaptive_quiz/models.py:203-212 | min(limit, number of entries below the threshold) of those entries without repetition, lowest level first |
| CategoryQuiz.WeakSkillsKeepWeakest | Backend/adaptive_quiz/models.py:203-212 | every weak skill is listed when there are at most `limit`, and one left out is at no lower level than any listed |
| LaborViews.MatchScore | Backend/labor_market/views.py:333-343 | 50 for a role without requirements; otherwise within half a hundredth of the share of requirements the user has, 100 when all and 0 when none |
| LaborViews.Share | Backend/labor_market/views.py:342 | a percentage in [0, 100] within half a hundredth of the exact share, 0 for no part |
| LaborViews.CalculateSkillGap | Backend/labor_market/views.py:345-358 | missing and matching are the requirements the user lacks and has, each once, together all of them, with a gap percentage in [0, 100] within half a hundredth of the missing share, 0 without requirements |
| LaborViews.SplitListing | Backend/labor_market/views.py:349-350 | splitting the requirement list by the user's skills gives the matching and missing requirements, each once |
| LaborViews.MatchAndGapComplement | Backend/labor_market/views.py:333-358 | for a role with requirements the match and gap percentages add up to exactly 100, rounding included |
| LaborViews.TransitionTime | Backend/labor_market/views.py:360-368 | the horizon bands are below 20, 40 and 60 percent gap, or more |
| LaborViews.TransitionMonotone | Backend/labor_market/views.py:360-368 | a larger gap never promises a shorter transition |
| LaborViews.DemandScore | Backend/labor_market/views.py:382-385 | five points per salary record, 100 exactly from 20 records |
| LaborViews.DemandScoreMonotone | Backend/labor_market/views.py:382-385 | more salary records never lower the demand score |
| LaborViews.GenerateReasoning | Backend/labor_market/views.py:387-393 | the excellent text exactly from a match of 80, the good text from 60, the potential text below; the latter two name the number of missing skills |
| LaborViews.GenerateReasoningMonotone | Backend/labor_market/views.py:387-393 | a better match never gets a weaker message |
| LaborViews.RecommendedActions | Backend/labor_market/views.py:406-415 | one action for each of the first five missing skills, in order, high priority when the skill first occurs among the first three |
| LaborViews.FirstThreeActionsHigh | Backend/labor_market/views.py:406-415 | with each skill listed once, exactly the first three actions are high priority |
| LaborViews.SkillGapAnalysis | Backend/labor_market/views.py:268-292 | an unknown role is an error; otherwise the gap, its actions and the transition time from the unrounded gap |
| LaborViews.AnalysisAgreesWithRecommend | Backend/labor_market/views.py:283-322 | the skill-gap endpoint (unrounded gap) and a recommendation (rounded gap) give the same transition time unless the gap is within half a hundredth of 20, 40 or 60 percent, and then neighbouring bands |
| LaborViews.NearbyBands | Backend/labor_market/views.py:360-368 | gaps at most half a hundredth apart fall in the same band unless one is that close to an edge, and never two bands apart |
| LaborViews.Recommend | Backend/labor_market/views.py:305-330 | a recommendation carries the match score, the gap, the transition time from the rounded gap, and at most three courses for missing skills |
| LaborViews.GenerateRecommendations | Backend/labor_market/views.py:294-331 | min(10, number of candidate roles, 20) recommendations, sorted by match score descending, taken without repetition from those of the first twenty candidate roles |
| LaborViews.RecommendationsKeepBest | Backend/labor_market/views.py:331 | a considered role left out of the ten has no better match than any kept |
| SkillAssessments.Attempts | Backend/skill_assessments/views.py:64-67 | the count of the user's rows for the skill set, zero exactly when there are none |
| SkillAssessments.MaxScore | Backend/skill_assessments/views.py:70-72 | the points of the active questions added up: never negative for non-negative points, 0 when none is active |
| SkillAssessments.FindActive | Backend/skill_assessments/views.py:58-61 | an active skill set with the requested id, and none exactly when no active set has it |
| SkillAssessments.StartAssessment | Backend/skill_assessments/views.py:54-84 | unknown or inactive skill set is an error; otherwise an in-progress row for the user and set with score 0, the active points as maximum, and attempt number one past the count of earlier rows |
| SkillAssessments.AttemptsGrow | Backend/skill_assessments/views.py:64-67 | a longer history never has fewer attempts for the pair |
| SkillAssessments.NumberedUnique | Backend/skill_assessments/models.py:149 | rows numbered by their position among the pair's rows satisfy the uniqueness constraint on user, skill set and attempt |
| SkillAssessments.StartKeepsNumbered | Backend/skill_assessments/views.py:63-81 | on a history of starts only, a start keeps the numbering and hence the uniqueness constraint |
| SkillAssessments.Delete | Backend/skill_assessments/views.py:47-52 | the destroy action removes exactly the chosen row, keeping the order of the rest |
| SkillAssessments.DeleteThenStartCollides | Backend/skill_assessments/views.py:64-67 | start, start, delete the first, start: the third start repeats attempt number 2 and breaks the constraint of models.py:149 |
| SkillAssessments.NextAttempt | Backend/skill_assessments/models.py:149 | a positive attempt number above every attempt number the pair already has |
| SkillAssessments.StartAssessmentFixed | Backend/skill_assessments/views.py:54-84 | the start action with the same error case and row contents, numbering past the largest existing attempt |
| SkillAssessments.FixedStartKeepsUnique | Backend/skill_assessments/models.py:149 | with the corrected numbering every start keeps the uniqueness constraint |
| SkillAssessments.DeleteKeepsUnique | Backend/skill_assessments/models.py:149 | deleting a row keeps the uniqueness constraint |
| SkillAssessments.AnsweredIds | Backend/skill_assessments/views.py:93 | the question ids of the answers, in order |
| SkillAssessments.FirstOpen | Backend/skill_assessments/views.py:94-101 | the first active question not yet answered, none exactly when no such question exists |
| SkillAssessments.GetQuestion | Backend/skill_assessments/views.py:86-103 | not-in-progress exactly when the status is not in progress; no-more-questions exactly when every active question is answered; otherwise the first open active question |
| SkillAssessments.FindChoice | Backend/skill_assessments/views.py:125 | the option with the chosen id among the question's own, none exactly when no option has it |
| SkillAssessments.Score | Backend/skill_assessments/views.py:119-131 | correct only for an MCQ whose chosen option of its own is marked correct; points are the question's when correct and 0 otherwise; non-MCQ or absent choice scores nothing |
| SkillAssessments.CorrectOption | Backend/skill_assessments/views.py:149 | the id of the first correct option, none exactly when no option is correct |
| SkillAssessments.SubmitAnswer | Backend/skill_assessments/views.py:105-157 | an unknown question is an error; otherwise the answer records the score, the running total grows by exactly its points and the time by the time taken |
| SkillAssessments.CalculatePercentage | Backend/skill_assessments/models.py:154-159 | with a positive maximum, percentage times maximum is 100 times the total and passed holds iff the total reaches the passing share; otherwise the row is unchanged; nothing else changes |
| SkillAssessments.PassMark | Backend/skill_assessments/models.py:156-157 | comparing the percentage with the passing score is comparing the total with the passing share of the maximum |
| SkillAssessments.Clip50 | Backend/skill_assessments/views.py:208 | a prefix of at most 50 characters, the whole text when short enough |
| SkillAssessments.Weaknesses | Backend/skill_assessments/views.py:204-208 | empty exactly when every answer is correct; each entry is the clipped text of a wrong answer's question; `SkillAssessments.WeaknessesInOrder` shows one entry per wrong answer, in order |
| SkillAssessments.WeaknessesInOrder | Backend/skill_assessments/views.py:204-208 | one entry per wrong answer, in answer order, each the clipped text of its question |
| SkillAssessments.GenerateSkillGap | Backend/skill_assessments/views.py:203-226 | the weaknesses, and the first five resources (all when fewer) in query order |
| SkillAssessments.PeerScores | Backend/skill_assessments/views.py:229-232 | empty exactly when no other user has a completed row for the skill set; `SkillAssessments.PeerScoresInOrder` shows they are the peers' percentages, in order |
| SkillAssessments.PeerScoresInOrder | Backend/skill_assessments/views.py:229-232 | one score per peer row, in database order, each that row's percentage |
| SkillAssessments.CountBelow | Backend/skill_assessments/views.py:240-242 | 0 exactly when no score is below, all exactly when every score is below |
| SkillAssessments.Percentile | Backend/skill_assessments/views.py:243 | percentile times count is 100 times the number below; in [0, 100]; 0 and 100 exactly at the extremes |
| SkillAssessments.Mean | Backend/skill_assessments/views.py:236 | the average times the count is the sum |
| SkillAssessments.Compare | Backend/skill_assessments/views.py:234-252 | nothing exactly for no peers; otherwise the count, the own score, the mean and the percentile of peers strictly below, which is 0 exactly when no peer scored lower and 100 exactly when every peer did |
| SkillAssessments.PercentOf | Backend/skill_assessments/views.py:243 | a share of a part of a whole lies in [0, 100], 0 and 100 exactly at the ends |
| SkillAssessments.GeneratePeerComparison | Backend/skill_assessments/views.py:228-252 | nothing exactly when there are no peers; otherwise the own percentage as score, the peer count, the percentile of the peers scoring below it, within [0, 100], and the peers' mean |
| SkillAssessments.PeersIgnoreScore | Backend/skill_assessments/views.py:229-232 | the peer set does not depend on the user's own score |
| SkillAssessments.PeerPercentileMonotone | Backend/skill_assessments/views.py:228-252 | a higher own score never gives a lower percentile |
| SkillAssessments.PercentileMonotone | Backend/skill_assessments/views.py:240-243 | a higher own score never lowers the percentile |
| SkillAssessments.PercentileGrows | Backend/skill_assessments/views.py:243 | more peers below never lowers the percentile |
| SkillAssessments.CountBelowMonotone | Backend/skill_assessments/views.py:240-242 | a higher threshold never counts fewer scores below |
| SkillAssessments.CompleteAssessment | Backend/skill_assessments/views.py:159-176 | the row is completed; the badge is awarded exactly when the recomputed pass flag holds, which with a positive maximum is the total reaching the passing share |
| SkillAssessments.BadgeExtremes | Backend/skill_assessments/models.py:48-51 | with a passing score in [0, 100], full marks always earn the badge and zero never does unless the passing score is 0 |
| SkillAssessments.RepeatedAnswerExceedsHundred | Backend/skill_assessments/views.py:105-147 | answering the one question correctly twice gives 20 of 10 points and a 200 percent completion |
| SkillAssessments.SubmitChecked | Backend/skill_assessments/views.py:105-157 | rejected exactly for a missing, foreign, inactive or already answered question or an attempt not in progress; otherwise scored as the action does |
| SkillAssessments.RemainingDrops | Backend/skill_assessments/views.py:145 | answering an open question takes exactly its points off what the attempt can still earn |
| SkillAssessments.StartWithinMax | Backend/skill_assessments/views.py:70-81 | a fresh attempt has a non-negative score, and that score plus what it can still earn stays within its maximum |
| SkillAssessments.SubmitCheckedKeepsWithinMax | Backend/skill_assessments/views.py:145 | each accepted answer keeps the score non-negative and the score plus what remains within the maximum |
| SkillAssessments.CheckedPercentageBounded | Backend/skill_assessments/models.py:154-159 | under checked submission the percentage stays within [0, 100] |
| Portfolios.Candidate | Backend/portfolio/models.py:74-77 | the first slug tried is the base; every later one is the base, a dash and more |
| Portfolios.CandidateInjective | Backend/portfolio/models.py:75-78 | different counters never give the same slug, so the search never retries a slug |
| Portfolios.TriedGrows | Backend/portfolio/models.py:76-78 | each clash uses up one more taken slug, which is why the loop ends |
| Portfolios.UniqueSlug | Backend/portfolio/models.py:74-78 | the result is free, is the base when the base is free, and is the first free candidate in counter order |
| Portfolios.OtherSlugs | Backend/portfolio/signals.py:14 | a subset of the stored slugs |
| Portfolios.Save | Backend/portfolio/models.py:70-79 | a set slug is kept; an empty one becomes a slug no stored portfolio uses, the slugified title when that is free; nothing else changes |
| Portfolios.GenerateUniqueSlug | Backend/portfolio/signals.py:7-16 | the same, except that the portfolio's own stored row is not a clash |
| Portfolios.NewSlugKeepsUnique | Backend/portfolio/models.py:54 | storing a row with a fresh slug keeps slugs unique and keeps the per-user constraint of models.py:65 |
| Portfolios.MonthsAdd | Backend/portfolio/serializers.py:29-30 | month counts add up along a chain of dates |
| Portfolios.MonthsSign | Backend/portfolio/serializers.py:29-30 | the count is negative exactly when the end month is before the start month; the days play no part |
| Portfolios.ProjectDurationOf | Backend/portfolio/serializers.py:25-32 | Ongoing exactly for an ongoing project, N/A exactly for a finished one without end date, otherwise the month difference |
| Portfolios.ProjectForward | Backend/portfolio/serializers.py:28-31 | an end on or after the start never gives a negative month count |
| Portfolios.SplitMonths | Backend/portfolio/serializers.py:46-47 | Python's floor division by 12: the parts add back to the months with a remainder in 0..11 |
| Portfolios.ExperienceDuration | Backend/portfolio/serializers.py:41-51 | N/A exactly for a past job without end date; years shown only when positive; months always in 0..11 |
| Portfolios.ExperienceSpanRoundTrip | Backend/portfolio/serializers.py:44-50 | for a non-negative month count the years and months shown add back up to it; a negative count is shown as a different count in 0..11 |
| Portfolios.CertificationValid | Backend/portfolio/serializers.py:70-73 | valid without expiry date, otherwise exactly when the expiry is today or later |
| Portfolios.OnOrAfterTransitive | Backend/portfolio/serializers.py:72 | the date order is transitive |
| Portfolios.ExpiredStaysExpired | Backend/portfolio/serializers.py:70-73 | an expired certificate stays expired on every later day |
| Portfolios.ExperienceDurationAsWritten | Backend/portfolio/serializers.py:42 | a current job raises because timezone is never imported; otherwise the same as the corrected duration for every day |
| Portfolios.CertificationValidAsWritten | Backend/portfolio/serializers.py:70-73 | any expiry date raises because timezone is never imported; none gives valid |
| Prediction.LabelsDistinct | Backend/prediction/views.py:50-72 | the two label tables have nine and eight distinct labels |
| Prediction.Encode | Backend/prediction/views.py:83-84 | the label's position in its table; nothing, where Python raises KeyError, exactly for a label not in the table |
| Prediction.TablesBijective | Backend/prediction/views.py:50-72 | each table maps its i-th label to i and no two labels to the same code |
| Prediction.LookupDistinct | Backend/prediction/views.py:83-84 | in a table without repeats each label encodes as its own position |
| Prediction.EncodeAnswer | Backend/prediction/views.py:76-96 | answers 7 and 8 succeed exactly for a label of their table with a code in range; every other answer succeeds exactly when int() accepts it, with int()'s value |
| Prediction.EncodeFrom | Backend/prediction/views.py:76-97 | succeeds exactly when every per-answer encoding succeeds, giving the codes in question order; otherwise fails with the error of an encoding that failed, every earlier one having succeeded |
| Prediction.EncodeAnswers | Backend/prediction/views.py:75-101 | a success is nineteen codes, the categorical ones naming the given labels and the others the int() values of the given answers |
| Prediction.EncodedVector | Backend/prediction/views.py:76-97 | a successful encoding has categorical codes in range naming the given labels and int()'s value for every other answer; encoding fails exactly when a categorical answer is not in its table or another answer is not an integer |
| Prediction.EncodeAnswersRoundTrip | Backend/prediction/views.py:75-96 | every feature vector with categorical codes in range is recovered by encoding the answers that describe it |
| Prediction.RoleName | Backend/prediction/views.py:114-130 | the role of a class in 0..11, and "Unknown Role" for any other class |
| Prediction.RoleNamesIdentifyClass | Backend/prediction/views.py:114-130 | two classes with the same role name are the same class or both unknown |
| Prediction.ProbabilityAt | Backend/prediction/views.py:111 | the probability at the class index, or at |probs| + index for a negative index as NumPy counts from the end; nothing exactly outside the array |
| Prediction.ConfidencePercentage | Backend/prediction/views.py:133 | the probability as a percentage rounded to hundredths, within half a hundredth, and in [0, 100] for a probability in [0, 1] |
| Prediction.Predict | Backend/prediction/views.py:18-140 | a 400 exactly when encoding fails; a class-out-of-range error exactly when the probability array has no entry at the predicted class; otherwise the classifier's class on the encoded answers, its role name, the probability at that class and its percentage |
| Prediction.WellBehavedClassifier | Backend/prediction/views.py:104-133 | for a classifier giving a class in 0..11 and twelve probabilities in [0, 1], a well-formed quiz gets a known role and a confidence in [0, 100] |
| AdvancedViews.DaysParam | Backend/prediction/views_advanced.py:564 | a window of 30 days without the parameter, otherwise what int() makes of it, and an error where int() raises |
| AdvancedViews.DaysParamRoundTrip | Backend/prediction/views_advanced.py:564 | every whole number a client writes is the window used |
| AdvancedViews.CountSince | Backend/prediction/views_advanced.py:589-595 | exactly the number of events of the given kind created at or after the start, hence never more than the log holds and 0 when every event is before the window |
| AdvancedViews.CountSinceAppend | Backend/prediction/views_advanced.py:589-595 | the count over a log split in two is the sum of the counts of the parts |
| AdvancedViews.CountSinceWiderWindow | Backend/prediction/views_advanced.py:589 | an earlier start never counts fewer events |
| AdvancedViews.CountSinceDisjoint | Backend/prediction/views_advanced.py:591-595 | two different activity kinds together never count more events than the log holds |
| AdvancedViews.Rate | Backend/prediction/views_advanced.py:598-601 | 0 for an empty earlier stage; otherwise rate times the earlier count is 100 times the later count; never negative, at most 100 when the later count is no larger |
| AdvancedViews.Conversion | Backend/prediction/views_advanced.py:610-615 | the rate rounded to hundredths, within half a hundredth; in [0, 100] for a narrowing stage; 100 for equal non-empty stages; 0 for an empty one |
| AdvancedViews.FunnelMetrics | Backend/prediction/views_advanced.py:587-616 | the five stage counts are the counts of their activity kinds in the window; each conversion and the overall one are the rounded rates between them |
| AdvancedViews.RatesCompose | Backend/prediction/views_advanced.py:598-601 | two consecutive stage rates multiply to the rate across both, scaled by 100 |
| AdvancedViews.OverallIsProductOfStages | Backend/prediction/views_advanced.py:598-615 | with every stage populated the unrounded overall rate is the product of the four stage rates, scaled by a million |
| AdvancedViews.NarrowingFunnelIsPercent | Backend/prediction/views_advanced.py:598-615 | when each stage is no larger than the one before, every reported conversion lies in [0, 100] |
| AdvancedViews.OverallNeedsStartsAndApplications | Backend/prediction/views_advanced.py:615 | a non-zero overall conversion needs both quiz starts and job applications in the window |
| AdvancedViews.CorrectAnswers | Backend/prediction/views_advanced.py:227 | the keys are exactly the ids of questions carrying a correct answer, each mapped to a correct answer given for that id |
| AdvancedViews.TestCounts | Backend/prediction/views_advanced.py:227 | the same keys, each mapped to a test-case count given for that id |
| AdvancedViews.LastQuestionWins | Backend/prediction/views_advanced.py:227 | a later question with the same id overrides an earlier one, as a dictionary comprehension does |
| AdvancedViews.Grade | Backend/prediction/views_advanced.py:226-228 | the score lies between 0 and the maximum; passed exactly when the score reaches 70 percent of a positive maximum; an MCQ maximum is the number of answers; other kinds score 0 here |
| AdvancedViews.StartAttempt | Backend/prediction/views_advanced.py:168-206 | 400 exactly for a missing or zero id; 404 exactly for an unknown user or assessment; already-started exactly when the pair has a row; otherwise one new in-progress row and nothing else changes |
| AdvancedViews.StartKeepsConsistent | Backend/prediction/views_advanced.py:180-190 | starting keeps one row per user and assessment and the badge bookkeeping consistent |
| AdvancedViews.Submit | Backend/prediction/views_advanced.py:208-273 | 400 exactly for a missing id or empty answers; 404 exactly for an unknown attempt; otherwise only that row changes: passed or failed as graded, the badge flag set once a named badge is earned, and the user's badge added exactly then |
| AdvancedViews.SubmitKeepsConsistent | Backend/prediction/views_advanced.py:238-246 | submitting keeps one row per user and assessment, and a user holds a badge exactly when one of their rows says it was earned |
| AdvancedViews.FailedResubmissionKeepsBadge | Backend/prediction/views_advanced.py:241-244 | a failed resubmission keeps both the row's badge flag and the user's badge |
| AdvancedViews.SubmitIdempotent | Backend/prediction/views_advanced.py:241-246 | submitting the same answers again changes nothing, the badge being fetched or created |
| AdvancedViews.SubmitPlagiarismScore | Backend/prediction/views_advanced.py:223 | without reference sources the plagiarism score is 0.9 when copy-paste is detected and 0 otherwise |
| AdvancedViews.RawOf | Backend/utils/labor_market.py:88-97 | the salary lookup's dictionary carries every key |
| AdvancedViews.Reshape | Backend/prediction/views_advanced.py:298-305 | from an empty dictionary, zero amounts in dollars for the requested region and level |
| AdvancedViews.ReshapeCarriesBand | Backend/prediction/views_advanced.py:295-305 | a complete lookup passes through unchanged under the front-end names |
| AdvancedViews.SalaryView | Backend/prediction/views_advanced.py:282-305 | 400 exactly for a missing or empty role; otherwise the band looked up for the role with region and level defaulting to US and mid |
| AdvancedViews.SalaryViewOrdered | Backend/prediction/views_advanced.py:282-305 | the band returned is ordered min, median, max, echoes the region and level, and is in dollars exactly for the US |
| Text.ParseInt | Backend/prediction/views.py:77-95 | Python's int() on text: a result exactly for optionally signed digits after stripping whitespace, read in base 10 with the sign applied |
| Text.ParseReal | Backend/utils/adaptive_quiz.py:379 | Python's float() on text: blank text is an error; `Text.FloatOfIntegerText`, `Text.FloatFraction`, `Text.FloatExponent`, `Text.SignedNegation` and `Text.NoNumeralStart` give its meaning |
| Text.FloatOfIntegerText | Backend/utils/adaptive_quiz.py:379 | every text int() accepts, float() reads as the same number |
| Text.FloatFraction | Backend/utils/adaptive_quiz.py:379 | digits, a point and digits (either side may be empty, not both) read as the whole part plus the fraction over the matching power of ten |
| Text.FloatExponent | Backend/utils/adaptive_quiz.py:379 | a decimal followed by e and a signed integer reads as the decimal scaled by that power of ten |
| Text.SignedNegation | Backend/utils/adaptive_quiz.py:379 | a leading minus negates the value of the rest and is an error exactly when the rest is |
| Text.NoNumeralStart | Backend/utils/adaptive_quiz.py:379 | text whose first non-blank character is not a digit, point or sign is not a float |
| Text.ParseIntToString | Backend/prediction/views.py:77-95 | int() reads back every whole number that str() writes |
| Text.Words | Backend/utils/assessment_engine.py:133-134 | split() yields words without whitespace, and none exactly for all-whitespace text |

## Left out

- Storage and transport: Django models, querysets, serializers, routing, authentication, request parsing and HTTP status handling, except where a view's branch decides the result. The model passes the rows a query would return as sequences, maps and sets, and treats primary keys handed out by the database (`newId`) as inputs.
- The front end, the seeding and migration scripts, the chat and voice services, and sentiment prediction: they hold no decision logic of the modelled services.
- The trained classifier: `predict` and `predict_proba` form a `Classifier` parameter. Permutation importance, `calibration_curve` and the retraining script are not modelled; the calibration curve enters `ExplainableAi.Reliability` as its two arrays.
- Floating point: every `float` is a mathematical real. `round(x, 2)` is modelled as rounding the exact value to the nearest hundredth, a tie going to the even one; Python rounds the binary float, which can differ next to a tie. The display formatting of numbers in messages is not modelled.
- `exp` and `sqrt`: they are a `Numerics` parameter, so every adaptive-testing result holds for any functions with the laws `Irt.ValidNumerics` states. `_get_ability_progression` (an exp curve for charts) and `_analyze_response_pattern` (NumPy mean and variance for display) are not modelled.
- Randomness: the A/B variant draw takes a number `u` in [0, 1). Gaussian noise for synthetic rows and `random.sample` are inputs.
- Regular-expression detectors: copy-paste detection, `detect_llm_assist`, the resume formatting and structure checks, and the STAR extraction are inputs; their verdicts feed the modelled rules. `slugify` is an input too.
- The clock: `timezone.now()` and `datetime.now()` become a `today` parameter or are dropped where they only stamp a row (`started_at`, `submitted_at`, `last_updated`, completion dates).
- Free text: recommendation, explanation and reasoning messages are modelled as datatypes of which message was chosen, with the counts they mention, not as the exact strings. The salary-potential string and uuid badge codes are not modelled.
- Set iteration order: where the source iterates a Python `set` (missing and matching skills), the model uses the order of the requirement list, and contracts speak only about membership.
- Text.Lower: lower-cases ASCII letters only; Python's `lower()` also folds non-ASCII letters. `Text.Title` and `Text.Capitalize` likewise.
- Text.ParseReal: does not accept `inf`, `infinity` or `nan` in any spelling, underscores between digits, or non-ASCII digits, all of which Python's `float()` also reads.
- Text.ParseInt: does not accept the underscores between digits or the non-ASCII digits that Python's `int()` also accepts.
- The `correct_answer` JSON of an assessment question is abstracted to an optional expected answer plus a count of test cases, and `str(answers)` is the input `rendered`.
- In the learning-path generator, `_generate_progress_tracking`, `update_learning_path`, `_get_remedial_resources`, `_get_advanced_resources`, `_add_resources_to_milestones` and milestone dates are not modelled; milestone titles and descriptions are text.
- In the analytics dashboard, the model-performance and content-effectiveness sections are not modelled; they only read stored rows.
- AdaptiveSession.ProcessResponse: requires a current item, which every session has because `start_adaptive_session` raises before returning one without. On an error the Python code has already changed the session in place; the model reports only the error.
- CategoryQuiz.Accuracy: requires consistent counters, the invariant that every accepted answer keeps (`CategoryQuiz.AnswersKeepConsistent`); for corrupt stored counters the source could report more than 100 percent.
- CategoryQuiz.ScorePercentage: requires consistent counters, for the same reason.
- CategoryQuiz.UpdateDifficulty: requires consistent counters, for the same reason.
- ExplainableAi.Reliability: requires the two calibration arrays to have equal length, as `calibration_curve` returns them.
- ExplainableAi.SyntheticRow: requires one noise value per answer, as NumPy draws them.
- ExplainableAi.CounterfactualTips: requires the classifier to have no more classes than there are role names.
- LearningPath.ScheduleFrom: requires non-zero effective hours per week; with zero hours `_calculate_timeline` divides by zero.
- Resume.CalculateAtsScore: requires the formatting and structure scores to lie in [0, 100], as the detectors produce them.
- AdaptiveEngine.SelectVariant: requires every variant weight `weight * (1 + performance)` to be non-negative; a negative stored performance below -1 is not modelled.
- Prediction.Predict: requires nineteen answers, which the serializer guarantees before the view runs.
- The interplay of `Portfolio.save` with the pre-save handler is not modelled: the handler runs inside `save` after `save` has set the slug, so it acts only when that slug is still empty (a title that slugifies to empty text while no stored portfolio has the empty slug); each search is modelled on its own.
- CategoryQuiz.SubmitAnswer: question points are natural numbers; the `points` IntegerField has no validator, so the model does not cover negative points.
- SkillAssessments.CheckedPercentageBounded: assumes non-negative question points; the field has no validator for them.

## Findings

| source | as written | input that shows it | evidently intended | confidence | as-written member | corrected member |
|---|---|---|---|---|---|---|
| Backend/utils/adaptive_quiz.py:255-260 | the session stores the level's question budget but writes the fixed cap 15 into the termination criteria, and termination reads only the criteria | any level: the standard-error exit never fires (`AdaptiveProperties.StandardErrorExitNeverFires`) and no pool holds 15 items, so no session ever completes: it runs until the pool is exhausted (next row) | the level's budget is the cap | not executed | AdaptiveSession.StartAsWritten, AdaptiveProperties.AsWrittenNeverCompletes | AdaptiveSession.Start, AdaptiveProperties.CorrectedCompletesAtBudget |
| Backend/utils/adaptive_quiz.py:326-348 | selection indexes the candidate list without checking that it is non-empty | a session at the 12th answer: only 12 distinct items can be reached, so selection for the 13th raises IndexError before the cap of 15 | the session completes before the pool runs out | not executed | AdaptiveProperties.AsWrittenExhaustsPool | AdaptiveProperties.CorrectedNeverExhausts |
| Backend/utils/learning_path_generator.py:413 | `len(skill_gaps)` is read after `_generate_milestones` has emptied the list in place | any role with at least one gap: the path reports 0 skill gaps identified | the number of gaps found | not executed | LearningPath.GenerateAsWritten, LearningPath.AsWrittenUndercounts | LearningPath.Generate |
| Backend/portfolio/serializers.py:42 | `timezone` is used but never imported | an experience marked current: `get_duration` raises NameError | the duration up to today | not executed | Portfolios.ExperienceDurationAsWritten | Portfolios.ExperienceDuration |
| Backend/portfolio/serializers.py:72 | `timezone` is used but never imported | a certification with an expiry date: `get_is_valid` raises NameError | validity as of today | not executed | Portfolios.CertificationValidAsWritten | Portfolios.CertificationValid |
| Backend/skill_assessments/views.py:64-67 | the next attempt number is the count of the user's rows plus one | start twice, delete the first attempt, start again: the new row repeats attempt number 2, against the uniqueness constraint of models.py:149 | a number past every existing attempt | not executed | SkillAssessments.DeleteThenStartCollides | SkillAssessments.StartAssessmentFixed, SkillAssessments.FixedStartKeepsUnique |
| Backend/skill_assessments/views.py:105-147 | an answer is accepted for any question, however often, in any status | answer the only question of a 10-point set correctly twice: total 20 of 10, 200 percent on completion | each active question of the set scored once, while in progress | not executed | SkillAssessments.RepeatedAnswerExceedsHundred | SkillAssessments.SubmitChecked, SkillAssessments.CheckedPercentageBounded |

=== FILE: adaptive_engine.dfy ===
/** The computerized adaptive testing engine: one explicit session record and
    pure transitions over it. The A/B variant draw (`np.random.choice`) is
    replaced by a caller-supplied uniform number `u` in [0, 1). */
module AdaptiveEngine {
  import opened Wrappers
  import opened Seqs
  import Text
  import opened Numbers
  import opened Irt
  import opened ItemBank

  /** The shapes a user's answer can take in the JSON the engine receives. */
  datatype Answer =
    | Number(value: real)
    | Truth(flag: bool)
    | Label(text: string)
    | Selection(choices: seq<string>)

  /** The ways a call into `AdaptiveQuizEngine` fails; each is a Python exception. */
  datatype QuizError =
    | NotANumber      // float() of a non-numeric rating answer
    | DivisionByZero  // a zero scale maximum, an empty option list, a zero cap
    | PoolExhausted   // `available_questions[0]` on an empty list
    | NotCompleted    // analytics requested for a running session

  /** Python truthiness of an answer. */
  predicate Truthy(r: Answer)
  {
    match r
    case Number(v) => v != 0.0
    case Truth(b) => b
    case Label(t) => t != []
    case Selection(l) => l != []
  }

  /** `float(response)`: a number is itself, `True` and `False` are 1 and 0,
      text is read as a float literal, and a list has no float value. */
  function AsNumber(r: Answer): (v: Result<real, QuizError>)
    ensures v.Err? <==> r.Selection? || (r.Label? && Text.ParseReal(r.text).None?)
    ensures r.Number? ==> v == Ok(r.value)
    ensures r.Truth? ==> v == Ok(if r.flag then 1.0 else 0.0)
    ensures r.Label? && v.Ok? ==> Text.ParseReal(r.text) == Some(v.value)
  {
    match r
    case Number(x) => Ok(x)
    case Truth(b) => Ok(if b then 1.0 else 0.0)
    case Label(t) =>
      (match Text.ParseReal(t)
       case None => Err(NotANumber)
       case Some(x) => Ok(x))
    case Selection(_) => Err(NotANumber)
  }

  /** `float()` reads a fractional answer such as `7.5`. */
  lemma AsNumberFraction()
    ensures AsNumber(Label("7.5")) == Ok(7.5)
  {
    Text.SingleDigit('7');
    Text.SingleDigit('5');
    assert Text.Pow10(1) == 10;
    assert Text.DecimalValue("7", "5") == 7.5;
    assert "7" + "." + "5" == "7.5";
    Text.FloatFraction("7", "5");
  }

  /** `float()` reads a signed answer such as `-3`. */
  lemma AsNumberSigned()
    ensures AsNumber(Label("-3")) == Ok(-3.0)
  {
    assert !Text.IsSpace('-') && !Text.IsSpace('3');
    Text.ReadsUnpadded("-3");
    assert "-" + "3" == "-3";
    Text.SignedNegation("3");
    Text.SingleDigit('3');
    Text.DigitsAsFloat("3");
  }

  /** `float()` reads an exponent answer such as `1.5e3`. */
  lemma AsNumberExponent()
    ensures AsNumber(Label("1.5e3")) == Ok(1500.0)
  {
    Text.SingleDigit('1');
    Text.SingleDigit('5');
    Text.SingleDigit('3');
    assert Text.ParseSigned("3") == Some(3);
    assert Text.Pow10(1) == 10 && Text.Pow10(3) == 1000;
    assert Text.DecimalValue("1", "5") == 1.5;
    assert "1" + "." + "5" + "e" + "3" == "1.5e3";
    Text.FloatExponent("1", "5", "3");
  }

  /** A word is not a number. */
  lemma AsNumberWord()
    ensures AsNumber(Label("seven")).Err?
  {
    assert !Text.IsSpace('s') && !Text.IsSpace('n');
    Text.Unpadded("seven");
    Text.NoNumeralStart("seven");
  }

  /** The first half of `_update_ability_estimate`: the answer mapped to a
      score; only a rating and a multi-select answer can fail. */
  function Standardize(q: Item, r: Answer): (score: Result<real, QuizError>)
    ensures score.Err? ==> q.qtype.Rating? || (q.qtype.MultipleChoice? && r.Selection?)
    ensures q.qtype.Boolean? ==> score == Ok(if Truthy(r) then 1.0 else 0.0)
    ensures q.qtype.OtherType? ==> score == Ok(0.5)
    ensures q.qtype.Rating? ==> (score.Err? <==> AsNumber(r).Err? || q.qtype.high == 0)
    ensures q.qtype.Rating? && score.Ok? ==> score.value * (q.qtype.high as real) == AsNumber(r).value
    ensures q.qtype.MultipleChoice? && !r.Selection? ==> score.Ok? && 0.0 < score.value <= 1.0
    ensures q.qtype.MultipleChoice? && r.Selection? ==> (score.Err? <==> q.qtype.options == [])
    ensures q.qtype.MultipleChoice? && r.Selection? && score.Ok? ==>
              score.value * (|q.qtype.options| as real) == |r.choices| as real
  {
    match q.qtype
    case Rating(_, high) =>
      (match AsNumber(r)
       case Err(e) => Err(e)
       case Ok(v) => Share(v, high))
    case Boolean => Ok(if Truthy(r) then 1.0 else 0.0)
    case MultipleChoice(options, _) =>
      if r.Selection? then
        (if options == [] then Err(DivisionByZero) else Ok(|r.choices| as real / |options| as real))
      else if r.Label? then
        (match IndexOf(options, r.text)
         case None => Ok(0.5)
         case Some(i) => Ok(Position(i, |options|)))
      else Ok(0.5)
    case OtherType(_) => Ok(0.5)
  }

  /** `v` as a share of a rating scale's maximum, failing on a zero maximum
      as Python's division does. */
  function Share(v: real, high: int): (s: Result<real, QuizError>)
    ensures s.Err? <==> high == 0
    ensures s.Err? ==> s == Err(DivisionByZero)
    ensures s.Ok? ==> s.value * (high as real) == v
  {
    if high == 0 then Err(DivisionByZero)
    else
      QuotientTimes(v, high as real);
      Ok(v / high as real)
  }

  /** The 1-based position `i + 1` as a share of `n` options. */
  function Position(i: nat, n: nat): (v: real)
    requires i < n
    ensures 0.0 < v <= 1.0
    ensures v * (n as real) == (i + 1) as real
  {
    var x := (i + 1) as real / n as real;
    QuotientTimes((i + 1) as real, n as real);
    assert x * (n as real) <= 1.0 * (n as real);
    x
  }

  /** A single-choice answer scores by the 1-based position of its first
      occurrence among the options, and 0.5 when it is not an option. */
  lemma ChoicePosition(q: Item, r: Answer)
    requires q.qtype.MultipleChoice? && !r.Selection?
    ensures r.Label? && r.text in q.qtype.options ==>
              exists i :: 0 <= i < |q.qtype.options| && q.qtype.options[i] == r.text
                          && (forall j :: 0 <= j < i ==> q.qtype.options[j] != r.text)
                          && Standardize(q, r).value * (|q.qtype.options| as real) == (i + 1) as real
    ensures !(r.Label? && r.text in q.qtype.options) ==> Standardize(q, r) == Ok(0.5)
  {
    var opts := q.qtype.options;
    if r.Label? && r.text in opts {
      var i := IndexOf(opts, r.text).value;
      var n := |opts| as real;
      assert Standardize(q, r) == Ok(Position(i, |opts|));
      assert 0 <= i < |q.qtype.options| && q.qtype.options[i] == r.text
             && (forall j :: 0 <= j < i ==> q.qtype.options[j] != r.text)
             && Standardize(q, r).value * (|q.qtype.options| as real) == (i + 1) as real;
    }
  }

  /** A rating answer inside the item's scale scores in [low/high, 1]. */
  lemma RatingScoreInRange(q: Item, v: real)
    requires q.qtype.Rating? && 0 < q.qtype.low <= q.qtype.high
    requires q.qtype.low as real <= v <= q.qtype.high as real
    ensures Standardize(q, Number(v)).Ok?
    ensures 0.0 < Standardize(q, Number(v)).value <= 1.0
  {
  }

  /** Fisher information of an item at ability `theta`. */
  function Info(n: Numerics, theta: real, q: Item): (info: real)
    requires ValidNumerics(n)
    ensures 0.0 <= info <= q.discrimination * q.discrimination / 4.0
  {
    Information(n, theta, q.difficulty, q.discrimination)
  }

  datatype Estimate = Estimate(ability: real, se: real)

  /** The ability step of `_update_ability_estimate`: learning rate 0.1 times the
      likelihood slope, taken with the probability at the old ability. A score
      above one half counts as a correct answer. */
  function AbilityStep(n: Numerics, ability: real, q: Item, score: real): (next: real)
    requires ValidNumerics(n)
    ensures q.discrimination > 0.0 ==> (next > ability <==> score > 0.5)
    ensures q.discrimination > 0.0 ==> (next < ability <==> score <= 0.5)
    ensures q.discrimination > 0.0 ==> ability - 0.1 * q.discrimination < next < ability + 0.1 * q.discrimination
  {
    var a := q.discrimination;
    var p := Probability(n, ability, q.difficulty, a);
    SlopeBounds(a, p, score > 0.5);
    ability + 0.1 * Slope(a, p, score > 0.5)
  }

  /** The likelihood slope: `a * (1 - p)` after a correct answer, `-a * p` otherwise. */
  function Slope(a: real, p: real, correct: bool): real
    requires 0.0 < p < 1.0
  {
    if correct then a * (1.0 - p) else -(a * p)
  }

  /** For a positive discrimination the slope is strictly inside `(-a, a)`
      and positive exactly after a correct answer. */
  lemma SlopeBounds(a: real, p: real, correct: bool)
    requires 0.0 < p < 1.0
    ensures a > 0.0 ==> -a < Slope(a, p, correct) < a
    ensures a > 0.0 ==> (Slope(a, p, correct) > 0.0 <==> correct)
  {
    if a > 0.0 {
      if correct { ProductBelow(a, 1.0 - p); } else { ProductBelow(a, p); }
    }
  }

  /** The standard-error step: recomputed from the answered item alone at the
      new ability when its information is positive, otherwise kept. */
  function NextStandardError(n: Numerics, se: real, info: real): (next: real)
    requires ValidNumerics(n)
    ensures info > 0.0 ==> next > 0.0 && next * next * (info + Epsilon) == 1.0
    ensures info <= 0.0 ==> next == se
  {
    if info > 0.0 then StandardError(n, info) else se
  }

  /** `_update_ability_estimate` after standardisation. */
  function UpdateEstimate(n: Numerics, ability: real, se: real, q: Item, score: real): (e: Estimate)
    requires ValidNumerics(n)
    ensures q.discrimination > 0.0 ==> (e.ability > ability <==> score > 0.5)
    ensures q.discrimination > 0.0 ==> (e.ability < ability <==> score <= 0.5)
    ensures q.discrimination > 0.0 ==> ability - 0.1 * q.discrimination < e.ability < ability + 0.1 * q.discrimination
    ensures Info(n, e.ability, q) > 0.0 ==> e.se > 0.0 && e.se * e.se * (Info(n, e.ability, q) + Epsilon) == 1.0
    ensures Info(n, e.ability, q) <= 0.0 ==> e.se == se
  {
    var next := AbilityStep(n, ability, q, score);
    Estimate(next, NextStandardError(n, se, Info(n, next, q)))
  }

  /** The update does not depend on the old standard error except when the
      answered item carries no information: the new one is computed from
      that item alone. */
  lemma StandardErrorForgetsHistory(n: Numerics, ability: real, se1: real, se2: real, q: Item, score: real)
    requires ValidNumerics(n)
    ensures UpdateEstimate(n, ability, se1, q, score).ability == UpdateEstimate(n, ability, se2, q, score).ability
    ensures var e := UpdateEstimate(n, ability, se1, q, score);
      Info(n, e.ability, q) > 0.0 ==> e.se == UpdateEstimate(n, ability, se2, q, score).se
  {
  }

  /** A better answer never leaves the ability lower: any score above one
      half moves the estimate above where any score of at most one half
      leaves it. */
  lemma AbilityOrderedByCorrectness(n: Numerics, ability: real, se: real, q: Item, wrong: real, right: real)
    requires ValidNumerics(n) && q.discrimination > 0.0
    requires wrong <= 0.5 < right
    ensures UpdateEstimate(n, ability, se, q, wrong).ability < ability < UpdateEstimate(n, ability, se, q, right).ability
  {
  }

  /** A positive amount scaled by a fraction strictly between 0 and 1. */
  lemma ProductBelow(a: real, q: real)
    requires a > 0.0 && 0.0 < q < 1.0
    ensures 0.0 < a * q < a
  {
    assert a * q > 0.0;
    assert a * (1.0 - q) > 0.0;
    assert a - a * q == a * (1.0 - q);
  }

  /** With every discrimination at most 1.8 the standard error never drops
      to 0.3 or below: each update either keeps it or sets it above 1.11. */
  lemma StandardErrorStaysAbove(n: Numerics, ability: real, se: real, q: Item, score: real)
    requires ValidNumerics(n)
    requires 0.0 < q.discrimination <= 1.8 && se > 0.3
    ensures UpdateEstimate(n, ability, se, q, score).se > 0.3
  {
    var e := UpdateEstimate(n, ability, se, q, score);
    var info := Info(n, e.ability, q);
    if info > 0.0 {
      QuarterSquareBound(q.discrimination, info);
      StandardErrorLowerBound(n, info);
    }
  }

  lemma QuarterSquareBound(a: real, info: real)
    requires 0.0 < a <= 1.8 && info <= a * a / 4.0
    ensures info <= 0.81
  {
    MulLessEq(a, a, 1.8);
    MulLessEq(1.8, a, 1.8);
  }

  datatype Criteria = Criteria(seThreshold: real, minQuestions: nat, maxQuestions: nat)

  /** `_should_terminate`. */
  function ShouldTerminate(count: nat, se: real, c: Criteria): (stop: bool)
    ensures count < c.minQuestions ==> !stop
    ensures c.minQuestions <= count && c.maxQuestions <= count ==> stop
    ensures c.minQuestions <= count < c.maxQuestions ==> (stop <==> se <= c.seThreshold)
  {
    if count < c.minQuestions then false
    else if count >= c.maxQuestions then true
    else se <= c.seThreshold
  }

  /** Items of `items` not yet asked; with `level`, only those listing it. */
  function Unasked(items: seq<Item>, asked: set<string>): (r: seq<Item>)
    ensures forall q :: q in r <==> q in items && q.id !in asked
    ensures |r| <= |items|
  {
    if items == [] then []
    else (if items[0].id in asked then [] else [items[0]]) + Unasked(items[1..], asked)
  }

  /** The test `q.id not in asked` as a predicate on items. */
  function NotAsked(asked: set<string>): Item -> bool
  {
    (q: Item) => q.id !in asked
  }

  /** The unasked items are the list comprehension over the items in order. */
  lemma {:induction false} UnaskedIsFilter(items: seq<Item>, asked: set<string>)
    ensures Unasked(items, asked) == Filter(items, NotAsked(asked))
  {
    if items != [] {
      UnaskedIsFilter(items[1..], asked);
    }
  }

  function ForLevel(items: seq<Item>, level: string, asked: set<string>): (r: seq<Item>)
    ensures forall q :: q in r <==> q in items && q.id !in asked && level in q.levels
  {
    if items == [] then []
    else (if items[0].id !in asked && level in items[0].levels then [items[0]] else [])
         + ForLevel(items[1..], level, asked)
  }

  /** The first unasked item of a category, as a list of at most one. */
  function FirstUnasked(items: seq<Item>, asked: set<string>): (r: seq<Item>)
    ensures |r| <= 1
    ensures r != [] ==> r[0] in items && r[0].id !in asked
    ensures r == [] <==> forall q <- items :: q.id in asked
    ensures r != [] ==> exists i :: 0 <= i < |items| && items[i] == r[0] && forall j :: 0 <= j < i ==> items[j].id in asked
  {
    if items == [] then []
    else if items[0].id !in asked then [items[0]]
    else FirstUnasked(items[1..], asked)
  }

  /** The general items listing the level, then the level's own branch, all unasked. */
  function Available(b: Bank, level: string, asked: set<string>): (r: seq<Item>)
    ensures forall q :: q in r <==>
      ((q in BankItems(b) && level in q.levels) || q in Branch(b, level)) && q.id !in asked
  {
    ForLevel(BankItems(b), level, asked) + Unasked(Branch(b, level), asked)
  }

  /** The fallback: the first unasked item of each bank category. */
  function Fallback(cats: seq<seq<Item>>, asked: set<string>): (r: seq<Item>)
    ensures |r| <= |cats|
    ensures forall q <- r :: q in Flatten(cats) && q.id !in asked
    ensures r == [] <==> forall q <- Flatten(cats) :: q.id in asked
  {
    if cats == [] then []
    else
      FlattenCons(cats);
      FirstUnasked(cats[0], asked) + Fallback(cats[1..], asked)
  }

  /** One list per category: its first unasked item, if any. */
  function FirstUnaskedEach(cats: seq<seq<Item>>, asked: set<string>): (r: seq<seq<Item>>)
    ensures |r| == |cats|
    ensures forall i :: 0 <= i < |cats| ==> r[i] == FirstUnasked(cats[i], asked)
  {
    seq(|cats|, i requires 0 <= i < |cats| => FirstUnasked(cats[i], asked))
  }

  /** The fallback is the outer loop over the categories, each contributing
      the item its inner loop stops at. */
  lemma {:induction false} FallbackConcatenates(cats: seq<seq<Item>>, asked: set<string>)
    ensures Fallback(cats, asked) == Flatten(FirstUnaskedEach(cats, asked))
  {
    if cats != [] {
      FallbackConcatenates(cats[1..], asked);
      assert FirstUnaskedEach(cats, asked)[1..] == FirstUnaskedEach(cats[1..], asked);
    }
  }

  /** The list selection maximises over: the available items, or the fallback when there are none. */
  function Candidates(b: Bank, level: string, asked: set<string>): (r: seq<Item>)
    ensures forall q <- r :: q in PoolItems(b, level) && q.id !in asked
    ensures r == [] <==> forall q <- PoolItems(b, level) :: q.id in asked
  {
    var avail := Available(b, level, asked);
    if avail != [] then
      assert avail[0] in avail;
      avail
    else
      assert forall q <- Branch(b, level) :: q.id in asked;
      Fallback(b.categories, asked)
  }

  /** The position of the first most informative item (`_select_next_question`
      keeps the earliest on ties because it replaces only on a strictly larger
      value). */
  function BestIndex(n: Numerics, theta: real, items: seq<Item>): (i: nat)
    requires ValidNumerics(n)
    requires |items| > 0
    ensures i < |items|
    ensures forall j :: 0 <= j < |items| ==> Info(n, theta, items[j]) <= Info(n, theta, items[i])
    ensures forall j :: 0 <= j < i ==> Info(n, theta, items[j]) < Info(n, theta, items[i])
    decreases |items|
  {
    if |items| == 1 then 0
    else
      var k := BestIndex(n, theta, items[..|items| - 1]);
      if Info(n, theta, items[|items| - 1]) > Info(n, theta, items[k]) then |items| - 1 else k
  }

  function VariantWeight(v: Variant): real
  {
    v.weight * (1.0 + v.performance)
  }

  function Weights(vs: seq<Variant>): (ws: seq<real>)
    ensures |ws| == |vs|
    ensures forall i :: 0 <= i < |vs| ==> ws[i] == VariantWeight(vs[i])
  {
    if vs == [] then [] else [VariantWeight(vs[0])] + Weights(vs[1..])
  }

  /** Inverse-CDF sampling: the index whose cumulative-weight interval holds `x`. */
  function PickIndex(ws: seq<real>, x: real): (i: nat)
    requires 0.0 <= x < Sum(ws)
    ensures i < |ws|
    ensures Sum(ws[..i]) <= x < Sum(ws[..i + 1])
    ensures ws[i] > 0.0
  {
    assert ws != [];
    if x < ws[0] then
      assert ws[..1] == [ws[0]];
      0
    else
      var k := PickIndex(ws[1..], x - ws[0]);
      assert ws[..k + 1] == [ws[0]] + ws[1..][..k];
      assert ws[..k + 2] == [ws[0]] + ws[1..][..k + 1];
      k + 1
  }

  /** Only the wording of an item differs: same id, parameters and type. */
  predicate Reworded(x: Item, original: Item)
  {
    x == original.(text := x.text, variant := x.variant)
  }

  lemma RewordedKeepsParameters(x: Item, original: Item)
    requires Reworded(x, original)
    ensures x.id == original.id && x.difficulty == original.difficulty
    ensures x.discrimination == original.discrimination && x.qtype == original.qtype
  {
  }

  lemma VariantWeightsNonNegative(b: Bank, id: string)
    requires WellFormed(b)
    ensures forall w <- Weights(VariantsOf(b, id)) :: w >= 0.0
  {
    forall v <- VariantsOf(b, id)
      ensures VariantWeight(v) >= 0.0
    {
      assert v.weight >= 0.0 && 1.0 + v.performance >= 0.0;
      MulLessEq(v.weight, 0.0, 1.0 + v.performance);
    }
    assert forall w <- Weights(VariantsOf(b, id)) :: exists v <- VariantsOf(b, id) :: w == VariantWeight(v);
  }

  /** `_select_ab_variant` with the random draw supplied as `u`: the chosen
      variant is the one whose cumulative-weight interval holds `u` times the
      total weight, which is how `np.random.choice` with the normalised
      weights picks from a uniform draw. */
  function SelectVariant(q: Item, vs: seq<Variant>, u: real): (r: Item)
    requires 0.0 <= u < 1.0
    requires forall w <- Weights(vs) :: w >= 0.0
    ensures Reworded(r, q)
    ensures (vs == [] || Sum(Weights(vs)) == 0.0) ==> r == q
    ensures vs != [] && Sum(Weights(vs)) != 0.0 ==>
              var i := Drawn(Weights(vs), u);
              i < |vs| && r.text == vs[i].text && r.variant == Some(vs[i].name)
  {
    if vs == [] then q
    else
      if Sum(Weights(vs)) == 0.0 then q
      else
        var i := Drawn(Weights(vs), u);
        q.(text := vs[i].text, variant := Some(vs[i].name))
  }

  /** The index a uniform draw `u` selects from non-negative weights with a
      positive total: the one whose cumulative-weight interval holds `u`
      times the total. Its own weight is positive. */
  function Drawn(ws: seq<real>, u: real): (i: nat)
    requires 0.0 <= u < 1.0
    requires forall w <- ws :: w >= 0.0
    requires Sum(ws) != 0.0
    ensures i < |ws| && ws[i] > 0.0
    ensures Sum(ws[..i]) <= u * Sum(ws) < Sum(ws[..i + 1])
  {
    DrawBelowTotal(ws, u, u * Sum(ws));
    PickIndex(ws, u * Sum(ws))
  }

  /** Inverse-CDF sampling picks the only index whose interval holds `x`:
      the intervals of non-negative weights do not overlap, so index `j` is
      chosen for a share `ws[j] / Sum(ws)` of uniform draws. */
  lemma PickIndexUnique(ws: seq<real>, x: real, j: nat)
    requires forall w <- ws :: w >= 0.0
    requires 0.0 <= x < Sum(ws)
    requires j < |ws| && Sum(ws[..j]) <= x < Sum(ws[..j + 1])
    ensures PickIndex(ws, x) == j
  {
    IntervalsDisjoint(ws, x, PickIndex(ws, x), j);
  }

  /** No point lies in the cumulative-weight intervals of two indices. */
  lemma IntervalsDisjoint(ws: seq<real>, x: real, i: nat, j: nat)
    requires forall w <- ws :: w >= 0.0
    requires i < |ws| && Sum(ws[..i]) <= x < Sum(ws[..i + 1])
    requires j < |ws| && Sum(ws[..j]) <= x < Sum(ws[..j + 1])
    ensures i == j
  {
    if i < j {
      PrefixSumsGrow(ws, i + 1, j);
    } else if j < i {
      PrefixSumsGrow(ws, j + 1, i);
    }
  }

  /** Prefix sums of non-negative weights never decrease. */
  lemma PrefixSumsGrow(ws: seq<real>, a: nat, b: nat)
    requires forall w <- ws :: w >= 0.0
    requires a <= b <= |ws|
    ensures Sum(ws[..a]) <= Sum(ws[..b])
  {
    assert ws[..b] == ws[..a] + ws[a..b];
    SumAppend(ws[..a], ws[a..b]);
    assert forall w <- ws[a..b] :: w in ws;
    SumNonNegative(ws[a..b]);
  }

  /** The draw `u` scaled by a positive total of non-negative weights falls
      inside [0, total). */
  lemma DrawBelowTotal(ws: seq<real>, u: real, x: real)
    requires forall w <- ws :: w >= 0.0
    requires 0.0 <= u < 1.0 && Sum(ws) != 0.0 && x == u * Sum(ws)
    ensures 0.0 <= x < Sum(ws)
  {
    SumNonNegative(ws);
    MulLess(Sum(ws), u, 1.0);
    MulLessEq(Sum(ws), 0.0, u);
  }

  /** `_select_next_question`: `None` where its `available_questions[0]`
      fallback would index an empty list. */
  function SelectNext(n: Numerics, b: Bank, level: string, asked: seq<string>, theta: real, u: real): (r: Option<Item>)
    requires ValidNumerics(n) && WellFormed(b)
    requires 0.0 <= u < 1.0
    ensures r.None? <==> forall q <- PoolItems(b, level) :: q.id in asked
    ensures r.Some? ==> r.value.id !in asked
    ensures r.Some? ==> exists q <- Candidates(b, level, Elems(asked)) :: Reworded(r.value, q)
    ensures r.Some? ==> forall q <- Candidates(b, level, Elems(asked)) :: Info(n, theta, q) <= Info(n, theta, r.value)
    ensures r.Some? ==> var c := Candidates(b, level, Elems(asked));
              c != [] && Reworded(r.value, c[BestIndex(n, theta, c)])
  {
    var c := Candidates(b, level, Elems(asked));
    if c == [] then None
    else
      var best := c[BestIndex(n, theta, c)];
      assert best in c;
      VariantWeightsNonNegative(b, best.id);
      var chosen := SelectVariant(best, VariantsOf(b, best.id), u);
      RewordedKeepsParameters(chosen, best);
      Some(chosen)
  }
}

=== FILE: adaptive_properties.dfy ===
/** What the adaptive engine guarantees across a whole session: the running
    invariant, the standard-error exit that never fires, and the two ways the
    fixed cap of 15 breaks sessions (they never complete and run out of items),
    against the level-budget cap that completes every session. */
module AdaptiveProperties {
  import opened Wrappers
  import opened Seqs
  import opened Irt
  import opened ItemBank
  import opened AdaptiveEngine
  import opened AdaptiveSession
  import Numbers

  /** A running session: the asked ids are distinct pool ids, one answer is
      stored per asked id, the current item is an unasked pool item, and the
      standard error is still above the 0.3 exit. */
  ghost predicate Inv(b: Bank, s: Session)
  {
    && s.current.Some?
    && !s.completed
    && Distinct(s.asked)
    && (forall id <- s.asked :: id in PoolIds(b, s.level))
    && s.count == |s.asked|
    && s.responses.Keys == Elems(s.asked)
    && s.current.value.id in PoolIds(b, s.level)
    && s.current.value.id !in s.asked
    && 0.0 < s.current.value.discrimination <= 1.8
    && s.se > 0.3
    && s.criteria.seThreshold == 0.3
  }

  /** A selected item is a reworded pool item, so it shares the pool's id and parameters. */
  lemma SelectedFromPool(n: Numerics, b: Bank, level: string, asked: seq<string>, theta: real, u: real)
    requires ValidNumerics(n) && WellFormed(b) && 0.0 <= u < 1.0
    requires SelectNext(n, b, level, asked, theta, u).Some?
    ensures var q := SelectNext(n, b, level, asked, theta, u).value;
      q.id in PoolIds(b, level) && q.id !in asked && 0.0 < q.discrimination <= 1.8
  {
    var r := SelectNext(n, b, level, asked, theta, u).value;
    var q :| q in Candidates(b, level, Elems(asked)) && Reworded(r, q);
    RewordedKeepsParameters(r, q);
    assert q in PoolItems(b, level);
  }

  /** Both ways of opening a session start in the invariant. */
  lemma {:induction false} OpenEstablishesInv(n: Numerics, b: Bank, userId: int, level: string, c: Criteria, u: real)
    requires ValidNumerics(n) && WellFormed(b) && 0.0 <= u < 1.0
    requires BankItems(b) != []
    requires c.seThreshold == 0.3
    ensures Inv(b, Open(n, b, userId, level, c, u))
  {
    var s := Open(n, b, userId, level, c, u);
    assert PoolItems(b, level) != [];
    SelectedFromPool(n, b, level, [], 0.0, u);
    assert Elems<string>([]) == {};
  }

  /** One answer keeps a running session in the invariant unless it completes it. */
  lemma ProcessPreservesInv(n: Numerics, b: Bank, s: Session, answer: Answer, u: real)
    requires ValidNumerics(n) && WellFormed(b) && 0.0 <= u < 1.0
    requires Inv(b, s)
    ensures var r := ProcessResponse(n, b, s, answer, u);
      r.Ok? && !r.value.completed ==> Inv(b, r.value)
  {
    var r := ProcessResponse(n, b, s, answer, u);
    if r.Ok? && !r.value.completed {
      var t := r.value;
      var q := s.current.value;
      var score := Standardize(q, answer).value;
      StandardErrorStaysAbove(n, s.ability, s.se, q, score);
      SelectedFromPool(n, b, s.level, t.asked, t.ability, u);
      StepKeepsInv(b, s, t, answer);
    }
  }

  /** The bookkeeping half of `ProcessPreservesInv`: a step that records the
      current item, selects a fresh pool item and keeps the standard error
      above the threshold keeps the invariant. */
  lemma StepKeepsInv(b: Bank, s: Session, t: Session, answer: Answer)
    requires Inv(b, s)
    requires t.asked == s.asked + [s.current.value.id] && t.responses == s.responses[s.current.value.id := answer]
    requires t.count == s.count + 1 && t.level == s.level && t.criteria == s.criteria
    requires !t.completed && t.current.Some? && t.se > 0.3
    requires t.current.value.id in PoolIds(b, t.level) && t.current.value.id !in t.asked
    requires 0.0 < t.current.value.discrimination <= 1.8
    ensures Inv(b, t)
  {
    var q := s.current.value;
    AppendFresh(s.asked, q.id);
    assert t.responses.Keys == s.responses.Keys + {q.id};
  }

  /** The standard-error exit never fires: every answer to a running session
      leaves the standard error above 0.3, so termination depends on the
      answer count alone. */
  lemma StandardErrorExitNeverFires(n: Numerics, b: Bank, s: Session, answer: Answer, u: real)
    requires ValidNumerics(n) && WellFormed(b) && 0.0 <= u < 1.0
    requires Inv(b, s)
    ensures var r := ProcessResponse(n, b, s, answer, u);
      r.Ok? ==> (r.value.se > 0.3
              && (r.value.completed <==> s.criteria.minQuestions <= r.value.count && s.criteria.maxQuestions <= r.value.count))
  {
    var r := ProcessResponse(n, b, s, answer, u);
    if r.Ok? {
      var q := s.current.value;
      StandardErrorStaysAbove(n, s.ability, s.se, q, Standardize(q, answer).value);
    }
  }

  /** Appending an id not yet present keeps a sequence duplicate-free. */
  lemma AppendFresh(xs: seq<string>, x: string)
    requires Distinct(xs) && x !in xs
    ensures Distinct(xs + [x]) && Elems(xs + [x]) == Elems(xs) + {x}
  {
    var ys := xs + [x];
    forall i, j | 0 <= i < j < |ys|
      ensures ys[i] != ys[j]
    {
      if j == |xs| {
        assert ys[i] == xs[i];
      }
    }
  }

  /** A running session has asked fewer items than its pool holds. */
  lemma AskedBelowPool(b: Bank, s: Session)
    requires Inv(b, s)
    ensures s.count < |PoolIds(b, s.level)|
  {
    DistinctCard(s.asked);
    assert Elems(s.asked) + {s.current.value.id} <= PoolIds(b, s.level);
    SubsetCard(Elems(s.asked) + {s.current.value.id}, PoolIds(b, s.level));
  }

  /** When the asked ids are distinct pool ids and as many as the pool, every pool item was asked. */
  lemma AllAsked(b: Bank, level: string, asked: seq<string>)
    requires Distinct(asked) && (forall id <- asked :: id in PoolIds(b, level))
    requires |asked| >= |PoolIds(b, level)|
    ensures forall q <- PoolItems(b, level) :: q.id in asked
  {
    DistinctCard(asked);
    SubsetFull(Elems(asked), PoolIds(b, level));
    forall q <- PoolItems(b, level)
      ensures q.id in asked
    {
      assert q.id in PoolIds(b, level);
    }
  }

  /** Fewer distinct asked ids than the pool holds leave some pool item unasked. */
  lemma SomeUnasked(b: Bank, level: string, asked: seq<string>)
    requires Distinct(asked)
    requires |asked| < |PoolIds(b, level)|
    ensures exists q <- PoolItems(b, level) :: q.id !in asked
  {
    DistinctCard(asked);
    SmallerMisses(Elems(asked), PoolIds(b, level));
    var id :| id in PoolIds(b, level) && id !in Elems(asked);
    var q :| q in PoolItems(b, level) && q.id == id;
  }

  /** As written, a session never completes: with the cap at 15 and every
      pool at most 12 items, an answer either leaves the session running or
      fails. */
  lemma AsWrittenNeverCompletes(n: Numerics, s: Session, answer: Answer, u: real)
    requires ValidNumerics(n) && 0.0 <= u < 1.0
    requires Inv(Default, s) && s.criteria == AsWrittenCriteria
    ensures (DefaultWellFormed(); var r := ProcessResponse(n, Default, s, answer, u);
      r.Ok? ==> !r.value.completed && r.value.count < |PoolIds(Default, s.level)|)
  {
    DefaultWellFormed();
    PoolSize(s.level);
    AskedBelowPool(Default, s);
    StandardErrorExitNeverFires(n, Default, s, answer, u);
    var r := ProcessResponse(n, Default, s, answer, u);
    if r.Ok? {
      var t := r.value;
      assert !t.completed;
      if t.count == |PoolIds(Default, s.level)| {
        ProcessPreservesInv(n, Default, s, answer, u);
        AskedBelowPool(Default, t);
      }
    }
  }

  /** As written, the answer that uses up the pool (the 12th for a known
      level, the 10th otherwise) makes selection index an empty list. */
  lemma AsWrittenExhaustsPool(n: Numerics, s: Session, answer: Answer, u: real)
    requires ValidNumerics(n) && 0.0 <= u < 1.0
    requires Inv(Default, s) && s.criteria == AsWrittenCriteria
    requires s.count + 1 == |PoolIds(Default, s.level)|
    requires Standardize(s.current.value, answer).Ok?
    ensures (DefaultWellFormed(); ProcessResponse(n, Default, s, answer, u) == Err(PoolExhausted))
  {
    DefaultWellFormed();
    PoolSize(s.level);
    StandardErrorExitNeverFires(n, Default, s, answer, u);
    AskedWithCurrent(Default, s);
    AllAsked(Default, s.level, s.asked + [s.current.value.id]);
  }

  /** Recording the current question keeps the asked list distinct and inside the pool. */
  lemma AskedWithCurrent(b: Bank, s: Session)
    requires Inv(b, s)
    ensures var asked := s.asked + [s.current.value.id];
      Distinct(asked) && forall id <- asked :: id in PoolIds(b, s.level)
  {
    AppendFresh(s.asked, s.current.value.id);
  }

  /** With the level's budget as the cap, an answer to a running session
      under budget never finds the pool exhausted. */
  lemma CorrectedNeverExhausts(n: Numerics, s: Session, answer: Answer, u: real)
    requires ValidNumerics(n) && 0.0 <= u < 1.0
    requires Inv(Default, s) && s.criteria == LevelCriteria(s.level)
    requires s.count < MaxQuestions(s.level)
    ensures (DefaultWellFormed(); ProcessResponse(n, Default, s, answer, u) != Err(PoolExhausted))
  {
    DefaultWellFormed();
    var r := ProcessResponse(n, Default, s, answer, u);
    if r == Err(PoolExhausted) {
      var q := s.current.value;
      StandardErrorStaysAbove(n, s.ability, s.se, q, Standardize(q, answer).value);
      assert s.count + 1 < MaxQuestions(s.level);
      PoolSize(s.level);
      AppendFresh(s.asked, q.id);
      SomeUnasked(Default, s.level, s.asked + [q.id]);
      assert false;
    }
  }

  /** With the level's budget as the cap, a running session completes
      exactly on the answer that reaches the budget, and stays in the
      invariant until then. */
  lemma CorrectedCompletesAtBudget(n: Numerics, s: Session, answer: Answer, u: real)
    requires ValidNumerics(n) && 0.0 <= u < 1.0
    requires Inv(Default, s) && s.criteria == LevelCriteria(s.level)
    requires s.count < MaxQuestions(s.level)
    ensures (DefaultWellFormed(); var r := ProcessResponse(n, Default, s, answer, u);
      && (r.Ok? ==> (r.value.completed <==> r.value.count == MaxQuestions(s.level)))
      && (r.Ok? && !r.value.completed ==> Inv(Default, r.value) && r.value.count < MaxQuestions(s.level)))
  {
    DefaultWellFormed();
    StandardErrorExitNeverFires(n, Default, s, answer, u);
    ProcessPreservesInv(n, Default, s, answer, u);
  }

  /** Both openings of a session with the engine's own tables start in the invariant. */
  lemma StartEstablishesInv(n: Numerics, userId: int, level: string, u: real)
    requires ValidNumerics(n) && 0.0 <= u < 1.0
    ensures (DefaultWellFormed(); Inv(Default, Start(n, Default, userId, level, u))
                                  && Inv(Default, StartAsWritten(n, Default, userId, level, u)))
  {
    DefaultWellFormed();
    DefaultBankItems();
    OpenEstablishesInv(n, Default, userId, level, LevelCriteria(level), u);
    OpenEstablishesInv(n, Default, userId, level, AsWrittenCriteria, u);
  }

  /** Selection maximises information rather than matching difficulty: a
      student's first item is `tech_001` (difficulty -0.5), not the
      difficulty-0 item `tech_003`. */
  lemma StudentStartsWithTech001(n: Numerics, userId: int, u: real)
    requires ValidNumerics(n) && 0.0 <= u < 1.0
    ensures (DefaultWellFormed(); var s := Start(n, Default, userId, "student", u);
      s.current.Some? && s.current.value.id == "tech_001")
  {
    DefaultWellFormed();
    var s := Start(n, Default, userId, "student", u);
    var c := Candidates(Default, "student", {});
    StudentItemsFlatterThanTech001();
    var first := TechnicalSkills[0];
    assert first in Available(Default, "student", {});
    assert first in c;
    InformationOfEasyItemAtZero(n);
    assert Info(n, 0.0, first) > 0.317;
    assert Elems<string>([]) == {};
    var r := SelectNext(n, Default, "student", [], 0.0, u);
    assert r.Some?;
    var q :| q in c && Reworded(r.value, q);
    RewordedKeepsParameters(r.value, q);
    assert Info(n, 0.0, first) <= Info(n, 0.0, r.value);
    if q.id != "tech_001" {
      InformationOfFlatItem(n, 0.0, q.difficulty, q.discrimination);
      assert false;
    }
  }

  /** What `get_quiz_analytics` reports for a session completed at its
      cap with the standard error still above 0.3: nothing saved, efficiency
      0, and a precision `1 / se` below `1 / 0.3`. */
  lemma AnalyticsAtCap(s: Session)
    requires s.completed && s.count == s.criteria.maxQuestions > 0 && s.se > 0.3
    ensures QuizAnalytics(s).Ok?
    ensures var a := QuizAnalytics(s).value;
      && a.totalQuestions == s.criteria.maxQuestions
      && a.questionsSaved == 0 && a.efficiency == 0.0
      && 0.0 < a.precision && a.precision * 0.3 < 1.0
  {
    var a := QuizAnalytics(s).value;
    var m := s.criteria.maxQuestions as real;
    assert m > 0.0 && a.efficiency * m == 0.0;
    assert a.precision * s.se == 1.0;
    if a.precision <= 0.0 {
      Numbers.MulLessEq(s.se, a.precision, 0.0);
      assert false;
    }
    Numbers.MulLess(a.precision, 0.3, s.se);
  }

  /** Under the level budget, every session that completes does so at its
      cap with the standard error above 0.3, so `AnalyticsAtCap` describes
      its report. */
  lemma CompletedAtCap(n: Numerics, s: Session, answer: Answer, u: real)
    requires ValidNumerics(n) && 0.0 <= u < 1.0
    requires Inv(Default, s) && s.criteria == LevelCriteria(s.level)
    requires s.count < MaxQuestions(s.level)
    ensures (DefaultWellFormed(); var r := ProcessResponse(n, Default, s, answer, u);
      r.Ok? && r.value.completed ==>
        r.value.count == r.value.criteria.maxQuestions == MaxQuestions(s.level) > 0 && r.value.se > 0.3)
  {
    DefaultWellFormed();
    CorrectedCompletesAtBudget(n, s, answer, u);
    StandardErrorExitNeverFires(n, Default, s, answer, u);
  }
}

=== FILE: adaptive_session.dfy ===
/** The session record of the adaptive engine and its three transitions:
    starting a session, processing one answer, and the analytics of a
    completed session. */
module AdaptiveSession {
  import opened Wrappers
  import opened Seqs
  import opened Irt
  import opened ItemBank
  import opened AdaptiveEngine

  datatype Session = Session(
    userId: int,
    level: string,
    asked: seq<string>,
    responses: map<string, Answer>,
    ability: real,
    se: real,
    count: nat,
    maxQuestions: nat,      // the level's budget, stored but not read by termination
    criteria: Criteria,
    current: Option<Item>,
    completed: bool,
    finalAbility: Option<real>)

  /** The termination criteria `start_adaptive_session` writes: the cap is the fixed 15. */
  const AsWrittenCriteria: Criteria := Criteria(0.3, 5, 15)

  /** The criteria with the level's own budget as the cap. */
  function LevelCriteria(level: string): (c: Criteria)
    ensures c.seThreshold == 0.3 && c.minQuestions == 5
    ensures c.minQuestions < c.maxQuestions == MaxQuestions(level)
  {
    Criteria(0.3, 5, MaxQuestions(level))
  }

  /** `start_adaptive_session` with the given criteria: ability 0, standard
      error 1, nothing asked, and the first item already selected. */
  function Open(n: Numerics, b: Bank, userId: int, level: string, criteria: Criteria, u: real): (s: Session)
    requires ValidNumerics(n) && WellFormed(b)
    requires 0.0 <= u < 1.0
    ensures s.userId == userId && s.level == level && s.criteria == criteria
    ensures s.asked == [] && s.responses == map[] && s.count == 0 && !s.completed
    ensures s.ability == 0.0 && s.se == 1.0 && s.maxQuestions == MaxQuestions(level)
    ensures s.current.Some? <==> PoolItems(b, level) != []
    ensures s.current.Some? ==> exists q <- Candidates(b, level, {}) :: Reworded(s.current.value, q)
  {
    var current := SelectNext(n, b, level, [], 0.0, u);
    assert Elems<string>([]) == {};
    assert PoolItems(b, level) != [] ==> PoolItems(b, level)[0] in PoolItems(b, level);
    Session(userId, level, [], map[], 0.0, 1.0, 0, MaxQuestions(level), criteria, current, false, None)
  }

  /** The session exactly as `start_adaptive_session` opens it. */
  function StartAsWritten(n: Numerics, b: Bank, userId: int, level: string, u: real): (s: Session)
    requires ValidNumerics(n) && WellFormed(b)
    requires 0.0 <= u < 1.0
    ensures s.criteria.maxQuestions == 15 && s.maxQuestions == MaxQuestions(level)
    ensures s.count == 0 && !s.completed
  {
    Open(n, b, userId, level, AsWrittenCriteria, u)
  }

  /** The session with the level's budget as the termination cap. */
  function Start(n: Numerics, b: Bank, userId: int, level: string, u: real): (s: Session)
    requires ValidNumerics(n) && WellFormed(b)
    requires 0.0 <= u < 1.0
    ensures s.criteria.maxQuestions == s.maxQuestions == MaxQuestions(level)
    ensures s.count == 0 && !s.completed
  {
    Open(n, b, userId, level, LevelCriteria(level), u)
  }

  /** `process_response`: record the answer under the current item, update
      the estimate, then either complete or select the next item. There is no
      guard against a completed session, and completion leaves the current
      item in place. */
  function ProcessResponse(n: Numerics, b: Bank, s: Session, answer: Answer, u: real): (r: Result<Session, QuizError>)
    requires ValidNumerics(n) && WellFormed(b)
    requires 0.0 <= u < 1.0
    requires s.current.Some?
    ensures r.Err? ==> r.error == PoolExhausted || Standardize(s.current.value, answer).Err?
    ensures r.Ok? ==> Standardize(s.current.value, answer).Ok?
    ensures r.Ok? ==>
      var est := UpdateEstimate(n, s.ability, s.se, s.current.value, Standardize(s.current.value, answer).value);
      r.value.ability == est.ability && r.value.se == est.se
    ensures r.Ok? && !ShouldTerminate(r.value.count, r.value.se, r.value.criteria) ==>
      r.value.current == SelectNext(n, b, s.level, r.value.asked, r.value.ability, u)
    ensures r.Ok? ==> var t := r.value;
      && t.asked == s.asked + [s.current.value.id]
      && t.responses == s.responses[s.current.value.id := answer]
      && t.count == s.count + 1
      && t.userId == s.userId && t.level == s.level
      && t.criteria == s.criteria && t.maxQuestions == s.maxQuestions
    ensures r.Ok? ==> var t := r.value;
      var stop := ShouldTerminate(t.count, t.se, t.criteria);
      && (t.completed <==> s.completed || stop)
      && (stop ==> t.finalAbility == Some(t.ability) && t.current == s.current)
      && (!stop ==> t.finalAbility == s.finalAbility && t.current.Some?)
    ensures r.Ok? && !ShouldTerminate(r.value.count, r.value.se, r.value.criteria) ==>
      r.value.current.value.id !in r.value.asked
    ensures r == Err(PoolExhausted) ==>
      forall q <- PoolItems(b, s.level) :: q.id in s.asked + [s.current.value.id]
    ensures r == Err(PoolExhausted) ==> (Standardize(s.current.value, answer).Ok? &&
      var est := UpdateEstimate(n, s.ability, s.se, s.current.value, Standardize(s.current.value, answer).value);
      !ShouldTerminate(s.count + 1, est.se, s.criteria))
  {
    var q := s.current.value;
    var asked := s.asked + [q.id];
    match Standardize(q, answer)
    case Err(e) => Err(e)
    case Ok(score) =>
      var est := UpdateEstimate(n, s.ability, s.se, q, score);
      var t := s.(asked := asked, responses := s.responses[q.id := answer], count := s.count + 1,
                  ability := est.ability, se := est.se);
      if ShouldTerminate(t.count, t.se, t.criteria) then
        Ok(t.(completed := true, finalAbility := Some(est.ability)))
      else
        match SelectNext(n, b, s.level, asked, est.ability, u)
        case None => Err(PoolExhausted)
        case Some(next) => Ok(t.(current := Some(next)))
  }

  datatype Analytics = Analytics(
    totalQuestions: nat,
    level: string,
    finalAbility: real,
    precision: real,
    questionsSaved: int,
    efficiency: real)

  /** The summary and efficiency parts of `get_quiz_analytics`. */
  function QuizAnalytics(s: Session): (r: Result<Analytics, QuizError>)
    ensures !s.completed ==> r == Err(NotCompleted)
    ensures s.completed && s.criteria.maxQuestions == 0 ==> r == Err(DivisionByZero)
    ensures r.Ok? ==> s.completed && r.value.totalQuestions == s.count && r.value.level == s.level
    ensures r.Ok? ==> r.value.finalAbility == s.ability
    ensures r.Ok? ==> r.value.questionsSaved + s.count == s.criteria.maxQuestions
    ensures r.Ok? ==> r.value.efficiency * (s.criteria.maxQuestions as real) == r.value.questionsSaved as real
    ensures r.Ok? && s.se > 0.0 ==> r.value.precision * s.se == 1.0
    ensures r.Ok? && s.se <= 0.0 ==> r.value.precision == 0.0
  {
    if !s.completed then Err(NotCompleted)
    else if s.criteria.maxQuestions == 0 then Err(DivisionByZero)
    else
      var m := s.criteria.maxQuestions as real;
      var efficiency := 1.0 - (s.count as real) / m;
      assert efficiency * m == m - s.count as real;
      Ok(Analytics(s.count, s.level, s.ability, if s.se > 0.0 then 1.0 / s.se else 0.0,
                   s.criteria.maxQuestions - s.count, efficiency))
  }
}

=== FILE: advanced_views.dfy ===
/** The analytics and assessment endpoints of the advanced prediction views:
    the conversion funnel of the analytics dashboard, starting and submitting a
    skill assessment with its pass and badge rule, and the reshaping of a salary
    band for the frontend. The clock is an input: the activity log carries
    timestamps and the dashboard's window start is given. */
module AdvancedViews {
  import opened Wrappers
  import opened Numbers
  import Text
  import Seqs
  import Assessment
  import LaborMarket

  // ---------------------------------------------------------------- funnel

  /** The activity kinds a user activity row can carry. */
  datatype Activity = QuizStarted | QuizCompleted | PredictionViewed | LearningPathCreated
                    | MilestoneCompleted | JobApplied | AssessmentStarted | AssessmentCompleted

  /** One user activity row: when it was created (seconds) and what it records. */
  datatype Event = Event(at: int, kind: Activity)

  /** The `days` query parameter: 30 when absent, otherwise Python's `int()` of
      the text; `None` is the `ValueError` that `int()` raises. */
  function DaysParam(query: Option<string>): (r: Option<int>)
    ensures query == None ==> r == Some(30)
    ensures query.Some? ==> r == Text.ParseInt(query.value)
  {
    match query
    case None => Some(30)
    case Some(s) => Text.ParseInt(s)
  }

  /** Whatever number a client writes in the query is the window the dashboard uses. */
  lemma DaysParamRoundTrip(n: int)
    ensures DaysParam(Some(Text.IntToString(n))) == Some(n)
  {
    Text.ParseIntToString(n);
  }

  /** "Was `e` of kind `kind` and created at or after `start`?" */
  function InWindow(start: int, kind: Activity): Event -> bool
  {
    (e: Event) => e.at >= start && e.kind == kind
  }

  /** `activities.filter(created_at__gte=start, activity_type=kind).count()`:
      the number of events of that kind at or after the start. */
  function CountSince(log: seq<Event>, start: int, kind: Activity): (n: nat)
    ensures n == |Seqs.Filter(log, InWindow(start, kind))|
    ensures n <= |log|
    ensures (forall i :: 0 <= i < |log| ==> log[i].at < start) ==> n == 0
  {
    if log == [] then 0
    else
      var rest := CountSince(log[1..], start, kind);
      assert Seqs.Filter(log, InWindow(start, kind))
          == (if InWindow(start, kind)(log[0]) then [log[0]] else []) + Seqs.Filter(log[1..], InWindow(start, kind));
      (if log[0].at >= start && log[0].kind == kind then 1 else 0) + rest
  }

  /** Counting is additive over a log split in two. */
  lemma {:induction false} CountSinceAppend(a: seq<Event>, b: seq<Event>, start: int, kind: Activity)
    ensures CountSince(a + b, start, kind) == CountSince(a, start, kind) + CountSince(b, start, kind)
  {
    if a == [] {
      assert a + b == b;
    } else {
      assert (a + b)[1..] == a[1..] + b;
      CountSinceAppend(a[1..], b, start, kind);
    }
  }

  /** A wider window never counts fewer events. */
  lemma {:induction false} CountSinceWiderWindow(log: seq<Event>, early: int, late: int, kind: Activity)
    requires early <= late
    ensures CountSince(log, early, kind) >= CountSince(log, late, kind)
  {
    if log != [] {
      CountSinceWiderWindow(log[1..], early, late, kind);
    }
  }

  /** Two distinct kinds together never count more events than the log holds. */
  lemma {:induction false} CountSinceDisjoint(log: seq<Event>, start: int, k1: Activity, k2: Activity)
    requires k1 != k2
    ensures CountSince(log, start, k1) + CountSince(log, start, k2) <= |log|
  {
    if log != [] {
      CountSinceDisjoint(log[1..], start, k1, k2);
    }
  }

  /** The unrounded conversion `(num / den * 100) if den > 0 else 0`. */
  function Rate(num: nat, den: nat): (r: real)
    ensures den == 0 ==> r == 0.0
    ensures den > 0 ==> r * den as real == num as real * 100.0
    ensures r >= 0.0
    ensures num <= den ==> r <= 100.0
  {
    if den > 0 then
      RateScales(num, den);
      num as real / den as real * 100.0
    else 0.0
  }

  lemma RateScales(num: nat, den: nat)
    requires den > 0
    ensures (num as real / den as real * 100.0) * den as real == num as real * 100.0
    ensures num <= den ==> num as real / den as real * 100.0 <= 100.0
  {
    var q := num as real / den as real;
    assert q * den as real == num as real;
    if num <= den {
      assert q <= 1.0 by {
        if q > 1.0 {
          MulLess(den as real, 1.0, q);
        }
      }
    }
  }

  /** A stage conversion as reported: the rate rounded to two decimals. */
  function Conversion(num: nat, den: nat): (r: real)
    ensures Hundredths(r)
    ensures den == 0 ==> r == 0.0
    ensures -0.005 <= r - Rate(num, den) <= 0.005
    ensures num <= den ==> 0.0 <= r <= 100.0
    ensures 0 < den == num ==> r == 100.0
    ensures num == 0 ==> r == 0.0
  {
    ConversionFacts(num, den);
    Round2(Rate(num, den))
  }

  lemma ConversionFacts(num: nat, den: nat)
    ensures num <= den ==> 0.0 <= Round2(Rate(num, den)) <= 100.0
    ensures 0 < den == num ==> Round2(Rate(num, den)) == 100.0
    ensures num == 0 || den == 0 ==> Round2(Rate(num, den)) == 0.0
  {
    var x := Rate(num, den);
    assert Hundredths(0.0) && Hundredths(100.0);
    if num <= den { Round2Between(0.0, x, 100.0); }
    if num == 0 || den == 0 {
      assert x == 0.0 by { if den > 0 { assert x * den as real == 0.0; } }
      Round2Fixes(0.0);
    }
    if 0 < den == num {
      assert x * den as real == den as real * 100.0;
      assert x == 100.0;
      Round2Fixes(100.0);
    }
  }

  datatype Stages = Stages(quizStarts: nat, quizCompletions: nat, predictions: nat,
                           learningPaths: nat, jobApplications: nat)

  datatype Funnel = Funnel(stages: Stages, startToCompletion: real, quizToPrediction: real,
                           predictionToPath: real, pathToApplication: real, overall: real)

  /** `_get_funnel_metrics` over the activity log, counting from `start`. */
  function FunnelMetrics(log: seq<Event>, start: int): (f: Funnel)
    ensures f.stages.quizStarts == CountSince(log, start, QuizStarted)
    ensures f.stages.quizCompletions == CountSince(log, start, QuizCompleted)
    ensures f.stages.predictions == CountSince(log, start, PredictionViewed)
    ensures f.stages.learningPaths == CountSince(log, start, LearningPathCreated)
    ensures f.stages.jobApplications == CountSince(log, start, JobApplied)
    ensures f.startToCompletion == Conversion(f.stages.quizCompletions, f.stages.quizStarts)
    ensures f.quizToPrediction == Conversion(f.stages.predictions, f.stages.quizCompletions)
    ensures f.predictionToPath == Conversion(f.stages.learningPaths, f.stages.predictions)
    ensures f.pathToApplication == Conversion(f.stages.jobApplications, f.stages.learningPaths)
    ensures f.overall == Conversion(f.stages.jobApplications, f.stages.quizStarts)
  {
    var s := Stages(CountSince(log, start, QuizStarted), CountSince(log, start, QuizCompleted),
                    CountSince(log, start, PredictionViewed), CountSince(log, start, LearningPathCreated),
                    CountSince(log, start, JobApplied));
    Funnel(s, Conversion(s.quizCompletions, s.quizStarts), Conversion(s.predictions, s.quizCompletions),
           Conversion(s.learningPaths, s.predictions), Conversion(s.jobApplications, s.learningPaths),
           Conversion(s.jobApplications, s.quizStarts))
  }

  /** Two consecutive stage rates compose into the rate across both stages. */
  lemma RatesCompose(a: nat, b: nat, c: nat)
    requires a > 0 && b > 0
    ensures Rate(b, a) * Rate(c, b) == Rate(c, a) * 100.0
  {
    var x, y, z := Rate(b, a), Rate(c, b), Rate(c, a);
    assert x * a as real == b as real * 100.0;
    assert y * b as real == c as real * 100.0;
    assert z * a as real == c as real * 100.0;
    calc {
      (x * y) * (a as real * b as real);
      (x * a as real) * (y * b as real);
      (b as real * 100.0) * (c as real * 100.0);
      (z * 100.0) * (a as real * b as real);
    }
    var ab := a as real * b as real;
    assert ab > 0.0;
    if x * y < z * 100.0 {
      MulLess(ab, x * y, z * 100.0);
    } else if x * y > z * 100.0 {
      MulLess(ab, z * 100.0, x * y);
    }
  }

  /** With every stage populated, the overall conversion is the product of the
      four stage conversions (before rounding). */
  lemma OverallIsProductOfStages(f: Funnel)
    requires f.stages.quizStarts > 0 && f.stages.quizCompletions > 0
    requires f.stages.predictions > 0 && f.stages.learningPaths > 0
    ensures Rate(f.stages.quizCompletions, f.stages.quizStarts) * Rate(f.stages.predictions, f.stages.quizCompletions)
          * Rate(f.stages.learningPaths, f.stages.predictions) * Rate(f.stages.jobApplications, f.stages.learningPaths)
         == Rate(f.stages.jobApplications, f.stages.quizStarts) * 1000000.0
  {
    var s := f.stages;
    RatesCompose(s.quizStarts, s.quizCompletions, s.predictions);
    RatesCompose(s.quizStarts, s.predictions, s.learningPaths);
    RatesCompose(s.quizStarts, s.learningPaths, s.jobApplications);
  }

  /** A funnel that narrows stage by stage reports every conversion as a
      percentage. */
  lemma NarrowingFunnelIsPercent(log: seq<Event>, start: int)
    requires var s := FunnelMetrics(log, start).stages;
             s.jobApplications <= s.learningPaths <= s.predictions <= s.quizCompletions <= s.quizStarts
    ensures var f := FunnelMetrics(log, start);
            0.0 <= f.startToCompletion <= 100.0 && 0.0 <= f.quizToPrediction <= 100.0
            && 0.0 <= f.predictionToPath <= 100.0 && 0.0 <= f.pathToApplication <= 100.0
            && 0.0 <= f.overall <= 100.0
  {
  }

  /** Only quiz starts in the window make the overall conversion non-zero. */
  lemma OverallNeedsStartsAndApplications(log: seq<Event>, start: int)
    ensures FunnelMetrics(log, start).overall != 0.0
      ==> CountSince(log, start, QuizStarted) > 0 && CountSince(log, start, JobApplied) > 0
  {
  }

  // ---------------------------------------------------------------- assessments

  /** A question of an assessment: whether its JSON carries a `correct_answer`
      key, the answer it names (for MCQ) and how many test cases it lists (for
      coding). */
  datatype QuestionDef = QuestionDef(id: string, hasCorrect: bool, correct: Option<string>, testCases: nat)

  datatype AssessmentDef = AssessmentDef(id: int, kind: string, badgeName: string, questions: seq<QuestionDef>)

  datatype Status = NotStarted | InProgress | Completed | Passed | Failed

  /** A user's attempt at an assessment, holding the assessment it refers to. */
  datatype UserAssessment = UserAssessment(user: int, assessment: AssessmentDef, status: Status,
                                           answers: seq<(string, Option<string>)>, score: real, maxScore: real,
                                           plagiarism: real, llmAssist: bool, timeSpent: int, badgeEarned: bool)

  type Table = map<int, UserAssessment>

  /** Python truthiness of an optional id from the request body. */
  predicate Truthy(id: Option<int>)
  {
    id.Some? && id.value != 0
  }

  /** `{q['id']: q.get('correct_answer') for q in questions if 'correct_answer' in q}`. */
  function CorrectAnswers(qs: seq<QuestionDef>): (m: map<string, Option<string>>)
    ensures forall i :: 0 <= i < |qs| && qs[i].hasCorrect ==> qs[i].id in m
    ensures forall k <- m :: exists i :: 0 <= i < |qs| && qs[i].hasCorrect && qs[i].id == k && m[k] == qs[i].correct
  {
    if qs == [] then map[]
    else
      var m := CorrectAnswers(qs[..|qs| - 1]);
      var q := qs[|qs| - 1];
      if q.hasCorrect then m[q.id := q.correct] else m
  }

  /** The test-case counts the coding grader reads from the same dictionary. */
  function TestCounts(qs: seq<QuestionDef>): (m: map<string, nat>)
    ensures forall i :: 0 <= i < |qs| && qs[i].hasCorrect ==> qs[i].id in m
    ensures forall k <- m :: exists i :: 0 <= i < |qs| && qs[i].hasCorrect && qs[i].id == k && m[k] == qs[i].testCases
  {
    if qs == [] then map[]
    else
      var m := TestCounts(qs[..|qs| - 1]);
      var q := qs[|qs| - 1];
      if q.hasCorrect then m[q.id := q.testCases] else m
  }

  /** A later question with the same id overrides an earlier one, as in a
      dictionary comprehension. */
  lemma LastQuestionWins(qs: seq<QuestionDef>, i: nat)
    requires i < |qs| && qs[i].hasCorrect
    requires forall j :: i < j < |qs| ==> !qs[j].hasCorrect || qs[j].id != qs[i].id
    ensures CorrectAnswers(qs)[qs[i].id] == qs[i].correct
    ensures TestCounts(qs)[qs[i].id] == qs[i].testCases
  {
    LastAnswerWins(qs, i);
    LastCountWins(qs, i);
  }

  /** The tail of `qs` after position `i` that does not redefine `qs[i]`
      keeps that property once the last question is dropped. */
  lemma InitKeepsLater(qs: seq<QuestionDef>, i: nat)
    requires i < |qs| - 1
    requires forall j :: i < j < |qs| ==> !qs[j].hasCorrect || qs[j].id != qs[i].id
    ensures var init := qs[..|qs| - 1];
      forall j :: i < j < |init| ==> !init[j].hasCorrect || init[j].id != init[i].id
  {
    var init := qs[..|qs| - 1];
    forall j | i < j < |init|
      ensures !init[j].hasCorrect || init[j].id != init[i].id
    {
      assert init[j] == qs[j];
    }
  }

  lemma {:induction false} LastAnswerWins(qs: seq<QuestionDef>, i: nat)
    requires i < |qs| && qs[i].hasCorrect
    requires forall j :: i < j < |qs| ==> !qs[j].hasCorrect || qs[j].id != qs[i].id
    ensures CorrectAnswers(qs)[qs[i].id] == qs[i].correct
  {
    var init, last := qs[..|qs| - 1], qs[|qs| - 1];
    if i < |qs| - 1 {
      assert init[i] == qs[i];
      assert !last.hasCorrect || last.id != qs[i].id;
      InitKeepsLater(qs, i);
      LastAnswerWins(init, i);
      assert CorrectAnswers(qs)[qs[i].id] == CorrectAnswers(init)[qs[i].id];
    }
  }

  lemma {:induction false} LastCountWins(qs: seq<QuestionDef>, i: nat)
    requires i < |qs| && qs[i].hasCorrect
    requires forall j :: i < j < |qs| ==> !qs[j].hasCorrect || qs[j].id != qs[i].id
    ensures TestCounts(qs)[qs[i].id] == qs[i].testCases
  {
    var init, last := qs[..|qs| - 1], qs[|qs| - 1];
    if i < |qs| - 1 {
      assert init[i] == qs[i];
      assert !last.hasCorrect || last.id != qs[i].id;
      InitKeepsLater(qs, i);
      LastCountWins(init, i);
      assert TestCounts(qs)[qs[i].id] == TestCounts(init)[qs[i].id];
    }
  }

  /** The grading of a submission against the assessment's questions. */
  function Grade(def: AssessmentDef, answers: seq<(string, Option<string>)>): (g: Assessment.Grading)
    ensures 0.0 <= g.total <= g.max
    ensures g.passed <==> g.max > 0.0 && g.total * 100.0 >= 70.0 * g.max
    ensures def.kind == "mcq" ==> g.max == |answers| as real
    ensures def.kind != "mcq" ==> g.total == 0.0
  {
    Assessment.GradeAssessment(answers, CorrectAnswers(def.questions), TestCounts(def.questions), def.kind)
  }

  /** No user has two rows for the same assessment. */
  predicate OnePerPair(db: Table)
  {
    forall k1 <- db, k2 <- db :: (db[k1].user == db[k2].user && db[k1].assessment.id == db[k2].assessment.id) ==> k1 == k2
  }

  /** Every row that says a badge was earned has the matching user badge. */
  predicate EarnedHasBadge(db: Table, badges: set<(int, string)>)
  {
    forall k <- db :: db[k].badgeEarned ==> (db[k].user, db[k].assessment.badgeName) in badges
  }

  /** Every user badge was earned by one of the user's rows. */
  predicate BadgeWasEarned(db: Table, badges: set<(int, string)>)
  {
    forall b <- badges :: exists k <- db :: db[k].user == b.0 && db[k].assessment.badgeName == b.1 && db[k].badgeEarned
  }

  predicate Consistent(db: Table, badges: set<(int, string)>)
  {
    OnePerPair(db) && EarnedHasBadge(db, badges) && BadgeWasEarned(db, badges)
  }

  datatype StartError = MissingIds | NotFound | AlreadyStarted

  /** The existing row of `user` for `assessment`, if any. */
  predicate HasRow(db: Table, user: int, assessment: int)
  {
    exists k <- db :: db[k].user == user && db[k].assessment.id == assessment
  }

  /** `UserAssessmentsView.post`. `users` are the known user ids, `catalog` the
      assessments by id, and `newId` the primary key the database hands out. */
  function StartAttempt(db: Table, users: set<int>, catalog: map<int, AssessmentDef>,
                        user: Option<int>, assessment: Option<int>, newId: int): (r: Result<Table, StartError>)
    requires newId !in db
    requires forall a <- catalog :: catalog[a].id == a
    ensures r == Err(MissingIds) <==> !Truthy(user) || !Truthy(assessment)
    ensures r == Err(NotFound) <==> Truthy(user) && Truthy(assessment)
                                    && (user.value !in users || assessment.value !in catalog)
    ensures r == Err(AlreadyStarted) <==> Truthy(user) && Truthy(assessment) && user.value in users
                                          && assessment.value in catalog && HasRow(db, user.value, assessment.value)
    ensures r.Ok? ==> r.value.Keys == db.Keys + {newId}
                      && (forall k <- db :: r.value[k] == db[k])
                      && r.value[newId].user == user.value && r.value[newId].assessment.id == assessment.value
                      && r.value[newId].status == InProgress && !r.value[newId].badgeEarned
  {
    if !Truthy(user) || !Truthy(assessment) then Err(MissingIds)
    else if user.value !in users || assessment.value !in catalog then Err(NotFound)
    else if HasRow(db, user.value, assessment.value) then Err(AlreadyStarted)
    else
      var row := UserAssessment(user.value, catalog[assessment.value], InProgress, [], 0.0, 0.0, 0.0, false, 0, false);
      Ok(db[newId := row])
  }

  /** Starting never creates a second row for a user and an assessment, and
      leaves the badge bookkeeping consistent. */
  lemma StartKeepsConsistent(db: Table, badges: set<(int, string)>, users: set<int>, catalog: map<int, AssessmentDef>,
                             user: Option<int>, assessment: Option<int>, newId: int)
    requires newId !in db
    requires forall a <- catalog :: catalog[a].id == a
    requires Consistent(db, badges)
    ensures var r := StartAttempt(db, users, catalog, user, assessment, newId);
            r.Ok? ==> Consistent(r.value, badges)
  {
    var r := StartAttempt(db, users, catalog, user, assessment, newId);
    if r.Ok? {
      var t := r.value;
      forall b <- badges
        ensures exists k <- t :: t[k].user == b.0 && t[k].assessment.badgeName == b.1 && t[k].badgeEarned
      {
        var k :| k in db && db[k].user == b.0 && db[k].assessment.badgeName == b.1 && db[k].badgeEarned;
        assert t[k] == db[k];
      }
    }
  }

  datatype SubmitError = MissingInput | NoSuchAttempt

  datatype Submitted = Submitted(db: Table, badges: set<(int, string)>, grading: Assessment.Grading,
                                 plagiarism: Assessment.Report)

  /** `UserAssessmentsView.put`. `rendered` is `str(answers)`, `copyPaste`
      what the copy-paste detector reports on it, `llmAssist` the verdict of the
      LLM-assistance detector. No reference sources are passed to the
      plagiarism check. */
  function Submit(db: Table, badges: set<(int, string)>, id: Option<int>, answers: seq<(string, Option<string>)>,
                  timeSpent: int, rendered: string, copyPaste: bool, llmAssist: bool): (r: Result<Submitted, SubmitError>)
    ensures r == Err(MissingInput) <==> !Truthy(id) || answers == []
    ensures r == Err(NoSuchAttempt) <==> Truthy(id) && answers != [] && id.value !in db
    ensures r.Ok? ==> Truthy(id) && id.value in db && r.value.db.Keys == db.Keys
    ensures r.Ok? ==>
      var row, row' := db[id.value], r.value.db[id.value];
      var g := r.value.grading;
      && (forall k <- db :: k != id.value ==> r.value.db[k] == db[k])
      && g == Grade(row.assessment, answers)
      && row'.user == row.user && row'.assessment == row.assessment
      && row'.answers == answers && row'.timeSpent == timeSpent && row'.llmAssist == llmAssist
      && row'.score == g.total && row'.maxScore == g.max
      && row'.plagiarism == r.value.plagiarism.score
      && (row'.status == Passed <==> g.passed)
      && (row'.status == Failed <==> !g.passed)
      && (row'.badgeEarned <==> row.badgeEarned || (g.passed && row.assessment.badgeName != ""))
      && r.value.badges == badges + (if g.passed && row.assessment.badgeName != "" then {(row.user, row.assessment.badgeName)} else {})
  {
    if !Truthy(id) || answers == [] then Err(MissingInput)
    else if id.value !in db then Err(NoSuchAttempt)
    else
      var row := db[id.value];
      var g := Grade(row.assessment, answers);
      var report := Assessment.CheckPlagiarism(rendered, [], copyPaste);
      var award := g.passed && row.assessment.badgeName != "";
      var row' := row.(answers := answers, score := g.total, maxScore := g.max, plagiarism := report.score,
                       llmAssist := llmAssist, timeSpent := timeSpent,
                       status := if g.passed then Passed else Failed,
                       badgeEarned := row.badgeEarned || award);
      Ok(Submitted(db[id.value := row'], badges + (if award then {(row.user, row.assessment.badgeName)} else {}),
                   g, report))
  }

  /** Submitting keeps one row per user and assessment, and a user holds a
      badge exactly when one of their rows says it was earned. */
  lemma SubmitKeepsConsistent(db: Table, badges: set<(int, string)>, id: Option<int>, answers: seq<(string, Option<string>)>,
                              timeSpent: int, rendered: string, copyPaste: bool, llmAssist: bool)
    requires Consistent(db, badges)
    ensures var r := Submit(db, badges, id, answers, timeSpent, rendered, copyPaste, llmAssist);
            r.Ok? ==> Consistent(r.value.db, r.value.badges)
  {
    var r := Submit(db, badges, id, answers, timeSpent, rendered, copyPaste, llmAssist);
    if r.Ok? {
      var t, bs := r.value.db, r.value.badges;
      var i := id.value;
      forall k1 <- t, k2 <- t | t[k1].user == t[k2].user && t[k1].assessment.id == t[k2].assessment.id
        ensures k1 == k2
      {
        assert db[k1].user == db[k2].user && db[k1].assessment.id == db[k2].assessment.id;
      }
      forall b <- bs
        ensures exists k <- t :: t[k].user == b.0 && t[k].assessment.badgeName == b.1 && t[k].badgeEarned
      {
        if b in badges {
          var k :| k in db && db[k].user == b.0 && db[k].assessment.badgeName == b.1 && db[k].badgeEarned;
          assert t[k].user == b.0 && t[k].assessment.badgeName == b.1 && t[k].badgeEarned;
        } else {
          assert t[i].user == b.0 && t[i].assessment.badgeName == b.1 && t[i].badgeEarned;
        }
      }
    }
  }

  /** A failed resubmission does not take back a badge: the flag and the user
      badge both stay. */
  lemma FailedResubmissionKeepsBadge(db: Table, badges: set<(int, string)>, id: Option<int>,
                                     answers: seq<(string, Option<string>)>, timeSpent: int, rendered: string,
                                     copyPaste: bool, llmAssist: bool)
    requires Truthy(id) && answers != [] && id.value in db && db[id.value].badgeEarned
    requires !Grade(db[id.value].assessment, answers).passed
    ensures var r := Submit(db, badges, id, answers, timeSpent, rendered, copyPaste, llmAssist);
            r.Ok? && r.value.db[id.value].status == Failed && r.value.db[id.value].badgeEarned
            && r.value.badges == badges
  {
  }

  /** Submitting the same answers twice changes nothing the second time
      (the badge is fetched or created, never duplicated). */
  lemma SubmitIdempotent(db: Table, badges: set<(int, string)>, id: Option<int>, answers: seq<(string, Option<string>)>,
                         timeSpent: int, rendered: string, copyPaste: bool, llmAssist: bool)
    ensures var r := Submit(db, badges, id, answers, timeSpent, rendered, copyPaste, llmAssist);
            r.Ok? ==> Submit(r.value.db, r.value.badges, id, answers, timeSpent, rendered, copyPaste, llmAssist)
                      == Ok(r.value)
  {
    var r := Submit(db, badges, id, answers, timeSpent, rendered, copyPaste, llmAssist);
    if r.Ok? {
      var t := r.value.db;
      var row' := t[id.value];
      assert t[id.value := row'] == t;
      assert Submit(t, r.value.badges, id, answers, timeSpent, rendered, copyPaste, llmAssist)
             == Ok(Submitted(t[id.value := row'], r.value.badges, r.value.grading, r.value.plagiarism));
    }
  }

  /** Without reference sources, the plagiarism score of a non-empty submission
      is 0.9 when the copy-paste detector fires and 0 otherwise. */
  lemma SubmitPlagiarismScore(db: Table, badges: set<(int, string)>, id: Option<int>, answers: seq<(string, Option<string>)>,
                              timeSpent: int, rendered: string, copyPaste: bool, llmAssist: bool)
    requires rendered != []
    ensures var r := Submit(db, badges, id, answers, timeSpent, rendered, copyPaste, llmAssist);
            r.Ok? ==> r.value.plagiarism.score == (if copyPaste then 0.9 else 0.0)
  {
  }

  // ---------------------------------------------------------------- salary band

  /** The dictionary a salary lookup returns, each key possibly missing. */
  datatype RawBand = RawBand(salaryMin: Option<int>, salaryMax: Option<int>, salaryMedian: Option<int>,
                             currency: Option<string>, region: Option<string>, level: Option<string>)

  /** The shape the frontend reads. */
  datatype FrontBand = FrontBand(min: int, max: int, median: int, currency: string, region: string, level: string)

  /** The dictionary `get_salary_band` builds: every key present. */
  function RawOf(b: LaborMarket.SalaryBand): (raw: RawBand)
    ensures raw.salaryMin.Some? && raw.salaryMax.Some? && raw.salaryMedian.Some?
    ensures raw.currency.Some? && raw.region.Some? && raw.level.Some?
  {
    RawBand(Some(b.band.min), Some(b.band.max), Some(b.band.median), Some(b.currency), Some(b.region), Some(b.level))
  }

  /** The renaming of `salary_min`/`salary_max`/`salary_median` with `.get`
      defaults: 0 for amounts, "USD", and the requested region and level. */
  function Reshape(raw: RawBand, region: string, level: string): (f: FrontBand)
    ensures raw == RawBand(None, None, None, None, None, None) ==> f == FrontBand(0, 0, 0, "USD", region, level)
  {
    FrontBand(GetOr(raw.salaryMin, 0), GetOr(raw.salaryMax, 0), GetOr(raw.salaryMedian, 0),
              GetOr(raw.currency, "USD"), GetOr(raw.region, region), GetOr(raw.level, level))
  }

  /** Reshaping loses nothing from a complete lookup: amounts, currency,
      region and level come through unchanged. */
  lemma ReshapeCarriesBand(b: LaborMarket.SalaryBand, region: string, level: string)
    ensures var f := Reshape(RawOf(b), region, level);
            f.min == b.band.min && f.max == b.band.max && f.median == b.band.median
            && f.currency == b.currency && f.region == b.region && f.level == b.level
  {
  }

  datatype BandError = RoleRequired

  /** The salary part of `LaborMarketView.get`: a role is required; region and
      level default to "US" and "mid". */
  function SalaryView(role: Option<string>, region: Option<string>, level: Option<string>): (r: Result<FrontBand, BandError>)
    ensures r.Err? <==> GetOr(role, "") == ""
    ensures r.Ok? ==> var b := LaborMarket.GetSalaryBand(role.value, GetOr(region, "US"), GetOr(level, "mid"));
                      r.value.min == b.band.min && r.value.median == b.band.median && r.value.max == b.band.max
  {
    var name := GetOr(role, "");
    if name == "" then Err(RoleRequired)
    else
      var b := LaborMarket.GetSalaryBand(name, GetOr(region, "US"), GetOr(level, "mid"));
      ReshapeCarriesBand(b, GetOr(region, "US"), GetOr(level, "mid"));
      Ok(Reshape(RawOf(b), GetOr(region, "US"), GetOr(level, "mid")))
  }

  /** The band the view returns is ordered, echoes the requested region and
      level, and is priced in dollars exactly for the US region. */
  lemma SalaryViewOrdered(role: string, region: Option<string>, level: Option<string>)
    requires role != ""
    ensures var r := SalaryView(Some(role), region, level);
            r.Ok? && r.value.min <= r.value.median <= r.value.max
            && r.value.region == GetOr(region, "US") && r.value.level == GetOr(level, "mid")
            && (r.value.currency == "USD" <==> GetOr(region, "US") == "US")
  {
    var b := LaborMarket.GetSalaryBand(role, GetOr(region, "US"), GetOr(level, "mid"));
    ReshapeCarriesBand(b, GetOr(region, "US"), GetOr(level, "mid"));
  }
}

=== FILE: assessment.dfy ===
/** The grading and plagiarism rules of the skill-assessment engine: MCQ and
    coding grading, letter grades, word-set similarity strengthened by the
    longest common substring, and the plagiarism verdict. The regular-expression
    copy-paste detector is an input. */
module Assessment {
  import opened Wrappers
  import opened Text
  import Seqs

  // ---------------------------------------------------------------- letter grade

  datatype Letter = A | B | C | D | F

  /** `_calculate_grade`: bands of ten points from 60 upward. */
  function LetterGrade(percentage: real): (g: Letter)
    ensures g == A <==> percentage >= 90.0
    ensures g == B <==> 80.0 <= percentage < 90.0
    ensures g == C <==> 70.0 <= percentage < 80.0
    ensures g == D <==> 60.0 <= percentage < 70.0
    ensures g == F <==> percentage < 60.0
  {
    if percentage >= 90.0 then A
    else if percentage >= 80.0 then B
    else if percentage >= 70.0 then C
    else if percentage >= 60.0 then D
    else F
  }

  /** Letters ordered from F (0) to A (4). */
  function LetterRank(g: Letter): nat
  {
    match g
    case F => 0
    case D => 1
    case C => 2
    case B => 3
    case A => 4
  }

  /** A higher percentage never earns a lower letter. */
  lemma GradeMonotone(p: real, q: real)
    requires p <= q
    ensures LetterRank(LetterGrade(p)) <= LetterRank(LetterGrade(q))
  {
  }

  // ---------------------------------------------------------------- grading

  /** The summary `grade_assessment` returns; `total` and `max` are Python floats. */
  datatype Grading = Grading(total: real, max: real, percentage: real, passed: bool, grade: Letter)

  /** Percentage and verdict of a score: 0 when nothing could be scored, and
      passing from 70 percent. */
  function Summarise(total: real, max: real): (r: Grading)
    requires 0.0 <= total <= max
    ensures r.total == total && r.max == max
    ensures 0.0 <= r.percentage <= 100.0
    ensures max == 0.0 ==> r.percentage == 0.0
    ensures r.passed <==> max > 0.0 && total * 100.0 >= 70.0 * max
    ensures r.passed <==> LetterRank(r.grade) >= LetterRank(C)
  {
    var p := if max > 0.0 then total / max * 100.0 else 0.0;
    PercentageBounds(total, max);
    PassedMeans(total, max);
    Grading(total, max, p, p >= 70.0, LetterGrade(p))
  }

  lemma PercentageBounds(total: real, max: real)
    requires 0.0 <= total <= max
    ensures max > 0.0 ==> 0.0 <= total / max * 100.0 <= 100.0
  {
    if max > 0.0 {
      assert total / max <= 1.0;
    }
  }

  lemma PassedMeans(total: real, max: real)
    requires 0.0 <= total
    ensures max > 0.0 ==> (total / max * 100.0 >= 70.0 <==> total * 100.0 >= 70.0 * max)
  {
    if max > 0.0 {
      var q := total / max;
      assert q * max == total;
      assert q * 100.0 * max == total * 100.0;
    }
  }

  /** `correct_answers.get(question_id)`: the key's answer, or `None`. */
  function KeyOf(choices: map<string, Option<string>>, q: string): Option<string>
  {
    if q in choices then choices[q] else None
  }

  /** The number of submitted answers equal to the key (a missing key reads as `None`). */
  function CountCorrect(answers: seq<(string, Option<string>)>, choices: map<string, Option<string>>): (n: nat)
    ensures n <= |answers|
  {
    if answers == [] then 0
    else (if answers[0].1 == KeyOf(choices, answers[0].0) then 1 else 0) + CountCorrect(answers[1..], choices)
  }

  /** `len(test_cases)` for a coding question: 0 when the key has none. */
  function TestsOf(tests: map<string, nat>, q: string): nat
  {
    if q in tests then tests[q] else 0
  }

  function TotalTests(answers: seq<(string, Option<string>)>, tests: map<string, nat>): nat
  {
    if answers == [] then 0 else TestsOf(tests, answers[0].0) + TotalTests(answers[1..], tests)
  }

  /** `grade_assessment`. The submitted answers are the dictionary's items in
      order; the key is read as MCQ choices or as coding test counts. Coding
      answers never pass a test, because the test runner always reports failure. */
  function GradeAssessment(answers: seq<(string, Option<string>)>, choices: map<string, Option<string>>,
                           tests: map<string, nat>, kind: string): (r: Grading)
    ensures kind == "mcq" ==> r.max == |answers| as real && r.total == CountCorrect(answers, choices) as real
    ensures kind == "coding" ==> r.max == TotalTests(answers, tests) as real && r.total == 0.0
    ensures kind != "mcq" && kind != "coding" ==> r.max == 0.0 && r.total == 0.0
    ensures 0.0 <= r.total <= r.max && 0.0 <= r.percentage <= 100.0
    ensures r.passed <==> r.max > 0.0 && r.total * 100.0 >= 70.0 * r.max
  {
    if kind == "mcq" then Summarise(CountCorrect(answers, choices) as real, |answers| as real)
    else if kind == "coding" then Summarise(0.0, TotalTests(answers, tests) as real)
    else Summarise(0.0, 0.0)
  }

  /** A coding submission always fails with an F, whatever the code. */
  lemma CodingAlwaysFails(answers: seq<(string, Option<string>)>, choices: map<string, Option<string>>, tests: map<string, nat>)
    ensures var r := GradeAssessment(answers, choices, tests, "coding");
      r.percentage == 0.0 && !r.passed && r.grade == F
  {
  }

  /** A null answer to a question the key does not know scores a point,
      because both sides read as `None`. */
  lemma NullAnswerToUnknownQuestionScores(q: string, choices: map<string, Option<string>>)
    requires q !in choices
    ensures GradeAssessment([(q, None)], choices, map[], "mcq").total == 1.0
  {
    assert CountCorrect([(q, None)], choices) == 1 + CountCorrect([], choices);
  }

  /** An MCQ test passes exactly when at least 70 percent of the submitted answers match the key. */
  lemma McqPassesAtSeventyPercent(answers: seq<(string, Option<string>)>, choices: map<string, Option<string>>)
    ensures GradeAssessment(answers, choices, map[], "mcq").passed
      <==> |answers| > 0 && 10 * CountCorrect(answers, choices) >= 7 * |answers|
  {
  }

  // ---------------------------------------------------------------- longest common substring

  /** The length of the longest common suffix of `a` and `b`. */
  function Suffix(a: string, b: string): (r: nat)
    ensures r <= |a| && r <= |b|
  {
    if a == [] || b == [] || a[|a| - 1] != b[|b| - 1] then 0
    else 1 + Suffix(a[..|a| - 1], b[..|b| - 1])
  }

  /** The last `Suffix(a, b)` characters of `a` and `b` agree. */
  lemma {:induction false} SuffixIsCommon(a: string, b: string)
    ensures a[|a| - Suffix(a, b)..] == b[|b| - Suffix(a, b)..]
  {
    var r := Suffix(a, b);
    if r > 0 {
      var a', b' := a[..|a| - 1], b[..|b| - 1];
      assert r - 1 == Suffix(a', b') && a[|a| - 1] == b[|b| - 1];
      SuffixIsCommon(a', b');
      var common := a'[|a'| - (r - 1)..];
      assert common == b'[|b'| - (r - 1)..];
      assert a[|a| - r..] == common + [a[|a| - 1]];
      assert b[|b| - r..] == common + [b[|b| - 1]];
    }
  }

  function Max(x: nat, y: nat): nat
  {
    if x >= y then x else y
  }

  /** The largest `Suffix(a, s2[..k])` over `k <= j`. */
  function RowMax(a: string, s2: string, j: nat): nat
    requires j <= |s2|
  {
    if j == 0 then 0 else Max(RowMax(a, s2, j - 1), Suffix(a, s2[..j]))
  }

  /** The largest `Suffix(s1[..h], s2[..k])` over `h <= i` and all `k`. */
  function GridMax(s1: string, s2: string, i: nat): nat
    requires i <= |s1|
  {
    if i == 0 then 0 else Max(GridMax(s1, s2, i - 1), RowMax(s1[..i], s2, |s2|))
  }

  lemma {:induction false} RowMaxAbove(a: string, s2: string, j: nat, k: nat)
    requires k <= j <= |s2|
    ensures Suffix(a, s2[..k]) <= RowMax(a, s2, j)
  {
    if k == 0 {
      assert s2[..0] == [];
    } else if k < j {
      RowMaxAbove(a, s2, j - 1, k);
    }
  }

  lemma {:induction false} GridMaxAbove(s1: string, s2: string, i: nat, h: nat, k: nat)
    requires h <= i <= |s1| && k <= |s2|
    ensures Suffix(s1[..h], s2[..k]) <= GridMax(s1, s2, i)
  {
    if h == 0 {
      assert s1[..0] == [];
    } else if h < i {
      GridMaxAbove(s1, s2, i - 1, h, k);
    } else {
      RowMaxAbove(s1[..i], s2, |s2|, k);
    }
  }

  /** The reference value: the largest common suffix of any two prefixes. */
  function LongestCommon(s1: string, s2: string): nat
  {
    GridMax(s1, s2, |s1|)
  }

  /** `s1[i..i+k]` and `s2[j..j+k]` are the same text. */
  predicate CommonAt(s1: string, s2: string, i: nat, j: nat, k: nat)
  {
    i + k <= |s1| && j + k <= |s2| && s1[i..i + k] == s2[j..j + k]
  }

  /** The reference value is the length of a longest common substring: some
      common substring has that length, and none is longer. */
  lemma LongestCommonIsLongest(s1: string, s2: string)
    ensures exists i: nat, j: nat :: CommonAt(s1, s2, i, j, LongestCommon(s1, s2))
    ensures forall i: nat, j: nat, k: nat :: CommonAt(s1, s2, i, j, k) ==> k <= LongestCommon(s1, s2)
  {
    LongestCommonAttained(s1, s2);
    forall i: nat, j: nat, n: nat | CommonAt(s1, s2, i, j, n) ensures n <= LongestCommon(s1, s2) {
      SuffixCoversCommon(s1, s2, i, j, n);
      GridMaxAbove(s1, s2, |s1|, i + n, j + n);
    }
  }

  /** Some common substring is as long as the reference value. */
  lemma LongestCommonAttained(s1: string, s2: string)
    ensures exists i: nat, j: nat :: CommonAt(s1, s2, i, j, LongestCommon(s1, s2))
  {
    var h, k := GridWitness(s1, s2, |s1|);
    var L := LongestCommon(s1, s2);
    var a, b := s1[..h], s2[..k];
    assert Suffix(a, b) == L;
    SuffixIsCommon(a, b);
    PrefixTail(s1, h, L);
    PrefixTail(s2, k, L);
    assert CommonAt(s1, s2, h - L, k - L, L);
  }

  /** The last `l` characters of the prefix `s[..h]` are `s[h - l..h]`. */
  lemma PrefixTail(s: string, h: nat, l: nat)
    requires l <= h <= |s|
    ensures s[..h][h - l..] == s[h - l..h]
  {
  }

  /** A common substring ending at `i + k` and `j + k` makes the common suffix
      of those prefixes at least `k` long. */
  lemma {:induction false} SuffixCoversCommon(s1: string, s2: string, i: nat, j: nat, k: nat)
    requires CommonAt(s1, s2, i, j, k)
    ensures Suffix(s1[..i + k], s2[..j + k]) >= k
    decreases k
  {
    if k > 0 {
      assert s1[i + k - 1] == s1[i..i + k][k - 1] == s2[j..j + k][k - 1] == s2[j + k - 1];
      assert s1[i..i + k - 1] == s1[i..i + k][..k - 1];
      assert s2[j..j + k - 1] == s2[j..j + k][..k - 1];
      SuffixCoversCommon(s1, s2, i, j, k - 1);
      assert s1[..i + k][..i + k - 1] == s1[..i + k - 1];
      assert s2[..j + k][..j + k - 1] == s2[..j + k - 1];
    }
  }

  /** The prefixes at which `GridMax` is reached. */
  lemma {:induction false} GridWitness(s1: string, s2: string, i: nat) returns (h: nat, k: nat)
    requires i <= |s1|
    ensures h <= i && k <= |s2| && Suffix(s1[..h], s2[..k]) == GridMax(s1, s2, i)
  {
    if i == 0 {
      h, k := 0, 0;
      assert s1[..0] == [];
    } else if GridMax(s1, s2, i - 1) >= RowMax(s1[..i], s2, |s2|) {
      h, k := GridWitness(s1, s2, i - 1);
    } else {
      h := i;
      k := RowWitness(s1[..i], s2, |s2|);
    }
  }

  lemma {:induction false} RowWitness(a: string, s2: string, j: nat) returns (k: nat)
    requires j <= |s2|
    ensures k <= j && Suffix(a, s2[..k]) == RowMax(a, s2, j)
  {
    if j == 0 {
      k := 0;
      assert s2[..0] == [];
    } else if RowMax(a, s2, j - 1) >= Suffix(a, s2[..j]) {
      k := RowWitness(a, s2, j - 1);
    } else {
      k := j;
    }
  }

  /** The longest common substring does not depend on the order of the texts. */
  lemma LongestCommonSymmetric(s1: string, s2: string)
    ensures LongestCommon(s1, s2) == LongestCommon(s2, s1)
  {
    LongestCommonIsLongest(s1, s2);
    LongestCommonIsLongest(s2, s1);
    var i: nat, j: nat :| CommonAt(s1, s2, i, j, LongestCommon(s1, s2));
    assert CommonAt(s2, s1, j, i, LongestCommon(s1, s2));
    var i': nat, j': nat :| CommonAt(s2, s1, i', j', LongestCommon(s2, s1));
    assert CommonAt(s1, s2, j', i', LongestCommon(s2, s1));
  }

  /** One step of the table: the common suffix of two prefixes grows by one
      when their last characters agree and is 0 otherwise. */
  lemma SuffixStep(s1: string, s2: string, i: nat, j: nat)
    requires 1 <= i <= |s1| && 1 <= j <= |s2|
    ensures Suffix(s1[..i], s2[..j])
      == if s1[i - 1] == s2[j - 1] then Suffix(s1[..i - 1], s2[..j - 1]) + 1 else 0
  {
    assert s1[..i][..i - 1] == s1[..i - 1];
    assert s2[..j][..j - 1] == s2[..j - 1];
  }

  /** `_longest_common_substring`: the dynamic-programming table filled row
      by row, keeping only the previous row. */
  method LongestCommonSubstring(s1: string, s2: string) returns (best: nat)
    ensures best == LongestCommon(s1, s2)
    ensures best <= |s1| && best <= |s2|
  {
    var n := |s2|;
    var prev: seq<nat> := seq(n + 1, _ => 0);
    best := 0;
    var i := 1;
    while i <= |s1|
      invariant 1 <= i <= |s1| + 1
      invariant |prev| == n + 1
      invariant forall j :: 0 <= j <= n ==> prev[j] == Suffix(s1[..i - 1], s2[..j])
      invariant best == GridMax(s1, s2, i - 1)
    {
      prev, best := FillRow(s1, s2, i, prev, best);
      i := i + 1;
    }
    LongestCommonBound(s1, s2);
  }

  /** One row of the table: the common-suffix lengths of `s1[..i]` against
      every prefix of `s2`, computed from the previous row, and the running
      maximum extended by this row's. */
  method FillRow(s1: string, s2: string, i: nat, prev: seq<nat>, before: nat) returns (cur: seq<nat>, best: nat)
    requires 1 <= i <= |s1| && |prev| == |s2| + 1
    requires forall j :: 0 <= j <= |s2| ==> prev[j] == Suffix(s1[..i - 1], s2[..j])
    ensures |cur| == |s2| + 1
    ensures forall k :: 0 <= k <= |s2| ==> cur[k] == Suffix(s1[..i], s2[..k])
    ensures best == Max(before, RowMax(s1[..i], s2, |s2|))
  {
    cur := [0];
    best := before;
    var j := 1;
    assert s2[..0] == [];
    while j <= |s2|
      invariant 1 <= j <= |s2| + 1
      invariant |cur| == j
      invariant forall k :: 0 <= k < j ==> cur[k] == Suffix(s1[..i], s2[..k])
      invariant best == Max(before, RowMax(s1[..i], s2, j - 1))
    {
      SuffixStep(s1, s2, i, j);
      var v := 0;
      if s1[i - 1] == s2[j - 1] {
        v := prev[j - 1] + 1;
        best := Max(best, v);
      }
      cur := cur + [v];
      j := j + 1;
    }
  }

  /** No common substring is longer than either text. */
  lemma LongestCommonBound(s1: string, s2: string)
    ensures LongestCommon(s1, s2) <= |s1| && LongestCommon(s1, s2) <= |s2|
  {
    var h, k := GridWitness(s1, s2, |s1|);
  }

  // ---------------------------------------------------------------- similarity

  /** `set(text.lower().split())`. */
  function WordSet(text: string): set<string>
  {
    set w | w in Words(Lower(text))
  }

  /** `len(a & b) / len(a | b)`. */
  function Jaccard(a: set<string>, b: set<string>): (r: real)
    requires a != {} && b != {}
    ensures 0.0 <= r <= 1.0
    ensures r == 1.0 <==> a == b
  {
    var i, u := a * b, a + b;
    Seqs.SubsetCard(i, u);
    Seqs.SubsetCard(a, u);
    FullOverlap(a, b);
    var x :| x in a;
    assert |a| > 0 by { assert a == {x} + (a - {x}); }
    Ratio(|i|, |u|)
  }

  /** `x / y` for `0 <= x <= y` with `y` positive: in [0, 1], and 1 exactly when `x == y`. */
  function Ratio(x: nat, y: nat): (r: real)
    requires 0 < y && x <= y
    ensures 0.0 <= r <= 1.0
    ensures r == 1.0 <==> x == y
    ensures r == x as real / y as real
  {
    var r := x as real / y as real;
    FractionAtMostOne(x as real, y as real);
    assert r * (y as real) == x as real;
    r
  }

  /** The overlap of two sets is as large as their union exactly when they are equal. */
  lemma FullOverlap<T>(a: set<T>, b: set<T>)
    ensures |a * b| == |a + b| <==> a == b
  {
    var i, u := a * b, a + b;
    if |i| == |u| {
      Seqs.SubsetFull(i, u);
      assert a == b by {
        assert forall x :: x in a ==> x in b;
        assert forall x :: x in b ==> x in a;
      }
    }
    if a == b {
      assert i == u;
    }
  }

  const Long: nat := 50

  /** `2 * lcs / (len(text1) + len(text2))`, a value in [0, 1]. */
  function SubstringRatio(t1: string, t2: string): (r: real)
    requires t1 != [] || t2 != []
    ensures 0.0 <= r <= 1.0
  {
    LongestCommonBound(t1, t2);
    var l, n := LongestCommon(t1, t2) as real, (|t1| + |t2|) as real;
    assert 0.0 <= 2.0 * l <= n && n > 0.0;
    FractionAtMostOne(2.0 * l, n);
    (2.0 * l) / n
  }

  lemma FractionAtMostOne(x: real, n: real)
    requires 0.0 <= x <= n && n > 0.0
    ensures 0.0 <= x / n <= 1.0
  {
    assert (x / n) * n == x;
  }

  /** `_calculate_similarity`: 0 when either text has no word, else the
      Jaccard index of the word sets, raised to the substring ratio when both
      texts are longer than 50 characters. */
  function Similarity(t1: string, t2: string): (r: real)
    ensures 0.0 <= r <= 1.0
    ensures WordSet(t1) == {} || WordSet(t2) == {} ==> r == 0.0
    ensures WordSet(t1) != {} && WordSet(t2) != {} ==> r >= Jaccard(WordSet(t1), WordSet(t2))
    ensures WordSet(t1) != {} && WordSet(t2) != {} && (|t1| <= Long || |t2| <= Long)
      ==> r == Jaccard(WordSet(t1), WordSet(t2))
    ensures WordSet(t1) != {} && WordSet(t2) != {} && |t1| > Long && |t2| > Long
      ==> r >= SubstringRatio(t1, t2)
          && (r == Jaccard(WordSet(t1), WordSet(t2)) || r == SubstringRatio(t1, t2))
  {
    var w1, w2 := WordSet(t1), WordSet(t2);
    if w1 == {} || w2 == {} then 0.0
    else
      var j := Jaccard(w1, w2);
      if |t1| > Long && |t2| > Long then
        var sub := SubstringRatio(t1, t2);
        if sub > j then sub else j
      else j
  }

  /** Similarity does not depend on the order of the texts. */
  lemma SimilaritySymmetric(t1: string, t2: string)
    ensures Similarity(t1, t2) == Similarity(t2, t1)
  {
    var w1, w2 := WordSet(t1), WordSet(t2);
    if w1 != {} && w2 != {} {
      JaccardSymmetric(w1, w2);
      if |t1| > Long && |t2| > Long {
        SubstringRatioSymmetric(t1, t2);
      }
    }
  }

  lemma JaccardSymmetric(a: set<string>, b: set<string>)
    requires a != {} && b != {}
    ensures Jaccard(a, b) == Jaccard(b, a)
  {
    assert a * b == b * a;
    assert a + b == b + a;
  }

  lemma SubstringRatioSymmetric(t1: string, t2: string)
    requires t1 != [] || t2 != []
    ensures SubstringRatio(t1, t2) == SubstringRatio(t2, t1)
  {
    LongestCommonSymmetric(t1, t2);
    assert |t1| + |t2| == |t2| + |t1|;
  }

  /** A text with at least one word is fully similar to itself. */
  lemma SimilarToItself(t: string)
    requires WordSet(t) != {}
    ensures Similarity(t, t) == 1.0
  {
  }

  // ---------------------------------------------------------------- plagiarism

  const Threshold: real := 0.85

  /** A reported source: its first 100 characters (with "..." when cut) and the similarity. */
  datatype Match = Match(source: string, similarity: real)

  datatype Report = Report(score: real, plagiarized: bool, sources: seq<Match>, copyPaste: bool, warnings: seq<string>)

  function Label(source: string): (r: string)
    ensures |source| <= 100 ==> r == source
    ensures |source| > 100 ==> |r| == 103 && r[..100] == source[..100]
  {
    if |source| > 100 then source[..100] + "..." else source
  }

  /** The sources more similar to the answer than the threshold, in order. */
  function Matches(answer: string, sources: seq<string>): (r: seq<Match>)
    ensures |r| <= |sources|
    ensures forall m <- r :: Threshold < m.similarity <= 1.0
    ensures r == [] <==> forall s <- sources :: Similarity(answer, s) <= Threshold
  {
    if sources == [] then []
    else
      var sim := Similarity(answer, sources[0]);
      var rest := Matches(answer, sources[1..]);
      assert forall s <- sources :: s == sources[0] || s in sources[1..];
      if sim > Threshold then [Match(Label(sources[0]), sim)] + rest else rest
  }

  /** "Is this source similar enough to the answer to be reported?" */
  function AboveThreshold(answer: string): string -> bool
  {
    (s: string) => Similarity(answer, s) > Threshold
  }

  /** A source as reported: its label and its similarity to the answer. */
  function Reported(answer: string): string -> Match
  {
    (s: string) => Match(Label(s), Similarity(answer, s))
  }

  /** The matches are the sources above the threshold, in their original
      order, each with its label and similarity. */
  lemma {:induction false} MatchesFilterSources(answer: string, sources: seq<string>)
    ensures Matches(answer, sources) == Seqs.Map(Seqs.Filter(sources, AboveThreshold(answer)), Reported(answer))
  {
    if sources != [] {
      MatchesFilterSources(answer, sources[1..]);
      Seqs.FilterMapCons(sources, AboveThreshold(answer), Reported(answer));
    }
  }

  /** The largest similarity among the matches, starting from 0. */
  function BestScore(ms: seq<Match>): (r: real)
    ensures r == 0.0 || exists m <- ms :: r == m.similarity
    ensures forall m <- ms :: m.similarity <= r
    ensures r >= 0.0
  {
    if ms == [] then 0.0
    else
      var rest := BestScore(ms[1..]);
      if ms[0].similarity > rest then ms[0].similarity else rest
  }

  /** `_generate_plagiarism_warnings`. */
  function Warnings(score: real, matches: seq<Match>): seq<string>
  {
    (if score > 0.9 then ["High similarity detected - answer appears to be copied"]
     else if score > 0.75 then ["Moderate similarity detected - ensure original work"]
     else [])
    + (if matches != [] then ["Similar content found in " + NatToString(|matches|) + " source(s)"] else [])
  }

  /** `check_plagiarism`; `copyPaste` is whether the copy-paste detector
      found any artefact. An empty answer short-circuits to a clean report. */
  function CheckPlagiarism(answer: string, sources: seq<string>, copyPaste: bool): (r: Report)
    ensures answer == [] ==> r == Report(0.0, false, [], false, [])
    ensures 0.0 <= r.score <= 1.0
    ensures r.score == 0.0 || r.score > Threshold
    ensures r.plagiarized <==> r.score > Threshold
    ensures answer != [] ==> r.sources == Matches(answer, sources) && r.copyPaste == copyPaste
  {
    if answer == [] then Report(0.0, false, [], false, [])
    else
      var ms := Matches(answer, sources);
      var best := BestScore(ms);
      var score := if copyPaste && best < 0.9 then 0.9 else best;
      Report(score, score > Threshold, ms, copyPaste, Warnings(score, ms))
  }

  /** An answer is flagged exactly when it is non-empty and either the
      copy-paste detector fired or some source is more similar than the threshold. */
  lemma PlagiarizedIff(answer: string, sources: seq<string>, copyPaste: bool)
    ensures CheckPlagiarism(answer, sources, copyPaste).plagiarized
      <==> answer != [] && (copyPaste || exists s <- sources :: Similarity(answer, s) > Threshold)
  {
    if answer != [] {
      var ms := Matches(answer, sources);
      if ms != [] {
        assert ms[0] in ms;
      }
    }
  }

  /** Every flagged answer carries a warning, and no clean answer does. */
  lemma WarningsIffPlagiarized(answer: string, sources: seq<string>, copyPaste: bool)
    ensures CheckPlagiarism(answer, sources, copyPaste).warnings != []
      <==> CheckPlagiarism(answer, sources, copyPaste).plagiarized
  {
    if answer != [] {
      var ms := Matches(answer, sources);
      if ms != [] {
        assert ms[0] in ms;
      }
    }
  }
}

=== FILE: category_quiz.dfy ===
/** The category quiz of `Backend/adaptive_quiz`: the quiz counters and their
    percentages, the four-rung difficulty ladder, the choice of the next
    question, the guards of the answer, complete and results actions, and the
    per-skill running mean of the user's skill profile. Database rows arrive
    as sequences in query order. */
module CategoryQuiz {
  import opened Wrappers
  import opened Numbers
  import Seqs
  import opened Sorting

  // ---------------------------------------------------------------- difficulty ladder

  datatype Difficulty = Easy | Medium | Hard | Expert

  /** Position in `['easy', 'medium', 'hard', 'expert']`. */
  function Rung(d: Difficulty): nat
  {
    match d
    case Easy => 0
    case Medium => 1
    case Hard => 2
    case Expert => 3
  }

  const Ladder: seq<Difficulty> := [Easy, Medium, Hard, Expert]

  lemma LadderIndexesRungs(d: Difficulty)
    ensures Rung(d) < |Ladder| && Ladder[Rung(d)] == d
  {
  }

  // ---------------------------------------------------------------- quiz counters

  datatype Quiz = Quiz(difficulty: Difficulty, totalScore: nat, maxScore: nat, totalQuestions: nat,
                       correctAnswers: nat, completed: bool, timeTaken: nat, answered: seq<nat>)

  /** A fresh quiz: easy, all counters zero. */
  const NewQuiz := Quiz(Easy, 0, 0, 0, 0, false, 0, [])

  /** The counters agree with the attempts: one question counted per attempt,
      never more correct answers than questions, never more points than the
      points on offer. */
  predicate Consistent(q: Quiz)
  {
    q.totalQuestions == |q.answered| && q.correctAnswers <= q.totalQuestions && q.totalScore <= q.maxScore
  }

  /** `round(part / whole * 100, 2)`, or 0 for an empty whole. */
  function Percent(part: nat, whole: nat): (r: real)
    requires part <= whole
    ensures 0.0 <= r <= 100.0
    ensures whole == 0 || part == 0 ==> r == 0.0
    ensures whole > 0 && part == whole ==> r == 100.0
    ensures whole > 0 ==> -0.005 <= r - part as real / whole as real * 100.0 <= 0.005
  {
    if whole == 0 then 0.0
    else
      var x := part as real / whole as real * 100.0;
      assert part as real / whole as real <= 1.0;
      assert Hundredths(0.0) && Hundredths(100.0);
      Round2Between(0.0, x, 100.0);
      if part == whole then
        assert x == 100.0;
        Round2Fixes(100.0);
        Round2(x)
      else Round2(x)
  }

  /** `AdaptiveQuiz.calculate_accuracy`. */
  function Accuracy(q: Quiz): (r: real)
    requires Consistent(q)
    ensures 0.0 <= r <= 100.0
    ensures q.totalQuestions == 0 ==> r == 0.0
    ensures q.totalQuestions > 0 ==>
      -0.005 <= r - q.correctAnswers as real / q.totalQuestions as real * 100.0 <= 0.005
  {
    Percent(q.correctAnswers, q.totalQuestions)
  }

  /** `AdaptiveQuiz.calculate_score_percentage`. */
  function ScorePercentage(q: Quiz): (r: real)
    requires Consistent(q)
    ensures 0.0 <= r <= 100.0
    ensures q.maxScore == 0 ==> r == 0.0
    ensures q.maxScore > 0 ==> -0.005 <= r - q.totalScore as real / q.maxScore as real * 100.0 <= 0.005
  {
    Percent(q.totalScore, q.maxScore)
  }

  /** `_update_difficulty`: easy before any answer; otherwise one rung up at
      80% accuracy or more, one rung down below 50%, else unchanged. */
  function UpdateDifficulty(q: Quiz): (d: Difficulty)
    requires Consistent(q)
    ensures q.totalQuestions == 0 ==> d == Easy
    ensures q.totalQuestions > 0 ==> Rung(q.difficulty) - 1 <= Rung(d) <= Rung(q.difficulty) + 1
    ensures q.totalQuestions > 0 && Rung(d) > Rung(q.difficulty) ==> Accuracy(q) >= 80.0
    ensures q.totalQuestions > 0 && Rung(d) < Rung(q.difficulty) ==> Accuracy(q) < 50.0
    ensures q.totalQuestions > 0 && Accuracy(q) >= 80.0 && q.difficulty != Expert ==> Rung(d) == Rung(q.difficulty) + 1
    ensures q.totalQuestions > 0 && Accuracy(q) < 50.0 && q.difficulty != Easy ==> Rung(d) == Rung(q.difficulty) - 1
  {
    if q.totalQuestions == 0 then Easy
    else
      var accuracy := Accuracy(q);
      var i := Rung(q.difficulty);
      LadderIndexesRungs(q.difficulty);
      if accuracy >= 80.0 && q.difficulty != Expert then
        LadderIndexesRungs(Ladder[i + 1]);
        Ladder[i + 1]
      else if accuracy < 50.0 && q.difficulty != Easy then
        LadderIndexesRungs(Ladder[i - 1]);
        Ladder[i - 1]
      else q.difficulty
  }

  // ---------------------------------------------------------------- next question

  datatype Question = Question(id: nat, difficulty: Difficulty, points: nat, active: bool, tags: seq<Tag>)

  /** A skill tag as stored in the JSON list: a string, or anything else. */
  datatype Tag = Named(name: string) | NotText

  function Available(questions: seq<Question>, exclude: set<nat>): (r: seq<Question>)
    ensures forall x <- r :: x in questions && x.active && x.id !in exclude
    ensures forall x <- questions :: x.active && x.id !in exclude ==> x in r
    ensures r == [] <==> forall x <- questions :: !x.active || x.id in exclude
  {
    var r := Seqs.Filter(questions, (x: Question) => x.active && x.id !in exclude);
    assert r != [] ==> r[0] in r;
    r
  }

  /** The first question of `qs` at difficulty `d`. */
  function FirstAt(qs: seq<Question>, d: Difficulty): (r: Option<Question>)
    ensures r.Some? ==> r.value in qs && r.value.difficulty == d
    ensures r.None? <==> forall x <- qs :: x.difficulty != d
  {
    if qs == [] then None
    else if qs[0].difficulty == d then Some(qs[0])
    else FirstAt(qs[1..], d)
  }

  /** The loop over `difficulty_order[current_index:]`: the first rung at or
      above `i` that has a question. */
  function FirstFrom(qs: seq<Question>, i: nat): (r: Option<Question>)
    requires i <= 4
    ensures r.Some? ==> r.value in qs && i <= Rung(r.value.difficulty)
    ensures r.Some? ==> forall x <- qs :: i <= Rung(x.difficulty) ==> Rung(r.value.difficulty) <= Rung(x.difficulty)
    ensures r.None? <==> forall x <- qs :: Rung(x.difficulty) < i
    decreases 4 - i
  {
    if i == 4 then None
    else
      match FirstAt(qs, Ladder[i])
      case Some(x) => Some(x)
      case None => FirstFrom(qs, i + 1)
  }

  /** `_get_next_question`: among the active questions not excluded, one at
      the current difficulty, else at the nearest harder rung, else the
      first one left; nothing when none is left. */
  function NextQuestion(questions: seq<Question>, current: Difficulty, exclude: set<nat>): (r: Option<Question>)
    ensures r.None? <==> forall x <- questions :: !x.active || x.id in exclude
    ensures r.Some? ==> r.value in questions && r.value.active && r.value.id !in exclude
    ensures r.Some? && (exists x <- Available(questions, exclude) :: Rung(x.difficulty) >= Rung(current)) ==>
      Rung(r.value.difficulty) >= Rung(current) &&
      forall x <- Available(questions, exclude) :: Rung(x.difficulty) >= Rung(current) ==>
        Rung(r.value.difficulty) <= Rung(x.difficulty)
    ensures r.Some? && (forall x <- Available(questions, exclude) :: Rung(x.difficulty) < Rung(current)) ==>
      r.value == Available(questions, exclude)[0]
  {
    var available := Available(questions, exclude);
    if available == [] then None
    else
      LadderIndexesRungs(current);
      match FirstAt(available, current)
      case Some(x) => Some(x)
      case None =>
        match FirstFrom(available, Rung(current))
        case Some(x) => Some(x)
        case None => Some(available[0])
  }

  // ---------------------------------------------------------------- answer submission

  datatype AnswerOption = AnswerOption(id: nat, questionId: nat, correct: bool)

  datatype Rejection = AlreadyCompleted | NotCompleted | AlreadyAnswered | ForeignOption | InactiveQuestion

  /** The quiz after an answer, with the points it earned. */
  datatype Answered = Answered(quiz: Quiz, points: nat)

  /** `submit_answer`: a completed quiz, an inactive question (the lookup
      fails), a question already answered, or an option of another question
      is rejected; otherwise the attempt is recorded, the counters advance
      and the difficulty adapts. */
  function SubmitAnswer(q: Quiz, question: Question, option: AnswerOption, time: nat): (r: Result<Answered, Rejection>)
    requires Consistent(q)
    ensures q.completed ==> r == Err(AlreadyCompleted)
    ensures r.Err? <==> q.completed || !question.active || question.id in q.answered || option.questionId != question.id
    ensures r.Ok? ==> r.value.points == (if option.correct then question.points else 0)
    ensures r.Ok? ==> Consistent(r.value.quiz)
    ensures r.Ok? ==> r.value.quiz.answered == q.answered + [question.id]
    ensures r.Ok? ==> r.value.quiz.totalScore == q.totalScore + r.value.points
    ensures r.Ok? ==> r.value.quiz.maxScore == q.maxScore + question.points
    ensures r.Ok? ==> r.value.quiz.correctAnswers == q.correctAnswers + (if option.correct then 1 else 0)
    ensures r.Ok? ==> r.value.quiz.timeTaken == q.timeTaken + time && !r.value.quiz.completed
    ensures r.Ok? ==> r.value.quiz.totalQuestions == q.totalQuestions + 1
    ensures r.Ok? ==> r.value.quiz.difficulty == UpdateDifficulty(r.value.quiz.(difficulty := q.difficulty))
  {
    if q.completed then Err(AlreadyCompleted)
    else if !question.active then Err(InactiveQuestion)
    else if question.id in q.answered then Err(AlreadyAnswered)
    else if option.questionId != question.id then Err(ForeignOption)
    else
      var points := if option.correct then question.points else 0;
      var counted := q.(totalScore := q.totalScore + points,
                        maxScore := q.maxScore + question.points,
                        totalQuestions := q.totalQuestions + 1,
                        correctAnswers := q.correctAnswers + (if option.correct then 1 else 0),
                        timeTaken := q.timeTaken + time,
                        answered := q.answered + [question.id]);
      Ok(Answered(counted.(difficulty := UpdateDifficulty(counted)), points))
  }

  /** Each accepted answer moves the difficulty by at most one rung. */
  lemma AnswerMovesOneRung(q: Quiz, question: Question, option: AnswerOption, time: nat)
    requires Consistent(q)
    requires SubmitAnswer(q, question, option, time).Ok?
    ensures var d := SubmitAnswer(q, question, option, time).value.quiz.difficulty;
      Rung(q.difficulty) - 1 <= Rung(d) <= Rung(q.difficulty) + 1
  {
  }

  /** A run of accepted answers from a fresh quiz keeps every counter
      consistent and counts one question per answer. */
  lemma {:induction false} AnswersKeepConsistent(q: Quiz, steps: seq<(Question, AnswerOption, nat)>)
    requires Consistent(q)
    ensures Consistent(Replay(q, steps))
    ensures |Replay(q, steps).answered| <= |q.answered| + |steps|
    decreases |steps|
  {
    if steps != [] {
      var (question, option, time) := steps[0];
      match SubmitAnswer(q, question, option, time)
      case Ok(a) => AnswersKeepConsistent(a.quiz, steps[1..]);
      case Err(_) => AnswersKeepConsistent(q, steps[1..]);
    }
  }

  /** Submits the answers in turn, a rejected one leaving the quiz as it was. */
  function Replay(q: Quiz, steps: seq<(Question, AnswerOption, nat)>): Quiz
    requires Consistent(q)
    decreases |steps|
  {
    if steps == [] then q
    else
      var (question, option, time) := steps[0];
      match SubmitAnswer(q, question, option, time)
      case Ok(a) => Replay(a.quiz, steps[1..])
      case Err(_) => Replay(q, steps[1..])
  }

  /** `complete`: rejected once completed, otherwise marks the quiz completed. */
  function Complete(q: Quiz): (r: Result<Quiz, Rejection>)
    ensures r.Err? <==> q.completed
    ensures r.Ok? ==> r.value.completed && r.value == q.(completed := true)
  {
    if q.completed then Err(AlreadyCompleted) else Ok(q.(completed := true))
  }

  /** `get_question`: rejected once completed; otherwise the next question not
      yet answered, or none. */
  function GetQuestion(q: Quiz, questions: seq<Question>): (r: Result<Option<Question>, Rejection>)
    ensures r.Err? <==> q.completed
    ensures r.Ok? && r.value.Some? ==> r.value.value.id !in q.answered && r.value.value in questions
  {
    if q.completed then Err(AlreadyCompleted)
    else Ok(NextQuestion(questions, q.difficulty, set id | id in q.answered))
  }

  /** `start`: resumes the user's unfinished quiz for the category if there
      is one, else opens a fresh quiz with its first question. */
  function Start(unfinished: Option<Quiz>, questions: seq<Question>): (r: (Quiz, Option<Question>))
    ensures unfinished.Some? ==> r.0 == unfinished.value && r.1 == None
    ensures unfinished.None? ==> r.0 == NewQuiz && r.1 == NextQuestion(questions, Easy, {})
  {
    if unfinished.Some? then (unfinished.value, None)
    else (NewQuiz, NextQuestion(questions, Easy, {}))
  }

  // ---------------------------------------------------------------- results

  datatype Attempt = Attempt(difficulty: Difficulty, correct: bool)

  datatype DifficultyStats = DifficultyStats(difficulty: Difficulty, total: nat, correct: nat, accuracy: real)

  function AtDifficulty(d: Difficulty): Attempt -> bool
  {
    (a: Attempt) => a.difficulty == d
  }

  function IsCorrect(a: Attempt): bool
  {
    a.correct
  }

  function AttemptsAt(attempts: seq<Attempt>, d: Difficulty): seq<Attempt>
  {
    Seqs.Filter(attempts, AtDifficulty(d))
  }

  function CorrectOf(attempts: seq<Attempt>): seq<Attempt>
  {
    Seqs.Filter(attempts, IsCorrect)
  }

  /** One statistics row: `total`, `correct` and the rounded accuracy. */
  function Row(attempts: seq<Attempt>, d: Difficulty): (s: DifficultyStats)
    ensures s.difficulty == d && s.total == |AttemptsAt(attempts, d)|
    ensures s.correct == |CorrectOf(AttemptsAt(attempts, d))| <= s.total
    ensures 0.0 <= s.accuracy <= 100.0
  {
    var at := AttemptsAt(attempts, d);
    var correct := |CorrectOf(at)|;
    DifficultyStats(d, |at|, correct, Percent(correct, |at|))
  }

  /** The statistics rows for the rungs from `i` on that have attempts. */
  function StatsFrom(attempts: seq<Attempt>, i: nat): (r: seq<DifficultyStats>)
    requires i <= 4
    decreases 4 - i
  {
    if i == 4 then []
    else
      var rest := StatsFrom(attempts, i + 1);
      if AttemptsAt(attempts, Ladder[i]) == [] then rest
      else [Row(attempts, Ladder[i])] + rest
  }

  /** The rows are exactly those of the rungs from `i` on that have attempts. */
  lemma StatsFromRows(attempts: seq<Attempt>, i: nat)
    requires i <= 4
    ensures forall s <- StatsFrom(attempts, i) :: s == Row(attempts, s.difficulty) && s.total > 0 && i <= Rung(s.difficulty)
    ensures forall d: Difficulty :: i <= Rung(d) ==>
      ((exists s <- StatsFrom(attempts, i) :: s.difficulty == d) <==> AttemptsAt(attempts, d) != [])
  {
    StatsFromShape(attempts, i);
    StatsFromCover(attempts, i);
  }

  /** Rung `i` contributes its row exactly when it has attempts. */
  lemma StatsFromStep(attempts: seq<Attempt>, i: nat)
    requires i < 4
    ensures Rung(Ladder[i]) == i
    ensures AttemptsAt(attempts, Ladder[i]) == [] ==> StatsFrom(attempts, i) == StatsFrom(attempts, i + 1)
    ensures AttemptsAt(attempts, Ladder[i]) != [] ==>
      StatsFrom(attempts, i) == [Row(attempts, Ladder[i])] + StatsFrom(attempts, i + 1)
  {
  }

  /** Every row is the statistics of its own rung, which has attempts. */
  lemma {:induction false} StatsFromShape(attempts: seq<Attempt>, i: nat)
    requires i <= 4
    ensures forall s <- StatsFrom(attempts, i) :: s == Row(attempts, s.difficulty) && s.total > 0 && i <= Rung(s.difficulty)
    decreases 4 - i
  {
    if i < 4 {
      StatsFromShape(attempts, i + 1);
      StatsFromStep(attempts, i);
      var rest := StatsFrom(attempts, i + 1);
      assert forall s <- StatsFrom(attempts, i) :: s in rest || s == Row(attempts, Ladder[i]);
    }
  }

  /** Every rung from `i` on with attempts has a row. */
  lemma StatsFromCover(attempts: seq<Attempt>, i: nat)
    requires i <= 4
    ensures forall d: Difficulty :: i <= Rung(d) ==>
      ((exists s <- StatsFrom(attempts, i) :: s.difficulty == d) <==> AttemptsAt(attempts, d) != [])
  {
    forall d: Difficulty | i <= Rung(d)
      ensures (exists s <- StatsFrom(attempts, i) :: s.difficulty == d) <==> AttemptsAt(attempts, d) != []
    {
      StatsFromCoverAt(attempts, i, d);
    }
  }

  /** Rung `d`, from `i` on, has a row exactly when it has attempts. */
  lemma {:induction false} StatsFromCoverAt(attempts: seq<Attempt>, i: nat, d: Difficulty)
    requires i <= Rung(d)
    ensures (exists s <- StatsFrom(attempts, i) :: s.difficulty == d) <==> AttemptsAt(attempts, d) != []
    decreases 4 - i
  {
    LadderIndexesRungs(d);
    if Rung(d) == i {
      OwnRungCovered(attempts, d);
    } else {
      StatsFromCoverAt(attempts, i + 1, d);
      EarlierRungSkipped(attempts, i, d);
    }
  }

  /** At its own rung, `d` has a row exactly when it has attempts. */
  lemma OwnRungCovered(attempts: seq<Attempt>, d: Difficulty)
    ensures (exists s <- StatsFrom(attempts, Rung(d)) :: s.difficulty == d) <==> AttemptsAt(attempts, d) != []
  {
    var i := Rung(d);
    LadderIndexesRungs(d);
    StatsFromStep(attempts, i);
    StatsFromShape(attempts, i + 1);
    assert forall s <- StatsFrom(attempts, i + 1) :: s.difficulty != d;
    if AttemptsAt(attempts, d) != [] {
      assert StatsFrom(attempts, i)[0] == Row(attempts, d);
    }
  }

  /** The row of rung `i` is not the row of a later rung `d`. */
  lemma EarlierRungSkipped(attempts: seq<Attempt>, i: nat, d: Difficulty)
    requires i < Rung(d)
    ensures (exists s <- StatsFrom(attempts, i) :: s.difficulty == d) <==> (exists s <- StatsFrom(attempts, i + 1) :: s.difficulty == d)
  {
    LadderIndexesRungs(d);
    StatsFromStep(attempts, i);
    assert forall s <- StatsFrom(attempts, i) :: s in StatsFrom(attempts, i + 1) || s.difficulty == Ladder[i];
  }

  /** `results`: only for a completed quiz; one row per difficulty that has
      attempts, easiest first. */
  function Results(q: Quiz, attempts: seq<Attempt>): (r: Result<seq<DifficultyStats>, Rejection>)
    ensures r.Err? <==> !q.completed
    ensures r.Ok? ==> forall s <- r.value :: s == Row(attempts, s.difficulty) && s.total > 0
    ensures r.Ok? ==> forall d: Difficulty :: (exists s <- r.value :: s.difficulty == d) <==> AttemptsAt(attempts, d) != []
  {
    if !q.completed then Err(NotCompleted)
    else
      StatsFromRows(attempts, 0);
      Ok(StatsFrom(attempts, 0))
  }

  /** The attempts the statistics rows account for together. */
  function Totals(rows: seq<DifficultyStats>): nat
  {
    if rows == [] then 0 else rows[0].total + Totals(rows[1..])
  }

  /** The attempts at the rungs from `i` on. */
  function RungTotal(attempts: seq<Attempt>, i: nat): nat
    requires i <= 4
    decreases 4 - i
  {
    if i == 4 then 0 else |AttemptsAt(attempts, Ladder[i])| + RungTotal(attempts, i + 1)
  }

  /** The results account for every attempt exactly once: their totals add
      up to the number of questions answered. */
  lemma ResultsCountEveryAttempt(q: Quiz, attempts: seq<Attempt>)
    requires q.completed
    ensures Totals(Results(q, attempts).value) == |attempts|
  {
    TotalsFrom(attempts, 0);
    RungsPartition(attempts);
  }

  /** The rows from rung `i` on hold the attempts at those rungs. */
  lemma {:induction false} TotalsFrom(attempts: seq<Attempt>, i: nat)
    requires i <= 4
    ensures Totals(StatsFrom(attempts, i)) == RungTotal(attempts, i)
    decreases 4 - i
  {
    if i < 4 {
      TotalsFrom(attempts, i + 1);
      StatsFromStep(attempts, i);
      if AttemptsAt(attempts, Ladder[i]) != [] {
        var rows := StatsFrom(attempts, i);
        assert rows[1..] == StatsFrom(attempts, i + 1);
      }
    }
  }

  /** Every attempt is at exactly one rung. */
  lemma {:induction false} RungsPartition(attempts: seq<Attempt>)
    ensures RungTotal(attempts, 0) == |attempts|
  {
    if attempts != [] {
      var rest := attempts[1..];
      RungsPartition(rest);
      RungTotalUnfolds(attempts);
      RungTotalUnfolds(rest);
      AttemptsAtCons(attempts, Easy);
      AttemptsAtCons(attempts, Medium);
      AttemptsAtCons(attempts, Hard);
      AttemptsAtCons(attempts, Expert);
      OneRungEach(attempts[0].difficulty,
                  |AttemptsAt(attempts, Easy)|, |AttemptsAt(attempts, Medium)|,
                  |AttemptsAt(attempts, Hard)|, |AttemptsAt(attempts, Expert)|,
                  |AttemptsAt(rest, Easy)|, |AttemptsAt(rest, Medium)|,
                  |AttemptsAt(rest, Hard)|, |AttemptsAt(rest, Expert)|);
    }
  }

  /** Adding one attempt at rung `d` adds one to exactly one rung count. */
  lemma OneRungEach(d: Difficulty, e: int, m: int, h: int, x: int, e': int, m': int, h': int, x': int)
    requires e == (if d == Easy then 1 else 0) + e' && m == (if d == Medium then 1 else 0) + m'
    requires h == (if d == Hard then 1 else 0) + h' && x == (if d == Expert then 1 else 0) + x'
    ensures e + m + h + x == e' + m' + h' + x' + 1
  {
  }

  lemma AttemptsAtCons(attempts: seq<Attempt>, d: Difficulty)
    requires attempts != []
    ensures |AttemptsAt(attempts, d)| == (if attempts[0].difficulty == d then 1 else 0) + |AttemptsAt(attempts[1..], d)|
  {
  }

  lemma RungTotalUnfolds(attempts: seq<Attempt>)
    ensures RungTotal(attempts, 0) == |AttemptsAt(attempts, Easy)| + |AttemptsAt(attempts, Medium)|
                                      + |AttemptsAt(attempts, Hard)| + |AttemptsAt(attempts, Expert)|
  {
    assert RungTotal(attempts, 3) == |AttemptsAt(attempts, Expert)|;
  }

  // ---------------------------------------------------------------- skill profile

  datatype SkillStat = SkillStat(level: real, attempts: nat, lastScore: real)

  /** `skill_data`, in its JSON insertion order. */
  type Profile = seq<(string, SkillStat)>

  predicate UniqueSkills(p: Profile)
  {
    forall i, j :: 0 <= i < j < |p| ==> p[i].0 != p[j].0
  }

  function Skills(p: Profile): set<string>
  {
    set e | e in p :: e.0
  }

  /** The position of `name` in the profile. */
  function Find(p: Profile, name: string): (r: Option<nat>)
    ensures r.Some? ==> r.value < |p| && p[r.value].0 == name
    ensures r.None? <==> name !in Skills(p)
  {
    if p == [] then None
    else if p[0].0 == name then Some(0)
    else
      match Find(p[1..], name)
      case Some(i) => Some(i + 1)
      case None =>
        assert forall e <- p :: e == p[0] || e in p[1..];
        None
  }

  /** `skill_data.get(name)`, with the fresh entry `update_skill` creates. */
  function StatOf(p: Profile, name: string): SkillStat
  {
    match Find(p, name)
    case Some(i) => p[i].1
    case None => SkillStat(0.0, 0, 0.0)
  }

  /** `(level * (n - 1) + performance) / n` for the `n`-th attempt. */
  function RunningMean(level: real, n: nat, performance: real): (m: real)
    requires n >= 1
    ensures level <= performance ==> level <= m <= performance
    ensures performance <= level ==> performance <= m <= level
  {
    var k := (n - 1) as real;
    var m := (level * k + performance) / n as real;
    assert n as real == k + 1.0;
    assert m * (k + 1.0) == level * k + performance;
    MeanOfTwo(level, performance, k, m);
    m
  }

  /** A weighted mean of `a` (weight `k`) and `b` (weight 1) lies between them. */
  lemma MeanOfTwo(a: real, b: real, k: real, m: real)
    requires k >= 0.0 && m * (k + 1.0) == a * k + b
    ensures a <= b ==> a <= m <= b
    ensures b <= a ==> b <= m <= a
  {
    assert (m - a) * (k + 1.0) == b - a;
    assert (b - m) * (k + 1.0) == k * (b - a);
    if a <= b {
      MulLessEq(k, 0.0, b - a);
      if m < a { MulLess(k + 1.0, m, a); }
      if m > b { MulLess(k + 1.0, b, m); }
    } else {
      MulLessEq(k, 0.0, a - b);
      if m > a { MulLess(k + 1.0, a, m); }
      if m < b { MulLess(k + 1.0, m, b); }
    }
  }

  /** `UserSkillProfile.update_skill`: the entry for `name` (fresh at level 0
      if unseen) gets one more attempt, the performance as last score and the
      running mean, rounded to hundredths, as level. Other entries and the
      order of the profile stay as they were; an unseen skill goes last. */
  function UpdateSkill(p: Profile, name: string, performance: real): (r: Profile)
    requires UniqueSkills(p)
    ensures UniqueSkills(r)
    ensures Skills(r) == Skills(p) + {name}
    ensures name in Skills(p) ==> |r| == |p|
    ensures name !in Skills(p) ==> |r| == |p| + 1 && r[..|p|] == p && r[|p|].0 == name
    ensures StatOf(r, name).attempts == StatOf(p, name).attempts + 1
    ensures StatOf(r, name).lastScore == performance
    ensures StatOf(r, name).level == Round2(RunningMean(StatOf(p, name).level, StatOf(p, name).attempts + 1, performance))
    ensures forall k :: k != name ==> StatOf(r, k) == StatOf(p, k)
  {
    var old_ := StatOf(p, name);
    var n := old_.attempts + 1;
    var stat := SkillStat(Round2(RunningMean(old_.level, n, performance)), n, performance);
    match Find(p, name)
    case Some(i) =>
      var r := p[i := (name, stat)];
      assert forall e <- r :: e == (name, stat) || e in p;
      assert forall j :: 0 <= j < |p| && j != i ==> r[j] == p[j] && r[j] in r;
      assert forall e <- p :: e == p[i] || e in r;
      FindAfterReplace(p, i, stat);
      r
    case None =>
      var r := p + [(name, stat)];
      assert forall e <- r :: e == (name, stat) || e in p;
      FindAfterAppend(p, name, stat);
      r
  }

  lemma FindAfterReplace(p: Profile, i: nat, stat: SkillStat)
    requires UniqueSkills(p) && i < |p|
    ensures UniqueSkills(p[i := (p[i].0, stat)])
    ensures Find(p[i := (p[i].0, stat)], p[i].0) == Some(i)
    ensures forall k :: k != p[i].0 ==> Find(p[i := (p[i].0, stat)], k) == Find(p, k)
  {
    var r := p[i := (p[i].0, stat)];
    FindIsFirst(r, p[i].0, i);
    forall k | k != p[i].0 ensures Find(r, k) == Find(p, k) {
      FindSameNames(p, r, k);
    }
  }

  lemma FindAfterAppend(p: Profile, name: string, stat: SkillStat)
    requires UniqueSkills(p) && name !in Skills(p)
    ensures UniqueSkills(p + [(name, stat)])
    ensures Find(p + [(name, stat)], name) == Some(|p|)
    ensures forall k :: k != name ==> Find(p + [(name, stat)], k) == Find(p, k)
  {
    var r := p + [(name, stat)];
    assert forall j :: 0 <= j < |p| ==> p[j] in p && p[j].0 in Skills(p);
    FindIsFirst(r, name, |p|);
    forall k | k != name ensures Find(r, k) == Find(p, k) {
      FindPrefix(p, [(name, stat)], k);
    }
  }

  /** In a profile with unique names, the entry named `name` is where `Find` looks. */
  lemma {:induction false} FindIsFirst(p: Profile, name: string, i: nat)
    requires UniqueSkills(p) && i < |p| && p[i].0 == name
    ensures Find(p, name) == Some(i)
  {
    if i > 0 {
      assert p[0].0 != name;
      FindIsFirst(p[1..], name, i - 1);
    }
  }

  /** Two profiles with the same names in the same places find alike. */
  lemma {:induction false} FindSameNames(p: Profile, r: Profile, k: string)
    requires |p| == |r| && forall j :: 0 <= j < |p| ==> p[j].0 == r[j].0
    ensures Find(p, k) == Find(r, k)
  {
    if p != [] {
      FindSameNames(p[1..], r[1..], k);
    }
  }

  lemma {:induction false} FindPrefix(p: Profile, tail: Profile, k: string)
    requires k !in Skills(tail)
    ensures Find(p + tail, k) == Find(p, k)
  {
    if p == [] {
      assert p + tail == tail;
    } else {
      assert (p + tail)[1..] == p[1..] + tail;
      FindPrefix(p[1..], tail, k);
    }
  }

  /** When level and performance are whole hundredths, the stored level lies
      between them. */
  lemma UpdateSkillBetween(p: Profile, name: string, performance: real)
    requires UniqueSkills(p)
    requires Hundredths(StatOf(p, name).level) && Hundredths(performance)
    ensures var before, after := StatOf(p, name).level, StatOf(UpdateSkill(p, name, performance), name).level;
      (before <= performance ==> before <= after <= performance) &&
      (performance <= before ==> performance <= after <= before)
  {
    var before := StatOf(p, name).level;
    var m := RunningMean(before, StatOf(p, name).attempts + 1, performance);
    if before <= performance {
      Round2Between(before, m, performance);
    } else {
      Round2Between(performance, m, before);
    }
  }

  /** A first attempt sets the level to the performance itself (rounded). */
  lemma FirstAttemptTakesPerformance(p: Profile, name: string, performance: real)
    requires UniqueSkills(p) && name !in Skills(p)
    ensures StatOf(UpdateSkill(p, name, performance), name).level == Round2(performance)
  {
    var m := RunningMean(0.0, 1, performance);
    assert m == performance;
  }

  /** `_update_skill_profile`: each text tag of the question is updated with
      100 for a correct answer and 0 otherwise; other tags are skipped. */
  function UpdateTags(p: Profile, tags: seq<Tag>, correct: bool): (r: Profile)
    requires UniqueSkills(p)
    ensures UniqueSkills(r)
    ensures Skills(r) == Skills(p) + set t | t in tags && t.Named? :: t.name
    decreases |tags|
  {
    if tags == [] then p
    else
      var next := TagStep(p, tags[0], if correct then 100.0 else 0.0);
      var r := UpdateTags(next, tags[1..], correct);
      assert forall t <- tags :: t == tags[0] || t in tags[1..];
      r
  }

  /** The profile after one tag of `_update_skill_profile`. */
  function TagStep(p: Profile, tag: Tag, perf: real): (r: Profile)
    requires UniqueSkills(p)
    ensures UniqueSkills(r)
    ensures forall k :: tag != Named(k) ==> StatOf(r, k) == StatOf(p, k)
    ensures tag.Named? ==> StatOf(r, tag.name).lastScore == perf
    ensures tag.Named? ==> StatOf(r, tag.name).attempts == StatOf(p, tag.name).attempts + 1
  {
    if tag.Named? then UpdateSkill(p, tag.name, perf) else p
  }

  /** A skill no tag names keeps its entry. */
  lemma {:induction false} UpdateTagsKeeps(p: Profile, tags: seq<Tag>, correct: bool, k: string)
    requires UniqueSkills(p) && Named(k) !in tags
    ensures StatOf(UpdateTags(p, tags, correct), k) == StatOf(p, k)
    decreases |tags|
  {
    if tags != [] {
      var next := TagStep(p, tags[0], if correct then 100.0 else 0.0);
      assert UpdateTags(p, tags, correct) == UpdateTags(next, tags[1..], correct);
      assert tags[0] in tags;
      assert forall t <- tags[1..] :: t in tags;
      UpdateTagsKeeps(next, tags[1..], correct, k);
    }
  }

  /** A named skill's last score is the answer's 100 or 0. */
  lemma {:induction false} UpdateTagsLastScore(p: Profile, tags: seq<Tag>, correct: bool, k: string)
    requires UniqueSkills(p) && Named(k) in tags
    ensures StatOf(UpdateTags(p, tags, correct), k).lastScore == (if correct then 100.0 else 0.0)
    decreases |tags|
  {
    var next := TagStep(p, tags[0], if correct then 100.0 else 0.0);
    assert UpdateTags(p, tags, correct) == UpdateTags(next, tags[1..], correct);
    if Named(k) in tags[1..] {
      UpdateTagsLastScore(next, tags[1..], correct, k);
    } else {
      assert tags[0] == Named(k) by {
        assert forall t <- tags :: t == tags[0] || t in tags[1..];
      }
      UpdateTagsKeeps(next, tags[1..], correct, k);
    }
  }

  /** A skill gets one attempt per time a tag names it. */
  lemma {:induction false} UpdateTagsAttempts(p: Profile, tags: seq<Tag>, correct: bool, k: string)
    requires UniqueSkills(p)
    ensures StatOf(UpdateTags(p, tags, correct), k).attempts == StatOf(p, k).attempts + multiset(tags)[Named(k)]
    decreases |tags|
  {
    if tags != [] {
      var next := TagStep(p, tags[0], if correct then 100.0 else 0.0);
      assert UpdateTags(p, tags, correct) == UpdateTags(next, tags[1..], correct);
      UpdateTagsAttempts(next, tags[1..], correct, k);
      var here := if tags[0] == Named(k) then 1 else 0;
      assert StatOf(next, k).attempts == StatOf(p, k).attempts + here;
      CountHead(tags, Named(k));
    }
  }

  lemma CountHead(tags: seq<Tag>, t: Tag)
    requires tags != []
    ensures multiset(tags)[t] == (if tags[0] == t then 1 else 0) + multiset(tags[1..])[t]
  {
    assert tags == [tags[0]] + tags[1..];
  }

  function LevelKey(e: (string, SkillStat)): Key
  {
    Key(0, e.1.level)
  }

  function WeakKey(e: (string, SkillStat)): Key
  {
    Key(0, -e.1.level)
  }

  /** `get_top_skills`: the skills by level, highest first (ties in profile
      order), at most `limit` of them. */
  function TopSkills(p: Profile, limit: nat): (r: Profile)
    ensures |r| == Min(limit, |p|)
    ensures Descending(r, LevelKey)
    ensures multiset(r) <= multiset(p)
    ensures forall e <- r :: e in p
  {
    TopN(p, LevelKey, limit)
  }

  /** A skill left out of the top list is at no higher level than any skill in it. */
  lemma TopSkillsKeepBest(p: Profile, limit: nat, e: (string, SkillStat))
    requires e in p && e !in TopSkills(p, limit)
    ensures forall x <- TopSkills(p, limit) :: e.1.level <= x.1.level
  {
    var sorted := SortDescending(p, LevelKey);
    assert e in multiset(p);
    TakeKeepsLargest(sorted, LevelKey, limit, e);
  }

  function Below(threshold: real): ((string, SkillStat)) -> bool
  {
    (e: (string, SkillStat)) => e.1.level < threshold
  }

  /** `get_weak_skills`: the skills below `threshold`, lowest level first
      (ties in profile order), at most `limit` of them. */
  function WeakSkills(p: Profile, threshold: real, limit: nat): (r: Profile)
    ensures |r| == Min(limit, |Seqs.Filter(p, Below(threshold))|)
    ensures multiset(r) <= multiset(Seqs.Filter(p, Below(threshold)))
    ensures forall e <- r :: e in p && e.1.level < threshold
    ensures Descending(r, WeakKey)
    ensures forall i, j :: 0 <= i < j < |r| ==> r[i].1.level <= r[j].1.level
  {
    var weak := Seqs.Filter(p, Below(threshold));
    var r := TopN(weak, WeakKey, limit);
    assert forall i, j :: 0 <= i < j < |r| ==> !Above(WeakKey(r[j]), WeakKey(r[i]));
    r
  }

  /** Every weak skill is listed when there are at most `limit` of them, and
      one left out is at no lower level than any skill listed. */
  lemma WeakSkillsKeepWeakest(p: Profile, threshold: real, limit: nat, e: (string, SkillStat))
    requires e in p && e.1.level < threshold
    ensures |Seqs.Filter(p, Below(threshold))| <= limit ==> e in WeakSkills(p, threshold, limit)
    ensures e !in WeakSkills(p, threshold, limit) ==> forall x <- WeakSkills(p, threshold, limit) :: x.1.level <= e.1.level
  {
    var weak := Seqs.Filter(p, Below(threshold));
    assert Below(threshold)(e);
    var sorted := SortDescending(weak, WeakKey);
    assert e in multiset(weak);
    assert e in sorted;
    if e !in WeakSkills(p, threshold, limit) {
      TakeKeepsLargest(sorted, WeakKey, limit, e);
    }
  }
}

=== FILE: explainable_ai.dfy ===
/** The explainable-AI helpers around the career classifier
    (`Backend/utils/explainable_ai.py`): impact and confidence levels, the
    case-insensitive role lookup, the reliability score of a calibration
    curve, the synthetic rows the analyses perturb, and the counterfactual
    tips. The trained classifier is a parameter: a `Classifier` record of its
    `predict` and `predict_proba` functions. */
module ExplainableAi {
  import opened Wrappers
  import opened Text
  import Seqs
  import opened Sorting
  import Numbers

  const FeatureNames: seq<string> := [
    "Database Fundamentals", "Computer Architecture", "Distributed Computing",
    "Cyber Security", "Networking", "Software Development", "Programming Skills",
    "Project Management", "Computer Forensics", "Autonomous Systems",
    "Machine Learning", "Information Systems", "Software Engineering",
    "Business Analysis", "Communication Skills", "Data Science",
    "Troubleshooting", "Graphics Designing", "Technical Writing"]

  /** `job_role_mapping`: class `i` is `JobRoles[i]`. */
  const JobRoles: seq<string> := [
    "Applications Developer", "CRM Technical Developer", "Database Developer",
    "Mobile Applications Developer", "Network Security Engineer", "Software Developer",
    "Software Engineer", "Software Quality Assurance (QA) / Testing",
    "Systems Security Administrator", "Technical Support", "UX Designer", "Web Developer"]

  // ---------------------------------------------------------------- levels

  datatype Level = High | Medium | Low

  /** `_categorize_impact`: above 0.1 is high, above 0.05 medium, the rest low. */
  function ImpactLevel(score: real): (l: Level)
    ensures l == High <==> score > 0.1
    ensures l == Medium <==> 0.05 < score <= 0.1
    ensures l == Low <==> score <= 0.05
  {
    if score > 0.1 then High else if score > 0.05 then Medium else Low
  }

  /** The band of `_generate_confidence_bands` a probability falls in: above
      0.7, from 0.3 to 0.7 inclusive, or below 0.3. */
  function ConfidenceLevel(p: real): (l: Level)
    ensures l == High <==> p > 0.7
    ensures l == Medium <==> 0.3 <= p <= 0.7
    ensures l == Low <==> p < 0.3
  {
    if p > 0.7 then High else if p >= 0.3 then Medium else Low
  }

  /** A larger score never lands in a lower impact level. */
  function Rank(l: Level): nat
  {
    match l
    case High => 2
    case Medium => 1
    case Low => 0
  }

  lemma ImpactMonotone(x: real, y: real)
    requires x <= y
    ensures Rank(ImpactLevel(x)) <= Rank(ImpactLevel(y))
    ensures Rank(ConfidenceLevel(x)) <= Rank(ConfidenceLevel(y))
  {
  }

  // ---------------------------------------------------------------- role lookup

  /** `_get_role_class`: the first class whose name equals `name` ignoring
      case, or nothing. */
  function RoleClass(roles: seq<string>, name: string): (r: Option<nat>)
    ensures r.Some? ==> r.value < |roles| && Lower(roles[r.value]) == Lower(name)
    ensures r.Some? ==> forall j :: 0 <= j < r.value ==> Lower(roles[j]) != Lower(name)
    ensures r.None? <==> forall j :: 0 <= j < |roles| ==> Lower(roles[j]) != Lower(name)
  {
    RoleClassFrom(roles, name, 0)
  }

  function RoleClassFrom(roles: seq<string>, name: string, i: nat): (r: Option<nat>)
    requires i <= |roles|
    ensures r.Some? ==> i <= r.value < |roles| && Lower(roles[r.value]) == Lower(name)
    ensures r.Some? ==> forall j :: i <= j < r.value ==> Lower(roles[j]) != Lower(name)
    ensures r.None? <==> forall j :: i <= j < |roles| ==> Lower(roles[j]) != Lower(name)
    decreases |roles| - i
  {
    if i == |roles| then None
    else if Lower(roles[i]) == Lower(name) then Some(i)
    else RoleClassFrom(roles, name, i + 1)
  }

  /** The lookup depends on the name only up to case. */
  lemma RoleClassIgnoresCase(roles: seq<string>, a: string, b: string)
    requires Lower(a) == Lower(b)
    ensures RoleClass(roles, a) == RoleClass(roles, b)
  {
  }

  /** When no two roles differ only in case, every role is found under its
      own name. */
  lemma RoleClassFindsRole(roles: seq<string>, i: nat)
    requires i < |roles|
    requires forall j, k :: 0 <= j < k < |roles| ==> Lower(roles[j]) != Lower(roles[k])
    ensures RoleClass(roles, roles[i]) == Some(i)
  {
    var r := RoleClass(roles, roles[i]);
    assert r.Some? by {
      assert Lower(roles[i]) == Lower(roles[i]);
    }
  }

  // ---------------------------------------------------------------- reliability

  function Abs(x: real): real
  {
    if x < 0.0 then -x else x
  }

  function AbsDiffs(t: seq<real>, p: seq<real>): (d: seq<real>)
    requires |t| == |p|
    ensures |d| == |t|
    ensures forall i :: 0 <= i < |d| ==> d[i] == Abs(t[i] - p[i])
  {
    seq(|t|, i requires 0 <= i < |t| => Abs(t[i] - p[i]))
  }

  /** `np.mean(np.abs(prob_true - prob_pred))`, the expected calibration error. */
  function Ece(t: seq<real>, p: seq<real>): real
    requires |t| == |p| && t != []
  {
    Seqs.Sum(AbsDiffs(t, p)) / |t| as real
  }

  /** `_calculate_reliability_score`: 0 without data, else `max(0, 1 - ece)`.
      It lies in [0, 1] and is 1 exactly when the curve is the diagonal. */
  function Reliability(t: seq<real>, p: seq<real>): (r: real)
    requires |t| == |p|
    ensures 0.0 <= r <= 1.0
    ensures t == [] ==> r == 0.0
    ensures t != [] ==> (r == 1.0 <==> t == p)
  {
    if t == [] then 0.0
    else
      EceZeroIff(t, p);
      var score := 1.0 - Ece(t, p);
      if score > 0.0 then score else 0.0
  }

  /** The error is non-negative and zero exactly when predicted and observed agree. */
  lemma EceZeroIff(t: seq<real>, p: seq<real>)
    requires |t| == |p| && t != []
    ensures Ece(t, p) >= 0.0
    ensures Ece(t, p) == 0.0 <==> t == p
  {
    var d := AbsDiffs(t, p);
    assert forall x <- d :: x >= 0.0;
    Seqs.SumNonNegative(d);
    Seqs.SumZero(d);
    if t == p {
      assert forall i :: 0 <= i < |d| ==> d[i] == 0.0;
    }
    if forall i :: 0 <= i < |d| ==> d[i] == 0.0 {
      assert forall i :: 0 <= i < |t| ==> t[i] == p[i] by {
        forall i | 0 <= i < |t| ensures t[i] == p[i] {
          assert d[i] == Abs(t[i] - p[i]) == 0.0;
        }
      }
    }
  }

  /** For two curves of probabilities the `max(0, ...)` never clips: the
      score is exactly one minus the error. */
  lemma ProbabilitiesNeverClip(t: seq<real>, p: seq<real>)
    requires |t| == |p| && t != []
    requires forall i :: 0 <= i < |t| ==> 0.0 <= t[i] <= 1.0 && 0.0 <= p[i] <= 1.0
    ensures Reliability(t, p) == 1.0 - Ece(t, p)
  {
    var d := AbsDiffs(t, p);
    assert forall x <- d :: x <= 1.0;
    Seqs.SumAtMost(d, 1.0);
    EceZeroIff(t, p);
    assert Seqs.Sum(d) / |t| as real <= 1.0;
    if Ece(t, p) == 1.0 {
      assert Reliability(t, p) == 0.0;
    }
  }

  // ---------------------------------------------------------------- synthetic rows

  /** `np.clip(x, 0, 10)`. */
  function Clip(x: real): (r: real)
    ensures 0.0 <= r <= 10.0
    ensures 0.0 <= x <= 10.0 ==> r == x
  {
    if x < 0.0 then 0.0 else if x > 10.0 then 10.0 else x
  }

  /** Questions 7 and 8 (indices 6 and 7) are categorical answers. */
  predicate Categorical(i: nat)
  {
    i == 6 || i == 7
  }

  /** One row of `_generate_synthetic_data_around_user`, with the Gaussian
      noise given: the user's answers plus noise, clipped to [0, 10], with the
      categorical answers put back as the user gave them. */
  function SyntheticRow(user: seq<real>, noise: seq<real>): (r: seq<real>)
    requires |noise| == |user|
    ensures |r| == |user|
    ensures forall i :: 0 <= i < |r| && Categorical(i) ==> r[i] == user[i]
    ensures forall i :: 0 <= i < |r| && !Categorical(i) ==> 0.0 <= r[i] <= 10.0
    ensures forall i :: 0 <= i < |r| && !Categorical(i) && 0.0 <= user[i] + noise[i] <= 10.0 ==>
      r[i] == user[i] + noise[i]
  {
    seq(|user|, i requires 0 <= i < |user| => if Categorical(i) then user[i] else Clip(user[i] + noise[i]))
  }

  /** Without noise, an answer sheet on the 0-10 scale is its own synthetic row. */
  lemma NoNoiseKeepsAnswers(user: seq<real>)
    requires forall i :: 0 <= i < |user| ==> 0.0 <= user[i] <= 10.0
    ensures SyntheticRow(user, seq(|user|, _ => 0.0)) == user
  {
    var r := SyntheticRow(user, seq(|user|, _ => 0.0));
    assert forall i :: 0 <= i < |user| ==> r[i] == user[i];
  }

  // ---------------------------------------------------------------- confidence bands

  datatype Entry = Entry(role: string, probability: real)

  datatype Bands = Bands(high: seq<Entry>, medium: seq<Entry>, low: seq<Entry>)

  /** `enumerate(probabilities)`. */
  function Enumerate(probs: seq<real>): (r: seq<(nat, real)>)
    ensures |r| == |probs|
    ensures forall i :: 0 <= i < |r| ==> r[i] == (i, probs[i])
  {
    seq(|probs|, i requires 0 <= i < |probs| => (i, probs[i]))
  }

  function ProbKey(x: (nat, real)): Key
  {
    Key(0, x.1)
  }

  function EntryKey(e: Entry): Key
  {
    Key(0, e.probability)
  }

  /** `sorted(enumerate(probabilities), key=prob, reverse=True)`. */
  function Ranked(probs: seq<real>): seq<(nat, real)>
  {
    SortDescending(Enumerate(probs), ProbKey)
  }

  function InBand(l: Level): ((nat, real)) -> bool
  {
    (x: (nat, real)) => ConfidenceLevel(x.1) == l
  }

  /** Names the classes of ranked pairs. */
  function Named(roles: seq<string>, xs: seq<(nat, real)>): (r: seq<Entry>)
    requires forall x <- xs :: x.0 < |roles|
    ensures |r| == |xs|
    ensures forall i :: 0 <= i < |r| ==> r[i] == Entry(roles[xs[i].0], xs[i].1)
  {
    seq(|xs|, i requires 0 <= i < |xs| => Entry(roles[xs[i].0], xs[i].1))
  }

  /** The classes of one band, in descending probability, with their role names. */
  function Band(probs: seq<real>, roles: seq<string>, l: Level): (r: seq<Entry>)
    requires |probs| <= |roles|
    ensures |r| == |Seqs.Filter(Ranked(probs), InBand(l))|
    ensures forall e <- r :: ConfidenceLevel(e.probability) == l
    ensures Descending(r, EntryKey)
  {
    BandMembers(probs, roles, l);
    Named(roles, Seqs.Filter(Ranked(probs), InBand(l)))
  }

  /** The pairs of one band name known classes, lie in the band and keep the
      descending order, and so do their named entries. */
  lemma BandMembers(probs: seq<real>, roles: seq<string>, l: Level)
    requires |probs| <= |roles|
    ensures var band := Seqs.Filter(Ranked(probs), InBand(l));
            (forall x <- band :: x.0 < |roles| && ConfidenceLevel(x.1) == l) && Descending(band, ProbKey)
    ensures var r := Named(roles, Seqs.Filter(Ranked(probs), InBand(l)));
            (forall e <- r :: ConfidenceLevel(e.probability) == l) && Descending(r, EntryKey)
  {
    BandPairs(probs, roles, l);
    NamedInBand(roles, Seqs.Filter(Ranked(probs), InBand(l)), l);
  }

  lemma BandPairs(probs: seq<real>, roles: seq<string>, l: Level)
    requires |probs| <= |roles|
    ensures var band := Seqs.Filter(Ranked(probs), InBand(l));
            (forall x <- band :: x.0 < |roles| && ConfidenceLevel(x.1) == l) && Descending(band, ProbKey)
  {
    RankedClasses(probs);
    var band := Seqs.Filter(Ranked(probs), InBand(l));
    FilterKeepsOrder(Ranked(probs), ProbKey, InBand(l));
    forall x: (nat, real) | x in band ensures x.0 < |roles| && ConfidenceLevel(x.1) == l {
      assert x in Ranked(probs) && InBand(l)(x);
    }
  }

  lemma NamedInBand(roles: seq<string>, band: seq<(nat, real)>, l: Level)
    requires forall x <- band :: x.0 < |roles| && ConfidenceLevel(x.1) == l
    requires Descending(band, ProbKey)
    ensures var r := Named(roles, band);
            (forall e <- r :: ConfidenceLevel(e.probability) == l) && Descending(r, EntryKey)
  {
    NamedKeepsOrder(roles, band);
    var r := Named(roles, band);
    forall e <- r ensures ConfidenceLevel(e.probability) == l {
      var k :| 0 <= k < |r| && r[k] == e;
      assert band[k] in band;
    }
  }

  /** `_generate_confidence_bands`: the classes in descending probability,
      split into the high, medium and low bands. The three bands between them
      look up every class in the role mapping, so a class without a role name
      raises KeyError, which `calculate_confidence_calibration` reports as an
      error. */
  function ConfidenceBands(probs: seq<real>, roles: seq<string>): (r: Result<Bands, string>)
    ensures r.Err? <==> |probs| > |roles|
    ensures r.Ok? ==> var b := r.value;
      && |b.high| + |b.medium| + |b.low| == |probs|
      && (forall e <- b.high :: ConfidenceLevel(e.probability) == High)
      && (forall e <- b.medium :: ConfidenceLevel(e.probability) == Medium)
      && (forall e <- b.low :: ConfidenceLevel(e.probability) == Low)
      && Descending(b.high, EntryKey) && Descending(b.medium, EntryKey) && Descending(b.low, EntryKey)
  {
    if |probs| > |roles| then Err("Calibration calculation failed")
    else
      BandCounts(Ranked(probs));
      RankedClasses(probs);
      Ok(Bands(Band(probs, roles, High), Band(probs, roles, Medium), Band(probs, roles, Low)))
  }

  /** The ranking holds each class exactly once, with its probability. */
  lemma RankedClasses(probs: seq<real>)
    ensures |Ranked(probs)| == |probs|
    ensures forall x <- Ranked(probs) :: x.0 < |probs| && x.1 == probs[x.0]
    ensures forall i :: 0 <= i < |probs| ==> (i, probs[i]) in Ranked(probs)
    ensures Seqs.Distinct(Ranked(probs))
  {
    var e := Enumerate(probs);
    var r := Ranked(probs);
    assert forall x :: x in r <==> x in multiset(r);
    assert forall x :: x in e <==> x in multiset(e);
    assert forall i :: 0 <= i < |probs| ==> e[i] in e;
    Seqs.PermutationDistinct(e, r);
  }

  /** The three bands share the ranking between them. */
  lemma {:induction false} BandCounts(xs: seq<(nat, real)>)
    ensures |Seqs.Filter(xs, InBand(High))| + |Seqs.Filter(xs, InBand(Medium))| + |Seqs.Filter(xs, InBand(Low))| == |xs|
  {
    if xs != [] {
      BandCounts(xs[1..]);
      var l := ConfidenceLevel(xs[0].1);
      assert InBand(l)(xs[0]);
    }
  }

  lemma NamedKeepsOrder(roles: seq<string>, xs: seq<(nat, real)>)
    requires forall x <- xs :: x.0 < |roles|
    requires Descending(xs, ProbKey)
    ensures Descending(Named(roles, xs), EntryKey)
  {
    var r := Named(roles, xs);
    forall i, j | 0 <= i < j < |r| ensures !Above(EntryKey(r[j]), EntryKey(r[i])) {
      assert !Above(ProbKey(xs[j]), ProbKey(xs[i]));
    }
  }

  /** Every class appears, under its role name, in the band of its probability. */
  lemma EveryClassBanded(probs: seq<real>, roles: seq<string>, i: nat)
    requires |probs| <= |roles| && i < |probs|
    ensures ConfidenceBands(probs, roles).Ok?
    ensures var b := ConfidenceBands(probs, roles).value;
      var e := Entry(roles[i], probs[i]);
      match ConfidenceLevel(probs[i])
      case High => e in b.high
      case Medium => e in b.medium
      case Low => e in b.low
  {
    RankedClasses(probs);
    var ranked := Ranked(probs);
    var l := ConfidenceLevel(probs[i]);
    var band := Seqs.Filter(ranked, InBand(l));
    assert InBand(l)((i, probs[i]));
    assert (i, probs[i]) in band;
    var k :| 0 <= k < |band| && band[k] == (i, probs[i]);
    assert Named(roles, band)[k] == Entry(roles[i], probs[i]);
    assert Band(probs, roles, l) == Named(roles, band);
  }

  // ---------------------------------------------------------------- counterfactual tips

  /** The trained classifier: its predicted class for an answer sheet and the
      probability it gives one class. */
  datatype Classifier = Classifier(predict: seq<real> -> nat, prob: (seq<real>, nat) -> real, classes: nat)

  datatype Tip = Tip(feature: string, current: real, suggested: real, targetRole: string, impact: real)

  /** `min(10, value + 2)`. */
  function Raise(value: real): (r: real)
    ensures r <= 10.0 && r <= value + 2.0
    ensures r == 10.0 || r == value + 2.0
  {
    if value + 2.0 < 10.0 then value + 2.0 else 10.0
  }

  /** The answers with feature `i` raised by two points, capped at 10. */
  function Raised(responses: seq<real>, i: nat): seq<real>
    requires i < |responses|
  {
    responses[i := Raise(responses[i])]
  }

  /** A raise earns a tip when the target becomes the prediction or its
      probability exceeds 0.3. */
  predicate Helps(c: Classifier, responses: seq<real>, target: nat, i: nat)
    requires i < |responses|
  {
    c.predict(Raised(responses, i)) == target || c.prob(Raised(responses, i), target) > 0.3
  }

  function TipAt(c: Classifier, responses: seq<real>, names: seq<string>, roles: seq<string>, target: nat, i: nat): Tip
    requires i < |names| == |responses| && target < |roles|
  {
    var raised := Raised(responses, i);
    Tip(names[i], responses[i], raised[i], roles[target], c.prob(raised, target) - c.prob(responses, target))
  }

  /** `_generate_tips_for_target`, from feature `i` on. */
  function TipsFrom(c: Classifier, responses: seq<real>, names: seq<string>, roles: seq<string>, target: nat, i: nat): (r: seq<Tip>)
    requires i <= |names| == |responses| && target < |roles|
    ensures |r| <= |names| - i
    ensures forall t <- r :: t.targetRole == roles[target] && t.suggested == Raise(t.current)
    decreases |names| - i
  {
    if i == |names| then []
    else
      var rest := TipsFrom(c, responses, names, roles, target, i + 1);
      if !Categorical(i) && Helps(c, responses, target, i) then [TipAt(c, responses, names, roles, target, i)] + rest
      else rest
  }

  function TipsForTarget(c: Classifier, responses: seq<real>, names: seq<string>, roles: seq<string>, target: nat): (r: seq<Tip>)
    requires |names| == |responses| && target < |roles|
    ensures |r| <= |names|
    ensures forall t <- r :: t.targetRole == roles[target] && t.suggested == Raise(t.current)
  {
    TipsFrom(c, responses, names, roles, target, 0)
  }

  /** The tips are exactly those for the non-categorical features whose raise
      helps the target. */
  lemma {:induction false} TipsFromExactly(c: Classifier, responses: seq<real>, names: seq<string>, roles: seq<string>, target: nat, i: nat)
    requires i <= |names| == |responses| && target < |roles|
    ensures forall t <- TipsFrom(c, responses, names, roles, target, i) ::
      exists j :: i <= j < |names| && !Categorical(j) && Helps(c, responses, target, j) &&
        t == TipAt(c, responses, names, roles, target, j)
    ensures forall j :: i <= j < |names| && !Categorical(j) && Helps(c, responses, target, j) ==>
      TipAt(c, responses, names, roles, target, j) in TipsFrom(c, responses, names, roles, target, i)
    decreases |names| - i
  {
    if i < |names| {
      TipsFromExactly(c, responses, names, roles, target, i + 1);
    }
  }

  lemma TipsForTargetExactly(c: Classifier, responses: seq<real>, names: seq<string>, roles: seq<string>, target: nat)
    requires |names| == |responses| && target < |roles|
    ensures forall t <- TipsForTarget(c, responses, names, roles, target) ::
      exists j :: 0 <= j < |names| && !Categorical(j) && Helps(c, responses, target, j) &&
        t == TipAt(c, responses, names, roles, target, j)
    ensures forall j :: 0 <= j < |names| && !Categorical(j) && Helps(c, responses, target, j) ==>
      TipAt(c, responses, names, roles, target, j) in TipsForTarget(c, responses, names, roles, target)
  {
    TipsFromExactly(c, responses, names, roles, target, 0);
  }

  /** `predict_proba` for one answer sheet, as a list over the classes. */
  function Probabilities(c: Classifier, responses: seq<real>): (r: seq<real>)
    ensures |r| == c.classes
    ensures forall k :: 0 <= k < |r| ==> r[k] == c.prob(responses, k)
  {
    seq(c.classes, k requires 0 <= k < c.classes => c.prob(responses, k))
  }

  /** `sorted_probs[1:4]`: the three classes ranked after the most probable one. */
  function Alternatives(c: Classifier, responses: seq<real>): (r: seq<(nat, real)>)
    ensures |r| <= 3
    ensures var ranked := Ranked(Probabilities(c, responses));
      forall k :: 0 <= k < |r| ==> k + 1 < |ranked| && r[k] == ranked[k + 1]
  {
    var ranked := Ranked(Probabilities(c, responses));
    if |ranked| <= 1 then [] else Take(ranked[1..], 3)
  }

  function TipKey(t: Tip): Key
  {
    Key(0, t.impact)
  }

  const TipsShown: nat := 10

  /** The tips for each alternative class, concatenated in rank order. */
  function AlternativeTips(c: Classifier, responses: seq<real>, names: seq<string>, roles: seq<string>, alts: seq<(nat, real)>): (r: seq<Tip>)
    requires |names| == |responses|
    requires forall a <- alts :: a.0 < |roles|
    ensures forall t <- r :: exists a <- alts :: t.targetRole == roles[a.0]
  {
    if alts == [] then []
    else
      assert forall a <- alts[1..] :: a in alts;
      TipsForTarget(c, responses, names, roles, alts[0].0) + AlternativeTips(c, responses, names, roles, alts[1..])
  }

  /** The tips for each alternative class, one list per class in rank order. */
  function TipsPerAlternative(c: Classifier, responses: seq<real>, names: seq<string>, roles: seq<string>, alts: seq<(nat, real)>): (r: seq<seq<Tip>>)
    requires |names| == |responses|
    requires forall a <- alts :: a.0 < |roles|
    ensures |r| == |alts|
    ensures forall i :: 0 <= i < |alts| ==> r[i] == TipsForTarget(c, responses, names, roles, alts[i].0)
  {
    seq(|alts|, i requires 0 <= i < |alts| => TipsForTarget(c, responses, names, roles, alts[i].0))
  }

  /** The alternatives' tips are the outer loop over the runner-up classes,
      each contributing all its tips. */
  lemma {:induction false} AlternativeTipsConcatenate(c: Classifier, responses: seq<real>, names: seq<string>, roles: seq<string>, alts: seq<(nat, real)>)
    requires |names| == |responses|
    requires forall a <- alts :: a.0 < |roles|
    ensures AlternativeTips(c, responses, names, roles, alts) == Seqs.Flatten(TipsPerAlternative(c, responses, names, roles, alts))
  {
    if alts != [] {
      assert forall a <- alts[1..] :: a in alts;
      AlternativeTipsConcatenate(c, responses, names, roles, alts[1..]);
      assert TipsPerAlternative(c, responses, names, roles, alts)[1..] == TipsPerAlternative(c, responses, names, roles, alts[1..]);
    }
  }

  /** A named target role whose class index the classifier does not have:
      `_generate_tips_for_target` indexes the class probabilities with it at
      the first non-categorical feature (feature 0, so whenever there are
      features) and raises. */
  predicate TargetPastClasses(c: Classifier, target: Option<string>, names: seq<string>, roles: seq<string>)
  {
    target.Some? && target.value != [] && RoleClass(roles, target.value).Some?
    && RoleClass(roles, target.value).value >= c.classes && |names| > 0
  }

  /** `generate_counterfactual_tips`. A named target role (a non-empty string)
      gets the tips for that role, or none when no role has that name; no
      target gets the tips for the three runner-up classes. Either way the tips
      are sorted by impact and the best ten returned. An answer sheet whose
      length is not the classifier's feature count makes the classifier raise,
      and so does a named target past the classifier's classes;
      `generate_counterfactual_tips` catches both and reports an error. */
  function CounterfactualTips(c: Classifier, responses: seq<real>, target: Option<string>, names: seq<string>, roles: seq<string>): (r: Result<seq<Tip>, string>)
    requires c.classes <= |roles|
    ensures r.Err? <==> |responses| != |names| || TargetPastClasses(c, target, names, roles)
    ensures r.Ok? ==> |r.value| <= TipsShown && Descending(r.value, TipKey)
    ensures r.Ok? ==> |r.value| == Numbers.Min(TipsShown, |CandidateTips(c, responses, target, names, roles)|)
    ensures r.Ok? ==> multiset(r.value) <= multiset(CandidateTips(c, responses, target, names, roles))
    ensures r.Ok? ==> forall t <- r.value :: t in CandidateTips(c, responses, target, names, roles)
    ensures r.Ok? && target.Some? && target.value != [] ==>
      match RoleClass(roles, target.value)
      case None => r.value == []
      case Some(k) => (k < c.classes || r.value == []) && forall t <- r.value :: t.targetRole == roles[k]
  {
    if |responses| != |names| || TargetPastClasses(c, target, names, roles) then Err("Counterfactual generation failed")
    else Ok(TopN(CandidateTips(c, responses, target, names, roles), TipKey, TipsShown))
  }

  /** The tips before sorting and truncation. */
  function CandidateTips(c: Classifier, responses: seq<real>, target: Option<string>, names: seq<string>, roles: seq<string>): (r: seq<Tip>)
    requires c.classes <= |roles| && |responses| == |names|
    ensures target.Some? && target.value != [] && RoleClass(roles, target.value).None? ==> r == []
    ensures target.Some? && target.value != [] && RoleClass(roles, target.value).Some? ==>
      forall t <- r :: t.targetRole == roles[RoleClass(roles, target.value).value]
    ensures target.Some? && target.value != [] && RoleClass(roles, target.value).Some? ==>
      r == TipsForTarget(c, responses, names, roles, RoleClass(roles, target.value).value)
    ensures target.None? || target.value == [] ==>
      AlternativesKnown(c, responses, roles) && r == AlternativeTips(c, responses, names, roles, Alternatives(c, responses))
  {
    if target.Some? && target.value != [] then
      match RoleClass(roles, target.value)
      case None => []
      case Some(k) => TipsForTarget(c, responses, names, roles, k)
    else
      AlternativesKnownHolds(c, responses, roles);
      AlternativeTips(c, responses, names, roles, Alternatives(c, responses))
  }

  /** Every runner-up class names a role. */
  predicate AlternativesKnown(c: Classifier, responses: seq<real>, roles: seq<string>)
  {
    forall a <- Alternatives(c, responses) :: a.0 < |roles|
  }

  lemma AlternativesKnownHolds(c: Classifier, responses: seq<real>, roles: seq<string>)
    requires c.classes <= |roles|
    ensures AlternativesKnown(c, responses, roles)
  {
    RankedClasses(Probabilities(c, responses));
    assert forall a <- Alternatives(c, responses) :: a in Ranked(Probabilities(c, responses));
  }

  /** A tip left out of the best ten has no higher impact than any tip kept. */
  lemma CounterfactualsKeepBest(c: Classifier, responses: seq<real>, target: Option<string>, names: seq<string>, roles: seq<string>, t: Tip)
    requires c.classes <= |roles| && |responses| == |names| && !TargetPastClasses(c, target, names, roles)
    requires t in CandidateTips(c, responses, target, names, roles)
    requires t !in CounterfactualTips(c, responses, target, names, roles).value
    ensures forall u <- CounterfactualTips(c, responses, target, names, roles).value :: t.impact <= u.impact
  {
    var all := CandidateTips(c, responses, target, names, roles);
    var sorted := SortDescending(all, TipKey);
    assert t in multiset(all);
    assert t in sorted;
    TakeKeepsLargest(sorted, TipKey, TipsShown, t);
  }

  /** Without a target, no tip points at the most probable class. */
  lemma NoTipForLeader(c: Classifier, responses: seq<real>, names: seq<string>, roles: seq<string>)
    requires c.classes <= |roles| && |responses| == |names| && c.classes > 0
    ensures var top := Ranked(Probabilities(c, responses))[0].0;
      forall t <- CandidateTips(c, responses, None, names, roles) :: exists a <- Alternatives(c, responses) ::
        a.0 < |roles| && a.0 != top && t.targetRole == roles[a.0]
  {
    var probs := Probabilities(c, responses);
    var ranked := Ranked(probs);
    RankedClasses(probs);
    var alts := Alternatives(c, responses);
    assert forall a <- alts :: a in ranked;
    forall a | a in alts ensures a.0 != ranked[0].0 {
      var k :| 0 <= k < |alts| && alts[k] == a;
      assert a == ranked[k + 1];
      assert a.1 == probs[a.0] && ranked[0].1 == probs[ranked[0].0];
      if a.0 == ranked[0].0 {
        assert false;
      }
    }
  }
}

=== FILE: irt.dfy ===
/** The two-parameter logistic (2PL) item response model the adaptive engine
    scores with: response probability, Fisher information and the standard
    error derived from it.

    `_irt_probability` calls `np.exp` and `_update_ability_estimate` calls
    `np.sqrt`. Dafny's reals have neither, so both are supplied as a
    `Numerics` record and everything here is proved from the characterising
    laws in `ValidNumerics`:
    exp(x + y) = exp(x) * exp(y) and exp(x) >= 1 + x (which together determine
    the exponential function), and sqrt(x) > 0 with sqrt(x)^2 = x for x > 0. */
module Irt {
  import opened Numbers

  datatype Numerics = Numerics(exp: real -> real, sqrt: real -> real)

  // The laws are stated through these named predicates so that the verifier
  // only instantiates them where a proof mentions them.
  ghost predicate ExpAdds(e: real -> real, x: real, y: real)
  {
    e(x + y) == e(x) * e(y)
  }

  ghost predicate ExpAboveTangent(e: real -> real, x: real)
  {
    e(x) >= 1.0 + x
  }

  ghost predicate SqrtSquares(s: real -> real, x: real)
  {
    x > 0.0 ==> s(x) > 0.0 && s(x) * s(x) == x
  }

  ghost predicate ValidNumerics(n: Numerics)
  {
    && (forall x, y :: ExpAdds(n.exp, x, y))
    && (forall x :: ExpAboveTangent(n.exp, x))
    && (forall x :: SqrtSquares(n.sqrt, x))
  }

  /** The `1e-6` that `_update_ability_estimate` adds to the information
      before taking the root. */
  const Epsilon: real := 0.000001

  lemma ExpZero(n: Numerics)
    requires ValidNumerics(n)
    ensures n.exp(0.0) == 1.0
  {
    assert ExpAdds(n.exp, 0.0, 0.0);
    assert ExpAboveTangent(n.exp, 0.0);
  }

  lemma ExpPositive(n: Numerics, x: real)
    requires ValidNumerics(n)
    ensures n.exp(x) > 0.0
  {
    ExpZero(n);
    var h := n.exp(x / 2.0);
    assert ExpAdds(n.exp, x / 2.0, x / 2.0);
    assert x / 2.0 + x / 2.0 == x;
    assert n.exp(x) == h * h;
    assert h * h >= 0.0;
    assert ExpAdds(n.exp, x, -x);
    assert x + -x == 0.0;
    assert n.exp(x) * n.exp(-x) == 1.0;
  }

  lemma ExpIncreasing(n: Numerics, x: real, y: real)
    requires ValidNumerics(n)
    requires x < y
    ensures n.exp(x) < n.exp(y)
  {
    ExpPositive(n, x);
    assert ExpAdds(n.exp, x, y - x);
    assert x + (y - x) == y;
    assert ExpAboveTangent(n.exp, y - x);
    var k := n.exp(y - x);
    assert n.exp(y) == n.exp(x) * k;
    MulLess(n.exp(x), 1.0, k);
  }

  /** `_irt_probability`: P(correct) = 1 / (1 + exp(-a (theta - b))). */
  function Probability(n: Numerics, theta: real, b: real, a: real): (p: real)
    requires ValidNumerics(n)
    ensures 0.0 < p < 1.0
  {
    ExpPositive(n, -(a * (theta - b)));
    1.0 / (1.0 + n.exp(-(a * (theta - b))))
  }

  /** For a positive discrimination the probability strictly rises with ability. */
  lemma ProbabilityIncreasing(n: Numerics, t1: real, t2: real, b: real, a: real)
    requires ValidNumerics(n)
    requires a > 0.0 && t1 < t2
    ensures Probability(n, t1, b, a) < Probability(n, t2, b, a)
  {
    assert -(a * (t2 - b)) < -(a * (t1 - b)) by {
      assert a * (t2 - b) - a * (t1 - b) == a * (t2 - t1);
    }
    var e1 := n.exp(-(a * (t1 - b)));
    var e2 := n.exp(-(a * (t2 - b)));
    ExpIncreasing(n, -(a * (t2 - b)), -(a * (t1 - b)));
    ExpPositive(n, -(a * (t2 - b)));
    assert 0.0 < 1.0 + e2 < 1.0 + e1;
    ReciprocalDecreasing(1.0 + e2, 1.0 + e1);
  }

  lemma ReciprocalDecreasing(x: real, y: real)
    requires 0.0 < x < y
    ensures 1.0 / y < 1.0 / x
  {
    var rx, ry := 1.0 / x, 1.0 / y;
    assert rx * x == 1.0 && ry * y == 1.0;
    assert ry > 0.0;
    MulLess(ry, x, y);
    assert x * ry < x * rx;
    CancelPositive(x, ry, rx);
  }

  /** At theta = b the item is a coin toss. */
  lemma ProbabilityAtDifficulty(n: Numerics, b: real, a: real)
    requires ValidNumerics(n)
    ensures Probability(n, b, b, a) == 0.5
  {
    ExpZero(n);
    assert -(a * (b - b)) == 0.0;
  }

  /** `_calculate_information`: a^2 p (1 - p), the same for every question type. */
  function Information(n: Numerics, theta: real, b: real, a: real): (info: real)
    requires ValidNumerics(n)
    ensures 0.0 <= info <= a * a / 4.0
  {
    var p := Probability(n, theta, b, a);
    var w, v := a * a, Variance(p);
    VarianceBound(p);
    SquareNonNegative(a);
    ScaledVarianceBound(w, v);
    w * v
  }

  /** A variance at most 1/4, scaled by a non-negative weight. */
  lemma ScaledVarianceBound(w: real, v: real)
    requires w >= 0.0 && 0.0 < v <= 0.25
    ensures 0.0 <= w * v <= w / 4.0
  {
    MulLessEq(w, v, 0.25);
    MulLessEq(w, 0.0, v);
  }

  /** The Bernoulli variance p (1 - p). */
  function Variance(p: real): real
  {
    p * (1.0 - p)
  }

  lemma VarianceBound(p: real)
    requires 0.0 < p < 1.0
    ensures 0.0 < Variance(p) <= 0.25
  {
  }

  lemma SquareNonNegative(x: real)
    ensures x * x >= 0.0
  {
  }

  lemma SquareAbove(x: real, c: real)
    requires x >= 0.0 && c >= 0.0 && x * x > c * c
    ensures x > c
  {
    if x <= c {
      MulLessEq(x, x, c);
      MulLessEq(c, x, c);
    }
  }

  /** The standard error `_update_ability_estimate` assigns after an item with information
      `info > 0`: 1 / sqrt(info + 1e-6). */
  function StandardError(n: Numerics, info: real): (se: real)
    requires ValidNumerics(n)
    requires info > 0.0
    ensures se > 0.0
    ensures se * se * (info + Epsilon) == 1.0
  {
    var root := n.sqrt(info + Epsilon);
    assert SqrtSquares(n.sqrt, info + Epsilon);
    assert (1.0 / root) * (1.0 / root) * (info + Epsilon) == (info + Epsilon) / (root * root);
    1.0 / root
  }

  /** An item of discrimination at most 1.8 yields a standard error above 1.11. */
  lemma StandardErrorLowerBound(n: Numerics, info: real)
    requires ValidNumerics(n)
    requires 0.0 < info <= 0.81
    ensures StandardError(n, info) > 1.11
  {
    var se := StandardError(n, info);
    var d := info + Epsilon;
    assert se * se * d == 1.0;
    assert se * se == 1.0 / d;
    if d < 0.810001 {
      ReciprocalDecreasing(d, 0.810001);
    }
    assert se * se >= 1.0 / 0.810001;
    assert 1.0 / 0.810001 > 1.2321;
    SquareAbove(se, 1.11);
  }

  /** The bounds behind the first selection of a session: an item with
      difficulty -0.5 and discrimination 1.2 carries information above 0.317
      at ability 0, while an item with discrimination at most 1.1 carries at
      most 0.3025 at any ability. */
  lemma InformationOfEasyItemAtZero(n: Numerics)
    requires ValidNumerics(n)
    ensures Information(n, 0.0, -0.5, 1.2) > 0.317
  {
    var x := -(1.2 * (0.0 - -0.5));
    assert x == -0.6;
    var h := n.exp(-0.3);
    assert ExpAboveTangent(n.exp, -0.3);
    assert ExpAdds(n.exp, -0.3, -0.3);
    var e := n.exp(-0.6);
    assert e == h * h;
    MulLessEq(h, 0.7, h);
    MulLessEq(0.7, 0.7, h);
    assert e >= 0.49;
    ExpIncreasing(n, -0.6, 0.0);
    ExpZero(n);
    var p := Probability(n, 0.0, -0.5, 1.2);
    assert p == 1.0 / (1.0 + e);
    if 1.49 < 1.0 + e {
      ReciprocalDecreasing(1.49, 1.0 + e);
    }
    assert p <= 1.0 / 1.49;
    assert 1.0 / 1.49 < 0.672;
    assert 0.5 < p by {
      ReciprocalDecreasing(1.0 + e, 2.0);
    }
    VarianceFalls(p, 0.672);
    assert Variance(0.672) == 0.220416;
  }

  /** Past one half the Bernoulli variance falls as p grows. */
  lemma VarianceFalls(p: real, q: real)
    requires 0.5 <= p <= q
    ensures Variance(q) <= Variance(p)
  {
    assert Variance(p) - Variance(q) == (q - p) * (p + q - 1.0);
    MulLessEq(q - p, 0.0, p + q - 1.0);
  }

  lemma InformationOfFlatItem(n: Numerics, theta: real, b: real, a: real)
    requires ValidNumerics(n)
    requires 0.0 < a <= 1.1
    ensures Information(n, theta, b, a) <= 0.3025
  {
    MulLessEq(a, a, 1.1);
    MulLessEq(1.1, a, 1.1);
  }
}

=== FILE: item_bank.dfy ===
/** The hard-coded item bank of the adaptive engine: ten general items in
    three categories, two experience-specific items per known level, and the
    A/B text variants of two items. */
module ItemBank {
  import opened Wrappers
  import opened Seqs

  datatype QuestionType =
    | Rating(low: int, high: int)
    | Boolean
    | MultipleChoice(options: seq<string>, multipleSelect: bool)
    | OtherType(name: string)

  /** One item. Experience-specific items carry no category and no level list
      (`category == None`, `levels == {}`); the selection rule never consults
      the level list of those items. `variant` is set only once an A/B text
      has been substituted. */
  datatype Item = Item(
    id: string,
    text: string,
    qtype: QuestionType,
    category: Option<string>,
    levels: set<string>,
    difficulty: real,
    discrimination: real,
    variant: Option<string>)

  datatype Variant = Variant(name: string, text: string, weight: real, performance: real)

  const AllLevels: set<string> := {"student", "junior", "mid", "senior"}
  const TenPoint := Rating(1, 10)

  function BankItem(id: string, text: string, qtype: QuestionType, category: string,
                    levels: set<string>, b: real, a: real): Item
  {
    Item(id, text, qtype, Some(category), levels, b, a, None)
  }

  function LevelItem(id: string, text: string, qtype: QuestionType, b: real, a: real): Item
  {
    Item(id, text, qtype, None, {}, b, a, None)
  }

  const TechnicalSkills: seq<Item> := [
    BankItem("tech_001", "How comfortable are you with database design and optimization?",
             TenPoint, "database", AllLevels, -0.5, 1.2),
    BankItem("tech_002", "Rate your expertise in advanced machine learning algorithms (neural networks, deep learning)",
             TenPoint, "machine_learning", {"mid", "senior"}, 1.5, 1.8),
    BankItem("tech_003", "How proficient are you with version control systems (Git, SVN)?",
             TenPoint, "software_development", AllLevels, 0.0, 1.0),
    BankItem("tech_004", "Rate your experience with cloud platforms (AWS, Azure, GCP)",
             TenPoint, "cloud_computing", {"junior", "mid", "senior"}, 0.8, 1.3),
    BankItem("tech_005", "How comfortable are you with cybersecurity principles and practices?",
             TenPoint, "security", AllLevels, 0.3, 1.1)
  ]

  const Interests: seq<Item> := [
    BankItem("int_001", "How much do you enjoy solving complex algorithmic problems?",
             TenPoint, "problem_solving", AllLevels, 0.0, 1.0),
    BankItem("int_002", "Rate your interest in user interface and user experience design",
             TenPoint, "design", AllLevels, -0.2, 0.9),
    BankItem("int_003", "How interested are you in data analysis and visualization?",
             TenPoint, "data_science", AllLevels, 0.1, 1.1)
  ]

  const WorkPreferences: seq<Item> := [
    BankItem("work_001", "Do you prefer working independently or in a team?",
             MultipleChoice(["Strongly prefer independent", "Prefer independent", "No preference",
                             "Prefer team", "Strongly prefer team"], false),
             "work_style", AllLevels, 0.0, 0.8),
    BankItem("work_002", "How do you feel about frequent client interaction?",
             TenPoint, "communication", AllLevels, 0.0, 0.9)
  ]

  const StudentItems: seq<Item> := [
    LevelItem("student_001", "Which programming languages have you learned in your coursework?",
              MultipleChoice(["Python", "Java", "C++", "JavaScript", "C#", "Other"], true), -1.0, 1.0),
    LevelItem("student_002", "Have you completed any internships or co-op programs?", Boolean, -0.5, 0.8)
  ]

  const JuniorItems: seq<Item> := [
    LevelItem("junior_001", "How many years of professional experience do you have?",
              MultipleChoice(["Less than 1 year", "1-2 years", "2-3 years"], false), 0.0, 1.0),
    LevelItem("junior_002", "Have you led any small projects or features?", Boolean, 0.2, 1.1)
  ]

  const MidItems: seq<Item> := [
    LevelItem("mid_001", "How comfortable are you with system architecture decisions?", TenPoint, 0.5, 1.3),
    LevelItem("mid_002", "Have you mentored junior developers?", Boolean, 0.3, 1.0)
  ]

  const SeniorItems: seq<Item> := [
    LevelItem("senior_001", "Rate your experience with strategic technology planning", TenPoint, 1.0, 1.5),
    LevelItem("senior_002", "How often do you influence hiring decisions?",
              MultipleChoice(["Never", "Rarely", "Sometimes", "Often", "Always"], false), 0.8, 1.2)
  ]

  const Tech001Variants: seq<Variant> := [
    Variant("A", "How comfortable are you with database design and optimization?", 1.0, 0.75),
    Variant("B", "Rate your skills in creating and optimizing database structures", 1.0, 0.82),
    Variant("C", "How would you rate your database development expertise?", 0.8, 0.71)
  ]

  const Int001Variants: seq<Variant> := [
    Variant("A", "How much do you enjoy solving complex algorithmic problems?", 1.0, 0.78),
    Variant("B", "Do you find satisfaction in tackling challenging coding puzzles?", 1.0, 0.85)
  ]

  /** The engine's three tables: the general bank by category (in dictionary
      order), the experience branches by level, the A/B variants by item id. */
  datatype Bank = Bank(
    categories: seq<seq<Item>>,
    branches: map<string, seq<Item>>,
    variants: map<string, seq<Variant>>)

  /** The tables the engine is constructed with. */
  const Default: Bank := Bank(
    [TechnicalSkills, Interests, WorkPreferences],
    map["student" := StudentItems, "junior" := JuniorItems, "mid" := MidItems, "senior" := SeniorItems],
    map["tech_001" := Tech001Variants, "int_001" := Int001Variants])

  /** The general items in iteration order. */
  function BankItems(b: Bank): seq<Item>
  {
    Flatten(b.categories)
  }

  /** The experience branch of a level; empty for a level without one. */
  function Branch(b: Bank, level: string): seq<Item>
  {
    if level in b.branches then b.branches[level] else []
  }

  /** `ab_test_variants.get(id, [])`. */
  function VariantsOf(b: Bank, id: string): seq<Variant>
  {
    if id in b.variants then b.variants[id] else []
  }

  /** `_get_max_questions`: the per-level question budget, 10 for an unknown level. */
  function MaxQuestions(level: string): (m: nat)
    ensures 6 <= m <= 12
    ensures level !in AllLevels ==> m == 10
  {
    if level == "student" then 12
    else if level == "junior" then 10
    else if level == "mid" then 8
    else if level == "senior" then 6
    else 10
  }

  /** Everything the engine can ever put in front of a user of this level. */
  function PoolItems(b: Bank, level: string): seq<Item>
  {
    BankItems(b) + Branch(b, level)
  }

  function Ids(items: seq<Item>): (r: seq<string>)
    ensures |r| == |items|
    ensures forall i :: 0 <= i < |items| ==> r[i] == items[i].id
  {
    if items == [] then [] else [items[0].id] + Ids(items[1..])
  }

  function PoolIds(b: Bank, level: string): set<string>
  {
    set q | q in PoolItems(b, level) :: q.id
  }

  /** What the engine's proofs rely on about its tables: ids are unique within
      every pool, discriminations lie in (0, 1.8], variant weights are not negative. */
  ghost predicate WellFormed(b: Bank)
  {
    && (forall level :: Distinct(Ids(PoolItems(b, level))))
    && (forall level, q :: q in PoolItems(b, level) ==> 0.0 < q.discrimination <= 1.8)
    && (forall id, v :: id in b.variants && v in b.variants[id] ==> v.weight >= 0.0 && v.performance >= 0.0)
  }

  /** The engine's own tables are well formed; 1.8 is the discrimination of `tech_002`. */
  lemma DefaultWellFormed()
    ensures WellFormed(Default)
  {
    forall level
      ensures Distinct(Ids(PoolItems(Default, level)))
    {
      PoolIdsDistinct(level);
    }
    forall level, q | q in PoolItems(Default, level)
      ensures 0.0 < q.discrimination <= 1.8
    {
      DiscriminationBounds(level);
    }
    VariantTable();
  }

  lemma VariantTable()
    ensures forall id, v :: id in Default.variants && v in Default.variants[id] ==>
              v.weight >= 0.0 && v.performance >= 0.0
  {
    assert Default.variants.Keys == {"tech_001", "int_001"};
    assert forall v <- Tech001Variants :: v.weight >= 0.0 && v.performance >= 0.0;
    assert forall v <- Int001Variants :: v.weight >= 0.0 && v.performance >= 0.0;
  }

  /** The concrete tables' items in order: the bank, then the branch of a known level. */
  lemma DefaultPool(level: string)
    ensures BankItems(Default) == TechnicalSkills + Interests + WorkPreferences
    ensures Branch(Default, level) == ExperienceItems(level)
  {
    DefaultBankItems();
    if level == "student" {
    } else if level == "junior" {
    } else if level == "mid" {
    } else if level == "senior" {
    } else {
      assert level !in Default.branches;
    }
  }

  lemma DefaultBankItems()
    ensures BankItems(Default) == TechnicalSkills + Interests + WorkPreferences
  {
    var cats := Default.categories;
    assert cats[1..][1..][1..] == [];
    assert Flatten(cats[1..][1..]) == WorkPreferences + [];
    assert Flatten(cats[1..]) == Interests + (WorkPreferences + []);
  }

  function ExperienceItems(level: string): (r: seq<Item>)
  {
    if level == "student" then StudentItems
    else if level == "junior" then JuniorItems
    else if level == "mid" then MidItems
    else if level == "senior" then SeniorItems
    else []
  }

  /** No two items a user of this level can meet share an id. */
  lemma PoolIdsDistinct(level: string)
    ensures Distinct(Ids(PoolItems(Default, level)))
  {
    var items := PoolItems(Default, level);
    TagsDistinct(level);
    forall i, j | 0 <= i < j < |items|
      ensures items[i].id != items[j].id
    {
      assert Tags(items)[i] != Tags(items)[j];
    }
  }

  /** Length, first and last character: enough to tell every id of a pool apart. */
  function Tag(id: string): (int, char, char)
  {
    if id == [] then (0, ' ', ' ') else (|id|, id[0], id[|id| - 1])
  }

  function Tags(items: seq<Item>): (r: seq<(int, char, char)>)
    ensures |r| == |items|
    ensures forall i :: 0 <= i < |items| ==> r[i] == Tag(items[i].id)
  {
    if items == [] then [] else [Tag(items[0].id)] + Tags(items[1..])
  }

  const BankTags: seq<(int, char, char)> :=
    [(8, 't', '1'), (8, 't', '2'), (8, 't', '3'), (8, 't', '4'), (8, 't', '5'),
     (7, 'i', '1'), (7, 'i', '2'), (7, 'i', '3'), (8, 'w', '1'), (8, 'w', '2')]

  function LevelTags(level: string): seq<(int, char, char)>
  {
    if level == "student" then [(11, 's', '1'), (11, 's', '2')]
    else if level == "junior" then [(10, 'j', '1'), (10, 'j', '2')]
    else if level == "mid" then [(7, 'm', '1'), (7, 'm', '2')]
    else if level == "senior" then [(10, 's', '1'), (10, 's', '2')]
    else []
  }

  lemma TagsDistinct(level: string)
    ensures Distinct(Tags(PoolItems(Default, level)))
  {
    DefaultPool(level);
    BankTagsTable();
    LevelTagsTable(level);
    TagsConcat(TechnicalSkills + Interests + WorkPreferences, ExperienceItems(level));
    TagTableDistinct(level);
  }

  lemma TagTableDistinct(level: string)
    ensures Distinct(BankTags + LevelTags(level))
  {
  }

  lemma BankTagsTable()
    ensures Tags(TechnicalSkills + Interests + WorkPreferences) == BankTags
  {
  }

  lemma LevelTagsTable(level: string)
    ensures Tags(ExperienceItems(level)) == LevelTags(level)
  {
    if level == "student" {
    } else if level == "junior" {
    } else if level == "mid" {
    } else if level == "senior" {
    }
  }

  lemma TagsConcat(xs: seq<Item>, ys: seq<Item>)
    ensures Tags(xs + ys) == Tags(xs) + Tags(ys)
  {
  }

  /** Every pool holds exactly 12 items for a known level and the 10 bank items otherwise. */
  lemma PoolSize(level: string)
    ensures |PoolIds(Default, level)| == (if level in AllLevels then 12 else 10)
  {
    PoolIdsDistinct(level);
    PoolIdsCount(Default, level);
    PoolLength(level);
  }

  /** With unique ids, a pool has as many ids as items. */
  lemma PoolIdsCount(b: Bank, level: string)
    requires Distinct(Ids(PoolItems(b, level)))
    ensures |PoolIds(b, level)| == |PoolItems(b, level)|
  {
    var ids := Ids(PoolItems(b, level));
    DistinctCard(ids);
    assert PoolIds(b, level) == Elems(ids);
  }

  lemma PoolLength(level: string)
    ensures |PoolItems(Default, level)| == (if level in AllLevels then 12 else 10)
  {
    DefaultPool(level);
    assert |TechnicalSkills + Interests + WorkPreferences| == 10;
    assert |ExperienceItems(level)| == (if level in AllLevels then 2 else 0);
  }

  /** The largest discrimination anywhere in the bank is 1.8 (`tech_002`). */
  lemma DiscriminationBounds(level: string)
    ensures forall q <- PoolItems(Default, level) :: 0.0 < q.discrimination <= 1.8
  {
    DefaultPool(level);
    BankDiscriminations();
    LevelDiscriminations(level);
  }

  lemma BankDiscriminations()
    ensures forall q <- TechnicalSkills + Interests + WorkPreferences :: 0.0 < q.discrimination <= 1.8
  {
  }

  lemma LevelDiscriminations(level: string)
    ensures forall q <- ExperienceItems(level) :: 0.0 < q.discrimination <= 1.5
  {
    if level == "student" {
    } else if level == "junior" {
    } else if level == "mid" {
    } else if level == "senior" {
    }
  }

  /** Among the items a student can meet first, only `tech_001` has a
      discrimination above 1.1. */
  lemma StudentItemsFlatterThanTech001()
    ensures forall q <- PoolItems(Default, "student") ::
      ("student" in q.levels || q in Branch(Default, "student")) ==> q.id == "tech_001" || q.discrimination <= 1.1
    ensures TechnicalSkills[0] in PoolItems(Default, "student") && TechnicalSkills[0].id == "tech_001"
    ensures "student" in TechnicalSkills[0].levels
  {
    DefaultPool("student");
    StudentTechnicalItems();
    GeneralItemsFlat();
    assert PoolItems(Default, "student") == TechnicalSkills + Interests + WorkPreferences + StudentItems;
    forall q <- PoolItems(Default, "student")
      ensures ("student" in q.levels || q in Branch(Default, "student")) ==> q.id == "tech_001" || q.discrimination <= 1.1
    {
      assert q in TechnicalSkills || q in Interests || q in WorkPreferences || q in StudentItems;
    }
  }

  lemma StudentTechnicalItems()
    ensures forall q <- TechnicalSkills :: "student" in q.levels ==> q.id == "tech_001" || q.discrimination <= 1.1
  {
  }

  lemma GeneralItemsFlat()
    ensures forall q <- Interests :: q.discrimination <= 1.1
    ensures forall q <- WorkPreferences :: q.discrimination <= 1.1
    ensures forall q <- StudentItems :: q.discrimination <= 1.1
  {
  }
}

=== FILE: labor_market.dfy ===
/** Labor-market intelligence: salary bands with their fallbacks, skill-gap
    analysis with trend-weighted priorities, the simulated demand score, and
    the regional salary comparison. */
module LaborMarket {
  import opened Wrappers
  import opened Text
  import opened Numbers
  import Sorting
  import Seqs

  // ---------------------------------------------------------------- salary bands

  datatype Band = Band(min: int, median: int, max: int)

  predicate Ordered(b: Band)
  {
    b.min <= b.median <= b.max
  }

  /** Bands by role, then region, then experience level. */
  type SalaryTable = map<string, map<string, map<string, Band>>>

  /** The band reported when the role or level is unknown. */
  const DefaultBand := Band(50000, 70000, 100000)

  const SoftwareDeveloperUs: map<string, Band> := map[
    "junior" := Band(60000, 75000, 95000),
    "mid" := Band(85000, 110000, 135000),
    "senior" := Band(120000, 150000, 200000)]

  const SoftwareDeveloperEurope: map<string, Band> := map[
    "junior" := Band(35000, 45000, 55000),
    "mid" := Band(50000, 65000, 80000),
    "senior" := Band(70000, 90000, 120000)]

  const SoftwareDeveloperIndia: map<string, Band> := map[
    "junior" := Band(300000, 500000, 800000),
    "mid" := Band(800000, 1200000, 1800000),
    "senior" := Band(1500000, 2000000, 3500000)]

  const WebDeveloperUs: map<string, Band> := map[
    "junior" := Band(55000, 70000, 90000),
    "mid" := Band(80000, 100000, 130000),
    "senior" := Band(110000, 140000, 180000)]

  const DataScientistUs: map<string, Band> := map[
    "junior" := Band(70000, 90000, 110000),
    "mid" := Band(100000, 130000, 160000),
    "senior" := Band(140000, 180000, 250000)]

  const SalaryData: SalaryTable := map[
    "Software Developer" := map[
      "US" := SoftwareDeveloperUs,
      "Europe" := SoftwareDeveloperEurope,
      "India" := SoftwareDeveloperIndia],
    "Web Developer" := map["US" := WebDeveloperUs],
    "Data Scientist" := map["US" := DataScientistUs]]

  /** A level table: the three experience levels, each with an ordered band. */
  predicate ValidLevels(levels: map<string, Band>)
  {
    && levels.Keys <= {"junior", "mid", "senior"}
    && forall level <- levels :: Ordered(levels[level])
  }

  predicate ValidRegions(regions: map<string, map<string, Band>>)
  {
    forall region <- regions :: ValidLevels(regions[region])
  }

  predicate WellFormed(table: SalaryTable)
  {
    forall role <- table :: ValidRegions(table[role])
  }

  /** Every band of the salary table is ordered. */
  lemma SalaryDataWellFormed()
    ensures WellFormed(SalaryData)
  {
    SoftwareDeveloperOrdered();
    WebDeveloperOrdered();
    DataScientistOrdered();
    assert SalaryData.Keys == {"Software Developer", "Web Developer", "Data Scientist"};
  }

  lemma WebDeveloperOrdered()
    ensures ValidRegions(SalaryData["Web Developer"])
  {
    ThreeLevels(WebDeveloperUs);
    assert SalaryData["Web Developer"] == map["US" := WebDeveloperUs];
  }

  lemma DataScientistOrdered()
    ensures ValidRegions(SalaryData["Data Scientist"])
  {
    ThreeLevels(DataScientistUs);
    assert SalaryData["Data Scientist"] == map["US" := DataScientistUs];
  }

  lemma SoftwareDeveloperOrdered()
    ensures ValidRegions(SalaryData["Software Developer"])
  {
    ThreeLevels(SoftwareDeveloperUs);
    ThreeLevels(SoftwareDeveloperEurope);
    ThreeLevels(SoftwareDeveloperIndia);
    var regions := SalaryData["Software Developer"];
    assert regions.Keys == {"US", "Europe", "India"};
  }

  /** A level table whose three bands are ordered. */
  lemma ThreeLevels(levels: map<string, Band>)
    requires "junior" in levels && "mid" in levels && "senior" in levels
    requires levels == map["junior" := levels["junior"], "mid" := levels["mid"], "senior" := levels["senior"]]
    requires Ordered(levels["junior"]) && Ordered(levels["mid"]) && Ordered(levels["senior"])
    ensures ValidLevels(levels)
  {
    assert levels.Keys == {"junior", "mid", "senior"};
  }

  /** The level table used for a role and region: the region's own when it
      has one, else the role's US table, else nothing. */
  function RegionLevels(table: SalaryTable, role: string, region: string): map<string, Band>
  {
    var roleData := if role in table then table[role] else map[];
    var regionData := if region in roleData then roleData[region] else map[];
    if regionData != map[] then regionData
    else if "US" in roleData then roleData["US"]
    else map[]
  }

  /** The currency follows the requested region only. */
  function Currency(region: string): string
  {
    if region == "US" then "USD" else if region == "Europe" then "EUR" else "INR"
  }

  datatype SalaryBand = SalaryBand(role: string, region: string, level: string, band: Band, currency: string)

  /** `get_salary_band`. */
  function GetSalaryBand(role: string, region: string, level: string): (r: SalaryBand)
    ensures r.role == role && r.region == region && r.level == level
    ensures r.currency == Currency(region)
    ensures Ordered(r.band)
    ensures role !in SalaryData ==> r.band == DefaultBand
    ensures role in SalaryData && region in SalaryData[role] && level in SalaryData[role][region]
      ==> r.band == SalaryData[role][region][level]
  {
    SalaryDataWellFormed();
    var levels := RegionLevels(SalaryData, role, region);
    var band := if level in levels then levels[level] else DefaultBand;
    SalaryBand(role, region, level, band, Currency(region))
  }

  /** A region the role has no data for reports the role's US figures. */
  lemma MissingRegionUsesUs(role: string, region: string, level: string)
    requires role in SalaryData && region !in SalaryData[role]
    ensures GetSalaryBand(role, region, level).band == GetSalaryBand(role, "US", level).band
  {
  }

  /** An unknown experience level reports the default band, whatever the role and region. */
  lemma UnknownLevelUsesDefault(role: string, region: string, level: string)
    requires level !in {"junior", "mid", "senior"}
    ensures GetSalaryBand(role, region, level).band == DefaultBand
  {
    KnownLevelsOnly(role, region);
  }

  /** The salary table knows only the three experience levels. */
  lemma KnownLevelsOnly(role: string, region: string)
    ensures RegionLevels(SalaryData, role, region).Keys <= {"junior", "mid", "senior"}
  {
    SalaryDataWellFormed();
  }

  /** The currency does not follow the fallback: a Web Developer in India is
      reported the US figures, labelled in rupees. */
  lemma CurrencyIgnoresFallback()
    ensures GetSalaryBand("Web Developer", "India", "junior").band
      == GetSalaryBand("Web Developer", "US", "junior").band
    ensures GetSalaryBand("Web Developer", "India", "junior").currency == "INR"
    ensures GetSalaryBand("Web Developer", "US", "junior").currency == "USD"
  {
    MissingRegionUsesUs("Web Developer", "India", "junior");
  }

  // ---------------------------------------------------------------- trends

  datatype Trend = Trend(direction: string, growth: real, hot: seq<string>, declining: seq<string>)

  /** The trend reported for a role without a pattern. */
  const DefaultTrend := Trend("stable", 0.05, [], [])

  const TrendPatterns: map<string, Trend> := map[
    "Software Developer" := Trend("increasing", 0.15,
      ["Cloud Computing", "Microservices", "DevOps", "Kubernetes"],
      ["Legacy Systems", "Waterfall Methodology"]),
    "Web Developer" := Trend("stable", 0.08,
      ["React", "Next.js", "TypeScript", "GraphQL"],
      ["jQuery", "PHP"]),
    "Data Scientist" := Trend("increasing", 0.25,
      ["Machine Learning", "Deep Learning", "MLOps", "Data Engineering"],
      ["Traditional BI"])]

  function TrendOf(role: string): Trend
  {
    if role in TrendPatterns then TrendPatterns[role] else DefaultTrend
  }

  /** Some name occurs, case-insensitively, inside the skill. */
  predicate Mentions(names: seq<string>, skill: string)
  {
    exists n <- names :: Contains(Lower(skill), Lower(n))
  }

  // ---------------------------------------------------------------- gap priority

  /** The factor a trend applies to a gap: 1.5 for a hot skill, 0.7 for a
      declining one, both for a skill that is both. */
  function Factor(hot: bool, declining: bool): (f: real)
    ensures hot && !declining ==> f == 1.5
    ensures !hot && declining ==> f == 0.7
    ensures !hot && !declining ==> f == 1.0
    ensures f > 0.0
  {
    (if hot then 1.5 else 1.0) * (if declining then 0.7 else 1.0)
  }

  function TrendFactor(skill: string, trend: Trend): (f: real)
    ensures f > 0.0
  {
    Factor(Mentions(trend.hot, skill), Mentions(trend.declining, skill))
  }

  /** `_calculate_priority`: ten times the gap, weighted by the trend of the
      target role (`TrendOf(role)`). */
  function Priority(skill: string, trend: Trend, gap: real): (p: real)
    ensures gap > 0.0 ==> p > 0.0
  {
    var f := TrendFactor(skill, trend);
    PositiveProduct(10.0 * f, gap);
    (10.0 * f) * gap
  }

  lemma PositiveProduct(c: real, x: real)
    ensures c > 0.0 && x > 0.0 ==> c * x > 0.0
  {
    if c > 0.0 && x > 0.0 {
      MulLess(c, 0.0, x);
    }
  }

  /** For one skill, a larger gap has a larger priority. */
  lemma PriorityMonotone(skill: string, trend: Trend, g1: real, g2: real)
    requires g1 < g2
    ensures Priority(skill, trend, g1) < Priority(skill, trend, g2)
  {
    MulLess(10.0 * TrendFactor(skill, trend), g1, g2);
  }

  /** With equal gaps, a hot skill outranks a plain one and a plain one
      outranks a declining one. */
  lemma TrendOrdersPriority(hot: string, plain: string, declining: string, trend: Trend, gap: real)
    requires gap > 0.0
    requires Mentions(trend.hot, hot) && !Mentions(trend.declining, hot)
    requires !Mentions(trend.hot, plain) && !Mentions(trend.declining, plain)
    requires !Mentions(trend.hot, declining) && Mentions(trend.declining, declining)
    ensures Priority(hot, trend, gap) > Priority(plain, trend, gap) > Priority(declining, trend, gap)
  {
    MulLess(gap, 7.0, 10.0);
    MulLess(gap, 10.0, 15.0);
    assert Priority(hot, trend, gap) == 15.0 * gap;
    assert Priority(plain, trend, gap) == 10.0 * gap;
    assert Priority(declining, trend, gap) == 7.0 * gap;
  }

  // ---------------------------------------------------------------- gap analysis

  /** One skill the user is short of. */
  datatype GapEntry = GapEntry(skill: string, userLevel: real, required: real, gap: real, priority: real)

  /** `user_skills.get(skill, 0)`. */
  function UserLevel(user: map<string, real>, skill: string): real
  {
    if skill in user then user[skill] else 0.0
  }

  /** `_get_default_required_skills`: the requirements used when none are given. */
  function DefaultRequired(role: string): (r: seq<(string, real)>)
    ensures r != []
    ensures forall p <- r :: p.1 > 0.0
  {
    if role == "Software Developer" then
      [("Programming Fundamentals", 8.0), ("Data Structures & Algorithms", 7.0),
       ("Object-Oriented Programming", 8.0), ("Version Control (Git)", 7.0),
       ("Testing & Debugging", 7.0), ("Software Design Patterns", 6.0), ("System Design", 6.0)]
    else if role == "Web Developer" then
      [("HTML/CSS", 9.0), ("JavaScript", 8.0), ("Responsive Design", 8.0),
       ("Frontend Frameworks", 7.0), ("Backend Development", 6.0),
       ("Database Integration", 7.0), ("API Development", 7.0)]
    else if role == "Data Scientist" then
      [("Statistics & Probability", 8.0), ("Python/R Programming", 8.0), ("Data Manipulation", 8.0),
       ("Data Visualization", 7.0), ("Machine Learning Basics", 7.0), ("SQL", 7.0),
       ("Feature Engineering", 6.0)]
    else
      [("Technical Skills", 7.0), ("Problem Solving", 7.0), ("Communication", 6.0)]
  }

  /** The gap entry a requirement produces. */
  function EntryFor(user: map<string, real>, role: string, req: (string, real)): GapEntry
  {
    var have := UserLevel(user, req.0);
    GapEntry(req.0, have, req.1, req.1 - have, Priority(req.0, TrendOf(role), req.1 - have))
  }

  /** The requirements the user falls short of, in requirement order. */
  function Gaps(user: map<string, real>, role: string, required: seq<(string, real)>): (r: seq<GapEntry>)
    ensures |r| <= |required|
    ensures forall e <- r ::
      (e.skill, e.required) in required && e.gap > 0.0 && e.priority > 0.0
      && e.userLevel == UserLevel(user, e.skill) && e.gap == e.required - e.userLevel
    ensures forall q <- required :: q.1 > UserLevel(user, q.0) ==> EntryFor(user, role, q) in r
  {
    if required == [] then []
    else
      var rest := Gaps(user, role, required[1..]);
      assert forall q <- required :: q == required[0] || q in required[1..];
      var e := EntryFor(user, role, required[0]);
      if e.gap > 0.0 then [e] + rest else rest
  }

  /** A requirement the user meets produces no gap entry. */
  lemma MetRequirementIsNoGap(user: map<string, real>, role: string, required: seq<(string, real)>, skill: string)
    requires forall q <- required :: q.0 == skill ==> q.1 <= UserLevel(user, skill)
    ensures forall e <- Gaps(user, role, required) :: e.skill != skill
  {
  }

  function PriorityKey(e: GapEntry): Sorting.Key
  {
    Sorting.Key(0, e.priority)
  }

  const TopPriorities: nat := 10

  datatype GapReport = GapReport(role: string, totalGaps: nat, gaps: seq<GapEntry>,
                                 prioritySkills: seq<GapEntry>, trend: Trend, advice: GapAdvice)

  /** `analyze_skill_gap`: missing or empty requirements fall back to the
      role's defaults; the priority list is the gaps sorted by priority, highest
      first and stably, cut to ten; the advice reads the whole sorted list. */
  function AnalyzeSkillGap(user: map<string, real>, role: string, required: seq<(string, real)>): (r: GapReport)
    ensures r.role == role && r.trend == TrendOf(role)
    ensures r.gaps == Gaps(user, role, if required == [] then DefaultRequired(role) else required)
    ensures r.totalGaps == |r.gaps|
    ensures Sorting.Descending(r.prioritySkills, PriorityKey)
    ensures |r.prioritySkills| == if |r.gaps| < TopPriorities then |r.gaps| else TopPriorities
    ensures multiset(r.prioritySkills) <= multiset(r.gaps)
    ensures forall e <- r.prioritySkills :: e in r.gaps
    ensures r.advice == Advise(r.gaps, Sorting.SortDescending(r.gaps, PriorityKey), role)
  {
    var reqs := if required == [] then DefaultRequired(role) else required;
    var gaps := Gaps(user, role, reqs);
    var sorted := Sorting.SortDescending(gaps, PriorityKey);
    var top := Sorting.Take(sorted, TopPriorities);
    TopOfGaps(gaps);
    GapReport(role, |gaps|, gaps, top, TrendOf(role), Advise(gaps, sorted, role))
  }

  /** The priority list is at most ten of the gaps, each taken at most as
      often as it occurs, highest priority first. */
  lemma TopOfGaps(gaps: seq<GapEntry>)
    ensures var top := Sorting.Take(Sorting.SortDescending(gaps, PriorityKey), TopPriorities);
      && Sorting.Descending(top, PriorityKey)
      && |top| == (if |gaps| < TopPriorities then |gaps| else TopPriorities)
      && multiset(top) <= multiset(gaps)
      && forall e <- top :: e in gaps
  {
    var sorted := Sorting.SortDescending(gaps, PriorityKey);
    var top := Sorting.Take(sorted, TopPriorities);
    Sorting.TakeKeepsOrder(sorted, PriorityKey, TopPriorities);
    Sorting.TakeSubMultiset(sorted, TopPriorities);
    forall e <- top ensures e in gaps {
      assert e in multiset(sorted);
    }
  }

  /** No gap left off the priority list has a higher priority than one on it. */
  lemma PriorityListKeepsLargest(user: map<string, real>, role: string, required: seq<(string, real)>, e: GapEntry)
    requires e in AnalyzeSkillGap(user, role, required).gaps
    requires e !in AnalyzeSkillGap(user, role, required).prioritySkills
    ensures forall f <- AnalyzeSkillGap(user, role, required).prioritySkills :: e.priority <= f.priority
  {
    var r := AnalyzeSkillGap(user, role, required);
    var sorted := Sorting.SortDescending(r.gaps, PriorityKey);
    assert e in multiset(sorted);
    Sorting.TakeKeepsLargest(sorted, PriorityKey, TopPriorities, e);
  }

  // ---------------------------------------------------------------- gap advice

  /** What `_generate_gap_recommendations` advises, one field per message in
      the order the messages are listed: the skill to focus on, up to three
      gaps in hot skills (none when empty), the growth rate worth pointing out,
      and a note on the number of gaps. The wording is left to the text. */
  datatype GapAdvice = GapAdvice(focus: Option<string>, hotGaps: seq<string>, growth: Option<real>, size: SizeNote)

  datatype SizeNote = NoNote | TooManyGaps(count: nat) | WellAligned

  const HighGrowthRate: real := 0.15
  const ManyGaps: nat := 10
  const FewGaps: nat := 3
  const HotShown: nat := 3

  /** The growth rate the advice reads: `trends.get('growth_rate', 0)`, so a
      role without a trend pattern reads 0 here, not the 0.05 the report shows. */
  function AdviceGrowth(role: string): real
  {
    if role in TrendPatterns then TrendPatterns[role].growth else 0.0
  }

  /** The skills of the gaps that mention a hot skill, in gap order. */
  function HotGapSkills(gaps: seq<GapEntry>, hot: seq<string>): (r: seq<string>)
    ensures |r| <= |gaps|
    ensures forall s <- r :: Mentions(hot, s) && exists e <- gaps :: e.skill == s
    ensures forall e <- gaps :: Mentions(hot, e.skill) ==> e.skill in r
  {
    if gaps == [] then []
    else
      var rest := HotGapSkills(gaps[1..], hot);
      assert forall e <- gaps :: e == gaps[0] || e in gaps[1..];
      if Mentions(hot, gaps[0].skill) then [gaps[0].skill] + rest else rest
  }

  /** `_generate_gap_recommendations`: focus on the first skill of the ranked
      list, name up to three gaps in the role's hot skills, point out growth
      above 15%, and comment on more than ten or fewer than three gaps. */
  function Advise(gaps: seq<GapEntry>, ranked: seq<GapEntry>, role: string): (a: GapAdvice)
    ensures a.focus.Some? <==> ranked != []
    ensures ranked != [] ==> a.focus == Some(ranked[0].skill)
    ensures |a.hotGaps| <= HotShown
    ensures a.hotGaps == [] <==> forall e <- gaps :: !Mentions(TrendOf(role).hot, e.skill)
    ensures forall s <- a.hotGaps :: Mentions(TrendOf(role).hot, s) && exists e <- gaps :: e.skill == s
    ensures a.growth.Some? <==> AdviceGrowth(role) > HighGrowthRate
    ensures a.growth.Some? ==> a.growth.value == AdviceGrowth(role)
    ensures a.size.TooManyGaps? <==> |gaps| > ManyGaps
    ensures a.size.TooManyGaps? ==> a.size.count == |gaps|
    ensures a.size.WellAligned? <==> |gaps| < FewGaps
  {
    var hot := HotGapSkills(gaps, TrendOf(role).hot);
    var shown := Sorting.Take(hot, HotShown);
    assert hot != [] ==> hot[0] in shown && hot[0] in hot;
    assert hot != [] ==> exists e <- gaps :: e.skill == hot[0] && Mentions(TrendOf(role).hot, e.skill);
    var growth := AdviceGrowth(role);
    GapAdvice(if ranked != [] then Some(ranked[0].skill) else None,
              shown,
              if growth > HighGrowthRate then Some(growth) else None,
              if |gaps| > ManyGaps then TooManyGaps(|gaps|) else if |gaps| < FewGaps then WellAligned else NoNote)
  }

  /** Every analysis gives some advice: a focus skill exactly when there is
      a gap, and the well-aligned note when there is none. */
  lemma AdviceNeverEmpty(user: map<string, real>, role: string, required: seq<(string, real)>)
    ensures var a := AnalyzeSkillGap(user, role, required).advice;
      a.focus.Some? || a.size.WellAligned?
    ensures var r := AnalyzeSkillGap(user, role, required);
      r.advice.focus.Some? <==> r.gaps != []
  {
    var r := AnalyzeSkillGap(user, role, required);
    assert |Sorting.SortDescending(r.gaps, PriorityKey)| == |r.gaps|;
  }

  /** The first advice names the top of the priority list, a gap of highest
      priority. */
  lemma AdviceFocusesOnTopPriority(user: map<string, real>, role: string, required: seq<(string, real)>)
    requires AnalyzeSkillGap(user, role, required).gaps != []
    ensures var r := AnalyzeSkillGap(user, role, required);
      && r.prioritySkills != []
      && r.advice.focus == Some(r.prioritySkills[0].skill)
      && forall e <- r.gaps :: e.priority <= r.prioritySkills[0].priority
  {
    var r := AnalyzeSkillGap(user, role, required);
    var sorted := Sorting.SortDescending(r.gaps, PriorityKey);
    assert r.prioritySkills[0] == sorted[0];
    forall e <- r.gaps ensures e.priority <= r.prioritySkills[0].priority {
      if e in r.prioritySkills {
        var k :| 0 <= k < |r.prioritySkills| && r.prioritySkills[k] == e;
        if k > 0 {
          assert !Sorting.Above(PriorityKey(r.prioritySkills[k]), PriorityKey(r.prioritySkills[0]));
        }
      } else {
        PriorityListKeepsLargest(user, role, required, e);
      }
    }
  }

  /** A Data Scientist analysis points out the role's growth; a Software
      Developer one does not, since its 15% is not above the 15% mark. */
  lemma GrowthAdviceByRole(user: map<string, real>, required: seq<(string, real)>)
    ensures AnalyzeSkillGap(user, "Data Scientist", required).advice.growth == Some(0.25)
    ensures AnalyzeSkillGap(user, "Software Developer", required).advice.growth == None
  {
    assert AdviceGrowth("Data Scientist") == 0.25;
    assert AdviceGrowth("Software Developer") == 0.15;
  }

  // ---------------------------------------------------------------- job trends

  const BaseDemand: real := 1000.0

  datatype JobTrends = JobTrends(role: string, region: string, demand: real, direction: string,
                                 growth: real, hot: seq<string>, jobsPerDay: int)

  /** `get_job_trends`: growth lifts an increasing demand up to 1, shrinkage
      lowers a decreasing one down to 0.3, and anything else is 0.7. */
  function GetJobTrends(role: string, region: string): (r: JobTrends)
    ensures r.direction == TrendOf(role).direction && r.growth == TrendOf(role).growth
    ensures r.direction == "increasing" ==> r.demand <= 1.0 && (r.growth >= 0.0 ==> r.demand == 1.0)
    ensures r.direction == "decreasing" ==> r.demand >= 0.3
    ensures 0.0 <= r.growth <= 1.0 ==> 0.3 <= r.demand <= 1.0 && 10 <= r.jobsPerDay <= 33
    ensures r.direction == "increasing" ==> r.demand == (if 1.0 + r.growth < 1.0 then 1.0 + r.growth else 1.0)
    ensures r.direction == "decreasing" ==> r.demand == (if 1.0 - r.growth > 0.3 then 1.0 - r.growth else 0.3)
    ensures r.direction != "increasing" && r.direction != "decreasing" ==> r.demand == 0.7
  {
    var t := TrendOf(role);
    var demand :=
      if t.direction == "increasing" then
        var d := BaseDemand * (1.0 + t.growth) / BaseDemand;
        if d < 1.0 then d else 1.0
      else if t.direction == "decreasing" then
        var d := BaseDemand * (1.0 - t.growth) / BaseDemand;
        if d > 0.3 then d else 0.3
      else 0.7;
    var jobs := Trunc(BaseDemand * demand / 30.0);
    JobsPerDayBounds(demand);
    JobTrends(role, region, demand, t.direction, t.growth, t.hot, jobs)
  }

  lemma JobsPerDayBounds(demand: real)
    ensures 0.3 <= demand <= 1.0 ==> 10 <= Trunc(BaseDemand * demand / 30.0) <= 33
  {
  }

  /** Every role the table knows grows, so its demand is full or, for a stable role, 0.7. */
  lemma KnownRolesDemand(role: string)
    ensures GetJobTrends(role, "US").demand == (if TrendOf(role).direction == "increasing" then 1.0 else 0.7)
  {
  }

  // ---------------------------------------------------------------- regional comparison

  const ComparedRegions: seq<string> := ["US", "Europe", "India"]

  datatype RegionBand = RegionBand(region: string, band: Band, currency: string)

  datatype Comparison = Comparison(role: string, level: string, regions: seq<RegionBand>,
                                   highest: RegionBand, lowest: RegionBand)

  function Medians(rs: seq<RegionBand>): (m: seq<real>)
    ensures |m| == |rs| && forall i :: 0 <= i < |rs| ==> m[i] == rs[i].band.median as real
  {
    if rs == [] then [] else [rs[0].band.median as real] + Medians(rs[1..])
  }

  /** The first region with the highest median. */
  function Highest(rs: seq<RegionBand>): (i: nat)
    requires rs != []
    ensures i < |rs|
    ensures forall x <- rs :: x.band.median <= rs[i].band.median
    ensures forall j :: 0 <= j < i ==> rs[j].band.median < rs[i].band.median
  {
    var ms := Medians(rs);
    var i := Seqs.ArgMax(ms);
    assert forall j :: 0 <= j < |rs| ==> ms[j] <= ms[i];
    i
  }

  /** The first region with the lowest median. */
  function Lowest(rs: seq<RegionBand>): (i: nat)
    requires rs != []
    ensures i < |rs|
    ensures forall x <- rs :: rs[i].band.median <= x.band.median
    ensures forall j :: 0 <= j < i ==> rs[j].band.median > rs[i].band.median
  {
    var ms := Medians(rs);
    var i := Seqs.ArgMin(ms);
    assert forall j :: 0 <= j < |rs| ==> ms[i] <= ms[j];
    i
  }

  /** Each compared region with its band and currency. */
  function RegionBands(role: string, level: string): (rs: seq<RegionBand>)
    ensures |rs| == |ComparedRegions|
    ensures forall i :: 0 <= i < |rs| ==>
      rs[i].region == ComparedRegions[i]
      && rs[i].band == GetSalaryBand(role, ComparedRegions[i], level).band
      && rs[i].currency == Currency(ComparedRegions[i])
  {
    seq(|ComparedRegions|, i requires 0 <= i < |ComparedRegions| =>
      var b := GetSalaryBand(role, ComparedRegions[i], level);
      RegionBand(ComparedRegions[i], b.band, b.currency))
  }

  /** `compare_salary_by_region`: the three regions' bands, and the first
      region with the highest and with the lowest median (`Highest`, `Lowest`). */
  function CompareSalaryByRegion(role: string, level: string): (r: Comparison)
    ensures |r.regions| == |ComparedRegions|
    ensures forall i :: 0 <= i < |r.regions| ==>
      r.regions[i].region == ComparedRegions[i]
      && r.regions[i].band == GetSalaryBand(role, ComparedRegions[i], level).band
      && r.regions[i].currency == Currency(ComparedRegions[i])
    ensures r.highest in r.regions && r.lowest in r.regions
    ensures forall x <- r.regions :: r.lowest.band.median <= x.band.median <= r.highest.band.median
    ensures r.highest == r.regions[Highest(r.regions)] && r.lowest == r.regions[Lowest(r.regions)]
  {
    var rs := RegionBands(role, level);
    Comparison(role, level, rs, rs[Highest(rs)], rs[Lowest(rs)])
  }

  /** Ties go to the earliest region: for an unknown role every region has
      the default band, and the US is both highest and lowest. */
  lemma UnknownRoleComparesUs(role: string, level: string)
    requires role !in SalaryData
    ensures CompareSalaryByRegion(role, level).highest.region == "US"
    ensures CompareSalaryByRegion(role, level).lowest.region == "US"
  {
  }
}

=== FILE: labor_views.dfy ===
/** The career-path recommendations of `Backend/labor_market/views.py`:
    set-based match and gap scores between a role's required skills and the
    user's skills, the transition-time bucket, the demand score, the reasoning
    category, the recommended actions, and the ten best recommendations.

    Python lists a set difference in hash order, which the language leaves
    unspecified; the model lists the missing and matching skills in the order
    of their first occurrence in the role's requirement list. */
module LaborViews {
  import opened Wrappers
  import opened Numbers
  import Seqs
  import opened Sorting

  /** A job role as the recommender reads it: title, the JSON list of
      required skills, and how many salary records it has. */
  datatype Role = Role(title: string, required: seq<string>, salaryEntries: nat)

  function Required(role: Role): set<string>
  {
    Seqs.Elems(role.required)
  }

  function Has(user: set<string>): string -> bool
  {
    (s: string) => s in user
  }

  // ---------------------------------------------------------------- match and gap

  /** `_calculate_match_score`: 50 for a role with no requirements, else the
      share of requirements the user has, in percent, rounded. */
  function MatchScore(role: Role, user: set<string>): (r: real)
    ensures 0.0 <= r <= 100.0
    ensures Required(role) == {} ==> r == 50.0
    ensures Required(role) != {} && Required(role) <= user ==> r == 100.0
    ensures Required(role) != {} && Required(role) * user == {} ==> r == 0.0
    ensures Required(role) != {} ==>
      -0.005 <= r - |Required(role) * user| as real / |Required(role)| as real * 100.0 <= 0.005
  {
    var req := Required(role);
    if req == {} then 50.0
    else
      Seqs.SubsetCard(req * user, req);
      if req <= user then
        assert req * user == req;
        Round2Fixes(100.0);
        Round2(100.0)
      else
        Share(|req * user|, |req|)
  }

  /** `round(part / whole * 100, 2)` for a non-empty whole. */
  function Share(part: nat, whole: nat): (r: real)
    requires 0 < whole && part <= whole
    ensures 0.0 <= r <= 100.0
    ensures part == 0 ==> r == 0.0
    ensures -0.005 <= r - part as real / whole as real * 100.0 <= 0.005
  {
    var x := part as real / whole as real * 100.0;
    assert part as real / whole as real <= 1.0;
    assert Hundredths(0.0) && Hundredths(100.0);
    Round2Between(0.0, x, 100.0);
    Round2Fixes(0.0);
    Round2(x)
  }

  datatype SkillGap = SkillGap(missing: seq<string>, matching: seq<string>, gapPercentage: real)

  /** `_calculate_skill_gap`: the requirements the user lacks and those the
      user has, each listed once, and the missing share in percent. */
  function CalculateSkillGap(role: Role, user: set<string>): (g: SkillGap)
    ensures Seqs.Distinct(g.missing) && Seqs.Elems(g.missing) == Required(role) - user
    ensures Seqs.Distinct(g.matching) && Seqs.Elems(g.matching) == Required(role) * user
    ensures |g.missing| + |g.matching| == |Required(role)|
    ensures 0.0 <= g.gapPercentage <= 100.0
    ensures Required(role) == {} ==> g.gapPercentage == 0.0
    ensures Required(role) != {} ==>
      -0.005 <= g.gapPercentage - |Required(role) - user| as real / |Required(role)| as real * 100.0 <= 0.005
  {
    var listed := Seqs.Dedup(role.required);
    var (matching, missing) := Seqs.Partition(listed, Has(user));
    SplitListing(listed, user);
    var req := Required(role);
    Seqs.DistinctCard(missing);
    var gap := if req == {} then 0.0 else Share(|missing|, |req|);
    SkillGap(missing, matching, gap)
  }

  /** Splitting a listing of the requirements by the user's skills lists the
      matching and the missing requirements, each once. */
  lemma SplitListing(listed: seq<string>, user: set<string>)
    requires Seqs.Distinct(listed)
    ensures var matching := Seqs.Filter(listed, Has(user));
      Seqs.Distinct(matching) && Seqs.Elems(matching) == Seqs.Elems(listed) * user
    ensures var missing := Seqs.Filter(listed, Seqs.Not(Has(user)));
      Seqs.Distinct(missing) && Seqs.Elems(missing) == Seqs.Elems(listed) - user
  {
    MatchingListing(listed, user);
    MissingListing(listed, user);
  }

  lemma MatchingListing(listed: seq<string>, user: set<string>)
    requires Seqs.Distinct(listed)
    ensures var matching := Seqs.Filter(listed, Has(user));
      Seqs.Distinct(matching) && Seqs.Elems(matching) == Seqs.Elems(listed) * user
  {
    FilterDistinct(listed, Has(user));
    assert forall s :: Has(user)(s) == (s in user);
  }

  lemma MissingListing(listed: seq<string>, user: set<string>)
    requires Seqs.Distinct(listed)
    ensures var missing := Seqs.Filter(listed, Seqs.Not(Has(user)));
      Seqs.Distinct(missing) && Seqs.Elems(missing) == Seqs.Elems(listed) - user
  {
    FilterDistinct(listed, Seqs.Not(Has(user)));
    assert forall s :: Seqs.Not(Has(user))(s) == (s !in user);
  }

  /** Keeping some elements of a duplicate-free sequence keeps it duplicate-free. */
  lemma {:induction false} FilterDistinct<T>(xs: seq<T>, p: T -> bool)
    requires Seqs.Distinct(xs)
    ensures Seqs.Distinct(Seqs.Filter(xs, p))
  {
    if xs != [] {
      Seqs.DistinctTail(xs);
      FilterDistinct(xs[1..], p);
      if p(xs[0]) {
        Seqs.DistinctPrepend(xs[0], Seqs.Filter(xs[1..], p));
      }
    }
  }

  /** For a role with requirements, the match and gap percentages add up to
      100, rounding included. */
  lemma MatchAndGapComplement(role: Role, user: set<string>)
    requires Required(role) != {}
    ensures MatchScore(role, user) + CalculateSkillGap(role, user).gapPercentage == 100.0
  {
    var req := Required(role);
    var g := CalculateSkillGap(role, user);
    Seqs.DistinctCard(g.missing);
    assert |g.missing| == |req - user|;
    assert g.gapPercentage == Share(|req - user|, |req|);
    if req <= user {
      assert req - user == {};
    } else {
      assert MatchScore(role, user) == Share(|req * user|, |req|);
      ShareComplement(|req * user|, |req - user|, |req|);
    }
  }

  lemma ShareComplement(a: nat, b: nat, n: nat)
    requires 0 < n && a + b == n
    ensures Share(a, n) + Share(b, n) == 100.0
  {
    var nr := n as real;
    var p := a as real / nr;
    FractionsComplement(a as real, b as real, nr);
    assert (b as real / nr) * 100.0 == 100.0 - p * 100.0;
    Round2Complement(p * 100.0);
  }

  /** Two parts of a whole, as fractions of it, add up to one. */
  lemma FractionsComplement(x: real, y: real, w: real)
    requires w > 0.0 && x + y == w
    ensures y / w == 1.0 - x / w
  {
    assert x / w + y / w == (x + y) / w;
  }

  // ---------------------------------------------------------------- transition, demand, reasoning

  datatype Horizon = OneToThreeMonths | ThreeToSixMonths | SixToTwelveMonths | OverTwelveMonths

  function HorizonRank(h: Horizon): nat
  {
    match h
    case OneToThreeMonths => 0
    case ThreeToSixMonths => 1
    case SixToTwelveMonths => 2
    case OverTwelveMonths => 3
  }

  /** `_estimate_transition_time`: below 20, 40 and 60 percent gap, or more. */
  function TransitionTime(gap: real): (h: Horizon)
    ensures h == OneToThreeMonths <==> gap < 20.0
    ensures h == ThreeToSixMonths <==> 20.0 <= gap < 40.0
    ensures h == SixToTwelveMonths <==> 40.0 <= gap < 60.0
    ensures h == OverTwelveMonths <==> gap >= 60.0
  {
    if gap < 20.0 then OneToThreeMonths
    else if gap < 40.0 then ThreeToSixMonths
    else if gap < 60.0 then SixToTwelveMonths
    else OverTwelveMonths
  }

  /** A larger gap never promises a shorter transition. */
  lemma TransitionMonotone(x: real, y: real)
    requires x <= y
    ensures HorizonRank(TransitionTime(x)) <= HorizonRank(TransitionTime(y))
  {
  }

  /** `_calculate_demand_score`: five points per salary record, capped at 100. */
  function DemandScore(role: Role): (d: nat)
    ensures d <= 100
    ensures d == 100 <==> role.salaryEntries >= 20
    ensures d < 100 ==> d == 5 * role.salaryEntries
  {
    if 5 * role.salaryEntries < 100 then 5 * role.salaryEntries else 100
  }

  /** The three messages of `_generate_reasoning`, with the numbers they quote. */
  datatype Reasoning = Excellent(score: real) | Good(score: real, missing: nat) | Potential(missing: nat)

  function GenerateReasoning(matchScore: real, gap: SkillGap): (r: Reasoning)
    ensures r.Excellent? <==> matchScore >= 80.0
    ensures r.Good? <==> 60.0 <= matchScore < 80.0
    ensures r.Potential? <==> matchScore < 60.0
    ensures !r.Excellent? ==> r.missing == |gap.missing|
  {
    if matchScore >= 80.0 then Excellent(matchScore)
    else if matchScore >= 60.0 then Good(matchScore, |gap.missing|)
    else Potential(|gap.missing|)
  }

  /** Demand never falls as salary records are added. */
  lemma DemandScoreMonotone(r1: Role, r2: Role)
    requires r1.salaryEntries <= r2.salaryEntries
    ensures DemandScore(r1) <= DemandScore(r2)
  {
  }

  /** The order of the three messages: potential, good, excellent. */
  function ReasoningRank(r: Reasoning): nat
  {
    match r
    case Potential(_) => 0
    case Good(_, _) => 1
    case Excellent(_) => 2
  }

  /** A better match never earns a weaker message. */
  lemma GenerateReasoningMonotone(x: real, y: real, gap: SkillGap)
    requires x <= y
    ensures ReasoningRank(GenerateReasoning(x, gap)) <= ReasoningRank(GenerateReasoning(y, gap))
  {
  }

  // ---------------------------------------------------------------- actions

  datatype Urgency = HighPriority | MediumPriority

  datatype Action = Action(skill: string, priority: Urgency)

  /** `_get_recommended_actions`: one action for each of the first five
      missing skills, high priority when the skill's first position in the
      list is among the first three. */
  function RecommendedActions(missing: seq<string>): (r: seq<Action>)
    ensures |r| == if |missing| < 5 then |missing| else 5
    ensures forall k :: 0 <= k < |r| ==> r[k].skill == missing[k]
    ensures forall a <- r :: a.skill in missing
    ensures forall k :: 0 <= k < |r| ==> (r[k].priority == HighPriority <==> Seqs.IndexOf(missing, missing[k]).value < 3)
  {
    var shown := Take(missing, 5);
    seq(|shown|, k requires 0 <= k < |shown| =>
      Action(shown[k], if Seqs.IndexOf(missing, missing[k]).value < 3 then HighPriority else MediumPriority))
  }

  /** With each skill listed once, exactly the first three actions are high priority. */
  lemma FirstThreeActionsHigh(missing: seq<string>)
    requires Seqs.Distinct(missing)
    ensures forall k :: 0 <= k < |RecommendedActions(missing)| ==>
      (RecommendedActions(missing)[k].priority == HighPriority <==> k < 3)
  {
    forall k | 0 <= k < |RecommendedActions(missing)|
      ensures Seqs.IndexOf(missing, missing[k]).value == k
    {
      var i := Seqs.IndexOf(missing, missing[k]).value;
      if i < k {
        assert missing[i] == missing[k];
      }
    }
  }

  // ---------------------------------------------------------------- skill-gap endpoint

  datatype GapAnalysis = GapAnalysis(role: string, gap: SkillGap, time: Horizon, actions: seq<Action>)

  /** The exact missing share, before rounding. */
  function RawGap(role: Role, user: set<string>): (x: real)
    ensures Required(role) != {} ==> x == |Required(role) - user| as real / |Required(role)| as real * 100.0
  {
    var req := Required(role);
    if req == {} then 0.0 else |req - user| as real / |req| as real * 100.0
  }

  /** `skill_gap_analysis`: an unknown role is an error (404); otherwise the
      gap with its actions, the transition time read from the unrounded
      percentage. */
  function SkillGapAnalysis(role: Option<Role>, user: set<string>): (r: Result<GapAnalysis, string>)
    ensures r.Err? <==> role.None?
    ensures r.Ok? ==> r.value.gap == CalculateSkillGap(role.value, user) && r.value.role == role.value.title
    ensures r.Ok? ==> r.value.time == TransitionTime(RawGap(role.value, user))
    ensures r.Ok? ==> |r.value.actions| <= 5 && forall a <- r.value.actions :: a.skill in Required(role.value) - user
  {
    match role
    case None => Err("Target role not found")
    case Some(job) =>
      var gap := CalculateSkillGap(job, user);
      var actions := RecommendedActions(gap.missing);
      assert forall x <- gap.missing :: x in Seqs.Elems(gap.missing);
      Ok(GapAnalysis(job.title, gap, TransitionTime(RawGap(job, user)), actions))
  }

  /** Within half a hundredth of a band edge of `TransitionTime`. */
  predicate NearBandEdge(x: real)
  {
    (19.995 <= x <= 20.005) || (39.995 <= x <= 40.005) || (59.995 <= x <= 60.005)
  }

  /** The skill-gap endpoint reads the transition time from the unrounded
      gap, the recommendations from the rounded one: the two agree unless
      the gap lies within half a hundredth of a band edge, and even then
      they are neighbouring bands. */
  lemma AnalysisAgreesWithRecommend(role: Role, user: set<string>)
    ensures var a := SkillGapAnalysis(Some(role), user).value;
      var rec := Recommend(role, user);
      && (a.time == rec.time || NearBandEdge(RawGap(role, user)))
      && HorizonRank(a.time) <= HorizonRank(rec.time) + 1
      && HorizonRank(rec.time) <= HorizonRank(a.time) + 1
  {
    var a := SkillGapAnalysis(Some(role), user).value;
    var rec := Recommend(role, user);
    var g := CalculateSkillGap(role, user);
    assert a.time == TransitionTime(RawGap(role, user)) && rec.time == TransitionTime(g.gapPercentage);
    NearbyBands(g.gapPercentage, RawGap(role, user));
  }

  /** Two gaps at most half a hundredth apart get the same band unless the
      second is that close to an edge, and never bands two apart. */
  lemma NearbyBands(x: real, y: real)
    requires -0.005 <= x - y <= 0.005
    ensures TransitionTime(x) == TransitionTime(y) || NearBandEdge(y)
    ensures HorizonRank(TransitionTime(x)) <= HorizonRank(TransitionTime(y)) + 1
    ensures HorizonRank(TransitionTime(y)) <= HorizonRank(TransitionTime(x)) + 1
  {
  }

  // ---------------------------------------------------------------- recommendations

  datatype Recommendation = Recommendation(role: string, matchScore: real, gap: SkillGap, time: Horizon,
                                           demand: nat, reasoning: Reasoning, courses: seq<string>)

  const RolesConsidered: nat := 20
  const RecommendationsShown: nat := 10

  /** One `CareerPathRecommendation`; the transition time is read from the
      rounded gap percentage, and a course is suggested for each of the
      first three missing skills. */
  function Recommend(role: Role, user: set<string>): (r: Recommendation)
    ensures r.role == role.title && r.matchScore == MatchScore(role, user)
    ensures r.time == TransitionTime(r.gap.gapPercentage) && r.gap == CalculateSkillGap(role, user)
    ensures |r.courses| <= 3 && forall c <- r.courses :: c in Required(role) && c !in user
  {
    var match_ := MatchScore(role, user);
    var gap := CalculateSkillGap(role, user);
    var courses := Take(gap.missing, 3);
    assert forall c <- courses :: c in gap.missing && c in Seqs.Elems(gap.missing);
    Recommendation(role.title, match_, gap, TransitionTime(gap.gapPercentage), DemandScore(role),
                   GenerateReasoning(match_, gap), courses)
  }

  function MatchKey(r: Recommendation): Key
  {
    Key(0, r.matchScore)
  }

  function RecommendAll(roles: seq<Role>, user: set<string>): (r: seq<Recommendation>)
    ensures |r| == |roles|
    ensures forall k :: 0 <= k < |r| ==> r[k] == Recommend(roles[k], user)
  {
    seq(|roles|, k requires 0 <= k < |roles| => Recommend(roles[k], user))
  }

  /** `_generate_recommendations` after the role query: the first twenty
      candidate roles scored, sorted by match score (ties in query order),
      and the best ten kept. */
  function GenerateRecommendations(roles: seq<Role>, user: set<string>): (r: seq<Recommendation>)
    ensures |r| == Min(RecommendationsShown, Min(|roles|, RolesConsidered))
    ensures Descending(r, MatchKey)
    ensures multiset(r) <= multiset(RecommendAll(Take(roles, RolesConsidered), user))
    ensures forall x <- r :: exists k :: 0 <= k < |roles| && k < RolesConsidered && x == Recommend(roles[k], user)
  {
    var all := RecommendAll(Take(roles, RolesConsidered), user);
    var r := TopN(all, MatchKey, RecommendationsShown);
    KeptAreConsidered(roles, user, all, r);
    r
  }

  /** What survives the sort and the cut is the recommendation of some
      considered role. */
  lemma KeptAreConsidered(roles: seq<Role>, user: set<string>, all: seq<Recommendation>, r: seq<Recommendation>)
    requires all == RecommendAll(Take(roles, RolesConsidered), user)
    requires multiset(r) <= multiset(all)
    ensures forall x <- r :: exists k :: 0 <= k < |roles| && k < RolesConsidered && x == Recommend(roles[k], user)
  {
    var considered := Take(roles, RolesConsidered);
    forall x | x in r
      ensures exists k :: 0 <= k < |roles| && k < RolesConsidered && x == Recommend(roles[k], user)
    {
      assert x in multiset(r);
      assert x in all;
      var k :| 0 <= k < |all| && all[k] == x;
      assert considered[k] == roles[k];
      assert 0 <= k < |roles| && k < RolesConsidered && x == Recommend(roles[k], user);
    }
  }

  /** A considered role left out of the ten has no better match than any kept. */
  lemma RecommendationsKeepBest(roles: seq<Role>, user: set<string>, k: nat)
    requires k < |roles| && k < RolesConsidered
    requires Recommend(roles[k], user) !in GenerateRecommendations(roles, user)
    ensures forall x <- GenerateRecommendations(roles, user) :: MatchScore(roles[k], user) <= x.matchScore
  {
    var all := RecommendAll(Take(roles, RolesConsidered), user);
    var sorted := SortDescending(all, MatchKey);
    var x := Recommend(roles[k], user);
    assert all[k] == x;
    assert x in multiset(all);
    assert x in sorted;
    TakeKeepsLargest(sorted, MatchKey, RecommendationsShown, x);
  }
}

=== FILE: learning_path.dfy ===
/** The learning-path generator: skill gaps of a role's curriculum, the
    dependency-ordered milestone plan, grouping, hour estimates, resource
    filtering and the week schedule. */
module LearningPath {
  import opened Wrappers
  import opened Seqs
  import opened Text
  import opened Numbers
  import opened Sorting

  datatype Category = Core | Advanced | Tools
  datatype Priority = High | Medium | Low

  /** A role's curriculum: the three skill lists of `role_curricula`. */
  datatype Curriculum = Curriculum(core: seq<string>, advanced: seq<string>, tools: seq<string>)

  datatype Gap = Gap(skill: string, current: real, required: real, size: real, priority: Priority, category: Category)

  /** A user's self-assessed skills, in the dict's iteration order. */
  type SkillLevels = seq<(string, real)>

  /** `current_skills.get(skill, 0)`. */
  function LevelOf(levels: SkillLevels, skill: string): (v: real)
    ensures (forall e <- levels :: e.0 != skill) ==> v == 0.0
    ensures (exists e <- levels :: e.0 == skill) ==> exists e <- levels :: e.0 == skill && e.1 == v
  {
    if levels == [] then 0.0
    else if levels[0].0 == skill then levels[0].1
    else LevelOf(levels[1..], skill)
  }

  function SkillPrerequisites(): map<string, seq<string>>
  {
    map[
      "Data Structures & Algorithms" := ["Programming Fundamentals"],
      "Object-Oriented Programming" := ["Programming Fundamentals"],
      "System Design" := ["Data Structures & Algorithms", "Object-Oriented Programming"],
      "Machine Learning Basics" := ["Statistics & Probability", "Python/R Programming"],
      "Deep Learning" := ["Machine Learning Basics", "Data Manipulation"],
      "Frontend Frameworks" := ["HTML/CSS", "JavaScript"],
      "Backend Development" := ["Programming Fundamentals", "Database Integration"],
      "API Development" := ["Backend Development", "Database Integration"],
      "Performance Optimization" := ["System Design", "Programming Fundamentals"],
      "Security" := ["Network Fundamentals", "System Administration"],
      "Automation Testing" := ["Testing Fundamentals", "Programming Fundamentals"],
      "Database Administration" := ["SQL Fundamentals", "Database Design"],
      "Advanced Prototyping" := ["Prototyping", "Interaction Design"]
    ]
  }

  /** The curriculum table; the per-role week estimates it also holds are never read. */
  function RoleCurricula(): map<string, Curriculum>
  {
    map[
      "Software Developer" := Curriculum(
        ["Programming Fundamentals", "Data Structures & Algorithms", "Object-Oriented Programming",
         "Version Control (Git)", "Testing & Debugging", "Software Design Patterns"],
        ["System Design", "Performance Optimization", "Code Review", "Agile Development"],
        ["IDE Proficiency", "Build Tools", "CI/CD"]),
      "Web Developer" := Curriculum(
        ["HTML/CSS", "JavaScript", "Responsive Design", "Frontend Frameworks", "Backend Development",
         "Database Integration", "API Development"],
        ["Performance Optimization", "SEO", "Security", "Progressive Web Apps", "Microservices"],
        ["Browser Dev Tools", "Package Managers", "Bundlers"]),
      "Data Scientist" := Curriculum(
        ["Statistics & Probability", "Python/R Programming", "Data Manipulation", "Data Visualization",
         "Machine Learning Basics", "SQL"],
        ["Deep Learning", "Feature Engineering", "Model Deployment", "Big Data Technologies",
         "A/B Testing", "MLOps"],
        ["Jupyter Notebooks", "Pandas/NumPy", "Scikit-learn", "TensorFlow/PyTorch"]),
      "UX Designer" := Curriculum(
        ["User Research", "Wireframing", "Prototyping", "Visual Design", "Interaction Design",
         "Usability Testing", "Information Architecture"],
        ["Design Systems", "Advanced Prototyping", "Accessibility Design", "Design Leadership",
         "Business Strategy"],
        ["Figma/Sketch", "Adobe Creative Suite", "Prototyping Tools"]),
      "Database Developer" := Curriculum(
        ["SQL Fundamentals", "Database Design", "Normalization", "Indexing", "Query Optimization",
         "Stored Procedures"],
        ["Database Administration", "Performance Tuning", "Backup & Recovery", "Security",
         "NoSQL Databases"],
        ["RDBMS Systems", "Database Tools", "Monitoring Tools"]),
      "Network Security Engineer" := Curriculum(
        ["Network Fundamentals", "Security Principles", "Firewalls & VPNs", "Intrusion Detection",
         "Risk Assessment", "Incident Response"],
        ["Penetration Testing", "Security Architecture", "Compliance & Governance",
         "Threat Intelligence", "Security Automation"],
        ["Security Tools", "Network Analyzers", "SIEM Systems"]),
      "Mobile Applications Developer" := Curriculum(
        ["Mobile Development Basics", "Platform-Specific Development", "UI/UX for Mobile",
         "API Integration", "Local Storage", "Testing on Devices"],
        ["Performance Optimization", "Security", "App Store Optimization",
         "Cross-Platform Development", "Push Notifications"],
        ["Development IDEs", "Emulators", "Analytics Tools"]),
      "Software Quality Assurance (QA) / Testing" := Curriculum(
        ["Testing Fundamentals", "Test Case Design", "Manual Testing", "Bug Reporting",
         "Test Documentation", "Regression Testing"],
        ["Automation Testing", "Performance Testing", "Security Testing", "API Testing",
         "Test Strategy & Planning"],
        ["Testing Frameworks", "Bug Tracking Tools", "Automation Tools"]),
      "Technical Support" := Curriculum(
        ["Problem Solving", "Communication Skills", "System Troubleshooting", "Customer Service",
         "Documentation", "Remote Support Tools"],
        ["Advanced Troubleshooting", "System Administration", "Process Improvement",
         "Team Leadership", "Training & Mentoring"],
        ["Support Ticketing Systems", "Remote Access Tools", "Monitoring Tools"]),
      "CRM Technical Developer" := Curriculum(
        ["CRM Platform Knowledge", "Database Management", "API Integration",
         "Business Process Analysis", "Custom Development", "Data Migration"],
        ["Advanced Customization", "Integration Architecture", "Performance Optimization",
         "Security & Compliance", "CRM Strategy & Planning"],
        ["Salesforce/Dynamics 365", "REST APIs", "SQL", "Development IDEs"])
    ]
  }

  /** `skill_prerequisites.get(skill, [])`. */
  function Prereqs(prereqs: map<string, seq<string>>, skill: string): seq<string>
  {
    if skill in prereqs then prereqs[skill] else []
  }

  // ---------------------------------------------------------------- skill gaps

  /** One pass of `_calculate_skill_gaps` over a skill list with its threshold. */
  function GapsIn(skills: seq<string>, levels: SkillLevels, required: real, p: Priority, c: Category): (r: seq<Gap>)
    ensures |r| <= |skills|
    ensures forall g <- r :: (g.skill in skills && g.priority == p && g.category == c && g.required == required
      && g.current == LevelOf(levels, g.skill) && g.current < required && g.size == required - g.current)
    ensures forall s <- skills :: LevelOf(levels, s) < required ==> exists g <- r :: g.skill == s
  {
    if skills == [] then []
    else
      var s := skills[0];
      var rest := GapsIn(skills[1..], levels, required, p, c);
      var level := LevelOf(levels, s);
      assert forall t <- skills[1..] :: t in skills;
      if level < required then [Gap(s, level, required, required - level, p, c)] + rest else rest
  }

  /** `priority_order[priority]`. */
  function Rank(p: Priority): int
  {
    match p
    case High => 3
    case Medium => 2
    case Low => 1
  }

  /** The sort key `(priority_order[priority], gap_size)`. */
  function GapKey(g: Gap): Key
  {
    Key(Rank(g.priority), g.size)
  }

  /** The gaps in curriculum order, before sorting. */
  function UnsortedGaps(cur: Curriculum, levels: SkillLevels): seq<Gap>
  {
    GapsIn(cur.core, levels, 7.0, High, Core)
      + GapsIn(cur.advanced, levels, 6.0, Medium, Advanced)
      + GapsIn(cur.tools, levels, 5.0, Low, Tools)
  }

  /** `xs` holds exactly the gaps of the curriculum: a skill of a list is
      among them iff its level is below that list's threshold (7 for core,
      6 for advanced, 5 for tools), and each carries its list's threshold,
      priority and category and a positive size. */
  predicate GapsOf(cur: Curriculum, levels: SkillLevels, xs: seq<Gap>)
  {
    && (forall g <- xs :: g.size > 0.0 && g.current == LevelOf(levels, g.skill) && g.size == g.required - g.current)
    && (forall g <- xs :: g.category == Core ==> g.skill in cur.core && g.required == 7.0 && g.priority == High)
    && (forall g <- xs :: g.category == Advanced ==> g.skill in cur.advanced && g.required == 6.0 && g.priority == Medium)
    && (forall g <- xs :: g.category == Tools ==> g.skill in cur.tools && g.required == 5.0 && g.priority == Low)
    && (forall s <- cur.core :: LevelOf(levels, s) < 7.0 <==> exists g <- xs :: g.skill == s && g.category == Core)
    && (forall s <- cur.advanced :: LevelOf(levels, s) < 6.0 <==> exists g <- xs :: g.skill == s && g.category == Advanced)
    && (forall s <- cur.tools :: LevelOf(levels, s) < 5.0 <==> exists g <- xs :: g.skill == s && g.category == Tools)
  }

  lemma UnsortedGapsAreGaps(cur: Curriculum, levels: SkillLevels)
    ensures GapsOf(cur, levels, UnsortedGaps(cur, levels))
  {
    var core := GapsIn(cur.core, levels, 7.0, High, Core);
    var advanced := GapsIn(cur.advanced, levels, 6.0, Medium, Advanced);
    var tools := GapsIn(cur.tools, levels, 5.0, Low, Tools);
    var all := core + advanced + tools;
    InConcat3(core, advanced, tools);
    ListGaps(cur.core, levels, 7.0, High, Core, core, all);
    ListGaps(cur.advanced, levels, 6.0, Medium, Advanced, advanced, all);
    ListGaps(cur.tools, levels, 5.0, Low, Tools, tools, all);
  }

  lemma InConcat3<T>(a: seq<T>, b: seq<T>, c: seq<T>)
    ensures forall x :: x in a + b + c <==> x in a || x in b || x in c
  {
  }

  /** The gaps of one list, seen inside the whole gap list. */
  lemma ListGaps(skills: seq<string>, levels: SkillLevels, required: real, p: Priority, c: Category,
                 part: seq<Gap>, all: seq<Gap>)
    requires part == GapsIn(skills, levels, required, p, c)
    requires forall g <- part :: g in all
    requires forall g <- all :: g.category == c ==> g in part
    ensures forall s <- skills :: LevelOf(levels, s) < required <==> exists g <- all :: g.skill == s && g.category == c
  {
  }

  lemma GapsOfSameElements(cur: Curriculum, levels: SkillLevels, xs: seq<Gap>, ys: seq<Gap>)
    requires GapsOf(cur, levels, xs) && multiset(xs) == multiset(ys)
    ensures GapsOf(cur, levels, ys)
  {
    assert forall g :: g in xs <==> g in ys by {
      forall g ensures g in xs <==> g in ys {
        assert g in xs <==> g in multiset(xs);
        assert g in ys <==> g in multiset(ys);
      }
    }
  }

  /** `_calculate_skill_gaps`: the gaps of the curriculum, ordered by
      priority rank, then gap size, both descending. */
  function SkillGaps(cur: Curriculum, levels: SkillLevels): (r: seq<Gap>)
    ensures GapsOf(cur, levels, r)
    ensures Descending(r, GapKey)
    ensures multiset(r) == multiset(UnsortedGaps(cur, levels))
  {
    var all := UnsortedGaps(cur, levels);
    var r := SortDescending(all, GapKey);
    UnsortedGapsAreGaps(cur, levels);
    GapsOfSameElements(cur, levels, all, r);
    r
  }

  /** Gaps of equal priority and equal size stay in curriculum order. */
  lemma SkillGapsStable(cur: Curriculum, levels: SkillLevels, k: Key)
    ensures WithKey(SkillGaps(cur, levels), GapKey, k) == WithKey(UnsortedGaps(cur, levels), GapKey, k)
  {
    SortStable(UnsortedGaps(cur, levels), GapKey, k);
  }

  // ---------------------------------------------------------------- grouping

  /** A skill joins the open group when it shares the head's category and
      priority and the group holds fewer than three. */
  predicate Joins(g: Gap, group: seq<Gap>)
    requires group != []
  {
    g.category == group[0].category && g.priority == group[0].priority && |group| < 3
  }

  /** A milestone group: one to three skills sharing the head's category and priority. */
  predicate Homogeneous(group: seq<Gap>)
  {
    group != [] && |group| <= 3
      && forall g <- group :: g.category == group[0].category && g.priority == group[0].priority
  }

  /** Every group is a milestone group, and no group's head could have
      joined the group before it. */
  predicate GreedySplit(groups: seq<seq<Gap>>)
  {
    (forall i :: 0 <= i < |groups| ==> Homogeneous(groups[i]))
      && forall i :: 1 <= i < |groups| ==> Separate(groups[i - 1], groups[i])
  }

  /** `next` starts with a skill that could not have joined `prev`. */
  predicate Separate(prev: seq<Gap>, next: seq<Gap>)
  {
    prev != [] && next != [] && !Joins(next[0], prev)
  }

  /** The grouping loop from an open group `current` over the skills left. */
  function GroupFrom(rest: seq<Gap>, current: seq<Gap>): (r: seq<seq<Gap>>)
    requires Homogeneous(current)
    ensures r != [] && Flatten(r) == current + rest
    ensures GreedySplit(r)
    ensures |r[0]| >= |current| && r[0][..|current|] == current
    decreases |rest|
  {
    if rest == [] then
      assert Flatten([current]) == current + [];
      [current]
    else if Joins(rest[0], current) then
      var r := GroupFrom(rest[1..], current + [rest[0]]);
      assert (current + [rest[0]]) + rest[1..] == current + rest;
      assert r[0][..|current|] == (r[0][..|current| + 1])[..|current|];
      r
    else
      var t := GroupFrom(rest[1..], [rest[0]]);
      var r := [current] + t;
      assert r[1..] == t;
      assert t[0][0] == t[0][..1][0] == rest[0];
      assert [rest[0]] + rest[1..] == rest;
      assert Flatten(r) == current + Flatten(t);
      assert forall i :: 1 <= i < |r| ==> r[i] == t[i - 1];
      r
  }

  /** `_group_related_skills`: consecutive runs of the ready list, each run as
      long as the head's category and priority last, capped at three. */
  function Group(ready: seq<Gap>): (r: seq<seq<Gap>>)
    ensures Flatten(r) == ready
    ensures r == [] <==> ready == []
    ensures GreedySplit(r)
  {
    if |ready| <= 1 then
      if ready != [] then
        assert Flatten([ready]) == ready + [];
        [ready]
      else []
    else
      assert [ready[0]] + ready[1..] == ready;
      GroupFrom(ready[1..], [ready[0]])
  }

  /** Greedy grouping is the only split with these properties: any split of
      the ready list into milestone groups, none of whose heads could have
      joined the group before, is the one `Group` returns. */
  lemma GroupUnique(ready: seq<Gap>, split: seq<seq<Gap>>)
    requires Flatten(split) == ready
    requires GreedySplit(split)
    ensures split == Group(ready)
  {
    if split != [] {
      FlattenCons(split);
      assert split[0] != [];
      assert ready == split[0] + Flatten(split[1..]);
      assert split[0][..1] == [ready[0]];
      assert [ready[0]] + ready[1..] == ready;
      assert Group(ready) == GroupFrom(ready[1..], [ready[0]]);
      FromSplitUnique(ready[1..], [ready[0]], split);
    }
  }

  lemma GreedyTail(split: seq<seq<Gap>>)
    requires split != [] && GreedySplit(split)
    ensures GreedySplit(split[1..])
  {
    var tail := split[1..];
    assert forall i :: 0 <= i < |tail| ==> tail[i] == split[i + 1];
  }

  /** The uniqueness argument for `GroupFrom`, by induction on the skills left. */
  lemma {:induction false} FromSplitUnique(rest: seq<Gap>, current: seq<Gap>, split: seq<seq<Gap>>)
    requires Homogeneous(current)
    requires Flatten(split) == current + rest
    requires GreedySplit(split)
    requires split != [] && |split[0]| >= |current| && split[0][..|current|] == current
    ensures split == GroupFrom(rest, current)
    decreases |rest|, 1
  {
    if |split[0]| == |current| {
      ClosedHereUnique(rest, current, split);
    } else {
      ExtendedUnique(rest, current, split);
    }
  }

  /** The split closes the open group here: the rest is split from its next skill on. */
  lemma {:induction false} ClosedHereUnique(rest: seq<Gap>, current: seq<Gap>, split: seq<seq<Gap>>)
    requires Homogeneous(current)
    requires Flatten(split) == current + rest
    requires GreedySplit(split)
    requires split != [] && |split[0]| == |current| && split[0][..|current|] == current
    ensures split == GroupFrom(rest, current)
    decreases |rest|, 0
  {
    FlattenCons(split);
    var head, tail := split[0], split[1..];
    assert head == head[..|current|] == current;
    assert Flatten(tail) == rest by {
      assert (head + Flatten(tail))[|head|..] == Flatten(tail);
      assert (current + rest)[|current|..] == rest;
    }
    if rest == [] {
      if tail != [] {
        assert false;
      }
      assert split == [current];
    } else {
      assert tail != [];
      FlattenCons(tail);
      assert tail[0] == split[1] && tail[0] != [];
      assert tail[0][0] == rest[0];
      assert !Joins(rest[0], current);
      GreedyTail(split);
      assert tail[0][..1] == [rest[0]];
      assert Flatten(tail) == [rest[0]] + rest[1..];
      FromSplitUnique(rest[1..], [rest[0]], tail);
      assert split == [current] + tail;
    }
  }

  /** The split's first group goes on past the open group: the next skill joins it. */
  lemma {:induction false} ExtendedUnique(rest: seq<Gap>, current: seq<Gap>, split: seq<seq<Gap>>)
    requires Homogeneous(current)
    requires Flatten(split) == current + rest
    requires GreedySplit(split)
    requires split != [] && |split[0]| > |current| && split[0][..|current|] == current
    ensures split == GroupFrom(rest, current)
    decreases |rest|, 0
  {
    FlattenCons(split);
    assert Homogeneous(split[0]);
    NextJoins(split[0], Flatten(split[1..]), current, rest);
    var next := current + [rest[0]];
    assert next + rest[1..] == current + rest;
    FromSplitUnique(rest[1..], next, split);
  }

  /** A milestone group that runs past the open group continues it with the next skill. */
  lemma NextJoins(head: seq<Gap>, after: seq<Gap>, current: seq<Gap>, rest: seq<Gap>)
    requires Homogeneous(current) && Homogeneous(head)
    requires head + after == current + rest
    requires |head| > |current| && head[..|current|] == current
    ensures rest != [] && Joins(rest[0], current)
    ensures head[..|current| + 1] == current + [rest[0]]
    ensures Homogeneous(current + [rest[0]])
  {
    assert |head| <= |head + after|;
    assert head[|current|] == (head + after)[|current|] == (current + rest)[|current|] == rest[0];
    assert rest[0] in head && head[0] == current[0];
  }

  // ---------------------------------------------------------------- milestone plan

  /** Every prerequisite of the skill is already covered. */
  predicate IsReady(prereqs: map<string, seq<string>>, completed: set<string>, g: Gap)
  {
    forall p <- Prereqs(prereqs, g.skill) :: p in completed
  }

  function SkillSet(gaps: seq<Gap>): set<string>
  {
    set g <- gaps :: g.skill
  }

  function Sizes(gaps: seq<Gap>): (r: seq<real>)
    ensures |r| == |gaps| && forall i :: 0 <= i < |gaps| ==> r[i] == gaps[i].size
  {
    seq(|gaps|, i requires 0 <= i < |gaps| => gaps[i].size)
  }

  /** The skills one round schedules, and whether the round had to break a dependency cycle. */
  datatype Choice = Choice(chosen: seq<Gap>, forced: bool)

  /** One round of `_generate_milestones`: the ready gaps in list order, or,
      when none is ready, the first gap of largest size. */
  function Choose(prereqs: map<string, seq<string>>, completed: set<string>, gaps: seq<Gap>): (c: Choice)
    requires gaps != []
    ensures c.chosen != [] && multiset(c.chosen) <= multiset(gaps)
    ensures c.forced <==> forall g <- gaps :: !IsReady(prereqs, completed, g)
    ensures !c.forced ==> forall g <- gaps :: IsReady(prereqs, completed, g) <==> g in c.chosen
    ensures c.forced ==> (|c.chosen| == 1 && c.chosen[0] in gaps
      && (forall g <- gaps :: g.size <= c.chosen[0].size)
      && (exists i :: 0 <= i < |gaps| && gaps[i] == c.chosen[0] && forall j :: 0 <= j < i ==> gaps[j].size < gaps[i].size))
  {
    var ready := ReadyGaps(prereqs, completed, gaps);
    if ready != [] then Choice(ready, false)
    else
      var g := Largest(gaps);
      assert multiset([g]) <= multiset(gaps);
      Choice([g], true)
  }

  /** The gaps whose prerequisites are all completed, in list order. */
  function ReadyGaps(prereqs: map<string, seq<string>>, completed: set<string>, gaps: seq<Gap>): (r: seq<Gap>)
    ensures multiset(r) <= multiset(gaps)
    ensures forall g <- gaps :: IsReady(prereqs, completed, g) <==> g in r
    ensures r == [] <==> forall g <- gaps :: !IsReady(prereqs, completed, g)
  {
    var r := Filter(gaps, (g: Gap) => IsReady(prereqs, completed, g));
    assert r != [] ==> r[0] in r;
    r
  }

  /** The first gap of largest size, as Python's `max` picks it. */
  function Largest(gaps: seq<Gap>): (g: Gap)
    requires gaps != []
    ensures g in gaps && forall h <- gaps :: h.size <= g.size
    ensures exists i :: 0 <= i < |gaps| && gaps[i] == g && forall j :: 0 <= j < i ==> gaps[j].size < gaps[i].size
  {
    var i := ArgMax(Sizes(gaps));
    gaps[i]
  }

  datatype Stage = Stage(group: seq<Gap>, forced: bool)

  function Stages(groups: seq<seq<Gap>>, forced: bool): (r: seq<Stage>)
    ensures |r| == |groups| && forall i :: 0 <= i < |r| ==> r[i] == Stage(groups[i], forced)
  {
    seq(|groups|, i requires 0 <= i < |groups| => Stage(groups[i], forced))
  }

  /** All gaps of a plan, in milestone order. */
  function Scheduled(stages: seq<Stage>): seq<Gap>
  {
    if stages == [] then [] else stages[0].group + Scheduled(stages[1..])
  }

  lemma {:induction false} ScheduledAppend(a: seq<Stage>, b: seq<Stage>)
    ensures Scheduled(a + b) == Scheduled(a) + Scheduled(b)
  {
    if a == [] {
      assert a + b == b;
    } else {
      ScheduledStep(a, b);
      ScheduledAppend(a[1..], b);
      Seqs.ConcatAssoc(a[0].group, Scheduled(a[1..]), Scheduled(b));
    }
  }

  lemma ScheduledStep(a: seq<Stage>, b: seq<Stage>)
    requires a != []
    ensures Scheduled(a + b) == a[0].group + Scheduled(a[1..] + b)
  {
    var ab := a + b;
    assert ab[0] == a[0] && ab[1..] == a[1..] + b;
  }

  lemma {:induction false} ScheduledStages(groups: seq<seq<Gap>>, forced: bool)
    ensures Scheduled(Stages(groups, forced)) == Flatten(groups)
  {
    if groups != [] {
      ScheduledStages(groups[1..], forced);
      assert Stages(groups, forced)[1..] == Stages(groups[1..], forced);
    }
  }

  /** `_generate_milestones` without the text: rounds of ready skills, each
      round split into groups, until no gap is left. Each round removes at
      least one gap, which is the termination argument. */
  function Plan(prereqs: map<string, seq<string>>, completed: set<string>, gaps: seq<Gap>): (r: seq<Stage>)
    ensures multiset(Scheduled(r)) == multiset(gaps)
    ensures forall i :: 0 <= i < |r| ==> Homogeneous(r[i].group)
    ensures forall i :: 0 <= i < |r| && r[i].forced ==> |r[i].group| == 1
    decreases |gaps|
  {
    if gaps == [] then []
    else
      var c := Choose(prereqs, completed, gaps);
      var groups := Group(c.chosen);
      var rest := RemoveEach(gaps, c.chosen);
      var later := Plan(prereqs, completed + SkillSet(c.chosen), rest);
      PlanStep(gaps, c.chosen, c.forced, groups, rest, later);
      Stages(groups, c.forced) + later
  }

  /** One round of the plan keeps the plan's three promises. */
  lemma PlanStep(gaps: seq<Gap>, chosen: seq<Gap>, forced: bool, groups: seq<seq<Gap>>, rest: seq<Gap>, later: seq<Stage>)
    requires multiset(chosen) <= multiset(gaps) && multiset(rest) == multiset(gaps) - multiset(chosen)
    requires Flatten(groups) == chosen && GreedySplit(groups)
    requires forced ==> |chosen| == 1
    requires multiset(Scheduled(later)) == multiset(rest)
    requires forall i :: 0 <= i < |later| ==> Homogeneous(later[i].group)
    requires forall i :: 0 <= i < |later| && later[i].forced ==> |later[i].group| == 1
    ensures var r := Stages(groups, forced) + later;
      && multiset(Scheduled(r)) == multiset(gaps)
      && (forall i :: 0 <= i < |r| ==> Homogeneous(r[i].group))
      && (forall i :: 0 <= i < |r| && r[i].forced ==> |r[i].group| == 1)
  {
    PlanStepContents(gaps, chosen, forced, groups, rest, later);
    PlanStepShape(chosen, forced, groups, later);
  }

  /** One round schedules the chosen skills now and the rest later. */
  lemma PlanStepContents(gaps: seq<Gap>, chosen: seq<Gap>, forced: bool, groups: seq<seq<Gap>>, rest: seq<Gap>, later: seq<Stage>)
    requires multiset(chosen) <= multiset(gaps) && multiset(rest) == multiset(gaps) - multiset(chosen)
    requires Flatten(groups) == chosen
    requires multiset(Scheduled(later)) == multiset(rest)
    ensures multiset(Scheduled(Stages(groups, forced) + later)) == multiset(gaps)
  {
    var now := Stages(groups, forced);
    ScheduledAppend(now, later);
    ScheduledStages(groups, forced);
    assert multiset(Scheduled(now + later)) == multiset(chosen) + multiset(rest);
  }

  /** One round's stages are milestone groups, and a forced one holds a single skill. */
  lemma PlanStepShape(chosen: seq<Gap>, forced: bool, groups: seq<seq<Gap>>, later: seq<Stage>)
    requires Flatten(groups) == chosen && GreedySplit(groups)
    requires forced ==> |chosen| == 1
    requires forall i :: 0 <= i < |later| ==> Homogeneous(later[i].group)
    requires forall i :: 0 <= i < |later| && later[i].forced ==> |later[i].group| == 1
    ensures var r := Stages(groups, forced) + later;
      && (forall i :: 0 <= i < |r| ==> Homogeneous(r[i].group))
      && (forall i :: 0 <= i < |r| && r[i].forced ==> |r[i].group| == 1)
  {
    var now := Stages(groups, forced);
    var r := now + later;
    if forced {
      SingleGroup(groups);
    }
    forall i | 0 <= i < |r| ensures Homogeneous(r[i].group) && (r[i].forced ==> |r[i].group| == 1) {
      if i >= |now| {
        assert r[i] == later[i - |now|];
      }
    }
  }

  /** A split of a one-element list has that list as its only group. */
  lemma SingleGroup(groups: seq<seq<Gap>>)
    requires GreedySplit(groups) && |Flatten(groups)| == 1
    ensures groups == [Flatten(groups)]
  {
    GroupCount(groups);
    assert groups != [];
    FlattenCons(groups);
    assert Flatten(groups[1..]) == [];
    assert Flatten(groups) == groups[0] + [] == groups[0];
  }

  /** Groups are non-empty, so there are no more groups than skills. */
  lemma {:induction false} GroupCount(groups: seq<seq<Gap>>)
    requires GreedySplit(groups)
    ensures |groups| <= |Flatten(groups)|
  {
    if groups != [] {
      FlattenCons(groups);
      GreedyTail(groups);
      GroupCount(groups[1..]);
      assert Homogeneous(groups[0]);
    }
  }

  /** Readiness only grows with the completed set. */
  lemma ReadyGrows(prereqs: map<string, seq<string>>, a: set<string>, b: set<string>, g: Gap)
    requires IsReady(prereqs, a, g) && a <= b
    ensures IsReady(prereqs, b, g)
  {
  }

  lemma SkillSetAppend(a: seq<Gap>, b: seq<Gap>)
    ensures SkillSet(a + b) == SkillSet(a) + SkillSet(b)
  {
    assert forall g <- a + b :: g in a || g in b;
  }

  /** A skill scheduled by readiness has every prerequisite covered before
      its milestone: by the skills already completed when planning began, or
      by strictly earlier milestones. */
  lemma {:induction false} PlanRespectsPrerequisites(prereqs: map<string, seq<string>>, completed: set<string>,
                                                    gaps: seq<Gap>, i: nat, g: Gap)
    requires i < |Plan(prereqs, completed, gaps)|
    requires !Plan(prereqs, completed, gaps)[i].forced && g in Plan(prereqs, completed, gaps)[i].group
    ensures IsReady(prereqs, completed + SkillSet(Scheduled(Plan(prereqs, completed, gaps)[..i])), g)
    decreases |gaps|
  {
    var r := Plan(prereqs, completed, gaps);
    var c := Choose(prereqs, completed, gaps);
    var groups := Group(c.chosen);
    var rest := RemoveEach(gaps, c.chosen);
    var done := completed + SkillSet(c.chosen);
    var later := Plan(prereqs, done, rest);
    assert r == Stages(groups, c.forced) + later;
    if i < |groups| {
      ReadyNow(prereqs, completed, gaps, c, groups, later, r, i, g);
    } else {
      var k := i - |groups|;
      LaterStage(r, Stages(groups, c.forced), later, i, k, g);
      PlanRespectsPrerequisites(prereqs, done, rest, k, g);
      ReadyLater(prereqs, completed, c.chosen, groups, c.forced, later, r, i, k, g);
    }
  }

  /** A skill of this round's milestones was ready when the round began. */
  lemma ReadyNow(prereqs: map<string, seq<string>>, completed: set<string>, gaps: seq<Gap>, c: Choice,
                 groups: seq<seq<Gap>>, later: seq<Stage>, r: seq<Stage>, i: nat, g: Gap)
    requires gaps != [] && c == Choose(prereqs, completed, gaps) && Flatten(groups) == c.chosen
    requires r == Stages(groups, c.forced) + later && i < |groups|
    requires !r[i].forced && g in r[i].group
    ensures IsReady(prereqs, completed + SkillSet(Scheduled(r[..i])), g)
  {
    assert r[i] == Stage(groups[i], c.forced);
    assert g in Flatten(groups);
    ChosenReady(prereqs, completed, gaps, c, g);
    ReadyGrows(prereqs, completed, completed + SkillSet(Scheduled(r[..i])), g);
  }

  /** A skill of a later round was ready given this round's skills and the later rounds before it. */
  lemma ReadyLater(prereqs: map<string, seq<string>>, completed: set<string>, chosen: seq<Gap>,
                   groups: seq<seq<Gap>>, forced: bool, later: seq<Stage>, r: seq<Stage>, i: nat, k: nat, g: Gap)
    requires Flatten(groups) == chosen && r == Stages(groups, forced) + later
    requires i < |r| && k < |later| && k == i - |groups|
    requires IsReady(prereqs, completed + SkillSet(chosen) + SkillSet(Scheduled(later[..k])), g)
    ensures IsReady(prereqs, completed + SkillSet(Scheduled(r[..i])), g)
  {
    EarlierSkills(groups, forced, later, i);
    assert completed + SkillSet(Scheduled(r[..i]))
      == completed + SkillSet(chosen) + SkillSet(Scheduled(later[..k]));
  }

  /** The skills before a later milestone: this round's skills and the later rounds' earlier ones. */
  lemma EarlierSkills(groups: seq<seq<Gap>>, forced: bool, later: seq<Stage>, i: nat)
    requires |groups| <= i <= |groups| + |later|
    ensures SkillSet(Scheduled((Stages(groups, forced) + later)[..i]))
      == SkillSet(Flatten(groups)) + SkillSet(Scheduled(later[..i - |groups|]))
  {
    var now := Stages(groups, forced);
    PrefixOfAppend(now, later, i);
    ScheduledAppend(now, later[..i - |groups|]);
    ScheduledStages(groups, forced);
    SkillSetAppend(Flatten(groups), Scheduled(later[..i - |groups|]));
  }

  /** A milestone past this round's stages is a stage of the later rounds. */
  lemma LaterStage(r: seq<Stage>, now: seq<Stage>, later: seq<Stage>, i: nat, k: nat, g: Gap)
    requires r == now + later && i < |r| && k == i - |now|
    requires !r[i].forced && g in r[i].group
    ensures k < |later| && !later[k].forced && g in later[k].group
  {
  }

  lemma PrefixOfAppend<T>(a: seq<T>, b: seq<T>, i: nat)
    requires |a| <= i <= |a| + |b|
    ensures (a + b)[..i] == a + b[..i - |a|]
  {
  }

  lemma ChosenReady(prereqs: map<string, seq<string>>, completed: set<string>, gaps: seq<Gap>, c: Choice, g: Gap)
    requires gaps != [] && c == Choose(prereqs, completed, gaps)
    requires !c.forced && g in c.chosen
    ensures IsReady(prereqs, completed, g)
  {
    assert g in multiset(c.chosen);
    assert g in multiset(gaps);
  }

  /** Every gap is scheduled: the milestones cover the gap list exactly, with multiplicity. */
  lemma PlanCoversEveryGap(prereqs: map<string, seq<string>>, completed: set<string>, gaps: seq<Gap>, g: Gap)
    requires g in gaps
    ensures exists i :: 0 <= i < |Plan(prereqs, completed, gaps)| && g in Plan(prereqs, completed, gaps)[i].group
  {
    var r := Plan(prereqs, completed, gaps);
    assert g in multiset(Scheduled(r));
    ScheduledMember(r, g);
  }

  lemma {:induction false} ScheduledMember(r: seq<Stage>, g: Gap)
    requires g in Scheduled(r)
    ensures exists i :: 0 <= i < |r| && g in r[i].group
  {
    if g !in r[0].group {
      ScheduledMember(r[1..], g);
      var i :| 0 <= i < |r[1..]| && g in r[1..][i].group;
      assert r[i + 1] == r[1..][i];
    }
  }

  /** Because only scheduled gaps enter the completed set, a skill whose
      prerequisite the user already masters (so it is no gap) is never
      ready: it is only ever scheduled by the cycle-breaking fallback. */
  lemma MasteredPrerequisiteForcesFallback(prereqs: map<string, seq<string>>, gaps: seq<Gap>, i: nat, g: Gap, p: string)
    requires i < |Plan(prereqs, {}, gaps)| && g in Plan(prereqs, {}, gaps)[i].group
    requires p in Prereqs(prereqs, g.skill) && p !in SkillSet(gaps)
    ensures Plan(prereqs, {}, gaps)[i].forced
  {
    var r := Plan(prereqs, {}, gaps);
    if !r[i].forced {
      PlanRespectsPrerequisites(prereqs, {}, gaps, i, g);
      assert p in SkillSet(Scheduled(r[..i]));
      var h :| h in Scheduled(r[..i]) && h.skill == p;
      ScheduledEarlier(r, gaps, i, h);
      assert false;
    }
  }

  /** A gap scheduled before milestone `i` is one of the plan's gaps. */
  lemma ScheduledEarlier(r: seq<Stage>, gaps: seq<Gap>, i: nat, h: Gap)
    requires multiset(Scheduled(r)) == multiset(gaps)
    requires i <= |r| && h in Scheduled(r[..i])
    ensures h in gaps && h.skill in SkillSet(gaps)
  {
    assert r == r[..i] + r[i..];
    ScheduledAppend(r[..i], r[i..]);
    assert h in multiset(Scheduled(r));
  }

  // ---------------------------------------------------------------- milestones

  datatype MilestoneKind = Project | Course | Certification | Practice

  datatype Milestone = Milestone(
    order: nat,
    skills: seq<string>,
    hours: int,
    kind: MilestoneKind,
    priority: Priority,
    prerequisites: set<string>)

  /** `experience_multiplier.get(level, 1.0)`. */
  function ExperienceMultiplier(level: string): (m: real)
    ensures 0.7 <= m <= 1.5
  {
    if level == "beginner" then 1.5
    else if level == "intermediate" then 1.0
    else if level == "advanced" then 0.7
    else 1.0
  }

  /** `sum(gap['gap_size'] * 10 for gap in group)`. */
  function BaseHours(group: seq<Gap>): (h: real)
    ensures (forall g <- group :: g.size > 0.0) ==> h >= 0.0
    ensures (forall g <- group :: g.size > 0.0) && group != [] ==> h > 0.0
  {
    if group == [] then 0.0
    else
      assert forall g <- group[1..] :: g in group;
      assert group[0] in group;
      group[0].size * 10.0 + BaseHours(group[1..])
  }

  /** Does the lower-cased skill name contain one of the two words? */
  predicate Mentions(group: seq<Gap>, w1: string, w2: string)
  {
    exists g <- group :: Contains(Lower(g.skill), w1) || Contains(Lower(g.skill), w2)
  }

  /** `_determine_milestone_type`: the first rule some skill triggers decides. */
  function MilestoneType(group: seq<Gap>): (k: MilestoneKind)
    ensures k == Project <==> Mentions(group, "project", "development")
    ensures k == Certification <==> (!Mentions(group, "project", "development")
      && !Mentions(group, "fundamental", "basics") && Mentions(group, "certification", "security"))
    ensures k == Practice <==> (!Mentions(group, "project", "development") && !Mentions(group, "fundamental", "basics")
      && !Mentions(group, "certification", "security") && Mentions(group, "practice", "algorithm"))
  {
    if Mentions(group, "project", "development") then Project
    else if Mentions(group, "fundamental", "basics") then Course
    else if Mentions(group, "certification", "security") then Certification
    else if Mentions(group, "practice", "algorithm") then Practice
    else Course
  }

  function SkillsOf(group: seq<Gap>): (r: seq<string>)
    ensures |r| == |group| && forall i :: 0 <= i < |group| ==> r[i] == group[i].skill
  {
    seq(|group|, i requires 0 <= i < |group| => group[i].skill)
  }

  /** `_get_milestone_prerequisites`: every prerequisite of some skill of the group. */
  function GroupPrerequisites(prereqs: map<string, seq<string>>, group: seq<Gap>): (r: set<string>)
    ensures forall p :: p in r <==> exists g <- group :: p in Prereqs(prereqs, g.skill)
  {
    if group == [] then {}
    else
      var rest := GroupPrerequisites(prereqs, group[1..]);
      assert forall g <- group :: g == group[0] || g in group[1..];
      assert forall g <- group[1..] :: g in group;
      Elems(Prereqs(prereqs, group[0].skill)) + rest
  }

  /** `_create_milestone` without the generated text. */
  function CreateMilestone(prereqs: map<string, seq<string>>, group: seq<Gap>, order: nat, level: string): (m: Milestone)
    requires group != []
    ensures m.order == order && m.skills == SkillsOf(group) && m.priority == group[0].priority
    ensures m.kind == MilestoneType(group)
    ensures m.prerequisites == GroupPrerequisites(prereqs, group)
    ensures (forall g <- group :: g.size > 0.0) ==>
      m.hours >= 0 && m.hours as real <= BaseHours(group) * ExperienceMultiplier(level) < m.hours as real + 1.0
  {
    var h := BaseHours(group) * ExperienceMultiplier(level);
    Milestone(order, SkillsOf(group), Trunc(h), MilestoneType(group), group[0].priority,
              GroupPrerequisites(prereqs, group))
  }

  /** A beginner's milestone is never estimated shorter than an advanced
      learner's for the same skills. */
  lemma BeginnerHoursAtLeastAdvanced(prereqs: map<string, seq<string>>, group: seq<Gap>, order: nat)
    requires group != [] && forall g <- group :: g.size > 0.0
    ensures CreateMilestone(prereqs, group, order, "beginner").hours >= CreateMilestone(prereqs, group, order, "advanced").hours
  {
    var b := BaseHours(group);
    assert b * 1.5 >= b * 0.7;
  }

  /** The milestones of a plan, numbered from 1. */
  function Milestones(prereqs: map<string, seq<string>>, stages: seq<Stage>, level: string): (ms: seq<Milestone>)
    requires forall i :: 0 <= i < |stages| ==> stages[i].group != []
    ensures |ms| == |stages|
    ensures forall i :: 0 <= i < |ms| ==> ms[i] == CreateMilestone(prereqs, stages[i].group, i + 1, level)
  {
    seq(|stages|, i requires 0 <= i < |stages| => StageMilestone(prereqs, stages, i, level))
  }

  /** The milestone for the stage at position `i`, numbered `i + 1`. */
  function StageMilestone(prereqs: map<string, seq<string>>, stages: seq<Stage>, i: nat, level: string): Milestone
    requires i < |stages| && stages[i].group != []
  {
    CreateMilestone(prereqs, stages[i].group, i + 1, level)
  }

  // ---------------------------------------------------------------- resources

  datatype Resource = Resource(title: string, kind: Option<string>, cost: Option<string>,
                               durationHours: Option<real>, rating: real)

  /** The preference keys read by the generator; `None` is a missing key. */
  datatype Preferences = Preferences(
    costPreference: Option<string>,
    preferredTypes: Option<seq<string>>,
    maxHoursPerResource: Option<real>,
    hoursPerWeek: Option<real>,
    learningIntensity: Option<string>)

  predicate CostAdmits(preference: string, r: Resource)
  {
    if preference == "free" then r.cost == Some("free")
    else if preference == "paid" then r.cost == Some("paid") || r.cost == Some("freemium")
    else true
  }

  predicate TypeAdmits(types: seq<string>, r: Resource)
  {
    types == [] || (r.kind.Some? && r.kind.value in types)
  }

  predicate DurationAdmits(maxHours: real, r: Resource)
  {
    GetOr(r.durationHours, 0.0) <= maxHours
  }

  /** Does a resource pass all three preference filters? */
  predicate Admits(prefs: Preferences, r: Resource)
  {
    CostAdmits(GetOr(prefs.costPreference, "any"), r)
      && TypeAdmits(GetOr(prefs.preferredTypes, []), r)
      && DurationAdmits(GetOr(prefs.maxHoursPerResource, 200.0), r)
  }

  // The three tests as values, so that every pass and lemma names the same function.

  function CostTest(preference: string): Resource -> bool
  {
    (x: Resource) => CostAdmits(preference, x)
  }

  function TypeTest(types: seq<string>): Resource -> bool
  {
    (x: Resource) => TypeAdmits(types, x)
  }

  function DurationTest(maxHours: real): Resource -> bool
  {
    (x: Resource) => DurationAdmits(maxHours, x)
  }

  function AdmitsTest(prefs: Preferences): Resource -> bool
  {
    (x: Resource) => Admits(prefs, x)
  }

  /** `_filter_resources`: the cost pass (only for "free" or "paid"), the type
      pass (only for a non-empty type list) and the duration pass, in that
      order. The passes keep exactly the admitted resources in their original
      order: one pass with the combined test gives the same list. */
  function FilterResources(rs: seq<Resource>, prefs: Preferences): (r: seq<Resource>)
    ensures r == Filter(rs, AdmitsTest(prefs))
    ensures forall x <- r :: x in rs && Admits(prefs, x)
    ensures forall x <- rs :: Admits(prefs, x) ==> x in r
  {
    var cost := GetOr(prefs.costPreference, "any");
    var types := GetOr(prefs.preferredTypes, []);
    var maxHours := GetOr(prefs.maxHoursPerResource, 200.0);
    var byCost := if cost == "free" || cost == "paid" then Filter(rs, CostTest(cost)) else rs;
    var byType := if types != [] then Filter(byCost, TypeTest(types)) else byCost;
    var r := Filter(byType, DurationTest(maxHours));
    SkippedPasses(rs, cost, types, byCost, byType);
    ThreePasses(rs, prefs, r);
    assert forall x :: AdmitsTest(prefs)(x) == Admits(prefs, x);
    r
  }

  /** A skipped pass admits everything, so it is the same as running it. */
  lemma SkippedPasses(rs: seq<Resource>, cost: string, types: seq<string>, byCost: seq<Resource>, byType: seq<Resource>)
    requires byCost == if cost == "free" || cost == "paid" then Filter(rs, CostTest(cost)) else rs
    requires byType == if types != [] then Filter(byCost, TypeTest(types)) else byCost
    ensures byType == Filter(Filter(rs, CostTest(cost)), TypeTest(types))
  {
    if !(cost == "free" || cost == "paid") {
      FilterAll(rs, CostTest(cost));
    }
    if types == [] {
      FilterAll(byCost, TypeTest(types));
    }
  }

  lemma ThreePasses(rs: seq<Resource>, prefs: Preferences, r: seq<Resource>)
    requires r == Filter(Filter(Filter(rs, CostTest(GetOr(prefs.costPreference, "any"))),
                                TypeTest(GetOr(prefs.preferredTypes, []))),
                         DurationTest(GetOr(prefs.maxHoursPerResource, 200.0)))
    ensures r == Filter(rs, AdmitsTest(prefs))
  {
    var c := CostTest(GetOr(prefs.costPreference, "any"));
    var t := TypeTest(GetOr(prefs.preferredTypes, []));
    var d := DurationTest(GetOr(prefs.maxHoursPerResource, 200.0));
    var ct: Resource -> bool := (x: Resource) => c(x) && t(x);
    FilterTwice(rs, c, t, ct);
    FilterTwice(rs, ct, d, AdmitsTest(prefs));
  }

  // ---------------------------------------------------------------- timeline

  datatype Slot = Slot(milestone: nat, start: int, end: int, weeks: int)

  datatype Timeline = Timeline(totalHours: int, totalWeeks: int, hoursPerWeek: real, schedule: seq<Slot>)

  /** `intensity_multipliers.get(intensity, 1.0)`. */
  function IntensityMultiplier(intensity: string): (m: real)
    ensures 0.7 <= m <= 1.4
  {
    if intensity == "light" then 0.7
    else if intensity == "moderate" then 1.0
    else if intensity == "intensive" then 1.4
    else 1.0
  }

  function TotalHours(ms: seq<Milestone>): int
  {
    if ms == [] then 0 else ms[0].hours + TotalHours(ms[1..])
  }

  /** The milestone schedule from a start week: back to back, each at least a week. */
  function ScheduleFrom(ms: seq<Milestone>, perWeek: real, week: int): (r: seq<Slot>)
    requires perWeek != 0.0
    ensures |r| == |ms|
    ensures forall i :: 0 <= i < |r| ==> r[i].milestone == ms[i].order && r[i].weeks == AtLeastOne(ms[i].hours as real / perWeek)
    ensures forall i :: 0 <= i < |r| ==> r[i].weeks >= 1 && r[i].end == r[i].start + r[i].weeks - 1
    ensures r != [] ==> r[0].start == week
    ensures forall i :: 1 <= i < |r| ==> r[i].start == r[i - 1].end + 1
    ensures forall i :: 0 <= i < |r| ==> r[i].start >= week
  {
    if ms == [] then []
    else
      var d := AtLeastOne(ms[0].hours as real / perWeek);
      var rest := ScheduleFrom(ms[1..], perWeek, week + d);
      [Slot(ms[0].order, week, week + d - 1, d)] + rest
  }

  datatype PathError = RoleNotFound | ZeroWeeklyHours

  /** The effective weekly study rate: the preferred hours (10 by default)
      scaled by the intensity multiplier. */
  function WeeklyRate(prefs: Preferences): real
  {
    GetOr(prefs.hoursPerWeek, 10.0) * IntensityMultiplier(GetOr(prefs.learningIntensity, "moderate"))
  }

  /** `_calculate_timeline` without the completion date; a zero effective
      weekly rate is Python's `ZeroDivisionError`. */
  function CalculateTimeline(ms: seq<Milestone>, prefs: Preferences): (r: Result<Timeline, PathError>)
    ensures (r.Err? <==> WeeklyRate(prefs) == 0.0) && (r.Ok? ==> r.value.hoursPerWeek == WeeklyRate(prefs))
    ensures r.Ok? ==> r.value.totalHours == TotalHours(ms) && r.value.totalWeeks >= 1
    ensures r.Ok? ==> var q := TotalHours(ms) as real / r.value.hoursPerWeek;
      (q >= 1.0 ==> r.value.totalWeeks as real <= q < r.value.totalWeeks as real + 1.0)
      && (q < 1.0 ==> r.value.totalWeeks == 1)
    ensures r.Ok? ==> r.value.schedule == ScheduleFrom(ms, r.value.hoursPerWeek, 1)
  {
    var perWeek := WeeklyRate(prefs);
    if perWeek == 0.0 then Err(ZeroWeeklyHours)
    else
      var total := TotalHours(ms);
      var weeks := AtLeastOne(total as real / perWeek);
      Ok(Timeline(total, weeks, perWeek, ScheduleFrom(ms, perWeek, 1)))
  }

  /** The schedule tiles the weeks from week 1 without gaps: each milestone
      starts one week after the previous one ends, so milestone `i` starts
      after all earlier durations. */
  lemma {:induction false} ScheduleStartsAfterEarlier(ms: seq<Milestone>, perWeek: real, week: int, i: nat)
    requires perWeek != 0.0 && i < |ms|
    ensures ScheduleFrom(ms, perWeek, week)[i].start == week + WeeksBefore(ScheduleFrom(ms, perWeek, week), i)
  {
    TiledStarts(ScheduleFrom(ms, perWeek, week), week, i);
  }

  /** Slots laid back to back from `week`: slot `i` starts after the weeks of
      all slots before it. */
  lemma {:induction false} TiledStarts(slots: seq<Slot>, week: int, i: nat)
    requires i < |slots| && slots[0].start == week
    requires forall k :: 0 <= k < |slots| ==> slots[k].end == slots[k].start + slots[k].weeks - 1
    requires forall k :: 1 <= k < |slots| ==> slots[k].start == slots[k - 1].end + 1
    ensures slots[i].start == week + WeeksBefore(slots, i)
  {
    if i > 0 {
      var rest := slots[1..];
      assert rest[0] == slots[1];
      assert forall k :: 1 <= k < |rest| ==> rest[k] == slots[k + 1] && rest[k - 1] == slots[k];
      TiledStarts(rest, week + slots[0].weeks, i - 1);
      assert rest[i - 1] == slots[i];
    }
  }

  /** The total length of the first `i` slots. */
  function WeeksBefore(slots: seq<Slot>, i: nat): int
    requires i <= |slots|
  {
    if i == 0 then 0 else slots[0].weeks + WeeksBefore(slots[1..], i - 1)
  }

  // ---------------------------------------------------------------- whole path

  /** `_calculate_overall_skill_level`: the band of the mean self-assessed level. */
  function OverallSkillLevel(levels: SkillLevels): (band: string)
    ensures levels == [] ==> band == "beginner"
    ensures levels != [] ==> var mean := Sum(Values(levels)) / |levels| as real;
      && (band == "beginner" <==> mean < 3.0)
      && (band == "intermediate" <==> 3.0 <= mean < 6.0)
      && (band == "advanced" <==> mean >= 6.0)
  {
    if levels == [] then "beginner"
    else
      var mean := Sum(Values(levels)) / |levels| as real;
      if mean < 3.0 then "beginner" else if mean < 6.0 then "intermediate" else "advanced"
  }

  function Values(levels: SkillLevels): (r: seq<real>)
    ensures |r| == |levels| && forall i :: 0 <= i < |levels| ==> r[i] == levels[i].1
  {
    seq(|levels|, i requires 0 <= i < |levels| => levels[i].1)
  }

  /** The order of the bands: beginner, intermediate, advanced. */
  function BandRank(band: string): nat
  {
    if band == "beginner" then 0 else if band == "intermediate" then 1 else 2
  }

  /** Raising one self-assessed level never lowers the overall band. */
  lemma OverallSkillLevelMonotone(levels: SkillLevels, i: nat, v: real)
    requires i < |levels| && levels[i].1 <= v
    ensures BandRank(OverallSkillLevel(levels)) <= BandRank(OverallSkillLevel(levels[i := (levels[i].0, v)]))
  {
    var raised := levels[i := (levels[i].0, v)];
    assert Values(raised) == Values(levels)[i := v];
    SumUpdate(Values(levels), i, v);
    var n := |levels| as real;
    var s1, s2 := Sum(Values(levels)), Sum(Values(raised));
    QuotientTimes(s1, n);
    QuotientTimes(s2, n);
    if s2 / n < s1 / n {
      MulLess(n, s2 / n, s1 / n);
      assert false;
    }
  }

  datatype Path = Path(
    targetRole: string,
    experienceLevel: string,
    estimatedWeeks: int,
    skillGapsIdentified: nat,
    milestones: seq<Milestone>,
    timeline: Timeline,
    currentSkillLevel: string,
    learningIntensity: string,
    preferredTypes: seq<string>)

  /** The shared body of `generate_learning_path`; `reported` is the gap
      count the result carries. */
  function Assemble(prereqs: map<string, seq<string>>, cur: Curriculum, role: string, levels: SkillLevels,
                    level: string, prefs: Preferences, reported: (seq<Gap>, seq<Stage>) -> nat): (r: Result<Path, PathError>)
    ensures var gaps := SkillGaps(cur, levels);
      r.Ok? ==> && r.value.targetRole == role && r.value.experienceLevel == level
                && r.value.skillGapsIdentified == reported(gaps, Plan(prereqs, {}, gaps))
                && r.value.milestones == PlannedMilestones(prereqs, gaps, level)
                && r.value.estimatedWeeks == r.value.timeline.totalWeeks >= 1
    ensures r.Err? <==> WeeklyRate(prefs) == 0.0
  {
    var gaps := SkillGaps(cur, levels);
    PathOf(role, level, levels, prefs, reported(gaps, Plan(prereqs, {}, gaps)), PlannedMilestones(prereqs, gaps, level))
  }

  /** The milestones of the plan for `gaps`, one per stage. */
  function PlannedMilestones(prereqs: map<string, seq<string>>, gaps: seq<Gap>, level: string): seq<Milestone>
  {
    PlanGroupsNonEmpty(prereqs, gaps);
    Milestones(prereqs, Plan(prereqs, {}, gaps), level)
  }

  /** Every stage of a plan has a milestone group to describe. */
  lemma PlanGroupsNonEmpty(prereqs: map<string, seq<string>>, gaps: seq<Gap>)
    ensures var stages := Plan(prereqs, {}, gaps);
      forall i :: 0 <= i < |stages| ==> stages[i].group != []
  {
    var stages := Plan(prereqs, {}, gaps);
    forall i | 0 <= i < |stages| ensures stages[i].group != [] {
      assert Homogeneous(stages[i].group);
    }
  }

  /** The path record for given milestones: their timeline, or its error. */
  function PathOf(role: string, level: string, levels: SkillLevels, prefs: Preferences,
                  count: nat, ms: seq<Milestone>): (r: Result<Path, PathError>)
    ensures r.Ok? ==> && r.value.targetRole == role && r.value.experienceLevel == level
                      && r.value.skillGapsIdentified == count && r.value.milestones == ms
                      && r.value.estimatedWeeks == r.value.timeline.totalWeeks >= 1
    ensures r.Err? <==> WeeklyRate(prefs) == 0.0
  {
    match CalculateTimeline(ms, prefs)
    case Err(e) => Err(e)
    case Ok(t) =>
      Ok(Path(role, level, t.totalWeeks, count, ms, t, OverallSkillLevel(levels),
              GetOr(prefs.learningIntensity, "moderate"), GetOr(prefs.preferredTypes, ["course", "project"])))
  }

  /** Every skill named by some milestone. */
  function MilestoneSkills(ms: seq<Milestone>): set<string>
  {
    set m <- ms, s <- m.skills :: s
  }

  /** What the caller's gap list holds once the milestone generator has
      removed every scheduled gap from it. */
  function LeftInList(gaps: seq<Gap>, stages: seq<Stage>): nat
  {
    if multiset(Scheduled(stages)) <= multiset(gaps) then |RemoveEach(gaps, Scheduled(stages))| else |gaps|
  }

  /** `generate_learning_path` as written: the reported gap count is read
      from the list after the generator emptied it. */
  function GenerateAsWritten(prereqs: map<string, seq<string>>, curricula: map<string, Curriculum>, role: string,
                             levels: SkillLevels, level: string, prefs: Preferences): (r: Result<Path, PathError>)
    ensures role !in curricula ==> r == Err(RoleNotFound)
  {
    if role !in curricula then Err(RoleNotFound)
    else Assemble(prereqs, curricula[role], role, levels, level, prefs, LeftInList)
  }

  /** The reported gap count never reflects the gaps: it is always 0. */
  lemma AsWrittenReportsNoGaps(prereqs: map<string, seq<string>>, curricula: map<string, Curriculum>, role: string,
                               levels: SkillLevels, level: string, prefs: Preferences)
    ensures var r := GenerateAsWritten(prereqs, curricula, role, levels, level, prefs);
      r.Ok? ==> r.value.skillGapsIdentified == 0
  {
    if role in curricula {
      var gaps := SkillGaps(curricula[role], levels);
      var stages := Plan(prereqs, {}, gaps);
      assert |RemoveEach(gaps, Scheduled(stages))| == 0;
    }
  }

  function GapCount(gaps: seq<Gap>, stages: seq<Stage>): nat
  {
    |gaps|
  }

  /** `generate_learning_path` reporting the number of gaps found: an unknown
      role and a zero weekly rate are the two errors; otherwise the milestones,
      numbered from 1, cover exactly the skills with a gap. */
  function Generate(prereqs: map<string, seq<string>>, curricula: map<string, Curriculum>, role: string,
                    levels: SkillLevels, level: string, prefs: Preferences): (r: Result<Path, PathError>)
    ensures role !in curricula ==> r == Err(RoleNotFound)
    ensures role in curricula ==> (r.Err? <==> WeeklyRate(prefs) == 0.0)
    ensures r.Ok? ==> role in curricula && r.value.targetRole == role && r.value.experienceLevel == level
    ensures r.Ok? ==> r.value.skillGapsIdentified == |SkillGaps(curricula[role], levels)|
    ensures r.Ok? ==> forall i :: 0 <= i < |r.value.milestones| ==> r.value.milestones[i].order == i + 1
    ensures r.Ok? ==> MilestoneSkills(r.value.milestones) == SkillSet(SkillGaps(curricula[role], levels))
    ensures r.Ok? ==> r.value.estimatedWeeks == r.value.timeline.totalWeeks >= 1
  {
    if role !in curricula then Err(RoleNotFound)
    else
      var r := Assemble(prereqs, curricula[role], role, levels, level, prefs, GapCount);
      PlanSkills(prereqs, SkillGaps(curricula[role], levels), level);
      r
  }

  /** The milestones of the plan name exactly the skills of the gaps. */
  lemma PlanSkills(prereqs: map<string, seq<string>>, gaps: seq<Gap>, level: string)
    ensures MilestoneSkills(PlannedMilestones(prereqs, gaps, level)) == SkillSet(gaps)
  {
    var stages := Plan(prereqs, {}, gaps);
    PlanGroupsNonEmpty(prereqs, gaps);
    MilestonesName(prereqs, stages, level);
    SameElementsSameSkills(Scheduled(stages), gaps);
  }

  lemma SameElementsSameSkills(a: seq<Gap>, b: seq<Gap>)
    requires multiset(a) == multiset(b)
    ensures SkillSet(a) == SkillSet(b)
  {
    assert forall g :: g in a <==> g in multiset(a);
    assert forall g :: g in b <==> g in multiset(b);
  }

  /** The skills the milestones name are those of the scheduled gaps. */
  lemma {:induction false} MilestonesName(prereqs: map<string, seq<string>>, stages: seq<Stage>, level: string)
    requires forall i :: 0 <= i < |stages| ==> stages[i].group != []
    ensures MilestoneSkills(Milestones(prereqs, stages, level)) == SkillSet(Scheduled(stages))
  {
    forall s | s in MilestoneSkills(Milestones(prereqs, stages, level)) ensures s in SkillSet(Scheduled(stages)) {
      NamedIsScheduled(prereqs, stages, level, s);
    }
    forall s | s in SkillSet(Scheduled(stages)) ensures s in MilestoneSkills(Milestones(prereqs, stages, level)) {
      ScheduledIsNamed(prereqs, stages, level, s);
    }
  }

  lemma {:induction false} NamedIsScheduled(prereqs: map<string, seq<string>>, stages: seq<Stage>, level: string, s: string)
    requires forall i :: 0 <= i < |stages| ==> stages[i].group != []
    requires s in MilestoneSkills(Milestones(prereqs, stages, level))
    ensures s in SkillSet(Scheduled(stages))
  {
    var ms := Milestones(prereqs, stages, level);
    var m, j :| m in ms && 0 <= j < |m.skills| && m.skills[j] == s;
    var i :| 0 <= i < |ms| && ms[i] == m;
    var g := stages[i].group[j];
    ScheduledHas(stages, i, g);
  }

  lemma {:induction false} ScheduledIsNamed(prereqs: map<string, seq<string>>, stages: seq<Stage>, level: string, s: string)
    requires forall i :: 0 <= i < |stages| ==> stages[i].group != []
    requires s in SkillSet(Scheduled(stages))
    ensures s in MilestoneSkills(Milestones(prereqs, stages, level))
  {
    var ms := Milestones(prereqs, stages, level);
    var g :| g in Scheduled(stages) && g.skill == s;
    ScheduledMember(stages, g);
    var i :| 0 <= i < |stages| && g in stages[i].group;
    var j :| 0 <= j < |stages[i].group| && stages[i].group[j] == g;
    var m := ms[i];
    assert m == CreateMilestone(prereqs, stages[i].group, i + 1, level);
    assert m.skills == SkillsOf(stages[i].group);
    assert m.skills[j] == s;
    assert m in ms && s in m.skills;
  }

  lemma {:induction false} ScheduledHas(stages: seq<Stage>, i: nat, g: Gap)
    requires i < |stages| && g in stages[i].group
    ensures g in Scheduled(stages)
  {
    if i > 0 {
      ScheduledHas(stages[1..], i - 1, g);
    }
  }

  /** The as-written count disagrees with the corrected one whenever the
      role has a gap: a one-skill curriculum the user has not started. */
  lemma AsWrittenUndercounts()
    ensures var cur := map["Role" := Curriculum(["Skill"], [], [])];
      var prefs := Preferences(None, None, None, None, None);
      && GenerateAsWritten(map[], cur, "Role", [], "beginner", prefs).Ok?
      && GenerateAsWritten(map[], cur, "Role", [], "beginner", prefs).value.skillGapsIdentified == 0
      && Generate(map[], cur, "Role", [], "beginner", prefs).value.skillGapsIdentified == 1
  {
    var cur := map["Role" := Curriculum(["Skill"], [], [])];
    var prefs := Preferences(None, None, None, None, None);
    AsWrittenReportsNoGaps(map[], cur, "Role", [], "beginner", prefs);
    var gaps := SkillGaps(cur["Role"], []);
    assert LevelOf([], "Skill") == 0.0;
    assert "Skill" in cur["Role"].core;
    assert exists g <- gaps :: g.skill == "Skill";
    assert |UnsortedGaps(cur["Role"], [])| <= 1;
    assert |gaps| == |multiset(gaps)| == |multiset(UnsortedGaps(cur["Role"], []))|;
  }
}

=== FILE: numbers.dfy ===
/** Python's numeric conversions on exact reals: `int()` truncates toward
    zero and `round(x, 2)` rounds to the nearest hundredth, ties to even. */
module Numbers {

  /** `int(x)` for a float `x`. */
  function Trunc(x: real): (n: int)
    ensures x >= 0.0 ==> n as real <= x < n as real + 1.0
    ensures x < 0.0 ==> n as real - 1.0 < x <= n as real
    ensures n >= 0 <==> x > -1.0
  {
    if x >= 0.0 then x.Floor else -((-x).Floor)
  }

  /** `min(a, b)`: how many of `b` items a cut after `a` keeps. */
  function Min(a: int, b: int): int
  {
    if a <= b then a else b
  }

  /** `max(1, int(x))`, the week count of a schedule entry. */
  function AtLeastOne(x: real): (n: int)
    ensures n >= 1
    ensures x >= 1.0 ==> n as real <= x < n as real + 1.0
    ensures x < 1.0 ==> n == 1
  {
    var t := Trunc(x);
    if t >= 1 then t else 1
  }

  /** True when `x` is a whole number of hundredths. */
  predicate Hundredths(x: real)
  {
    (x * 100.0).Floor as real == x * 100.0
  }

  /** `round(x, 2)`: the nearest multiple of 0.01, an exact tie going to the even hundredth. */
  function Round2(x: real): (r: real)
    ensures Hundredths(r)
    ensures -0.005 <= r - x <= 0.005
  {
    var m := x * 100.0;
    var f := m.Floor;
    var frac := m - f as real;
    var n := if frac > 0.5 then f + 1 else if frac < 0.5 then f else if f % 2 == 0 then f else f + 1;
    assert (n as real / 100.0) * 100.0 == n as real;
    n as real / 100.0
  }

  /** Rounding leaves a whole number of hundredths unchanged. */
  lemma Round2Fixes(x: real)
    requires Hundredths(x)
    ensures Round2(x) == x
  {
    var m := x * 100.0;
    assert m - m.Floor as real == 0.0;
  }

  /** Rounding never reverses the order of two values. */
  lemma Round2Monotone(x: real, y: real)
    requires x <= y
    ensures Round2(x) <= Round2(y)
  {
    var fx := (x * 100.0).Floor;
    var fy := (y * 100.0).Floor;
    assert x * 100.0 <= y * 100.0;
    assert fx <= fy;
  }

  /** Rounding keeps a value between two whole hundredths that bound it. */
  lemma Round2Between(lo: real, x: real, hi: real)
    requires Hundredths(lo) && Hundredths(hi) && lo <= x <= hi
    ensures lo <= Round2(x) <= hi
  {
    Round2Monotone(lo, x);
    Round2Monotone(x, hi);
    Round2Fixes(lo);
    Round2Fixes(hi);
  }

  /** Two shares of 100 round to hundredths that still add up to 100: the
      ties-to-even rule breaks a tie in opposite directions on the two sides. */
  lemma Round2Complement(x: real)
    ensures Round2(x) + Round2(100.0 - x) == 100.0
  {
    var m := x * 100.0;
    var f := m.Floor;
    var m' := (100.0 - x) * 100.0;
    assert m' == 10000.0 - m;
    var frac := m - f as real;
    assert 0.0 <= frac < 1.0;
    if frac == 0.0 {
      FloorIs(m', 10000 - f);
    } else {
      FloorIs(m', 9999 - f);
      assert m' - (9999 - f) as real == 1.0 - frac;
      if frac == 0.5 {
        assert (f % 2 == 0) == ((9999 - f) % 2 == 1);
      }
    }
  }

  lemma FloorIs(y: real, k: int)
    requires k as real <= y < k as real + 1.0
    ensures y.Floor == k
  {
  }

  // Small steps of ordered-field arithmetic the solver does not find alone.

  lemma MulLess(c: real, x: real, y: real)
    requires c > 0.0 && x < y
    ensures c * x < c * y
  {
    assert c * y - c * x == c * (y - x);
  }

  lemma MulLessEq(c: real, x: real, y: real)
    requires c >= 0.0 && x <= y
    ensures c * x <= c * y
  {
    assert c * y - c * x == c * (y - x);
  }

  lemma QuotientTimes(x: real, c: real)
    requires c != 0.0
    ensures (x / c) * c == x
  {
  }

  lemma CancelPositive(c: real, x: real, y: real)
    requires c > 0.0 && c * x < c * y
    ensures x < y
  {
    if x >= y {
      MulLessEq(c, y, x);
    }
  }
}

=== FILE: portfolio.dfy ===
/** Portfolios of `Backend/portfolio`: the unique-slug search run when a
    portfolio is saved without a slug, and the duration and validity fields
    the serializers derive from dates. Django's `slugify(title)` arrives as
    the `base` argument and "today" is a parameter. */
module Portfolios {
  import opened Wrappers
  import opened Text

  // ---------------------------------------------------------------- slugs

  /** The `k`-th slug tried: the base itself, then `base-1`, `base-2`, ... */
  function Candidate(base: string, k: nat): (s: string)
    ensures k == 0 ==> s == base
    ensures k > 0 ==> |s| > |base| + 1 && s[..|base|] == base && s[|base|] == '-'
  {
    if k == 0 then base else base + "-" + NatToString(k)
  }

  /** Different counters never produce the same slug. */
  lemma CandidateInjective(base: string, j: nat, k: nat)
    requires Candidate(base, j) == Candidate(base, k)
    ensures j == k
  {
    if j > 0 && k > 0 {
      var s := Candidate(base, j);
      assert s[|base| + 1..] == NatToString(j);
      assert Candidate(base, k)[|base| + 1..] == NatToString(k);
      NatToStringInjective(j, k);
    }
  }

  /** The candidates tried before the `k`-th. */
  function Tried(base: string, k: nat): set<string>
  {
    set j | 0 <= j < k :: Candidate(base, j)
  }

  /** Trying a taken candidate shrinks the set of taken slugs not yet tried. */
  lemma TriedGrows(base: string, i: nat, taken: set<string>)
    requires Candidate(base, i) in taken
    ensures |taken - Tried(base, i + 1)| < |taken - Tried(base, i)|
  {
    var c := Candidate(base, i);
    assert Tried(base, i + 1) == Tried(base, i) + {c};
    assert c !in Tried(base, i) by {
      forall j | 0 <= j < i
        ensures Candidate(base, j) != c
      {
        if Candidate(base, j) == c {
          CandidateInjective(base, j, i);
        }
      }
    }
    assert taken - Tried(base, i + 1) == (taken - Tried(base, i)) - {c};
    assert c in taken - Tried(base, i);
  }

  /** The loop of `Portfolio.save` and `generate_unique_slug`: the first
      candidate that is not in `taken`. The loop ends because each round
      tries a new member of the finite set `taken`. */
  method UniqueSlug(base: string, taken: set<string>) returns (slug: string)
    ensures slug !in taken
    ensures base !in taken ==> slug == base
    ensures exists k: nat :: slug == Candidate(base, k) && forall j :: 0 <= j < k ==> Candidate(base, j) in taken
  {
    slug := base;
    var tried: nat := 0;  // Python's counter is `tried + 1`
    while slug in taken
      invariant slug == Candidate(base, tried)
      invariant forall j :: 0 <= j < tried ==> Candidate(base, j) in taken
      decreases |taken - Tried(base, tried)|
    {
      TriedGrows(base, tried, taken);
      tried := tried + 1;
      slug := Candidate(base, tried);
    }
  }

  datatype Portfolio = Portfolio(id: nat, user: nat, title: string, slug: string)

  function Slugs(db: seq<Portfolio>): set<string>
  {
    set p <- db :: p.slug
  }

  /** The slugs of every stored portfolio other than `id`. */
  function OtherSlugs(db: seq<Portfolio>, id: nat): (r: set<string>)
    ensures r <= Slugs(db)
  {
    set p <- db | p.id != id :: p.slug
  }

  /** `Portfolio.save`: an empty slug becomes the first candidate that no
      stored portfolio uses; a non-empty slug is kept. */
  method Save(p: Portfolio, base: string, db: seq<Portfolio>) returns (q: Portfolio)
    ensures p.slug != "" ==> q == p
    ensures p.slug == "" ==> q == p.(slug := q.slug) && q.slug !in Slugs(db)
    ensures p.slug == "" && base !in Slugs(db) ==> q.slug == base
  {
    q := p;
    if p.slug == "" {
      var s := UniqueSlug(base, Slugs(db));
      q := p.(slug := s);
    }
  }

  /** The `pre_save` handler `generate_unique_slug`: the same search, except
      that the portfolio's own stored row does not count as a clash. */
  method GenerateUniqueSlug(p: Portfolio, base: string, db: seq<Portfolio>) returns (q: Portfolio)
    ensures p.slug != "" ==> q == p
    ensures p.slug == "" ==> q == p.(slug := q.slug) && q.slug !in OtherSlugs(db, p.id)
    ensures p.slug == "" && base !in OtherSlugs(db, p.id) ==> q.slug == base
  {
    q := p;
    if p.slug == "" {
      var s := UniqueSlug(base, OtherSlugs(db, p.id));
      q := p.(slug := s);
    }
  }

  /** `slug = SlugField(unique=True)`. */
  predicate UniqueSlugs(db: seq<Portfolio>)
  {
    forall i, j :: 0 <= i < j < |db| ==> db[i].slug != db[j].slug
  }

  /** Storing a portfolio whose slug no stored row uses keeps slugs unique,
      and with them the weaker `unique_together = ['user', 'slug']`. */
  lemma NewSlugKeepsUnique(db: seq<Portfolio>, q: Portfolio)
    requires UniqueSlugs(db) && q.slug !in Slugs(db)
    ensures UniqueSlugs(db + [q])
    ensures forall i, j ::
              (0 <= i < j < |db + [q]| && (db + [q])[i].user == (db + [q])[j].user) ==> (db + [q])[i].slug != (db + [q])[j].slug
  {
    var db' := db + [q];
    forall i, j | 0 <= i < j < |db'|
      ensures db'[i].slug != db'[j].slug
    {
      if j == |db| {
        assert db'[i] in db;
      }
    }
  }

  // ---------------------------------------------------------------- dates

  datatype Date = Date(year: int, month: int, day: int)

  predicate ValidDate(d: Date)
  {
    1 <= d.month <= 12 && 1 <= d.day <= 31
  }

  /** `a >= b` on dates: year, then month, then day. */
  predicate OnOrAfter(a: Date, b: Date)
  {
    a.year > b.year || (a.year == b.year && (a.month > b.month || (a.month == b.month && a.day >= b.day)))
  }

  /** `(end.year - start.year) * 12 + end.month - start.month`. */
  function MonthsBetween(start: Date, end: Date): int
  {
    (end.year - start.year) * 12 + end.month - start.month
  }

  /** Counted months add up along a chain of dates. */
  lemma MonthsAdd(a: Date, b: Date, c: Date)
    ensures MonthsBetween(a, b) + MonthsBetween(b, c) == MonthsBetween(a, c)
  {
  }

  /** The month count is negative exactly when the end month lies before the
      start month; the day of the month plays no part. */
  lemma MonthsSign(start: Date, end: Date)
    requires ValidDate(start) && ValidDate(end)
    ensures MonthsBetween(start, end) >= 0 <==> OnOrAfter(end, start.(day := 1))
    ensures MonthsBetween(start, end) == MonthsBetween(start.(day := 1), end.(day := 1))
  {
    if end.year > start.year {
      assert MonthsBetween(start, end) >= 12 + end.month - start.month;
    } else if end.year < start.year {
      assert MonthsBetween(start, end) <= -12 + end.month - start.month;
    }
  }

  // ---------------------------------------------------------------- serializer fields

  datatype ProjectDuration = Ongoing | Months(months: int) | NoEnd

  /** `ProjectSerializer.get_duration`. */
  function ProjectDurationOf(ongoing: bool, start: Date, end: Option<Date>): (r: ProjectDuration)
    ensures ongoing <==> r == Ongoing
    ensures r == NoEnd <==> !ongoing && end.None?
    ensures r.Months? ==> end.Some? && r.months == 12 * (end.value.year - start.year) + end.value.month - start.month
  {
    if ongoing then Ongoing
    else match end
      case Some(e) => Months(MonthsBetween(start, e))
      case None => NoEnd
  }

  /** A project that runs from one month to a later one has a non-negative
      month count, whatever its days. */
  lemma ProjectForward(start: Date, end: Date)
    requires ValidDate(start) && ValidDate(end) && OnOrAfter(end, start)
    ensures ProjectDurationOf(false, start, Some(end)).months >= 0
  {
    MonthsSign(start, end);
  }

  /** The text the project serializer returns. */
  function ProjectText(d: ProjectDuration): string
  {
    match d
    case Ongoing => "Ongoing"
    case Months(m) => IntToString(m) + " months"
    case NoEnd => "N/A"
  }

  datatype Span = YearsMonths(years: int, months: int) | MonthsOnly(months: int) | NoSpan

  /** Python's `months // 12` and `months % 12` (floor division). */
  function SplitMonths(months: int): (r: (int, int))
    ensures 12 * r.0 + r.1 == months && 0 <= r.1 < 12
  {
    (months / 12, months % 12)
  }

  /** Months an experience span stands for. */
  function SpanMonths(s: Span): int
  {
    match s
    case YearsMonths(y, m) => 12 * y + m
    case MonthsOnly(m) => m
    case NoSpan => 0
  }

  /** `ExperienceSerializer.get_duration` with `today` passed in: a current
      job runs to today, a past one to its end date. */
  function ExperienceDuration(current: bool, start: Date, end: Option<Date>, today: Date): (r: Span)
    ensures r == NoSpan <==> !current && end.None?
    ensures r.YearsMonths? ==> r.years > 0 && 0 <= r.months < 12
    ensures r.MonthsOnly? ==> 0 <= r.months < 12
    ensures current ==> r != NoSpan
  {
    var e := if current then Some(today) else end;
    match e
    case None => NoSpan
    case Some(d) =>
      var split := SplitMonths(MonthsBetween(start, d));
      if split.0 > 0 then YearsMonths(split.0, split.1) else MonthsOnly(split.1)
  }

  /** The years and months shown add back up to the month count whenever it
      is not negative; a negative count shows as a number of months in 0..11
      instead. */
  lemma ExperienceSpanRoundTrip(current: bool, start: Date, end: Option<Date>, today: Date)
    requires current || end.Some?
    ensures var m := MonthsBetween(start, if current then today else end.value);
            var r := ExperienceDuration(current, start, end, today);
            (m >= 0 ==> SpanMonths(r) == m) && (m < 0 ==> r.MonthsOnly? && SpanMonths(r) != m)
  {
  }

  /** The text the experience serializer returns. */
  function SpanText(s: Span): string
  {
    match s
    case YearsMonths(y, m) => IntToString(y) + " yr " + IntToString(m) + " mo"
    case MonthsOnly(m) => IntToString(m) + " months"
    case NoSpan => "N/A"
  }

  /** `CertificationSerializer.get_is_valid` with `today` passed in. */
  function CertificationValid(expiry: Option<Date>, today: Date): (r: bool)
    ensures expiry.None? ==> r
    ensures expiry.Some? ==> (r <==> OnOrAfter(expiry.value, today))
  {
    match expiry
    case None => true
    case Some(e) => OnOrAfter(e, today)
  }

  lemma OnOrAfterTransitive(a: Date, b: Date, c: Date)
    requires OnOrAfter(a, b) && OnOrAfter(b, c)
    ensures OnOrAfter(a, c)
  {
  }

  /** A certificate that has expired stays expired on every later day. */
  lemma ExpiredStaysExpired(expiry: Option<Date>, today: Date, later: Date)
    requires OnOrAfter(later, today) && !CertificationValid(expiry, today)
    ensures !CertificationValid(expiry, later)
  {
    if OnOrAfter(expiry.value, later) {
      OnOrAfterTransitive(expiry.value, later, today);
    }
  }

  // ---------------------------------------------------------------- the missing import

  /** The serializers module reads `timezone` without importing it (its
      star import of the models module does not provide the name). */
  datatype NameError = TimezoneUndefined

  /** `ExperienceSerializer.get_duration` as written: a current job reaches
      `timezone.now()` and raises. */
  function ExperienceDurationAsWritten(current: bool, start: Date, end: Option<Date>): (r: Result<Span, NameError>)
    ensures current <==> r == Err(TimezoneUndefined)
    ensures forall today: Date :: !current ==> r == Ok(ExperienceDuration(current, start, end, today))
  {
    if current then Err(TimezoneUndefined) else Ok(ExperienceDuration(false, start, end, Date(0, 1, 1)))
  }

  /** `CertificationSerializer.get_is_valid` as written: any expiry date
      reaches `timezone.now()` and raises. */
  function CertificationValidAsWritten(expiry: Option<Date>): (r: Result<bool, NameError>)
    ensures expiry.Some? <==> r == Err(TimezoneUndefined)
    ensures expiry.None? ==> r == Ok(true)
  {
    if expiry.Some? then Err(TimezoneUndefined) else Ok(true)
  }
}

=== FILE: prediction.dfy ===
/** The career prediction endpoint of `Backend/prediction/views.py`: the
    nineteen quiz answers are encoded into the classifier's feature vector
    (two categorical answers through fixed tables, the rest through `int()`),
    the predicted class is decoded into a job role and its probability into a
    rounded percentage. The classifier is a parameter. */
module Prediction {
  import opened Wrappers
  import opened Text
  import opened Numbers
  import Seqs
  import ExplainableAi

  // ---------------------------------------------------------------- categorical tables

  /** `encoding_question7`: label `i` encodes as `i`. */
  const Question7Labels: seq<string> := [
    "R Programming", "Information Security", "Shell Programming", "Machine Learning", "Full Stack",
    "Hadoop", "Python", "Distro Making", "App Development"]

  /** `encoding_question8`: label `i` encodes as `i`. */
  const Question8Labels: seq<string> := [
    "Database Security", "System Designing", "Web Technologies", "Hacking", "Testing",
    "Data Science", "Game Development", "Cloud Computing"]

  lemma LabelsDistinct()
    ensures |Question7Labels| == 9 && Seqs.Distinct(Question7Labels)
    ensures |Question8Labels| == 8 && Seqs.Distinct(Question8Labels)
  {
    var s7 := [('R', 'g', 13), ('I', 'y', 20), ('S', 'g', 17), ('M', 'g', 16), ('F', 'k', 10),
      ('H', 'p', 6), ('P', 'n', 6), ('D', 'g', 13), ('A', 't', 15)];
    assert forall i :: 0 <= i < |Question7Labels| ==> Signature(Question7Labels[i]) == s7[i];
    SignaturesDistinct(Question7Labels);
    var s8 := [('D', 'y', 17), ('S', 'g', 16), ('W', 's', 16), ('H', 'g', 7), ('T', 'g', 7),
      ('D', 'e', 12), ('G', 't', 16), ('C', 'g', 15)];
    assert forall i :: 0 <= i < |Question8Labels| ==> Signature(Question8Labels[i]) == s8[i];
    SignaturesDistinct(Question8Labels);
  }

  /** A dictionary lookup in a label table: the label's position, or `None`
      where Python raises `KeyError`. */
  function Encode(labels: seq<string>, answer: string): (r: Option<nat>)
    ensures r.None? <==> answer !in labels
    ensures r.Some? ==> r.value < |labels| && labels[r.value] == answer
  {
    Seqs.IndexOf(labels, answer)
  }

  /** Both tables are one-to-one: each label encodes as its own position,
      and two answers with the same code are the same label. */
  lemma TablesBijective()
    ensures forall i :: 0 <= i < 9 ==> Encode(Question7Labels, Question7Labels[i]) == Some(i)
    ensures forall i :: 0 <= i < 8 ==> Encode(Question8Labels, Question8Labels[i]) == Some(i)
    ensures forall a, b :: Encode(Question7Labels, a).Some? && Encode(Question7Labels, a) == Encode(Question7Labels, b) ==> a == b
    ensures forall a, b :: Encode(Question8Labels, a).Some? && Encode(Question8Labels, a) == Encode(Question8Labels, b) ==> a == b
  {
    LabelsDistinct();
    forall i | 0 <= i < 9
      ensures Encode(Question7Labels, Question7Labels[i]) == Some(i)
    {
      LookupDistinct(Question7Labels, i);
    }
    forall i | 0 <= i < 8
      ensures Encode(Question8Labels, Question8Labels[i]) == Some(i)
    {
      LookupDistinct(Question8Labels, i);
    }
  }

  lemma LookupDistinct(labels: seq<string>, i: nat)
    requires Seqs.Distinct(labels) && i < |labels|
    ensures Encode(labels, labels[i]) == Some(i)
  {
    var r := Encode(labels, labels[i]);
    assert r.Some?;
    assert labels[r.value] == labels[i];
  }

  // ---------------------------------------------------------------- feature vector

  const QuestionCount := 19

  /** The answer to question `i + 1` that failed to encode. */
  datatype EncodingError = NotAnInteger(question: nat) | UnknownCategory(question: nat)

  /** The encoding of the answer at position `i`: positions 6 and 7 go
      through the tables, every other one through `int()`. */
  function EncodeAnswer(i: nat, answer: string): (r: Result<int, EncodingError>)
    ensures i == 6 ==> (r.Ok? <==> answer in Question7Labels) && (r.Ok? ==> 0 <= r.value < 9)
    ensures i == 7 ==> (r.Ok? <==> answer in Question8Labels) && (r.Ok? ==> 0 <= r.value < 8)
    ensures i != 6 && i != 7 ==> (r.Ok? <==> ParseInt(answer).Some?) && (r.Ok? ==> r.value == ParseInt(answer).value)
    ensures r.Err? ==> r.error == (if i == 6 || i == 7 then UnknownCategory(i + 1) else NotAnInteger(i + 1))
  {
    LabelsDistinct();
    if i == 6 then
      match Encode(Question7Labels, answer)
      case Some(c) => Ok(c)
      case None => Err(UnknownCategory(i + 1))
    else if i == 7 then
      match Encode(Question8Labels, answer)
      case Some(c) => Ok(c)
      case None => Err(UnknownCategory(i + 1))
    else
      match ParseInt(answer)
      case Some(n) => Ok(n)
      case None => Err(NotAnInteger(i + 1))
  }

  /** The list display's results, one per answer, in question order. */
  function Codes(answers: seq<string>): (cs: seq<Result<int, EncodingError>>)
    ensures |cs| == |answers| && forall k :: 0 <= k < |answers| ==> cs[k] == EncodeAnswer(k, answers[k])
  {
    seq(|answers|, k requires 0 <= k < |answers| => EncodeAnswer(k, answers[k]))
  }

  /** Collects `codes[i..]`, stopping at the first failure as the list
      display does. */
  function EncodeFrom(codes: seq<Result<int, EncodingError>>, i: nat): (r: Result<seq<int>, EncodingError>)
    requires i <= |codes|
    ensures r.Ok? ==> |r.value| == |codes| - i && forall k :: i <= k < |codes| ==> codes[k] == Ok(r.value[k - i])
    ensures r.Ok? <==> forall k :: i <= k < |codes| ==> codes[k].Ok?
    ensures r.Err? ==> exists k :: i <= k < |codes| && codes[k] == Err(r.error)
                                   && forall j :: i <= j < k ==> codes[j].Ok?
    decreases |codes| - i
  {
    if i == |codes| then Ok([])
    else
      match codes[i]
      case Err(e) => Err(e)
      case Ok(v) =>
        match EncodeFrom(codes, i + 1)
        case Err(e) => Err(e)
        case Ok(rest) => Ok([v] + rest)
  }

  /** The `try` block building `encoded_data`. */
  function EncodeAnswers(answers: seq<string>): (r: Result<seq<int>, EncodingError>)
    requires |answers| == QuestionCount
    ensures r.Ok? ==> |r.value| == QuestionCount && 0 <= r.value[6] < 9 && 0 <= r.value[7] < 8
    ensures r.Ok? ==> Question7Labels[r.value[6]] == answers[6] && Question8Labels[r.value[7]] == answers[7]
    ensures r.Ok? ==> forall k :: 0 <= k < QuestionCount && k != 6 && k != 7 ==> ParseInt(answers[k]) == Some(r.value[k])
    ensures r.Err? <==> (answers[6] !in Question7Labels || answers[7] !in Question8Labels
                         || exists k :: 0 <= k < QuestionCount && k != 6 && k != 7 && ParseInt(answers[k]).None?)
  {
    EncodedVector(answers);
    EncodeFrom(Codes(answers), 0)
  }

  /** Every fact `EncodeAnswers` states, about the collected codes. */
  lemma EncodedVector(answers: seq<string>)
    requires |answers| == QuestionCount
    ensures var r := EncodeFrom(Codes(answers), 0);
            r.Ok? ==> |r.value| == QuestionCount && 0 <= r.value[6] < 9 && 0 <= r.value[7] < 8
                      && Question7Labels[r.value[6]] == answers[6] && Question8Labels[r.value[7]] == answers[7]
    ensures var r := EncodeFrom(Codes(answers), 0);
            r.Ok? ==> forall k :: 0 <= k < QuestionCount && k != 6 && k != 7 ==> ParseInt(answers[k]) == Some(r.value[k])
    ensures EncodeFrom(Codes(answers), 0).Err? <==>
              (answers[6] !in Question7Labels || answers[7] !in Question8Labels
               || exists k :: 0 <= k < QuestionCount && k != 6 && k != 7 && ParseInt(answers[k]).None?)
  {
    EncodedValues(answers);
    EncodedFailure(answers);
  }

  lemma EncodedValues(answers: seq<string>)
    requires |answers| == QuestionCount
    ensures var r := EncodeFrom(Codes(answers), 0);
            r.Ok? ==> |r.value| == QuestionCount && 0 <= r.value[6] < 9 && 0 <= r.value[7] < 8
                      && Question7Labels[r.value[6]] == answers[6] && Question8Labels[r.value[7]] == answers[7]
    ensures var r := EncodeFrom(Codes(answers), 0);
            r.Ok? ==> forall k :: 0 <= k < QuestionCount && k != 6 && k != 7 ==> ParseInt(answers[k]) == Some(r.value[k])
  {
    var cs := Codes(answers);
    var r := EncodeFrom(cs, 0);
    if r.Ok? {
      assert cs[6] == EncodeAnswer(6, answers[6]) == Ok(r.value[6]);
      assert cs[7] == EncodeAnswer(7, answers[7]) == Ok(r.value[7]);
      LabelsDistinct();
      LookupDistinct(Question7Labels, r.value[6]);
      LookupDistinct(Question8Labels, r.value[7]);
      forall k | 0 <= k < QuestionCount && k != 6 && k != 7
        ensures ParseInt(answers[k]) == Some(r.value[k])
      {
        assert cs[k] == EncodeAnswer(k, answers[k]) == Ok(r.value[k]);
      }
    }
  }

  lemma EncodedFailure(answers: seq<string>)
    requires |answers| == QuestionCount
    ensures EncodeFrom(Codes(answers), 0).Err? <==>
              (answers[6] !in Question7Labels || answers[7] !in Question8Labels
               || exists k :: 0 <= k < QuestionCount && k != 6 && k != 7 && ParseInt(answers[k]).None?)
  {
    var cs := Codes(answers);
    var r := EncodeFrom(cs, 0);
    if r.Err? {
      var k :| 0 <= k < QuestionCount && cs[k] == Err(r.error);
      assert EncodeAnswer(k, answers[k]).Err?;
      if k != 6 && k != 7 {
        assert ParseInt(answers[k]).None?;
      }
    } else {
      assert cs[6].Ok? && cs[7].Ok?;
      forall k | 0 <= k < QuestionCount && k != 6 && k != 7
        ensures ParseInt(answers[k]).Some?
      {
        assert cs[k].Ok?;
      }
    }
  }

  /** The answers a quiz taker gives for a feature vector: the labels of the
      two categorical codes and `str()` of every other entry. */
  function Answers(v: seq<int>): (r: seq<string>)
    requires |v| == QuestionCount && 0 <= v[6] < 9 && 0 <= v[7] < 8
    ensures |r| == QuestionCount
  {
    LabelsDistinct();
    seq(QuestionCount, k requires 0 <= k < QuestionCount =>
      if k == 6 then Question7Labels[v[6]] else if k == 7 then Question8Labels[v[7]] else IntToString(v[k]))
  }

  /** Encoding is the inverse of answering: every feature vector with codes
      in range is recovered from its answers. */
  lemma EncodeAnswersRoundTrip(v: seq<int>)
    requires |v| == QuestionCount && 0 <= v[6] < 9 && 0 <= v[7] < 8
    ensures EncodeAnswers(Answers(v)) == Ok(v)
  {
    var a := Answers(v);
    LabelsDistinct();
    forall k | 0 <= k < QuestionCount
      ensures EncodeAnswer(k, a[k]) == Ok(v[k])
    {
      if k == 6 {
        LookupDistinct(Question7Labels, v[6]);
      } else if k == 7 {
        LookupDistinct(Question8Labels, v[7]);
      } else {
        ParseIntToString(v[k]);
      }
    }
    AllOkCollected(Codes(a), v);
  }

  /** Codes that all succeed are collected into exactly their values. */
  lemma AllOkCollected(codes: seq<Result<int, EncodingError>>, v: seq<int>)
    requires |codes| == |v| && forall k :: 0 <= k < |v| ==> codes[k] == Ok(v[k])
    ensures EncodeFrom(codes, 0) == Ok(v)
  {
    var r := EncodeFrom(codes, 0);
    assert r.Ok?;
    forall k | 0 <= k < |v| ensures r.value[k] == v[k] {
      assert codes[k] == Ok(r.value[k - 0]);
    }
    assert |r.value| == |v|;
    assert r.value == v;
  }

  // ---------------------------------------------------------------- decoding the prediction

  /** `job_role_mapping.get(predicted_class, 'Unknown Role')`. */
  function RoleName(c: int): (r: string)
    ensures 0 <= c < |ExplainableAi.JobRoles| ==> r == ExplainableAi.JobRoles[c]
    ensures !(0 <= c < |ExplainableAi.JobRoles|) ==> r == "Unknown Role"
  {
    if 0 <= c < |ExplainableAi.JobRoles| then ExplainableAi.JobRoles[c] else "Unknown Role"
  }

  /** Distinct known classes decode to distinct roles, none of them the
      fallback: the role name identifies the class. */
  lemma RoleNamesIdentifyClass(c: int, d: int)
    requires RoleName(c) == RoleName(d)
    ensures c == d || (!(0 <= c < 12) && !(0 <= d < 12))
  {
    var names := ExplainableAi.JobRoles + ["Unknown Role"];
    RoleNamesDistinct();
    var i := if 0 <= c < 12 then c else 12;
    var j := if 0 <= d < 12 then d else 12;
    assert names[i] == RoleName(c) && names[j] == RoleName(d);
  }

  /** The twelve role names and the fallback are pairwise different. */
  lemma RoleNamesDistinct()
    ensures Seqs.Distinct(ExplainableAi.JobRoles + ["Unknown Role"])
  {
    // first letter and length already tell the thirteen names apart
    var heads := ['A', 'C', 'D', 'M', 'N', 'S', 'S', 'S', 'S', 'T', 'U', 'W', 'U'];
    var lengths := [22, 23, 18, 29, 25, 18, 17, 41, 30, 17, 11, 13, 12];
    var names := ExplainableAi.JobRoles + ["Unknown Role"];
    assert forall i :: 0 <= i < |names| ==> |names[i]| == lengths[i] && names[i][0] == heads[i];
  }

  /** `prediction_probability[0][predicted_class]` with NumPy indexing: a
      negative index counts from the end; `None` where NumPy raises. */
  function ProbabilityAt(probs: seq<real>, c: int): (r: Option<real>)
    ensures 0 <= c < |probs| ==> r == Some(probs[c])
    ensures -|probs| <= c < 0 ==> r == Some(probs[|probs| + c])
    ensures r.None? <==> !(-|probs| <= c < |probs|)
    ensures r.Some? ==> r.value in probs
  {
    if 0 <= c < |probs| then Some(probs[c])
    else if -|probs| <= c < 0 then Some(probs[|probs| + c])
    else None
  }

  /** `round(predicted_proba * 100, 2)`. */
  function ConfidencePercentage(p: real): (r: real)
    ensures Hundredths(r) && -0.005 <= r - p * 100.0 <= 0.005
    ensures 0.0 <= p <= 1.0 ==> 0.0 <= r <= 100.0
  {
    if 0.0 <= p <= 1.0 then
      Round2Between(0.0, p * 100.0, 100.0);
      Round2(p * 100.0)
    else Round2(p * 100.0)
  }

  /** The trained model: `predict` and `predict_proba` on one feature vector. */
  datatype Classifier = Classifier(predict: seq<int> -> int, proba: seq<int> -> seq<real>)

  datatype PredictionResponse = PredictionResponse(prediction: string, probability: real, confidence: real, code: int)

  datatype PredictError = BadAnswers(error: EncodingError) | ClassOutOfRange

  /** `PredictionView.post` after the serializer has accepted the nineteen
      answers: 400 on an encoding failure, otherwise the decoded prediction. */
  function Predict(m: Classifier, answers: seq<string>): (r: Result<PredictionResponse, PredictError>)
    requires |answers| == QuestionCount
    ensures r.Err? && r.error.BadAnswers? <==> EncodeAnswers(answers).Err?
    ensures r.Ok? ==> EncodeAnswers(answers).Ok? && r.value.code == m.predict(EncodeAnswers(answers).value)
    ensures r.Ok? ==> r.value.prediction == RoleName(r.value.code)
    ensures r.Ok? ==> r.value.probability in m.proba(EncodeAnswers(answers).value)
    ensures r.Ok? ==> ProbabilityAt(m.proba(EncodeAnswers(answers).value), r.value.code) == Some(r.value.probability)
    ensures r == Err(ClassOutOfRange) <==>
      EncodeAnswers(answers).Ok? && ProbabilityAt(m.proba(EncodeAnswers(answers).value), m.predict(EncodeAnswers(answers).value)).None?
    ensures r.Ok? ==> r.value.confidence == ConfidencePercentage(r.value.probability)
  {
    match EncodeAnswers(answers)
    case Err(e) => Err(BadAnswers(e))
    case Ok(v) =>
      var c := m.predict(v);
      match ProbabilityAt(m.proba(v), c)
      case None => Err(ClassOutOfRange)
      case Some(p) => Ok(PredictionResponse(RoleName(c), p, ConfidencePercentage(p), c))
  }

  /** Under the classifier's assumed contract (a class in 0..11 and twelve
      probabilities in [0, 1]) every well-formed quiz gets a known role and a
      confidence within [0, 100]. */
  lemma WellBehavedClassifier(m: Classifier, answers: seq<string>)
    requires |answers| == QuestionCount && EncodeAnswers(answers).Ok?
    requires var v := EncodeAnswers(answers).value;
             0 <= m.predict(v) < 12 && |m.proba(v)| == 12 && forall p <- m.proba(v) :: 0.0 <= p <= 1.0
    ensures Predict(m, answers).Ok?
    ensures Predict(m, answers).value.prediction in ExplainableAi.JobRoles
    ensures 0.0 <= Predict(m, answers).value.confidence <= 100.0
  {
  }
}

=== FILE: resume.dfy ===
/** The resume builder's rule sets: ATS keyword matching with skill
    synonyms, the ATS score and its suggestions, skill levels merged from quiz
    answers and assessments, the STAR-format test, STAR bullet formatting and
    job-description keyword extraction. The regular-expression formatting and
    structure checks enter as their scores. */
module Resume {
  import opened Wrappers
  import opened Text
  import opened Numbers
  import Seqs
  import Sorting

  // ---------------------------------------------------------------- ATS keywords

  const AtsKeywords: map<string, seq<string>> := map[
    "Software Developer" := [
      "programming", "coding", "software development", "debugging",
      "version control", "agile", "scrum", "test-driven development",
      "object-oriented programming", "REST API", "microservices"],
    "Web Developer" := [
      "HTML", "CSS", "JavaScript", "React", "Node.js", "responsive design",
      "frontend", "backend", "full-stack", "REST API", "database",
      "UI/UX", "cross-browser compatibility"],
    "Data Scientist" := [
      "machine learning", "data analysis", "Python", "R", "pandas",
      "numpy", "scikit-learn", "statistical analysis", "data visualization",
      "feature engineering", "model evaluation"]]

  /** Skills with their lower-case synonyms, in table order. */
  const SkillSynonyms: seq<(string, seq<string>)> := [
    ("Python", ["python", "py", "python3"]),
    ("JavaScript", ["javascript", "js", "ecmascript"]),
    ("React", ["react", "reactjs", "react.js"]),
    ("SQL", ["sql", "structured query language", "database"]),
    ("Git", ["git", "version control", "github", "gitlab"]),
    ("Docker", ["docker", "containerization", "containers"]),
    ("AWS", ["aws", "amazon web services", "cloud computing"])]

  function RoleKeywords(role: string): seq<string>
  {
    if role in AtsKeywords then AtsKeywords[role] else []
  }

  /** Some synonym entry names the keyword (as one of its synonyms or as the
      skill itself) and one of that entry's synonyms occurs in the text. */
  predicate SynonymFound(keyword: string, normalized: string)
  {
    exists e <- SkillSynonyms ::
      (Lower(keyword) in e.1 || Lower(e.0) == Lower(keyword))
      && exists syn <- e.1 :: Contains(normalized, syn)
  }

  /** A role keyword counts as present when it, or a synonym, occurs in the
      lower-cased resume. */
  predicate KeywordFound(keyword: string, text: string)
  {
    Contains(Lower(text), Lower(keyword)) || SynonymFound(keyword, Lower(text))
  }

  function FoundTest(text: string): string -> bool
  {
    (k: string) => KeywordFound(k, text)
  }

  /** The keyword loop of `calculate_ats_score`: every keyword goes to the
      found list or to the missing list, keeping the role's order. */
  function Classify(keywords: seq<string>, text: string): (r: (seq<string>, seq<string>))
    ensures r.0 == Seqs.Filter(keywords, FoundTest(text))
    ensures r.1 == Seqs.Filter(keywords, Seqs.Not(FoundTest(text)))
    ensures |r.0| + |r.1| == |keywords|
  {
    Seqs.Partition(keywords, FoundTest(text))
  }

  /** Each keyword is found or missing, and never both. */
  lemma ClassifyPartitions(keywords: seq<string>, text: string, k: string)
    requires k in keywords
    ensures k in Classify(keywords, text).0 <==> KeywordFound(k, text)
    ensures k in Classify(keywords, text).1 <==> !KeywordFound(k, text)
  {
    assert FoundTest(text)(k) == KeywordFound(k, text);
    assert Seqs.Not(FoundTest(text))(k) == !KeywordFound(k, text);
  }

  /** A Web Developer resume that says "sql" is credited with "database",
      which the SQL synonym entry lists. */
  lemma DatabaseFoundThroughSql()
    ensures KeywordFound("database", "sql")
  {
    LowerUnchanged("database");
    LowerUnchanged("sql");
    var e := SkillSynonyms[3];
    assert e in SkillSynonyms;
    assert "database" == e.1[2];
    assert OccursAt("sql", e.1[0], 0);
    assert Contains(Lower("sql"), e.1[0]);
    assert Lower("database") in e.1;
    assert SynonymFound("database", Lower("sql"));
  }

  // ---------------------------------------------------------------- ATS score

  /** `len(found) / len(role_keywords) * 100`, or 0 when the role has no keywords. */
  function KeywordScore(found: nat, total: nat): (s: real)
    requires found <= total
    ensures 0.0 <= s <= 100.0
    ensures total == 0 || found == 0 ==> s == 0.0
    ensures total > 0 && found == total ==> s == 100.0
  {
    if total > 0 then
      assert found as real / total as real <= 1.0;
      found as real / total as real * 100.0
    else 0.0
  }

  const MissingShown: nat := 10
  const KeywordsSuggested: nat := 5

  /** One line of `_generate_ats_suggestions`; `Message` gives its wording. */
  datatype Suggestion =
    | AddKeywords(shown: seq<string>)
    | ImproveFormatting
    | EnhanceStructure
    | ExpandContent
    | LooksGood

  function Message(s: Suggestion): string
  {
    match s
    case AddKeywords(shown) => "Add these keywords: " + Join(shown, ", ")
    case ImproveFormatting => "Improve formatting: Use standard section headers (Experience, Education, Skills)"
    case EnhanceStructure => "Enhance structure: Include contact information, skills section, and action verbs"
    case ExpandContent => "Expand content: Add more detail to experience and skills sections"
    case LooksGood => "Resume looks good for ATS! Consider adding more role-specific keywords if needed."
  }

  /** `_generate_ats_suggestions`: one line per weakness (missing keywords,
      formatting or structure below 80, fewer than 500 characters), or the
      all-clear message when there is none. */
  function AtsSuggestions(text: string, missing: seq<string>, formatting: real, structure: real): (r: seq<Suggestion>)
    ensures r != []
    ensures r == [LooksGood] <==> missing == [] && formatting >= 80.0 && structure >= 80.0 && |text| >= 500
    ensures LooksGood in r ==> r == [LooksGood]
    ensures missing != [] ==> r[0] == AddKeywords(Sorting.Take(missing, KeywordsSuggested))
    ensures (ImproveFormatting in r <==> formatting < 80.0) && (EnhanceStructure in r <==> structure < 80.0)
    ensures ExpandContent in r <==> |text| < 500
    ensures |r| <= 4
  {
    var a := if missing != [] then [AddKeywords(Sorting.Take(missing, KeywordsSuggested))] else [];
    var b := if formatting < 80.0 then [ImproveFormatting] else [];
    var c := if structure < 80.0 then [EnhanceStructure] else [];
    var d := if |text| < 500 then [ExpandContent] else [];
    var s := a + b + c + d;
    assert LooksGood !in s;
    assert s == [] <==> a == [] && b == [] && c == [] && d == [];
    if s == [] then [LooksGood] else s
  }

  datatype AtsReport = AtsReport(ats: real, keyword: real, formatting: real, structure: real,
                                 found: seq<string>, missing: seq<string>, suggestions: seq<Suggestion>)

  /** The unrounded ATS score: keywords weigh one half, formatting and
      structure a quarter each. */
  function Weighted(keyword: real, formatting: real, structure: real): real
  {
    keyword * 0.5 + formatting * 0.25 + structure * 0.25
  }

  lemma WeightedMonotone(keyword: real, f1: real, s1: real, f2: real, s2: real)
    requires f1 <= f2 && s1 <= s2
    ensures Round2(Weighted(keyword, f1, s1)) <= Round2(Weighted(keyword, f2, s2))
  {
    Round2Monotone(Weighted(keyword, f1, s1), Weighted(keyword, f2, s2));
  }

  /** `calculate_ats_score`, with the formatting and structure scores given. */
  function CalculateAtsScore(text: string, role: string, formatting: real, structure: real): (r: AtsReport)
    requires 0.0 <= formatting <= 100.0 && 0.0 <= structure <= 100.0
    ensures r.found == Seqs.Filter(RoleKeywords(role), FoundTest(text))
    ensures r.missing == Sorting.Take(Seqs.Filter(RoleKeywords(role), Seqs.Not(FoundTest(text))), MissingShown)
    ensures 0.0 <= r.keyword <= 100.0 && 0.0 <= r.ats <= 100.0
    ensures RoleKeywords(role) == [] ==> r.keyword == 0.0
    ensures r.keyword == Round2(KeywordScore(|r.found|, |RoleKeywords(role)|))
    ensures r.ats == Round2(Weighted(KeywordScore(|r.found|, |RoleKeywords(role)|), formatting, structure))
    ensures r.formatting == Round2(formatting) && r.structure == Round2(structure)
    ensures r.suggestions == AtsSuggestions(text, Seqs.Filter(RoleKeywords(role), Seqs.Not(FoundTest(text))), formatting, structure)
  {
    var keywords := RoleKeywords(role);
    var (found, missing) := Classify(keywords, text);
    var keyword := KeywordScore(|found|, |keywords|);
    var ats := Weighted(keyword, formatting, structure);
    assert Hundredths(0.0) && Hundredths(100.0);
    Round2Between(0.0, keyword, 100.0);
    Round2Between(0.0, ats, 100.0);
    AtsReport(Round2(ats), Round2(keyword), Round2(formatting), Round2(structure),
              found, Sorting.Take(missing, MissingShown), AtsSuggestions(text, missing, formatting, structure))
  }

  /** A resume that has every role keyword scores full marks on keywords and misses none. */
  lemma AllKeywordsFullMarks(text: string, role: string, formatting: real, structure: real)
    requires 0.0 <= formatting <= 100.0 && 0.0 <= structure <= 100.0
    requires RoleKeywords(role) != []
    requires forall k <- RoleKeywords(role) :: KeywordFound(k, text)
    ensures CalculateAtsScore(text, role, formatting, structure).keyword == 100.0
    ensures CalculateAtsScore(text, role, formatting, structure).missing == []
  {
    var keywords := RoleKeywords(role);
    Seqs.FilterAll(keywords, FoundTest(text));
    assert Hundredths(100.0);
    Round2Fixes(100.0);
  }

  /** The overall score weighs keywords by one half and formatting and
      structure by a quarter each, so it never falls when the formatting or
      structure score rises. */
  lemma AtsMonotone(text: string, role: string, f1: real, s1: real, f2: real, s2: real)
    requires 0.0 <= f1 <= f2 <= 100.0 && 0.0 <= s1 <= s2 <= 100.0
    ensures CalculateAtsScore(text, role, f1, s1).ats <= CalculateAtsScore(text, role, f2, s2).ats
  {
    var found := Seqs.Filter(RoleKeywords(role), FoundTest(text));
    WeightedMonotone(KeywordScore(|found|, |RoleKeywords(role)|), f1, s1, f2, s2);
  }

  // ---------------------------------------------------------------- skills from quiz and assessments

  datatype QuizValue = Number(x: real) | NotNumber

  /** A quiz answer names a skill when its key mentions "skill" or "proficiency". */
  predicate IsSkillKey(key: string)
  {
    Contains(Lower(key), "skill") || Contains(Lower(key), "proficiency")
  }

  /** `key.replace('skill_', '').replace('_', ' ').title()`. */
  function QuizSkillName(key: string): string
  {
    Title(ReplaceAll(ReplaceAll(key, "skill_", ""), "_", " "))
  }

  function QuizLevel(v: QuizValue): real
  {
    if v.Number? then v.x else 0.0
  }

  function QuizSkills(responses: seq<(string, QuizValue)>): set<string>
  {
    set p | p in responses && IsSkillKey(p.0) :: QuizSkillName(p.0)
  }

  /** The quiz half of `map_skills_from_quiz`: every skill-naming answer sets
      its skill's level, later answers overwriting earlier ones. */
  function AddQuiz(m: map<string, real>, responses: seq<(string, QuizValue)>): (r: map<string, real>)
    ensures r.Keys == m.Keys + QuizSkills(responses)
    ensures forall k <- m :: k !in QuizSkills(responses) ==> r[k] == m[k]
    decreases |responses|
  {
    if responses == [] then m
    else
      var p := responses[0];
      var m' := if IsSkillKey(p.0) then m[QuizSkillName(p.0) := QuizLevel(p.1)] else m;
      assert QuizSkills(responses) == (if IsSkillKey(p.0) then {QuizSkillName(p.0)} else {}) + QuizSkills(responses[1..]) by {
        assert forall q <- responses :: q == p || q in responses[1..];
      }
      AddQuiz(m', responses[1..])
  }

  /** Answer `i` is the last one naming skill `k`. */
  predicate LastNaming(responses: seq<(string, QuizValue)>, i: nat, k: string)
    requires i < |responses|
  {
    && IsSkillKey(responses[i].0) && QuizSkillName(responses[i].0) == k
    && forall j :: i < j < |responses| ==> !(IsSkillKey(responses[j].0) && QuizSkillName(responses[j].0) == k)
  }

  /** The last answer naming a skill sets its level: the answer's number, or
      0 when it is not a number. */
  lemma {:induction false} AddQuizLastWins(m: map<string, real>, responses: seq<(string, QuizValue)>, k: string)
    requires k in QuizSkills(responses)
    ensures exists i :: 0 <= i < |responses| && LastNaming(responses, i, k) && AddQuiz(m, responses)[k] == QuizLevel(responses[i].1)
    decreases |responses|
  {
    var p, rest := responses[0], responses[1..];
    var m' := if IsSkillKey(p.0) then m[QuizSkillName(p.0) := QuizLevel(p.1)] else m;
    assert AddQuiz(m, responses) == AddQuiz(m', rest);
    if k in QuizSkills(rest) {
      AddQuizLastWins(m', rest, k);
      var i :| 0 <= i < |rest| && LastNaming(rest, i, k) && AddQuiz(m', rest)[k] == QuizLevel(rest[i].1);
      LastNamingShift(responses, i, k);
      assert AddQuiz(m, responses)[k] == QuizLevel(responses[i + 1].1);
    } else {
      LastNamingHead(responses, k);
      assert k in m' && m'[k] == QuizLevel(p.1);
      assert AddQuiz(m, responses)[k] == QuizLevel(responses[0].1);
    }
  }

  /** A last naming in the tail is a last naming in the whole list. */
  lemma LastNamingShift(responses: seq<(string, QuizValue)>, i: nat, k: string)
    requires 0 <= i < |responses| - 1 && LastNaming(responses[1..], i, k)
    ensures LastNaming(responses, i + 1, k) && responses[i + 1] == responses[1..][i]
  {
    var rest := responses[1..];
    forall j | i + 1 < j < |responses|
      ensures !(IsSkillKey(responses[j].0) && QuizSkillName(responses[j].0) == k)
    {
      assert responses[j] == rest[j - 1];
    }
  }

  /** A skill named somewhere but nowhere in the tail is last named by the head. */
  lemma LastNamingHead(responses: seq<(string, QuizValue)>, k: string)
    requires k in QuizSkills(responses) && k !in QuizSkills(responses[1..])
    ensures LastNaming(responses, 0, k)
  {
    var p, rest := responses[0], responses[1..];
    var q :| q in responses && IsSkillKey(q.0) && QuizSkillName(q.0) == k;
    assert forall x <- responses :: x == p || x in rest;
    forall j | 0 < j < |responses| ensures !(IsSkillKey(responses[j].0) && QuizSkillName(responses[j].0) == k) {
      assert responses[j] in rest;
    }
  }

  datatype AssessmentRecord = AssessmentRecord(skill: string, score: Option<real>, maxScore: Option<real>)

  /** An assessment on the 0 to 10 scale: `score / max_score * 10`, or 0 when
      the maximum is not positive; a missing score reads 0 and a missing maximum 100. */
  function Normalized(a: AssessmentRecord): real
  {
    var score, max := GetOr(a.score, 0.0), GetOr(a.maxScore, 100.0);
    if max > 0.0 then score / max * 10.0 else 0.0
  }

  function AssessedSkills(assessments: seq<AssessmentRecord>): set<string>
  {
    set a | a in assessments && a.skill != [] :: a.skill
  }

  function LevelOr0(m: map<string, real>, skill: string): real
  {
    if skill in m then m[skill] else 0.0
  }

  function Merge(m: map<string, real>, a: AssessmentRecord): map<string, real>
  {
    if a.skill == [] then m
    else
      var prior := LevelOr0(m, a.skill);
      m[a.skill := if Normalized(a) > prior then Normalized(a) else prior]
  }

  /** The assessment half of `map_skills_from_quiz`: each named assessment
      raises its skill to its normalised score if that is higher. */
  function AddAssessments(m: map<string, real>, assessments: seq<AssessmentRecord>): (r: map<string, real>)
    ensures r.Keys == m.Keys + AssessedSkills(assessments)
    decreases |assessments|
  {
    if assessments == [] then m
    else
      var a := assessments[0];
      assert AssessedSkills(assessments) == (if a.skill != [] then {a.skill} else {}) + AssessedSkills(assessments[1..]) by {
        assert forall b <- assessments :: b == a || b in assessments[1..];
      }
      AddAssessments(Merge(m, a), assessments[1..])
  }

  /** Merging assessments never lowers a level, and leaves each assessed
      skill at least at each of its normalised scores. */
  lemma {:induction false} AddAssessmentsRaises(m: map<string, real>, assessments: seq<AssessmentRecord>)
    ensures forall k <- m :: AddAssessments(m, assessments)[k] >= m[k]
    ensures forall a <- assessments :: a.skill != [] ==> AddAssessments(m, assessments)[a.skill] >= Normalized(a)
    decreases |assessments|
  {
    if assessments != [] {
      var a, rest := assessments[0], assessments[1..];
      var m' := Merge(m, a);
      var r := AddAssessments(m, assessments);
      assert r == AddAssessments(m', rest);
      AddAssessmentsRaises(m', rest);
      MergeRaises(m, a);
      forall b <- assessments | b.skill != [] ensures r[b.skill] >= Normalized(b) {
        if b != a {
          assert b in rest;
        }
      }
    }
  }

  /** One merge keeps every skill and lowers none, and leaves the assessed
      skill at least at its normalised score. */
  lemma MergeRaises(m: map<string, real>, a: AssessmentRecord)
    ensures m.Keys <= Merge(m, a).Keys
    ensures forall k <- m :: Merge(m, a)[k] >= m[k]
    ensures a.skill != [] ==> a.skill in Merge(m, a) && Merge(m, a)[a.skill] >= Normalized(a)
  {
  }

  /** No skill ends below its earlier level, an absent skill counting as 0. */
  lemma {:induction false} AddAssessmentsAboveLevel(m: map<string, real>, assessments: seq<AssessmentRecord>)
    ensures forall k <- AddAssessments(m, assessments) :: AddAssessments(m, assessments)[k] >= LevelOr0(m, k)
    decreases |assessments|
  {
    if assessments != [] {
      var a := assessments[0];
      var m' := Merge(m, a);
      AddAssessmentsAboveLevel(m', assessments[1..]);
      assert forall k :: LevelOr0(m', k) >= LevelOr0(m, k);
    }
  }

  /** Each level is the earlier one (0 when absent) or one of the skill's
      normalised scores, and skills nobody assessed keep their level. */
  lemma {:induction false} AddAssessmentsAttains(m: map<string, real>, assessments: seq<AssessmentRecord>)
    ensures forall k <- AddAssessments(m, assessments) ::
      (k !in AssessedSkills(assessments) ==> AddAssessments(m, assessments)[k] == m[k])
    ensures forall k <- AddAssessments(m, assessments) ::
      AddAssessments(m, assessments)[k] == LevelOr0(m, k)
      || exists a <- assessments :: a.skill == k && AddAssessments(m, assessments)[k] == Normalized(a)
    decreases |assessments|
  {
    if assessments != [] {
      var a := assessments[0];
      var m' := Merge(m, a);
      AddAssessmentsAttains(m', assessments[1..]);
      assert forall b <- assessments[1..] :: b in assessments;
      assert AssessedSkills(assessments) == (if a.skill != [] then {a.skill} else {}) + AssessedSkills(assessments[1..]) by {
        assert forall b <- assessments :: b == a || b in assessments[1..];
      }
    }
  }

  /** `map_skills_from_quiz`. */
  function MapSkillsFromQuiz(responses: seq<(string, QuizValue)>, assessments: seq<AssessmentRecord>): (r: map<string, real>)
    ensures r.Keys == QuizSkills(responses) + AssessedSkills(assessments)
    ensures forall k <- r :: k !in AssessedSkills(assessments) ==> r[k] == AddQuiz(map[], responses)[k]
    ensures forall k <- r :: r[k] >= LevelOr0(AddQuiz(map[], responses), k)
    ensures forall a <- assessments :: a.skill != [] ==> r[a.skill] >= Normalized(a)
    ensures forall k <- r :: r[k] == LevelOr0(AddQuiz(map[], responses), k)
                             || exists a <- assessments :: a.skill == k && r[k] == Normalized(a)
  {
    var quiz := AddQuiz(map[], responses);
    AddAssessmentsRaises(quiz, assessments);
    AddAssessmentsAttains(quiz, assessments);
    AddAssessmentsAboveLevel(quiz, assessments);
    AddAssessments(quiz, assessments)
  }

  // ---------------------------------------------------------------- STAR format

  const ResultIndicators: seq<string> := ["resulted in", "increased", "decreased", "improved", "achieved", "%", "times"]
  const ActionVerbs: seq<string> := ["developed", "created", "implemented", "designed", "led", "managed"]

  predicate MentionsAny(text: string, words: seq<string>)
  {
    exists w <- words :: Contains(Lower(text), w)
  }

  /** `_is_star_format`: the text names a result and an action. */
  predicate IsStarFormat(text: string)
  {
    MentionsAny(text, ResultIndicators) && MentionsAny(text, ActionVerbs)
  }

  /** Surrounding a STAR bullet with more text keeps it a STAR bullet. */
  lemma StarSurvivesContext(text: string, before: string, after: string)
    requires IsStarFormat(text)
    ensures IsStarFormat(before + text + after)
  {
    LowerConcat(before + text, after);
    LowerConcat(before, text);
    var w1 :| w1 in ResultIndicators && Contains(Lower(text), w1);
    var w2 :| w2 in ActionVerbs && Contains(Lower(text), w2);
    ContainsExtend(Lower(text), w1, Lower(before), Lower(after));
    ContainsExtend(Lower(text), w2, Lower(before), Lower(after));
  }

  // ---------------------------------------------------------------- STAR bullet

  datatype Star = Star(situation: string, task: string, action: string, result: string)

  const FallbackBullet := "Contributed to team success"

  /** `_format_star_bullet`: the action, then "Resulting in" and the
      lower-cased result, joined by ". "; without either, the situation and
      task, and without those the fixed fallback. */
  function FormatStarBullet(c: Star): (r: string)
    ensures r != []
    ensures c.action != [] ==> |c.action| <= |r| && r[..|c.action|] == c.action
    ensures c.result != [] ==> var tail := "Resulting in " + Lower(c.result);
      |tail| <= |r| && r[|r| - |tail|..] == tail
    ensures c.action == [] && c.result == [] ==>
      r == if c.situation != [] && c.task != [] then c.situation + ", " + c.task else FallbackBullet
    ensures c.action != [] && c.result != [] ==> r == c.action + ". " + "Resulting in " + Lower(c.result)
    ensures c.action != [] && c.result == [] ==> r == c.action
    ensures c.action == [] && c.result != [] ==> r == "Resulting in " + Lower(c.result)
  {
    var parts := (if c.action != [] then [c.action] else [])
      + (if c.result != [] then ["Resulting in " + Lower(c.result)] else []);
    // The second fallback branch of `_format_star_bullet` repeats the action, which is
    // already empty here, so it never adds a part.
    var parts' := if parts != [] then parts
      else if c.situation != [] && c.task != [] then [c.situation + ", " + c.task]
      else [];
    if parts' == [] then FallbackBullet
    else
      assert |parts'| == 2 ==> Join(parts', ". ") == parts'[0] + ". " + parts'[1];
      Join(parts', ". ")
  }

  /** The bullet mentions the action and the lower-cased result whenever
      they are given. */
  lemma StarBulletMentions(c: Star)
    ensures c.action != [] ==> Contains(FormatStarBullet(c), c.action)
    ensures c.result != [] ==> Contains(FormatStarBullet(c), Lower(c.result))
  {
    var r := FormatStarBullet(c);
    if c.action != [] {
      assert OccursAt(r, c.action, 0);
    }
    if c.result != [] {
      var tail := "Resulting in " + Lower(c.result);
      var j := |r| - |Lower(c.result)|;
      assert r[|r| - |tail|..] == tail;
      assert r[j..j + |Lower(c.result)|] == tail[|tail| - |Lower(c.result)|..];
      assert OccursAt(r, Lower(c.result), j);
    }
  }

  /** The bullet depends on the result only up to case. */
  lemma StarBulletIgnoresResultCase(c: Star, result: string)
    requires Lower(result) == Lower(c.result)
    ensures FormatStarBullet(c.(result := result)) == FormatStarBullet(c)
  {
    assert |result| == |c.result|;
  }

  // ---------------------------------------------------------------- job keywords

  const TechKeywords: seq<string> := [
    "python", "javascript", "java", "react", "node", "sql", "aws",
    "docker", "kubernetes", "git", "agile", "scrum", "api", "rest"]

  /** No keyword has an upper-case letter. */
  predicate LowerWords(ks: seq<string>)
  {
    forall k <- ks :: forall i :: 0 <= i < |k| ==> !('A' <= k[i] <= 'Z')
  }

  /** The title-cased keywords of `ks` that occur in `lowered`, in list order. */
  function Hits(ks: seq<string>, lowered: string): (r: seq<string>)
    requires Seqs.Distinct(ks) && LowerWords(ks)
    ensures forall w <- r :: exists k <- ks :: w == Capitalize(k) && Contains(lowered, k)
    ensures forall k <- ks :: Contains(lowered, k) ==> Capitalize(k) in r
    ensures Seqs.Distinct(r)
  {
    if ks == [] then []
    else
      var k := ks[0];
      Seqs.DistinctTail(ks);
      var rest := Hits(ks[1..], lowered);
      assert forall q <- ks :: q == k || q in ks[1..];
      CapitalizedFresh(ks, lowered, rest);
      var r := (if Contains(lowered, k) then [Capitalize(k)] else []) + rest;
      if Contains(lowered, k) then
        Seqs.DistinctPrepend(Capitalize(k), rest);
        r
      else
        assert r == rest;
        r
  }

  /** "Does keyword `k` occur in the lower-cased text?" */
  function OccursIn(lowered: string): string -> bool
  {
    (k: string) => Contains(lowered, k)
  }

  /** The hits are the occurring keywords, title-cased, in list order. */
  lemma {:induction false} HitsInOrder(ks: seq<string>, lowered: string)
    requires Seqs.Distinct(ks) && LowerWords(ks)
    ensures Hits(ks, lowered) == Seqs.Map(Seqs.Filter(ks, OccursIn(lowered)), Capitalize)
  {
    if ks != [] {
      Seqs.DistinctTail(ks);
      assert LowerWords(ks[1..]) by {
        assert forall k <- ks[1..] :: k in ks;
      }
      HitsInOrder(ks[1..], lowered);
      Seqs.FilterMapCons(ks, OccursIn(lowered), Capitalize);
    }
  }


  /** The first keyword's title case is not among the later keywords' hits. */
  lemma CapitalizedFresh(ks: seq<string>, lowered: string, rest: seq<string>)
    requires ks != [] && ks[0] !in ks[1..] && LowerWords(ks)
    requires forall w <- rest :: exists q <- ks[1..] :: w == Capitalize(q) && Contains(lowered, q)
    ensures Capitalize(ks[0]) !in rest
  {
    var k := ks[0];
    forall w | w in rest ensures w != Capitalize(k) {
      var q :| q in ks[1..] && w == Capitalize(q) && Contains(lowered, q);
      assert q in ks;
      CapitalizeInjective(q, k);
    }
  }

  /** Title-casing tells lower-case words apart. */
  lemma CapitalizeInjective(q: string, k: string)
    requires forall i :: 0 <= i < |q| ==> !('A' <= q[i] <= 'Z')
    requires forall i :: 0 <= i < |k| ==> !('A' <= k[i] <= 'Z')
    requires q != k
    ensures Capitalize(q) != Capitalize(k)
  {
    LowerUnchanged(q);
    LowerUnchanged(k);
    assert Lower(Capitalize(q)) == Lower(q) == q;
    assert Lower(Capitalize(k)) == Lower(k) == k;
  }

  lemma TechKeywordsDistinct()
    ensures Seqs.Distinct(TechKeywords)
  {
    var sigs := [('p', 'n', 6), ('j', 't', 10), ('j', 'a', 4), ('r', 't', 5), ('n', 'e', 4),
      ('s', 'l', 3), ('a', 's', 3), ('d', 'r', 6), ('k', 's', 10), ('g', 't', 3), ('a', 'e', 5),
      ('s', 'm', 5), ('a', 'i', 3), ('r', 't', 4)];
    assert forall i :: 0 <= i < |TechKeywords| ==> Signature(TechKeywords[i]) == sigs[i];
    assert Seqs.Distinct(sigs);
    SignaturesDistinct(TechKeywords);
  }

  lemma TechKeywordsLower()
    ensures LowerWords(TechKeywords)
  {
    KeywordDisplayLower();
  }

  /** The display `TechKeywords` is defined by, checked word by word. */
  lemma KeywordDisplayLower()
    ensures LowerWords(["python", "javascript", "java", "react", "node", "sql", "aws",
                        "docker", "kubernetes", "git", "agile", "scrum", "api", "rest"])
  {
  }

  /** `_extract_keywords`: the fixed technology keywords occurring in the
      lower-cased text, title-cased, in list order, each once. */
  function ExtractKeywords(text: string): (r: seq<string>)
    ensures forall w <- r :: exists k <- TechKeywords :: w == Capitalize(k) && Contains(Lower(text), k)
    ensures forall k <- TechKeywords :: Contains(Lower(text), k) ==> Capitalize(k) in r
    ensures Seqs.Distinct(r)
  {
    TechKeywordsDistinct();
    TechKeywordsLower();
    Hits(TechKeywords, Lower(text))
  }

  /** Matching is by substring: a description that says "javascript" also
      yields "Java". */
  lemma JavascriptAlsoYieldsJava()
    ensures "Java" in ExtractKeywords("javascript")
  {
    var t := "javascript";
    var k := TechKeywords[2];
    assert Capitalize(k) == "Java" by {
      assert k == "java";
      assert UpperChar('j') == 'J';
    }
    JavaInJavascript();
    assert k == "java";
    TechKeywordReported(t, 2);
  }

  lemma JavaInJavascript()
    ensures Contains(Lower("javascript"), "java")
  {
    var l := Lower("javascript");
    assert l[0] == 'j' && l[1] == 'a' && l[2] == 'v' && l[3] == 'a';
    assert OccursAt(l, "java", 0);
  }

  /** A keyword occurring in the lower-cased text is reported, title-cased. */
  lemma TechKeywordReported(text: string, i: nat)
    requires i < |TechKeywords| && Contains(Lower(text), TechKeywords[i])
    ensures Capitalize(TechKeywords[i]) in ExtractKeywords(text)
  {
    assert TechKeywords[i] in TechKeywords;
  }
}

=== FILE: seqs.dfy ===
/** Sequence helpers shared by the modules: duplicate-freedom, sums, first
    occurrence and first extreme, in the sense Python's `list.index`, `sum`,
    `max` and `min` give them. */
module Seqs {
  import opened Wrappers

  predicate Distinct<T(==)>(s: seq<T>)
  {
    forall i, j :: 0 <= i < j < |s| ==> s[i] != s[j]
  }

  /** The tail of a duplicate-free sequence is duplicate-free and misses the head. */
  lemma DistinctTail<T>(s: seq<T>)
    requires Distinct(s) && s != []
    ensures Distinct(s[1..]) && s[0] !in s[1..]
  {
    forall i, j | 0 <= i < j < |s[1..]| ensures s[1..][i] != s[1..][j] {
      assert s[1..][i] == s[i + 1] && s[1..][j] == s[j + 1];
    }
    forall q | q in s[1..] ensures q != s[0] {
      var i :| 0 <= i < |s[1..]| && s[1..][i] == q;
      assert s[i + 1] == q;
    }
  }

  /** Putting a fresh element in front keeps a sequence duplicate-free. */
  lemma DistinctPrepend<T>(x: T, s: seq<T>)
    requires Distinct(s) && x !in s
    ensures Distinct([x] + s)
  {
    var r := [x] + s;
    forall i, j | 0 <= i < j < |r| ensures r[i] != r[j] {
      if i == 0 {
        assert r[j] == s[j - 1];
      } else {
        assert r[i] == s[i - 1] && r[j] == s[j - 1];
      }
    }
  }

  function Elems<T>(s: seq<T>): set<T>
  {
    set x | x in s
  }

  /** A duplicate-free sequence has as many elements as its set. */
  lemma {:induction false} DistinctCard<T>(s: seq<T>)
    requires Distinct(s)
    ensures |Elems(s)| == |s|
  {
    if s != [] {
      DistinctCard(s[1..]);
      assert Elems(s) == {s[0]} + Elems(s[1..]);
      assert s[0] !in Elems(s[1..]);
    }
  }

  /** Any sequence has at most as many elements as its length. */
  lemma {:induction false} ElemsCard<T>(s: seq<T>)
    ensures |Elems(s)| <= |s|
  {
    if s != [] {
      ElemsCard(s[1..]);
      assert Elems(s) == {s[0]} + Elems(s[1..]);
    }
  }

  /** A subset as large as its superset is the whole superset. */
  lemma SubsetFull<T>(a: set<T>, b: set<T>)
    requires a <= b && |a| >= |b|
    ensures a == b
  {
    if a != b {
      var x :| x in b && x !in a;
      assert a <= b - {x};
      SubsetCard(a, b - {x});
    }
  }

  lemma SubsetCard<T>(a: set<T>, b: set<T>)
    requires a <= b
    ensures |a| <= |b|
  {
    assert b == a + (b - a);
  }

  /** A subset smaller than its superset misses some element. */
  lemma SmallerMisses<T>(a: set<T>, b: set<T>)
    requires |a| < |b|
    ensures exists x :: x in b && x !in a
  {
    if b <= a {
      SubsetCard(b, a);
    }
  }

  /** Reordering a duplicate-free sequence cannot create a duplicate. */
  lemma PermutationDistinct<T>(a: seq<T>, b: seq<T>)
    requires multiset(a) == multiset(b) && Distinct(a)
    ensures Distinct(b)
  {
    DistinctCard(a);
    assert forall x :: x in a <==> x in multiset(a);
    assert forall x :: x in b <==> x in multiset(b);
    assert Elems(a) == Elems(b);
    assert |a| == |b| by {
      assert |a| == |multiset(a)| && |b| == |multiset(b)|;
    }
    forall i, j | 0 <= i < j < |b| ensures b[i] != b[j] {
      var rest := b[..j] + b[j + 1..];
      ElemsCard(rest);
      if b[i] == b[j] {
        assert b == b[..j] + [b[j]] + b[j + 1..];
        assert b[j] == rest[i];
        assert Elems(b) <= Elems(rest);
        SubsetCard(Elems(b), Elems(rest));
        assert false;
      }
    }
  }

  /** `sum(xs)`. */
  function Sum(xs: seq<real>): real
  {
    if xs == [] then 0.0 else xs[0] + Sum(xs[1..])
  }

  lemma {:induction false} SumNonNegative(xs: seq<real>)
    requires forall x <- xs :: x >= 0.0
    ensures Sum(xs) >= 0.0
  {
    if xs != [] {
      assert forall x <- xs[1..] :: x in xs;
      SumNonNegative(xs[1..]);
      assert xs[0] in xs;
    }
  }

  /** A sum of non-negative terms is zero exactly when every term is. */
  lemma {:induction false} SumZero(xs: seq<real>)
    requires forall x <- xs :: x >= 0.0
    ensures Sum(xs) == 0.0 <==> forall i :: 0 <= i < |xs| ==> xs[i] == 0.0
  {
    if xs != [] {
      assert forall x <- xs[1..] :: x in xs;
      SumZero(xs[1..]);
      SumNonNegative(xs[1..]);
      assert xs[0] in xs;
      if forall i :: 0 <= i < |xs| ==> xs[i] == 0.0 {
        assert forall i :: 0 <= i < |xs[1..]| ==> xs[1..][i] == xs[i + 1];
      } else {
        var i :| 0 <= i < |xs| && xs[i] != 0.0;
        if i > 0 {
          assert xs[1..][i - 1] == xs[i];
        }
      }
    }
  }

  /** A sum of terms each at most `c` is at most `c` times their number. */
  lemma {:induction false} SumAtMost(xs: seq<real>, c: real)
    requires forall x <- xs :: x <= c
    ensures Sum(xs) <= |xs| as real * c
  {
    if xs != [] {
      assert forall x <- xs[1..] :: x in xs;
      SumAtMost(xs[1..], c);
      assert xs[0] in xs;
    }
  }

  /** Replacing one entry changes the sum by the difference. */
  lemma {:induction false} SumUpdate(xs: seq<real>, i: nat, v: real)
    requires i < |xs|
    ensures Sum(xs[i := v]) == Sum(xs) - xs[i] + v
  {
    if i > 0 {
      SumUpdate(xs[1..], i - 1, v);
      assert xs[i := v][1..] == xs[1..][i - 1 := v];
    } else {
      assert xs[i := v][1..] == xs[1..];
    }
  }

  lemma {:induction false} SumAppend(xs: seq<real>, ys: seq<real>)
    ensures Sum(xs + ys) == Sum(xs) + Sum(ys)
  {
    if xs == [] {
      assert xs + ys == ys;
    } else {
      SumAppend(xs[1..], ys);
      assert (xs + ys)[1..] == xs[1..] + ys;
    }
  }

  /** The elements of `xs` not in `seen`, each once, in order of first occurrence. */
  function DedupFrom<T(==)>(xs: seq<T>, seen: set<T>): (r: seq<T>)
    ensures Distinct(r)
    ensures Elems(r) == Elems(xs) - seen
    decreases |xs|
  {
    if xs == [] then []
    else
      var rest := DedupFrom(xs[1..], seen + {xs[0]});
      assert Elems(xs) == {xs[0]} + Elems(xs[1..]);
      if xs[0] in seen then
        DedupFrom(xs[1..], seen)
      else
        assert forall j :: 0 <= j < |rest| ==> rest[j] in Elems(rest);
        assert Elems([xs[0]] + rest) == {xs[0]} + Elems(rest);
        [xs[0]] + rest
  }

  /** `set(xs)` listed once per element. */
  function Dedup<T(==)>(xs: seq<T>): (r: seq<T>)
    ensures Distinct(r) && Elems(r) == Elems(xs)
    ensures |r| == |Elems(xs)|
  {
    var r := DedupFrom(xs, {});
    DistinctCard(r);
    r
  }

  /** `xs.index(x)`: the first position holding `x`, `None` where Python raises `ValueError`. */
  function IndexOf<T(==)>(xs: seq<T>, x: T): (r: Option<nat>)
    ensures r.None? <==> x !in xs
    ensures r.Some? ==> r.value < |xs| && xs[r.value] == x
    ensures r.Some? ==> forall j :: 0 <= j < r.value ==> xs[j] != x
  {
    if xs == [] then None
    else if xs[0] == x then Some(0)
    else match IndexOf(xs[1..], x)
      case None => None
      case Some(i) => Some(i + 1)
  }

  /** The concatenation of a sequence of sequences. */
  function Flatten<T(!new)>(xss: seq<seq<T>>): (r: seq<T>)
    ensures forall x :: x in r <==> exists k :: 0 <= k < |xss| && x in xss[k]
  {
    if xss == [] then [] else xss[0] + Flatten(xss[1..])
  }

  lemma FlattenCons<T(!new)>(xss: seq<seq<T>>)
    requires xss != []
    ensures Flatten(xss) == xss[0] + Flatten(xss[1..])
    ensures forall x :: x in Flatten(xss) <==> x in xss[0] || x in Flatten(xss[1..])
  {
  }

  lemma {:induction false} FlattenAppend<T(!new)>(a: seq<seq<T>>, b: seq<seq<T>>)
    ensures Flatten(a + b) == Flatten(a) + Flatten(b)
  {
    if a == [] {
      assert a + b == b;
    } else {
      FlattenAppend(a[1..], b);
      assert (a + b)[1..] == a[1..] + b;
    }
  }

  /** `[x for x in xs if p(x)]`. */
  function Filter<T>(xs: seq<T>, p: T -> bool): (r: seq<T>)
    ensures |r| <= |xs|
    ensures forall x <- r :: x in xs && p(x)
    ensures forall x <- xs :: p(x) ==> x in r
    ensures multiset(r) <= multiset(xs)
  {
    if xs == [] then []
    else
      assert xs == [xs[0]] + xs[1..];
      (if p(xs[0]) then [xs[0]] else []) + Filter(xs[1..], p)
  }

  /** `[f(x) for x in xs]`. */
  function Map<T, U>(xs: seq<T>, f: T -> U): (r: seq<U>)
    ensures |r| == |xs|
    ensures forall i :: 0 <= i < |xs| ==> r[i] == f(xs[i])
  {
    if xs == [] then [] else [f(xs[0])] + Map(xs[1..], f)
  }

  /** `[f(x) for x in xs if p(x)]` peels off the head of a non-empty `xs`. */
  lemma FilterMapCons<T, U>(xs: seq<T>, p: T -> bool, f: T -> U)
    requires xs != []
    ensures Map(Filter(xs, p), f) == (if p(xs[0]) then [f(xs[0])] else []) + Map(Filter(xs[1..], p), f)
  {
    var rest := Filter(xs[1..], p);
    if p(xs[0]) {
      assert Filter(xs, p) == [xs[0]] + rest;
      MapCons(xs[0], rest, f);
    } else {
      assert Filter(xs, p) == rest;
    }
  }

  lemma MapCons<T, U>(x: T, rest: seq<T>, f: T -> U)
    ensures Map([x] + rest, f) == [f(x)] + Map(rest, f)
  {
    assert ([x] + rest)[1..] == rest;
  }

  lemma ConcatAssoc<T>(x: seq<T>, y: seq<T>, z: seq<T>)
    ensures (x + y) + z == x + (y + z)
  {
  }

  function Not<T>(p: T -> bool): T -> bool
  {
    (x: T) => !p(x)
  }

  /** The elements that pass `p` and those that fail it, each in input order. */
  function Partition<T>(xs: seq<T>, p: T -> bool): (r: (seq<T>, seq<T>))
    ensures r.0 == Filter(xs, p) && r.1 == Filter(xs, Not(p))
    ensures |r.0| + |r.1| == |xs|
  {
    if xs == [] then ([], [])
    else
      var rest := Partition(xs[1..], p);
      assert Not(p)(xs[0]) == !p(xs[0]);
      if p(xs[0]) then
        assert Filter(xs, p) == [xs[0]] + rest.0;
        assert Filter(xs, Not(p)) == rest.1;
        ([xs[0]] + rest.0, rest.1)
      else
        assert Filter(xs, p) == rest.0;
        assert Filter(xs, Not(p)) == [xs[0]] + rest.1;
        (rest.0, [xs[0]] + rest.1)
  }

  /** Filtering twice is filtering once by the conjunction. */
  lemma {:induction false} FilterTwice<T>(xs: seq<T>, p: T -> bool, q: T -> bool, both: T -> bool)
    requires forall x :: both(x) == (p(x) && q(x))
    ensures Filter(Filter(xs, p), q) == Filter(xs, both)
  {
    if xs != [] {
      FilterTwice(xs[1..], p, q, both);
      var f, f' := Filter(xs, p), Filter(xs[1..], p);
      var g' := Filter(xs[1..], both);
      if p(xs[0]) {
        assert f == [xs[0]] + f';
        assert f[0] == xs[0] && f[1..] == f';
        assert Filter(f, q) == (if q(xs[0]) then [xs[0]] else []) + Filter(f', q);
        assert Filter(xs, both) == (if q(xs[0]) then [xs[0]] else []) + g';
      } else {
        assert f == [] + f' == f';
        assert Filter(xs, both) == [] + g' == g';
      }
    }
  }

  /** A filter that keeps everything is the identity. */
  lemma {:induction false} FilterAll<T>(xs: seq<T>, p: T -> bool)
    requires forall x <- xs :: p(x)
    ensures Filter(xs, p) == xs
  {
    if xs != [] {
      var tail := xs[1..];
      forall x | x in tail ensures p(x) {
        var j :| 0 <= j < |tail| && tail[j] == x;
        assert xs[j + 1] == x;
      }
      FilterAll(tail, p);
      assert p(xs[0]) by { assert xs[0] in xs; }
      assert Filter(xs, p) == [xs[0]] + Filter(tail, p);
      assert xs == [xs[0]] + tail;
    }
  }

  /** `xs.remove(x)`: drops the first element equal to `x`; Python raises
      `ValueError` when there is none, so the caller must know it is there. */
  function RemoveFirst<T(==)>(xs: seq<T>, x: T): (r: seq<T>)
    requires x in xs
    ensures multiset(r) == multiset(xs) - multiset{x}
    ensures |r| == |xs| - 1
  {
    assert xs == [xs[0]] + xs[1..];
    if xs[0] == x then xs[1..] else [xs[0]] + RemoveFirst(xs[1..], x)
  }

  /** `for y in ys: xs.remove(y)`. */
  function RemoveEach<T(==)>(xs: seq<T>, ys: seq<T>): (r: seq<T>)
    requires multiset(ys) <= multiset(xs)
    ensures multiset(r) == multiset(xs) - multiset(ys)
    ensures |r| == |xs| - |ys|
    decreases |ys|
  {
    if ys == [] then xs
    else
      assert ys == [ys[0]] + ys[1..];
      assert ys[0] in multiset(xs);
      var t := RemoveFirst(xs, ys[0]);
      assert multiset(ys[1..]) <= multiset(t);
      assert |multiset(ys)| == |ys| && |multiset(xs)| == |xs|;
      RemoveEach(t, ys[1..])
  }

  /** `max(range(len(xs)), key=xs.__getitem__)`: the first position of the largest value. */
  function ArgMax(xs: seq<real>): (i: nat)
    requires xs != []
    ensures i < |xs|
    ensures forall j :: 0 <= j < |xs| ==> xs[j] <= xs[i]
    ensures forall j :: 0 <= j < i ==> xs[j] < xs[i]
  {
    if |xs| == 1 then 0
    else
      var k := ArgMax(xs[..|xs| - 1]);
      if xs[|xs| - 1] > xs[k] then |xs| - 1 else k
  }

  /** The first position of the smallest value, as Python's `min` picks it. */
  function ArgMin(xs: seq<real>): (i: nat)
    requires xs != []
    ensures i < |xs|
    ensures forall j :: 0 <= j < |xs| ==> xs[i] <= xs[j]
    ensures forall j :: 0 <= j < i ==> xs[i] < xs[j]
  {
    if |xs| == 1 then 0
    else
      var k := ArgMin(xs[..|xs| - 1]);
      if xs[|xs| - 1] < xs[k] then |xs| - 1 else k
  }
}

=== FILE: skill_assessments.dfy ===
/** Skill-set assessments of `Backend/skill_assessments`: attempt numbering,
    the maximum score, the next question, answer scoring, completion with its
    percentage, pass mark and badge, the skill-gap record and the peer
    percentile. Query results arrive as sequences in the query's order; the
    clock, the badge's uuid and Django's persistence are not modelled. */
module SkillAssessments {
  import opened Wrappers
  import Seqs
  import Numbers

  // ---------------------------------------------------------------- rows

  /** `SkillSet.passing_score` defaults to 70 and is validated to [0, 100]. */
  const DefaultPassingScore: int := 70

  predicate ValidPassingScore(p: int)
  {
    0 <= p <= 100
  }

  datatype SkillSet = SkillSet(id: nat, passingScore: int, active: bool)

  datatype QuestionKind = Mcq | Coding | TrueFalse | FillBlank | Practical

  /** An `AssessmentOption`; a question's options arrive in their `order`. */
  datatype Choice = Choice(id: nat, correct: bool)

  datatype Question = Question(id: nat, kind: QuestionKind, text: string, points: int, active: bool,
                               explanation: string, options: seq<Choice>)

  datatype Status = NotStarted | InProgress | Completed | Expired

  datatype Assessment = Assessment(user: nat, skillSet: nat, status: Status, totalScore: int, maxScore: int,
                                   percentage: real, passed: bool, timeTaken: int, attempt: int)

  /** An `AssessmentAnswer` row. */
  datatype Answer = Answer(question: Question, selected: Option<nat>, correct: bool, points: int,
                           timeTaken: int, feedback: string)

  // ---------------------------------------------------------------- starting an attempt

  predicate SamePair(a: Assessment, user: nat, skillSet: nat)
  {
    a.user == user && a.skillSet == skillSet
  }

  /** Number of rows of `db` for this user and skill set. */
  function Attempts(db: seq<Assessment>, user: nat, skillSet: nat): (n: nat)
    ensures n <= |db|
    ensures n == 0 <==> forall a <- db :: !SamePair(a, user, skillSet)
  {
    if db == [] then 0
    else
      var rest := db[..|db| - 1];
      assert forall a <- rest :: a in db;
      assert db == rest + [db[|db| - 1]];
      Attempts(rest, user, skillSet) + (if SamePair(db[|db| - 1], user, skillSet) then 1 else 0)
  }

  /** The points of the active questions added up; `or 0` is the empty sum. */
  function MaxScore(qs: seq<Question>): (m: int)
    ensures (forall q <- qs :: q.points >= 0) ==> m >= 0
    ensures (forall q <- qs :: !q.active) ==> m == 0
  {
    if qs == [] then 0
    else
      assert forall q <- qs[1..] :: q in qs;
      (if qs[0].active then qs[0].points else 0) + MaxScore(qs[1..])
  }

  /** The first active skill set with this id (`SkillSet.objects.get`). */
  function FindActive(sets: seq<SkillSet>, id: nat): (r: Option<SkillSet>)
    ensures r.Some? ==> r.value in sets && r.value.id == id && r.value.active
    ensures r.None? <==> forall s <- sets :: !(s.id == id && s.active)
  {
    if sets == [] then None
    else if sets[0].id == id && sets[0].active then Some(sets[0])
    else
      assert forall s <- sets[1..] :: s in sets;
      FindActive(sets[1..], id)
  }

  datatype StartError = SkillSetNotFound

  /** A fresh in-progress row numbered `attempt`. */
  function Fresh(user: nat, skillSet: nat, attempt: int, questions: seq<Question>): Assessment
  {
    Assessment(user, skillSet, InProgress, 0, MaxScore(questions), 0.0, false, 0, attempt)
  }

  /** `start_assessment` as written: the attempt number is the count of the
      user's earlier rows for the skill set plus one. `questions` are the skill
      set's questions. */
  function StartAssessment(sets: seq<SkillSet>, id: nat, user: nat, db: seq<Assessment>,
                           questions: seq<Question>): (r: Result<Assessment, StartError>)
    ensures r.Err? <==> forall s <- sets :: !(s.id == id && s.active)
    ensures r.Ok? ==> r.value.user == user && r.value.skillSet == id && r.value.status == InProgress
    ensures r.Ok? ==> r.value.totalScore == 0 && r.value.timeTaken == 0 && !r.value.passed
    ensures r.Ok? ==> r.value.maxScore == MaxScore(questions)
    ensures r.Ok? ==> r.value.attempt >= 1 && r.value.attempt == Attempts(db, user, id) + 1
  {
    match FindActive(sets, id)
    case None => Err(SkillSetNotFound)
    case Some(_) => Ok(Fresh(user, id, Attempts(db, user, id) + 1, questions))
  }

  /** `unique_together = ['user', 'skill_set', 'attempt_number']`. */
  predicate UniqueAttempts(db: seq<Assessment>)
  {
    forall i, j :: 0 <= i < j < |db| && db[i].user == db[j].user && db[i].skillSet == db[j].skillSet
      ==> db[i].attempt != db[j].attempt
  }

  /** Every row is numbered one past the earlier rows of its user and skill
      set: what a history of starts alone produces. */
  predicate Numbered(db: seq<Assessment>)
  {
    forall i :: 0 <= i < |db| ==> db[i].attempt == Attempts(db[..i], db[i].user, db[i].skillSet) + 1
  }

  lemma {:induction false} AttemptsGrow(db: seq<Assessment>, m: nat, n: nat, user: nat, skillSet: nat)
    requires m <= n <= |db|
    ensures Attempts(db[..m], user, skillSet) <= Attempts(db[..n], user, skillSet)
  {
    if m < n {
      AttemptsGrow(db, m, n - 1, user, skillSet);
      assert db[..n][..n - 1] == db[..n - 1];
    }
  }

  lemma NumberedUnique(db: seq<Assessment>)
    requires Numbered(db)
    ensures UniqueAttempts(db)
  {
    forall i, j | 0 <= i < j < |db| && db[i].user == db[j].user && db[i].skillSet == db[j].skillSet
      ensures db[i].attempt != db[j].attempt
    {
      LaterAttemptHigher(db, i, j);
    }
  }

  /** In a numbered history a later row of the same user and skill set has a
      higher attempt number. */
  lemma LaterAttemptHigher(db: seq<Assessment>, i: nat, j: nat)
    requires Numbered(db) && i < j < |db|
    requires db[i].user == db[j].user && db[i].skillSet == db[j].skillSet
    ensures db[i].attempt < db[j].attempt
  {
    var u, k := db[i].user, db[i].skillSet;
    assert db[i].attempt == Attempts(db[..i], u, k) + 1 && db[j].attempt == Attempts(db[..j], u, k) + 1;
    AttemptsCountRow(db, i, j, u, k);
  }

  /** A prefix that takes in one more row of the pair counts one more attempt. */
  lemma AttemptsCountRow(db: seq<Assessment>, m: nat, n: nat, user: nat, skillSet: nat)
    requires m < n <= |db| && SamePair(db[m], user, skillSet)
    ensures Attempts(db[..m], user, skillSet) < Attempts(db[..n], user, skillSet)
  {
    assert db[..m + 1][..m] == db[..m];
    assert Attempts(db[..m + 1], user, skillSet) == Attempts(db[..m], user, skillSet) + 1;
    AttemptsGrow(db, m + 1, n, user, skillSet);
  }

  /** Starting an attempt on a history of starts keeps every row numbered,
      so the uniqueness constraint holds. */
  lemma StartKeepsNumbered(sets: seq<SkillSet>, id: nat, user: nat, db: seq<Assessment>, questions: seq<Question>)
    requires Numbered(db) && StartAssessment(sets, id, user, db, questions).Ok?
    ensures Numbered(db + [StartAssessment(sets, id, user, db, questions).value])
    ensures UniqueAttempts(db + [StartAssessment(sets, id, user, db, questions).value])
  {
    var db' := db + [StartAssessment(sets, id, user, db, questions).value];
    forall i | 0 <= i < |db'|
      ensures db'[i].attempt == Attempts(db'[..i], db'[i].user, db'[i].skillSet) + 1
    {
      if i < |db| {
        assert db'[..i] == db[..i];
      } else {
        assert db'[..i] == db;
      }
    }
    NumberedUnique(db');
  }

  /** The viewset's `destroy`: the row at `k` is removed. */
  function Delete(db: seq<Assessment>, k: nat): (r: seq<Assessment>)
    requires k < |db|
    ensures |r| == |db| - 1
    ensures forall i :: 0 <= i < k ==> r[i] == db[i]
    ensures forall i :: k <= i < |r| ==> r[i] == db[i + 1]
  {
    db[..k] + db[k + 1..]
  }

  /** Two starts, deleting the first row, and a third start: the count of the
      user's rows is 1 again, so the new row repeats attempt number 2. */
  lemma DeleteThenStartCollides()
    ensures var sets := [SkillSet(1, DefaultPassingScore, true)];
            var a1 := Fresh(7, 1, 1, []);
            var a2 := Fresh(7, 1, 2, []);
            && StartAssessment(sets, 1, 7, [], []) == Ok(a1)
            && StartAssessment(sets, 1, 7, [a1], []) == Ok(a2)
            && Delete([a1, a2], 0) == [a2]
            && StartAssessment(sets, 1, 7, [a2], []) == Ok(a2)
            && !UniqueAttempts([a2, a2])
  {
    var sets := [SkillSet(1, DefaultPassingScore, true)];
    var a1 := Fresh(7, 1, 1, []);
    var a2 := Fresh(7, 1, 2, []);
    assert FindActive(sets, 1) == Some(sets[0]);
    assert Attempts([], 7, 1) == 0;
    assert Attempts([a1], 7, 1) == 1 by {
      assert [a1][..0] == [];
    }
    assert Attempts([a2], 7, 1) == 1 by {
      assert [a2][..0] == [];
    }
    assert Delete([a1, a2], 0) == [a2];
    assert StartAssessment(sets, 1, 7, [], []) == Ok(a1);
    assert StartAssessment(sets, 1, 7, [a1], []) == Ok(a2);
    assert StartAssessment(sets, 1, 7, [a2], []) == Ok(a2);
    assert [a2, a2][0] == [a2, a2][1];
    assert [a1, a2][..1] == [a1];
    assert [a2][..0] == [];
  }

  /** One past the largest attempt number of the user's rows for the skill set. */
  function NextAttempt(db: seq<Assessment>, user: nat, skillSet: nat): (n: int)
    ensures n >= 1
    ensures forall a <- db :: SamePair(a, user, skillSet) ==> a.attempt < n
  {
    if db == [] then 1
    else
      assert forall a <- db[1..] :: a in db;
      var rest := NextAttempt(db[1..], user, skillSet);
      if SamePair(db[0], user, skillSet) && db[0].attempt >= rest then db[0].attempt + 1 else rest
  }

  /** `start_assessment` numbering the attempt past the largest existing one. */
  function StartAssessmentFixed(sets: seq<SkillSet>, id: nat, user: nat, db: seq<Assessment>,
                                questions: seq<Question>): (r: Result<Assessment, StartError>)
    ensures r.Err? <==> forall s <- sets :: !(s.id == id && s.active)
    ensures r.Ok? ==> r.value.user == user && r.value.skillSet == id && r.value.status == InProgress
    ensures r.Ok? ==> r.value.maxScore == MaxScore(questions) && r.value.attempt >= 1
  {
    match FindActive(sets, id)
    case None => Err(SkillSetNotFound)
    case Some(_) => Ok(Fresh(user, id, NextAttempt(db, user, id), questions))
  }

  /** With the corrected numbering, starts and deletions in any order keep the
      uniqueness constraint. */
  lemma FixedStartKeepsUnique(sets: seq<SkillSet>, id: nat, user: nat, db: seq<Assessment>, questions: seq<Question>)
    requires UniqueAttempts(db) && StartAssessmentFixed(sets, id, user, db, questions).Ok?
    ensures UniqueAttempts(db + [StartAssessmentFixed(sets, id, user, db, questions).value])
  {
    var a := StartAssessmentFixed(sets, id, user, db, questions).value;
    var db' := db + [a];
    forall i, j | 0 <= i < j < |db'| && db'[i].user == db'[j].user && db'[i].skillSet == db'[j].skillSet
      ensures db'[i].attempt != db'[j].attempt
    {
      if j == |db| {
        assert db'[i] in db;
      }
    }
  }

  lemma DeleteKeepsUnique(db: seq<Assessment>, k: nat)
    requires UniqueAttempts(db) && k < |db|
    ensures UniqueAttempts(Delete(db, k))
  {
    var r := Delete(db, k);
    forall i, j | 0 <= i < j < |r| && r[i].user == r[j].user && r[i].skillSet == r[j].skillSet
      ensures r[i].attempt != r[j].attempt
    {
      var i' := if i < k then i else i + 1;
      var j' := if j < k then j else j + 1;
      assert r[i] == db[i'] && r[j] == db[j'];
    }
  }

  // ---------------------------------------------------------------- next question

  function AnsweredIds(answers: seq<Answer>): (ids: seq<nat>)
    ensures |ids| == |answers|
    ensures forall i :: 0 <= i < |answers| ==> ids[i] == answers[i].question.id
  {
    if answers == [] then [] else [answers[0].question.id] + AnsweredIds(answers[1..])
  }

  /** Active and not yet answered. */
  predicate Open(q: Question, answered: seq<nat>)
  {
    q.active && q.id !in answered
  }

  function FirstOpen(qs: seq<Question>, answered: seq<nat>): (r: Option<nat>)
    ensures r.None? <==> forall q <- qs :: !Open(q, answered)
    ensures r.Some? ==> r.value < |qs| && Open(qs[r.value], answered)
    ensures r.Some? ==> forall j :: 0 <= j < r.value ==> !Open(qs[j], answered)
  {
    if qs == [] then None
    else if Open(qs[0], answered) then Some(0)
    else
      assert forall q <- qs[1..] :: q in qs;
      match FirstOpen(qs[1..], answered)
      case None => None
      case Some(i) => Some(i + 1)
  }

  datatype QuestionError = NotInProgress | NoMoreQuestions

  /** `get_question`: the first active question of the skill set (in its
      query order) that the assessment has no answer for. */
  function GetQuestion(a: Assessment, questions: seq<Question>, answers: seq<Answer>): (r: Result<Question, QuestionError>)
    ensures r == Err(NotInProgress) <==> a.status != InProgress
    ensures r == Err(NoMoreQuestions) <==> a.status == InProgress && forall q <- questions :: !Open(q, AnsweredIds(answers))
    ensures r.Ok? ==> r.value in questions && r.value.active
    ensures r.Ok? ==> forall b <- answers :: b.question.id != r.value.id
    ensures r.Ok? ==> exists i :: 0 <= i < |questions| && questions[i] == r.value
                                  && forall j :: 0 <= j < i ==> !Open(questions[j], AnsweredIds(answers))
  {
    if a.status != InProgress then Err(NotInProgress)
    else
      var ids := AnsweredIds(answers);
      match FirstOpen(questions, ids)
      case None => Err(NoMoreQuestions)
      case Some(i) =>
        assert forall k :: 0 <= k < |answers| ==> answers[k].question.id == ids[k];
        Ok(questions[i])
  }

  // ---------------------------------------------------------------- scoring an answer

  /** Python truthiness of `selected_option_id`: absent and 0 are false. */
  predicate Given(selected: Option<nat>)
  {
    selected.Some? && selected.value != 0
  }

  /** `question.options.get(id=...)`: option ids are primary keys. */
  function FindChoice(options: seq<Choice>, id: nat): (r: Option<Choice>)
    ensures r.Some? ==> r.value in options && r.value.id == id
    ensures r.None? <==> forall c <- options :: c.id != id
  {
    if options == [] then None
    else if options[0].id == id then Some(options[0])
    else
      assert forall c <- options[1..] :: c in options;
      FindChoice(options[1..], id)
  }

  datatype Scored = Scored(correct: bool, points: int, feedback: string)

  /** The marking of `submit_answer`: only an MCQ with a chosen option of its
      own can be correct, and only a correct one earns the question's points. */
  function Score(q: Question, selected: Option<nat>): (r: Scored)
    ensures r.points == (if r.correct then q.points else 0)
    ensures r.correct ==> q.kind == Mcq && Given(selected)
                          && exists c <- q.options :: c.id == selected.value && c.correct
    ensures (q.kind != Mcq || !Given(selected)) ==> r == Scored(false, 0, "")
    ensures (forall c <- q.options :: !c.correct) ==> !r.correct
    ensures r.feedback == (if q.kind == Mcq && Given(selected) && FindChoice(q.options, selected.value).Some?
                           then q.explanation else "")
  {
    if q.kind == Mcq && Given(selected) then
      match FindChoice(q.options, selected.value)
      case None => Scored(false, 0, "")
      case Some(c) => Scored(c.correct, if c.correct then q.points else 0, q.explanation)
    else Scored(false, 0, "")
  }

  /** `options.filter(is_correct=True).first()`. */
  function CorrectOption(options: seq<Choice>): (r: Option<nat>)
    ensures r.None? <==> forall c <- options :: !c.correct
    ensures r.Some? ==> exists i :: 0 <= i < |options| && options[i].id == r.value && options[i].correct
                                    && forall j :: 0 <= j < i ==> !options[j].correct
  {
    if options == [] then None
    else if options[0].correct then Some(options[0].id)
    else
      assert forall c <- options[1..] :: c in options;
      match CorrectOption(options[1..])
      case None => None
      case Some(id) =>
        assert exists i :: 1 <= i < |options| && options[i].id == id && options[i].correct
                           && forall j :: 1 <= j < i ==> !options[j].correct;
        Some(id)
  }

  /** The response body of `submit_answer`. */
  datatype Feedback = Feedback(correct: bool, points: int, correctOption: Option<nat>, feedback: string, totalScore: int)

  datatype SubmitError = QuestionNotFound

  /** `submit_answer` as written: any question, however often, in any status. */
  function SubmitAnswer(a: Assessment, question: Option<Question>, selected: Option<nat>, timeTaken: int)
    : (r: Result<(Assessment, Answer, Feedback), SubmitError>)
    ensures r.Err? <==> question.None?
    ensures r.Ok? ==> r.value.1.question == question.value && r.value.1.points == Score(question.value, selected).points
    ensures r.Ok? ==> r.value.1.selected == (if Given(selected) then selected else None)
    ensures r.Ok? ==> r.value.0 == a.(totalScore := a.totalScore + r.value.1.points, timeTaken := a.timeTaken + timeTaken)
    ensures r.Ok? ==> r.value.2.totalScore == r.value.0.totalScore && r.value.2.correct == r.value.1.correct
  {
    match question
    case None => Err(QuestionNotFound)
    case Some(q) =>
      var s := Score(q, selected);
      var answer := Answer(q, if Given(selected) then selected else None, s.correct, s.points, timeTaken, s.feedback);
      var a' := a.(totalScore := a.totalScore + s.points, timeTaken := a.timeTaken + timeTaken);
      Ok((a', answer, Feedback(s.correct, s.points, CorrectOption(q.options), s.feedback, a'.totalScore)))
  }

  // ---------------------------------------------------------------- completion

  /** `calculate_percentage`: with a positive maximum, the percentage and the
      pass flag are recomputed; otherwise the row is left as it was. */
  function CalculatePercentage(a: Assessment, passingScore: int): (r: Assessment)
    ensures a.maxScore > 0 ==> r.percentage * a.maxScore as real == a.totalScore as real * 100.0
    ensures a.maxScore > 0 ==> (r.passed <==> a.totalScore * 100 >= passingScore * a.maxScore)
    ensures a.maxScore <= 0 ==> r == a
    ensures r == a.(percentage := r.percentage, passed := r.passed)
  {
    if a.maxScore > 0 then
      var m := a.maxScore as real;
      var t := a.totalScore as real;
      var p := (t / m) * 100.0;
      assert p * m == t * 100.0;
      PassMark(p, m, t, passingScore as real);
      assert (passingScore * a.maxScore) as real == passingScore as real * m;
      assert (a.totalScore * 100) as real == t * 100.0;
      a.(percentage := p, passed := p >= passingScore as real)
    else a
  }

  lemma PassMark(p: real, m: real, t: real, pass: real)
    requires m > 0.0 && p * m == t * 100.0
    ensures p >= pass <==> t * 100.0 >= pass * m
  {
    if p >= pass {
      Numbers.MulLessEq(m, pass, p);
    } else {
      Numbers.MulLess(m, p, pass);
    }
  }

  datatype Resource = Resource(title: string, url: string, kind: string)

  /** A `SkillGap` row: weaknesses and recommended resources. */
  datatype Gap = Gap(weaknesses: seq<string>, resources: seq<Resource>)

  /** `question_text[:50]`. */
  function Clip50(s: string): (r: string)
    ensures |r| <= 50 && r <= s
    ensures |s| <= 50 ==> r == s
  {
    if |s| <= 50 then s else s[..50]
  }

  /** The clipped texts of the wrongly answered questions, in answer order. */
  function Weaknesses(answers: seq<Answer>): (r: seq<string>)
    ensures |r| <= |answers|
    ensures r == [] <==> forall b <- answers :: b.correct
    ensures forall w <- r :: |w| <= 50 && exists b <- answers :: !b.correct && w == Clip50(b.question.text)
  {
    if answers == [] then []
    else
      assert forall b <- answers[1..] :: b in answers;
      var rest := Weaknesses(answers[1..]);
      if answers[0].correct then rest else [Clip50(answers[0].question.text)] + rest
  }

  function IsWrong(b: Answer): bool
  {
    !b.correct
  }

  /** The weakness reported for a wrong answer: its question's text, clipped. */
  function QuestionText(b: Answer): string
  {
    Clip50(b.question.text)
  }

  /** One weakness per wrong answer, in answer order. */
  lemma {:induction false} WeaknessesInOrder(answers: seq<Answer>)
    ensures Weaknesses(answers) == Seqs.Map(Seqs.Filter(answers, IsWrong), QuestionText)
  {
    if answers != [] {
      WeaknessesInOrder(answers[1..]);
      Seqs.FilterMapCons(answers, IsWrong, QuestionText);
    }
  }


  /** `_generate_skill_gaps`: the resources come in the query's order. */
  function GenerateSkillGap(answers: seq<Answer>, resources: seq<Resource>): (r: Gap)
    ensures r.weaknesses == Weaknesses(answers)
    ensures r.resources <= resources && |r.resources| == if |resources| < 5 then |resources| else 5
  {
    Gap(Weaknesses(answers), if |resources| < 5 then resources else resources[..5])
  }

  /** A `PeerComparison` row. */
  datatype Peers = Peers(userScore: real, peerAverage: real, percentile: real, totalPeers: nat)

  /** Someone else's completed attempt at the same skill set. */
  predicate IsPeer(b: Assessment, a: Assessment)
  {
    b.skillSet == a.skillSet && b.status == Completed && b.user != a.user
  }

  function PeerScores(db: seq<Assessment>, a: Assessment): (r: seq<real>)
    ensures |r| <= |db|
    ensures r == [] <==> forall b <- db :: !IsPeer(b, a)
  {
    if db == [] then []
    else
      assert forall b <- db[1..] :: b in db;
      var rest := PeerScores(db[1..], a);
      if IsPeer(db[0], a) then [db[0].percentage] + rest else rest
  }

  /** "Is `b` a peer of `a`?" */
  function PeerOf(a: Assessment): Assessment -> bool
  {
    (b: Assessment) => IsPeer(b, a)
  }

  function Percentage(b: Assessment): real
  {
    b.percentage
  }

  /** The peer scores are the peers' percentages, in database order. */
  lemma {:induction false} PeerScoresInOrder(db: seq<Assessment>, a: Assessment)
    ensures PeerScores(db, a) == Seqs.Map(Seqs.Filter(db, PeerOf(a)), Percentage)
  {
    if db != [] {
      PeerScoresInOrder(db[1..], a);
      Seqs.FilterMapCons(db, PeerOf(a), Percentage);
    }
  }


  function CountBelow(xs: seq<real>, x: real): (n: nat)
    ensures n <= |xs|
    ensures n == 0 <==> forall y <- xs :: y >= x
    ensures n == |xs| <==> forall y <- xs :: y < x
  {
    if xs == [] then 0
    else
      HeadOrTail(xs);
      var m := CountBelow(xs[1..], x);
      if xs[0] < x then m + 1 else m
  }

  lemma HeadOrTail(xs: seq<real>)
    requires xs != []
    ensures forall y <- xs :: y == xs[0] || y in xs[1..]
    ensures xs[0] in xs && forall y <- xs[1..] :: y in xs
  {
    forall y | y in xs
      ensures y == xs[0] || y in xs[1..]
    {
      var i :| 0 <= i < |xs| && xs[i] == y;
      if i > 0 {
        assert xs[1..][i - 1] == y;
      }
    }
  }

  /** `(below / count) * 100`. */
  function Percentile(below: nat, count: nat): (p: real)
    requires below <= count && count > 0
    ensures p * count as real == below as real * 100.0
    ensures 0.0 <= p <= 100.0
    ensures p == 0.0 <==> below == 0
    ensures p == 100.0 <==> below == count
  {
    var c := count as real;
    var b := below as real;
    var p := (b / c) * 100.0;
    DivTimes(b, c, 100.0);
    PercentOf(b, c, p);
    p
  }

  function Mean(scores: seq<real>): (m: real)
    requires scores != []
    ensures m * |scores| as real == Seqs.Sum(scores)
  {
    DivTimes(Seqs.Sum(scores), |scores| as real, 1.0);
    Seqs.Sum(scores) / |scores| as real
  }

  /** The percentile and average of `scores` for a user scoring `mine`. */
  function Compare(scores: seq<real>, mine: real): (r: Option<Peers>)
    ensures r.None? <==> scores == []
    ensures r.Some? ==> r.value.totalPeers == |scores| && r.value.userScore == mine
    ensures r.Some? ==> r.value.peerAverage == Mean(scores)
    ensures r.Some? ==> r.value.percentile == Percentile(CountBelow(scores, mine), |scores|)
    ensures r.Some? ==> 0.0 <= r.value.percentile <= 100.0
    ensures r.Some? ==> (r.value.percentile == 0.0 <==> forall y <- scores :: y >= mine)
    ensures r.Some? ==> (r.value.percentile == 100.0 <==> forall y <- scores :: y < mine)
  {
    if scores == [] then None
    else
      var n := |scores|;
      var below := CountBelow(scores, mine);
      var p := Percentile(below, n);
      Some(Peers(mine, Mean(scores), p, n))
  }

  lemma DivTimes(x: real, c: real, k: real)
    requires c > 0.0
    ensures (x / c) * k * c == x * k
  {
    assert (x / c) * c == x;
    assert (x / c) * k * c == (x / c) * c * k;
  }

  lemma PercentOf(b: real, c: real, p: real)
    requires c > 0.0 && 0.0 <= b <= c && p * c == b * 100.0
    ensures 0.0 <= p <= 100.0
    ensures p == 0.0 <==> b == 0.0
    ensures p == 100.0 <==> b == c
  {
    if p < 0.0 {
      Numbers.MulLess(c, p, 0.0);
    }
    if p > 100.0 {
      Numbers.MulLess(c, 100.0, p);
    }
  }

  /** `_generate_peer_comparison`: nothing when there are no peers. */
  function GeneratePeerComparison(db: seq<Assessment>, a: Assessment): (r: Option<Peers>)
    ensures r.None? <==> forall b <- db :: !IsPeer(b, a)
    ensures r.Some? ==> r.value.userScore == a.percentage && 0.0 <= r.value.percentile <= 100.0
    ensures r.Some? ==> var scores := PeerScores(db, a);
      && r.value.totalPeers == |scores| && scores != []
      && r.value.percentile == Percentile(CountBelow(scores, a.percentage), |scores|)
      && r.value.peerAverage == Mean(scores)
  {
    Compare(PeerScores(db, a), a.percentage)
  }

  /** Peers do not depend on the user's own score, so a higher own score
      never lowers the percentile against the same database. */
  lemma PeerPercentileMonotone(db: seq<Assessment>, a: Assessment, x: real, y: real)
    requires x <= y
    requires GeneratePeerComparison(db, a).Some?
    ensures GeneratePeerComparison(db, a.(percentage := x)).Some?
    ensures GeneratePeerComparison(db, a.(percentage := x)).value.percentile
         <= GeneratePeerComparison(db, a.(percentage := y)).value.percentile
  {
    PeersIgnoreScore(db, a, x);
    PeersIgnoreScore(db, a, y);
    PercentileMonotone(PeerScores(db, a), x, y);
  }

  lemma {:induction false} PeersIgnoreScore(db: seq<Assessment>, a: Assessment, x: real)
    ensures PeerScores(db, a.(percentage := x)) == PeerScores(db, a)
  {
    if db != [] {
      PeersIgnoreScore(db[1..], a, x);
    }
  }

  /** A higher own score never lowers the percentile. */
  lemma PercentileMonotone(scores: seq<real>, x: real, y: real)
    requires scores != [] && x <= y
    ensures Compare(scores, x).value.percentile <= Compare(scores, y).value.percentile
  {
    CountBelowMonotone(scores, x, y);
    var c := |scores| as real;
    var bx, by_ := CountBelow(scores, x), CountBelow(scores, y);
    assert Compare(scores, x).value.percentile == Percentile(bx, |scores|);
    assert Compare(scores, y).value.percentile == Percentile(by_, |scores|);
    PercentileGrows(bx, by_, |scores|);
  }

  lemma PercentileGrows(b1: nat, b2: nat, n: nat)
    requires b1 <= b2 <= n && n > 0
    ensures Percentile(b1, n) <= Percentile(b2, n)
  {
    var p1, p2 := Percentile(b1, n), Percentile(b2, n);
    ScaledOrder(n as real, b1 as real, b2 as real, p1, p2);
  }

  lemma ScaledOrder(c: real, bx: real, by_: real, px: real, py: real)
    requires c > 0.0 && bx <= by_ && px * c == bx * 100.0 && py * c == by_ * 100.0
    ensures px <= py
  {
    if px > py {
      Numbers.MulLess(c, py, px);
    }
  }

  lemma {:induction false} CountBelowMonotone(xs: seq<real>, x: real, y: real)
    requires x <= y
    ensures CountBelow(xs, x) <= CountBelow(xs, y)
  {
    if xs != [] {
      CountBelowMonotone(xs[1..], x, y);
    }
  }

  datatype Completion = Completion(assessment: Assessment, badge: bool, gap: Gap, peers: Option<Peers>)

  /** `complete_assessment`: mark completed, compute the percentage, award a
      badge when passed, and record the gaps and the peer comparison. */
  function CompleteAssessment(a: Assessment, passingScore: int, answers: seq<Answer>, resources: seq<Resource>,
                              db: seq<Assessment>): (r: Completion)
    ensures r.assessment.status == Completed
    ensures r.badge <==> r.assessment.passed
    ensures a.maxScore > 0 ==> (r.badge <==> a.totalScore * 100 >= passingScore * a.maxScore)
    ensures a.maxScore <= 0 ==> r.badge == a.passed && r.assessment.percentage == a.percentage
    ensures r.gap.weaknesses == Weaknesses(answers)
    ensures r.peers.None? <==> forall b <- db :: !IsPeer(b, r.assessment)
  {
    var done := CalculatePercentage(a.(status := Completed), passingScore);
    Completion(done, done.passed, GenerateSkillGap(answers, resources), GeneratePeerComparison(db, done))
  }

  /** Full marks earn the badge under every valid passing score, and no marks
      never do unless the passing score is zero. */
  lemma BadgeExtremes(a: Assessment, passingScore: int, answers: seq<Answer>, resources: seq<Resource>,
                      db: seq<Assessment>)
    requires ValidPassingScore(passingScore) && a.maxScore > 0
    ensures a.totalScore >= a.maxScore ==> CompleteAssessment(a, passingScore, answers, resources, db).badge
    ensures a.totalScore <= 0 && passingScore > 0 ==> !CompleteAssessment(a, passingScore, answers, resources, db).badge
  {
    var c := CompleteAssessment(a, passingScore, answers, resources, db);
    assert c.badge <==> a.totalScore * 100 >= passingScore * a.maxScore;
    PassMarkExtremes(a.totalScore, a.maxScore, passingScore);
  }

  /** The integer pass test `t * 100 >= p * m` at full and at no marks. */
  lemma PassMarkExtremes(t: int, m: int, p: int)
    requires 0 <= p <= 100 && m > 0
    ensures t >= m ==> t * 100 >= p * m
    ensures t <= 0 && p > 0 ==> t * 100 < p * m
  {
    if t >= m {
      assert t * 100 >= m * 100;
      assert p * m <= 100 * m;
    }
    if t <= 0 && p > 0 {
      assert p * m >= m;
    }
  }

  // ---------------------------------------------------------------- one answer per question

  /** Repeating a correct answer to the only question doubles the score: the
      completed attempt reports 200 percent. */
  lemma RepeatedAnswerExceedsHundred()
    ensures var q := Question(1, Mcq, "q", 10, true, "", [Choice(5, true)]);
            var a := Fresh(7, 1, 1, [q]);
            && SubmitAnswer(a, Some(q), Some(5), 0).Ok?
            && var a1 := SubmitAnswer(a, Some(q), Some(5), 0).value.0;
               && SubmitAnswer(a1, Some(q), Some(5), 0).Ok?
               && var a2 := SubmitAnswer(a1, Some(q), Some(5), 0).value.0;
                  && a2.totalScore == 20 && a2.maxScore == 10
                  && CalculatePercentage(a2, DefaultPassingScore).percentage == 200.0
  {
    var q := Question(1, Mcq, "q", 10, true, "", [Choice(5, true)]);
    var a := Fresh(7, 1, 1, [q]);
    assert a.maxScore == 10 by {
      assert MaxScore([q]) == 10 + MaxScore([]);
    }
    assert Score(q, Some(5)).points == 10 by {
      assert FindChoice(q.options, 5) == Some(Choice(5, true));
    }
    var a1 := SubmitAnswer(a, Some(q), Some(5), 0).value.0;
    assert a1.totalScore == 10 && a1.maxScore == 10;
    var a2 := SubmitAnswer(a1, Some(q), Some(5), 0).value.0;
    assert a2.totalScore == 20 && a2.maxScore == 10;
    var p := CalculatePercentage(a2, DefaultPassingScore).percentage;
    assert p * 10.0 == 2000.0;
  }

  datatype Rejection = NoSuchQuestion | NotOpen | NotInSkillSet | AlreadyAnswered

  /** `submit_answer` accepting only an active question of the skill set that
      the in-progress assessment has not yet answered; it then scores as
      written. */
  function SubmitChecked(a: Assessment, questions: seq<Question>, answers: seq<Answer>, question: Option<Question>,
                         selected: Option<nat>, timeTaken: int): (r: Result<(Assessment, Answer, Feedback), Rejection>)
    ensures r.Err? <==> question.None? || a.status != InProgress || question.value !in questions
                        || !question.value.active || question.value.id in AnsweredIds(answers)
    ensures r.Ok? ==> SubmitAnswer(a, question, selected, timeTaken) == Ok(r.value)
  {
    match question
    case None => Err(NoSuchQuestion)
    case Some(q) =>
      if a.status != InProgress then Err(NotOpen)
      else if q !in questions || !q.active then Err(NotInSkillSet)
      else if q.id in AnsweredIds(answers) then Err(AlreadyAnswered)
      else match SubmitAnswer(a, question, selected, timeTaken)
        case Ok(v) => Ok(v)
        case Err(_) => assert false; Err(NoSuchQuestion)
  }

  /** Points of the active questions still unanswered. */
  function Remaining(qs: seq<Question>, answered: seq<nat>): int
  {
    if qs == [] then 0 else (if Open(qs[0], answered) then qs[0].points else 0) + Remaining(qs[1..], answered)
  }

  function Ids(qs: seq<Question>): (ids: seq<nat>)
    ensures |ids| == |qs| && forall i :: 0 <= i < |qs| ==> ids[i] == qs[i].id
  {
    if qs == [] then [] else [qs[0].id] + Ids(qs[1..])
  }

  predicate NonNegativePoints(qs: seq<Question>)
  {
    forall q <- qs :: q.points >= 0
  }

  /** The score so far plus everything still to earn stays within the maximum. */
  predicate WithinMax(a: Assessment, qs: seq<Question>, answers: seq<Answer>)
  {
    0 <= a.totalScore && a.totalScore + Remaining(qs, AnsweredIds(answers)) <= a.maxScore
  }

  lemma {:induction false} RemainingNonNegative(qs: seq<Question>, answered: seq<nat>)
    requires NonNegativePoints(qs)
    ensures Remaining(qs, answered) >= 0
  {
    if qs != [] {
      assert qs[0] in qs;
      assert forall q <- qs[1..] :: q in qs;
      RemainingNonNegative(qs[1..], answered);
    }
  }

  lemma {:induction false} RemainingNone(qs: seq<Question>)
    ensures Remaining(qs, []) == MaxScore(qs)
  {
    if qs != [] {
      RemainingNone(qs[1..]);
    }
  }

  lemma {:induction false} RemainingSkips(qs: seq<Question>, answered: seq<nat>, k: nat)
    requires forall q <- qs :: q.id != k
    ensures Remaining(qs, answered + [k]) == Remaining(qs, answered)
  {
    if qs != [] {
      assert qs[0] in qs;
      assert forall q <- qs[1..] :: q in qs;
      RemainingSkips(qs[1..], answered, k);
    }
  }

  /** Answering an open question takes exactly its points off what remains. */
  lemma {:induction false} RemainingDrops(qs: seq<Question>, answered: seq<nat>, q: Question)
    requires Seqs.Distinct(Ids(qs)) && q in qs && Open(q, answered)
    ensures Remaining(qs, answered + [q.id]) == Remaining(qs, answered) - q.points
  {
    var ids := Ids(qs);
    assert ids[1..] == Ids(qs[1..]);
    assert Seqs.Distinct(ids[1..]) by {
      forall i, j | 0 <= i < j < |ids[1..]| ensures ids[1..][i] != ids[1..][j] {
        assert ids[1..][i] == ids[i + 1] && ids[1..][j] == ids[j + 1];
      }
    }
    if qs[0] == q {
      forall x <- qs[1..] ensures x.id != q.id {
        var j :| 0 <= j < |qs[1..]| && qs[1..][j] == x;
        assert ids[j + 1] == x.id && ids[0] == q.id;
      }
      RemainingSkips(qs[1..], answered, q.id);
    } else {
      assert q in qs[1..];
      RemainingDrops(qs[1..], answered, q);
      assert qs[0].id != q.id by {
        var j :| 0 <= j < |qs| && qs[j] == q;
        assert j != 0;
        assert ids[j] == q.id && ids[0] == qs[0].id;
      }
    }
  }

  /** A fresh attempt starts within its maximum. */
  lemma StartWithinMax(user: nat, skillSet: nat, attempt: int, qs: seq<Question>)
    ensures WithinMax(Fresh(user, skillSet, attempt, qs), qs, [])
  {
    RemainingNone(qs);
  }

  /** Each accepted answer keeps the score within the maximum. */
  lemma SubmitCheckedKeepsWithinMax(a: Assessment, qs: seq<Question>, answers: seq<Answer>, question: Option<Question>,
                                    selected: Option<nat>, timeTaken: int)
    requires Seqs.Distinct(Ids(qs)) && NonNegativePoints(qs) && WithinMax(a, qs, answers)
    requires SubmitChecked(a, qs, answers, question, selected, timeTaken).Ok?
    ensures var v := SubmitChecked(a, qs, answers, question, selected, timeTaken).value;
            WithinMax(v.0, qs, answers + [v.1])
  {
    var v := SubmitChecked(a, qs, answers, question, selected, timeTaken).value;
    var q := question.value;
    var ids := AnsweredIds(answers);
    assert AnsweredIds(answers + [v.1]) == ids + [q.id];
    RemainingDrops(qs, ids, q);
    assert q.points >= 0;
  }

  /** Under the checked submission a completed attempt never reports more than
      100 percent, nor less than 0. */
  lemma CheckedPercentageBounded(a: Assessment, qs: seq<Question>, answers: seq<Answer>, passingScore: int)
    requires NonNegativePoints(qs) && WithinMax(a, qs, answers) && a.maxScore > 0
    ensures 0.0 <= CalculatePercentage(a, passingScore).percentage <= 100.0
  {
    RemainingNonNegative(qs, AnsweredIds(answers));
    var p := CalculatePercentage(a, passingScore).percentage;
    PercentOf(a.totalScore as real, a.maxScore as real, p);
  }
}

=== FILE: sorting.dfy ===
/** Python's `sorted(xs, key=..., reverse=True)` and `list.sort(...)`: a
    stable sort into descending key order. Keys are pairs compared
    lexicographically, as Python compares the tuples `(rank, size)`; a sort on
    a single number uses a constant first component, and an ascending sort
    uses the negated key. */
module Sorting {
  import Seqs

  datatype Key = Key(major: int, minor: real)

  /** `x > y` on keys, lexicographically. */
  predicate Above(x: Key, y: Key)
  {
    x.major > y.major || (x.major == y.major && x.minor > y.minor)
  }

  /** No later element has a larger key than an earlier one. */
  predicate Descending<T>(s: seq<T>, key: T -> Key)
  {
    forall i, j :: 0 <= i < j < |s| ==> !Above(key(s[j]), key(s[i]))
  }

  /** The elements of `s` whose key is `k`, in their order in `s`. */
  function WithKey<T>(s: seq<T>, key: T -> Key, k: Key): (r: seq<T>)
    ensures |r| <= |s|
    ensures forall x <- r :: x in s && key(x) == k
  {
    if s == [] then []
    else (if key(s[0]) == k then [s[0]] else []) + WithKey(s[1..], key, k)
  }

  /** Places `x` in front of the first element whose key is not above its own. */
  function Insert<T>(x: T, s: seq<T>, key: T -> Key): (r: seq<T>)
    ensures Descending(s, key) ==> Descending(r, key)
    ensures multiset(r) == multiset(s) + multiset{x}
  {
    if s == [] || !Above(key(s[0]), key(x)) then
      FrontKeepsOrder(x, s, key);
      [x] + s
    else
      var t := Insert(x, s[1..], key);
      BehindKeepsOrder(x, s, t, key);
      assert s == [s[0]] + s[1..];
      [s[0]] + t
  }

  lemma FrontKeepsOrder<T>(x: T, s: seq<T>, key: T -> Key)
    requires s == [] || !Above(key(s[0]), key(x))
    ensures Descending(s, key) ==> Descending([x] + s, key)
  {
    if Descending(s, key) {
      forall z | z in s ensures !Above(key(z), key(x)) {
        KeyBelowHead(s, key, z);
      }
      ConsDescending(x, s, key);
    }
  }

  lemma BehindKeepsOrder<T>(x: T, s: seq<T>, t: seq<T>, key: T -> Key)
    requires s != [] && Above(key(s[0]), key(x))
    requires multiset(t) == multiset(s[1..]) + multiset{x}
    requires Descending(s[1..], key) ==> Descending(t, key)
    ensures Descending(s, key) ==> Descending([s[0]] + t, key)
  {
    if Descending(s, key) {
      DescendingTail(s, key);
      forall z | z in t ensures !Above(key(z), key(s[0])) {
        assert z in multiset(t);
        if z != x {
          assert z in multiset(s[1..]);
          assert z in s;
          KeyBelowHead(s, key, z);
        }
      }
      ConsDescending(s[0], t, key);
    }
  }

  /** Inserting keeps, for every key, the input order of the elements with
      that key, with `x` in front of those already there. */
  lemma {:induction false} InsertStable<T>(x: T, s: seq<T>, key: T -> Key, k: Key)
    ensures WithKey(Insert(x, s, key), key, k) == (if key(x) == k then [x] else []) + WithKey(s, key, k)
  {
    if s == [] || !Above(key(s[0]), key(x)) {
      InsertFront(x, s, key, k);
    } else {
      InsertStable(x, s[1..], key, k);
      InsertBehind(x, s, Insert(x, s[1..], key), key, k);
    }
  }

  lemma InsertFront<T>(x: T, s: seq<T>, key: T -> Key, k: Key)
    requires s == [] || !Above(key(s[0]), key(x))
    ensures WithKey(Insert(x, s, key), key, k) == (if key(x) == k then [x] else []) + WithKey(s, key, k)
  {
    var r := Insert(x, s, key);
    assert r == [x] + s && r[1..] == s;
  }

  lemma InsertBehind<T>(x: T, s: seq<T>, t: seq<T>, key: T -> Key, k: Key)
    requires s != [] && Above(key(s[0]), key(x))
    requires WithKey(t, key, k) == (if key(x) == k then [x] else []) + WithKey(s[1..], key, k)
    ensures WithKey([s[0]] + t, key, k) == (if key(x) == k then [x] else []) + WithKey(s, key, k)
  {
    var r := [s[0]] + t;
    assert r[0] == s[0] && r[1..] == t;
    if key(x) == k {
      assert key(s[0]) != k;
      assert WithKey(r, key, k) == WithKey(t, key, k);
      assert WithKey(s, key, k) == WithKey(s[1..], key, k);
    } else {
      var head := if key(s[0]) == k then [s[0]] else [];
      assert WithKey(t, key, k) == WithKey(s[1..], key, k);
      assert WithKey(r, key, k) == head + WithKey(t, key, k);
      assert WithKey(s, key, k) == head + WithKey(s[1..], key, k);
    }
  }

  lemma ConsDescending<T>(y: T, t: seq<T>, key: T -> Key)
    requires Descending(t, key)
    requires forall z <- t :: !Above(key(z), key(y))
    ensures Descending([y] + t, key)
  {
    var r := [y] + t;
    forall i, j | 0 <= i < j < |r| ensures !Above(key(r[j]), key(r[i])) {
      assert r[j] == t[j - 1] && r[j] in t;
      if i > 0 {
        assert r[i] == t[i - 1];
      }
    }
  }

  /** Keeping only some elements of an ordered sequence leaves it ordered. */
  lemma {:induction false} FilterKeepsOrder<T>(s: seq<T>, key: T -> Key, p: T -> bool)
    requires Descending(s, key)
    ensures Descending(Seqs.Filter(s, p), key)
  {
    if s != [] {
      DescendingTail(s, key);
      FilterKeepsOrder(s[1..], key, p);
      var t := Seqs.Filter(s[1..], p);
      if p(s[0]) {
        forall z | z in t ensures !Above(key(z), key(s[0])) {
          var j :| 0 <= j < |s[1..]| && s[1..][j] == z;
          assert s[j + 1] == z;
        }
        ConsDescending(s[0], t, key);
      }
    }
  }

  /** The stable descending sort: the result is ordered and a permutation of
      the input. */
  function SortDescending<T>(xs: seq<T>, key: T -> Key): (r: seq<T>)
    ensures Descending(r, key)
    ensures multiset(r) == multiset(xs)
    ensures |r| == |xs|
  {
    if xs == [] then []
    else
      var t := SortDescending(xs[1..], key);
      assert xs == [xs[0]] + xs[1..];
      assert multiset(xs) == multiset{xs[0]} + multiset(xs[1..]);
      var r := Insert(xs[0], t, key);
      assert |r| == |multiset(r)|;
      r
  }

  /** The sort is stable: the elements with any one key keep their input order. */
  lemma {:induction false} SortStable<T>(xs: seq<T>, key: T -> Key, k: Key)
    ensures WithKey(SortDescending(xs, key), key, k) == WithKey(xs, key, k)
  {
    if xs != [] {
      SortStable(xs[1..], key, k);
      InsertStable(xs[0], SortDescending(xs[1..], key), key, k);
    }
  }

  /** A sorted, stable permutation is the sort itself: the three properties
      determine the result. */
  lemma {:induction false} SortUnique<T>(xs: seq<T>, ys: seq<T>, key: T -> Key)
    requires Descending(ys, key)
    requires forall k :: WithKey(ys, key, k) == WithKey(xs, key, k)
    ensures ys == SortDescending(xs, key)
  {
    var r := SortDescending(xs, key);
    forall k ensures WithKey(ys, key, k) == WithKey(r, key, k) {
      SortStable(xs, key, k);
    }
    DescendingSameGroups(ys, r, key);
  }

  /** Two descending sequences with the same elements per key are equal. */
  lemma {:induction false} DescendingSameGroups<T>(a: seq<T>, b: seq<T>, key: T -> Key)
    requires Descending(a, key) && Descending(b, key)
    requires forall k :: WithKey(a, key, k) == WithKey(b, key, k)
    ensures a == b
    decreases |a| + |b|
  {
    if a == [] && b != [] {
      HeadOfGroup(b, key);
    } else if a != [] && b == [] {
      HeadOfGroup(a, key);
    } else if a != [] {
      var ka, kb := key(a[0]), key(b[0]);
      HeadOfGroup(a, key);
      HeadOfGroup(b, key);
      if Above(ka, kb) {
        // a[0] has a key no element of b reaches
        assert WithKey(a, key, ka) != [];
        assert WithKey(b, key, ka) != [];
        var y := WithKey(b, key, ka)[0];
        KeyBelowHead(b, key, y);
        assert false;
      } else if Above(kb, ka) {
        assert WithKey(b, key, kb) != [];
        assert WithKey(a, key, kb) != [];
        var y := WithKey(a, key, kb)[0];
        KeyBelowHead(a, key, y);
        assert false;
      } else {
        assert ka == kb;
        assert a[0] == WithKey(a, key, ka)[0] == WithKey(b, key, kb)[0] == b[0];
        forall k ensures WithKey(a[1..], key, k) == WithKey(b[1..], key, k) {
          assert WithKey(a, key, k) == (if ka == k then [a[0]] else []) + WithKey(a[1..], key, k);
          assert WithKey(b, key, k) == (if kb == k then [b[0]] else []) + WithKey(b[1..], key, k);
          if ka == k {
            assert WithKey(a[1..], key, k) == WithKey(a, key, k)[1..];
            assert WithKey(b[1..], key, k) == WithKey(b, key, k)[1..];
          } else {
            assert WithKey(a[1..], key, k) == WithKey(a, key, k);
            assert WithKey(b[1..], key, k) == WithKey(b, key, k);
          }
        }
        DescendingTail(a, key);
        DescendingTail(b, key);
        DescendingSameGroups(a[1..], b[1..], key);
        assert a == [a[0]] + a[1..] && b == [b[0]] + b[1..];
      }
    }
  }

  lemma HeadOfGroup<T>(s: seq<T>, key: T -> Key)
    requires s != []
    ensures WithKey(s, key, key(s[0])) != [] && WithKey(s, key, key(s[0]))[0] == s[0]
  {
  }

  lemma DescendingTail<T>(s: seq<T>, key: T -> Key)
    requires s != [] && Descending(s, key)
    ensures Descending(s[1..], key)
  {
    forall i, j | 0 <= i < j < |s| - 1 ensures !Above(key(s[1..][j]), key(s[1..][i])) {
      assert s[1..][i] == s[i + 1] && s[1..][j] == s[j + 1];
    }
  }

  /** Every element of a descending sequence has a key no greater than the head's. */
  lemma KeyBelowHead<T>(s: seq<T>, key: T -> Key, y: T)
    requires s != [] && Descending(s, key) && y in s
    ensures !Above(key(y), key(s[0]))
  {
    var j :| 0 <= j < |s| && s[j] == y;
    if j > 0 {
      assert !Above(key(s[j]), key(s[0]));
    }
  }

  /** The first `n` elements, as Python's `xs[:n]`. */
  function Take<T>(xs: seq<T>, n: nat): (r: seq<T>)
    ensures |r| <= n && |r| <= |xs|
    ensures |xs| <= n ==> r == xs
    ensures forall i :: 0 <= i < |r| ==> r[i] == xs[i]
    ensures |r| == n || r == xs
    ensures |r| == if |xs| <= n then |xs| else n
  {
    if |xs| <= n then xs else xs[..n]
  }

  /** The first `n` after a stable descending sort by `key`, as Python's
      `sorted(xs, key=..., reverse=True)[:n]`. */
  function TopN<T>(xs: seq<T>, key: T -> Key, n: nat): (r: seq<T>)
    ensures |r| == if |xs| <= n then |xs| else n
    ensures Descending(r, key)
    ensures multiset(r) <= multiset(xs)
    ensures forall e <- r :: e in xs
  {
    var sorted := SortDescending(xs, key);
    var r := Take(sorted, n);
    TakeSubMultiset(sorted, n);
    assert forall e <- r :: e in multiset(r);
    TakeKeepsOrder(sorted, key, n);
    r
  }

  /** A prefix takes each element at most as often as the whole sequence has it. */
  lemma TakeSubMultiset<T>(s: seq<T>, n: nat)
    ensures multiset(Take(s, n)) <= multiset(s)
  {
    if n < |s| {
      assert s == Take(s, n) + s[n..];
    }
  }

  /** A prefix of an ordered sequence is ordered. */
  lemma TakeKeepsOrder<T>(s: seq<T>, key: T -> Key, n: nat)
    requires Descending(s, key)
    ensures Descending(Take(s, n), key)
  {
  }

  /** Cutting a descending sequence after `n` elements keeps the largest:
      nothing left out has a key above anything kept. */
  lemma TakeKeepsLargest<T>(s: seq<T>, key: T -> Key, n: nat, x: T)
    requires Descending(s, key) && x in s && x !in Take(s, n)
    ensures forall y <- Take(s, n) :: !Above(key(x), key(y))
  {
    var j :| 0 <= j < |s| && s[j] == x;
    assert j >= |Take(s, n)|;
    forall y | y in Take(s, n) ensures !Above(key(x), key(y)) {
      var i :| 0 <= i < |Take(s, n)| && Take(s, n)[i] == y;
      assert s[i] == y;
    }
  }
}

=== FILE: text.dfy ===
/** String helpers shared by the text-based rule sets: Python's `str.lower()`
    restricted to ASCII letters, the `in` substring test, `str.split()` with no
    argument, `str.title()`, `str.replace`, `str.join`, and decimal rendering
    of naturals. */
module Text {
  import Seqs
  import opened Wrappers

  /** `c.lower()` for ASCII letters; every other character is left as is. */
  function LowerChar(c: char): char
  {
    if 'A' <= c <= 'Z' then (c as int + 32) as char else c
  }

  function UpperChar(c: char): char
  {
    if 'a' <= c <= 'z' then (c as int - 32) as char else c
  }

  function Lower(s: string): (r: string)
    ensures |r| == |s|
    ensures forall i :: 0 <= i < |s| ==> r[i] == LowerChar(s[i])
  {
    if s == [] then [] else [LowerChar(s[0])] + Lower(s[1..])
  }

  lemma LowerIdempotent(s: string)
    ensures Lower(Lower(s)) == Lower(s)
  {
  }

  /** A string without upper-case ASCII letters is its own lower case. */
  lemma LowerUnchanged(s: string)
    requires forall i :: 0 <= i < |s| ==> !('A' <= s[i] <= 'Z')
    ensures Lower(s) == s
  {
  }

  lemma LowerConcat(s: string, t: string)
    ensures Lower(s + t) == Lower(s) + Lower(t)
  {
  }

  /** Python's `needle in hay` on strings: `needle` occurs contiguously. */
  predicate Contains(hay: string, needle: string)
  {
    exists i :: 0 <= i && i + |needle| <= |hay| && OccursAt(hay, needle, i)
  }

  predicate OccursAt(hay: string, needle: string, i: nat)
    requires i + |needle| <= |hay|
  {
    hay[i..i + |needle|] == needle
  }

  lemma ContainsEmpty(hay: string)
    ensures Contains(hay, [])
  {
    assert OccursAt(hay, [], 0);
  }

  /** An occurrence survives appending text on either side. */
  lemma ContainsExtend(hay: string, needle: string, before: string, after: string)
    requires Contains(hay, needle)
    ensures Contains(before + hay + after, needle)
  {
    var i :| 0 <= i && i + |needle| <= |hay| && OccursAt(hay, needle, i);
    var big := before + hay + after;
    var j := |before| + i;
    assert big[j..j + |needle|] == hay[i..i + |needle|];
    assert OccursAt(big, needle, j);
  }

  /** Python's `str.isspace()` for one character (its full whitespace set). */
  predicate IsSpace(c: char)
  {
    (9 <= c as int <= 13) || (28 <= c as int <= 32) || c as int == 0x85 || c as int == 0xA0
    || c as int == 0x1680 || (0x2000 <= c as int <= 0x200A) || c as int == 0x2028
    || c as int == 0x2029 || c as int == 0x202F || c as int == 0x205F || c as int == 0x3000
  }

  predicate IsWord(w: string)
  {
    |w| > 0 && forall i :: 0 <= i < |w| ==> !IsSpace(w[i])
  }

  /** `s.split()`: the maximal runs of non-space characters, in order. */
  function Words(s: string): (r: seq<string>)
    ensures forall k :: 0 <= k < |r| ==> IsWord(r[k])
    ensures (forall i :: 0 <= i < |s| ==> IsSpace(s[i])) <==> r == []
  {
    WordsFrom(s, [])
  }

  /** Words of `cur + s`, where `cur` is the (space-free) word being read. */
  function WordsFrom(s: string, cur: string): (r: seq<string>)
    requires forall i :: 0 <= i < |cur| ==> !IsSpace(cur[i])
    ensures forall k :: 0 <= k < |r| ==> IsWord(r[k])
    ensures (cur == [] && forall i :: 0 <= i < |s| ==> IsSpace(s[i])) <==> r == []
    decreases |s|
  {
    if s == [] then
      if cur == [] then [] else [cur]
    else if IsSpace(s[0]) then
      var rest := WordsFrom(s[1..], []);
      assert (forall i :: 0 <= i < |s| ==> IsSpace(s[i])) <==> (forall i :: 0 <= i < |s[1..]| ==> IsSpace(s[1..][i]));
      if cur == [] then rest else [cur] + rest
    else
      WordsFrom(s[1..], cur + [s[0]])
  }

  /** `w.title()` for a word of lower-case ASCII letters: the first letter upper-cased. */
  function Capitalize(w: string): (r: string)
    ensures |r| == |w|
    ensures Lower(r) == Lower(w)
  {
    if w == [] then [] else [UpperChar(w[0])] + w[1..]
  }

  predicate IsLetter(c: char)
  {
    'a' <= c <= 'z' || 'A' <= c <= 'Z'
  }

  /** `s.title()`: a letter is upper-cased when it follows a non-letter (or
      starts the string) and lower-cased when it follows a letter. */
  function Title(s: string): (r: string)
    ensures |r| == |s|
    ensures Lower(r) == Lower(s)
  {
    TitleAfter(s, false)
  }

  function TitleAfter(s: string, afterLetter: bool): (r: string)
    ensures |r| == |s|
    ensures Lower(r) == Lower(s)
  {
    if s == [] then []
    else
      var c := if !IsLetter(s[0]) then s[0] else if afterLetter then LowerChar(s[0]) else UpperChar(s[0]);
      [c] + TitleAfter(s[1..], IsLetter(s[0]))
  }

  /** `s.replace(pat, sub)`: the non-overlapping occurrences of `pat`, taken
      from the left, each replaced by `sub`. */
  function ReplaceAll(s: string, pat: string, sub: string): (r: string)
    requires pat != []
    ensures !Contains(s, pat) ==> r == s
    decreases |s|
  {
    if |s| < |pat| then s
    else if s[..|pat|] == pat then
      assert OccursAt(s, pat, 0);
      sub + ReplaceAll(s[|pat|..], pat, sub)
    else
      var rest := ReplaceAll(s[1..], pat, sub);
      NotContainedInTail(s, pat);
      [s[0]] + rest
  }

  lemma NotContainedInTail(s: string, pat: string)
    requires s != []
    ensures !Contains(s, pat) ==> !Contains(s[1..], pat)
  {
    if Contains(s[1..], pat) {
      var i :| 0 <= i && i + |pat| <= |s[1..]| && OccursAt(s[1..], pat, i);
      assert s[i + 1..i + 1 + |pat|] == s[1..][i..i + |pat|];
      assert OccursAt(s, pat, i + 1);
    }
  }

  /** `sep.join(xs)`. */
  function Join(xs: seq<string>, sep: string): (r: string)
    ensures xs == [] ==> r == []
    ensures |xs| == 1 ==> r == xs[0]
    ensures xs != [] ==> |xs[0]| <= |r| && r[..|xs[0]|] == xs[0]
  {
    if xs == [] then []
    else if |xs| == 1 then xs[0]
    else xs[0] + sep + Join(xs[1..], sep)
  }

  function DigitChar(d: nat): char
    requires d < 10
  {
    ('0' as int + d) as char
  }

  /** `str(n)` for a natural number. */
  function NatToString(n: nat): (r: string)
    ensures |r| > 0
    ensures forall i :: 0 <= i < |r| ==> '0' <= r[i] <= '9'
  {
    if n < 10 then [DigitChar(n)] else NatToString(n / 10) + [DigitChar(n % 10)]
  }

  /** `str(n)` for an integer: a minus sign before the digits of a negative one. */
  function IntToString(n: int): (r: string)
    ensures |r| > 0
  {
    if n < 0 then "-" + NatToString(-n) else NatToString(n)
  }

  /** A non-empty run of decimal digits, the strings `int()` and `float()`
      read as a natural number. */
  predicate IsDigits(s: string)
  {
    |s| > 0 && forall i :: 0 <= i < |s| ==> '0' <= s[i] <= '9'
  }

  /** `int(s)` for a non-empty string of decimal digits. */
  function ParseNat(s: string): nat
    requires forall i :: 0 <= i < |s| ==> '0' <= s[i] <= '9'
  {
    if s == [] then 0 else ParseNat(s[..|s| - 1]) * 10 + (s[|s| - 1] as int - '0' as int)
  }

  lemma {:induction false} ParseNatToString(n: nat)
    ensures ParseNat(NatToString(n)) == n
  {
    var s := NatToString(n);
    if n >= 10 {
      ParseNatToString(n / 10);
      assert s[..|s| - 1] == NatToString(n / 10);
    }
  }

  /** Decimal rendering is injective: distinct numbers print differently. */
  lemma NatToStringInjective(m: nat, n: nat)
    requires NatToString(m) == NatToString(n)
    ensures m == n
  {
    ParseNatToString(m);
    ParseNatToString(n);
  }

  /** `s.lstrip()`. */
  function StripStart(s: string): (r: string)
    ensures |r| <= |s| && r == s[|s| - |r|..]
    ensures r != [] ==> !IsSpace(r[0])
    ensures (s != [] && !IsSpace(s[0])) ==> r == s
  {
    if s != [] && IsSpace(s[0]) then StripStart(s[1..]) else s
  }

  /** `s.rstrip()`. */
  function StripEnd(s: string): (r: string)
    ensures |r| <= |s| && r == s[..|r|]
    ensures r != [] ==> !IsSpace(r[|r| - 1])
    ensures (s != [] && !IsSpace(s[|s| - 1])) ==> r == s
  {
    if s != [] && IsSpace(s[|s| - 1]) then StripEnd(s[..|s| - 1]) else s
  }

  /** `s.strip()`: the text between the leading and the trailing whitespace. */
  function Strip(s: string): (r: string)
    ensures |r| <= |s|
    ensures r != [] ==> !IsSpace(r[0]) && !IsSpace(r[|r| - 1])
    ensures (s != [] && !IsSpace(s[0]) && !IsSpace(s[|s| - 1])) ==> r == s
  {
    var t := StripStart(s);
    assert t != [] ==> t[|t| - 1] == s[|s| - 1];
    StripEnd(t)
  }

  /** Decimal digits after an optional sign: the stripped text `int()` accepts. */
  predicate IsSignedDigits(t: string)
  {
    IsDigits(t) || (|t| > 1 && (t[0] == '-' || t[0] == '+') && IsDigits(t[1..]))
  }

  /** `int(s)` for a string: surrounding whitespace, an optional sign, then
      decimal digits; `None` where Python raises `ValueError`. */
  function ParseInt(s: string): (r: Option<int>)
    ensures r.Some? <==> IsSignedDigits(Strip(s))
    ensures IsDigits(Strip(s)) ==> r == Some(ParseNat(Strip(s)))
    ensures r.Some? && Strip(s)[0] == '-' ==> r.value == 0 - ParseNat(Strip(s)[1..])
    ensures r.Some? && Strip(s)[0] == '+' ==> r.value == ParseNat(Strip(s)[1..])
  {
    ParseSigned(Strip(s))
  }

  /** An optional sign followed by decimal digits. */
  function ParseSigned(t: string): (r: Option<int>)
    ensures r.Some? <==> IsSignedDigits(t)
    ensures IsDigits(t) ==> r == Some(ParseNat(t))
    ensures r.Some? && t[0] == '-' ==> r.value == 0 - ParseNat(t[1..])
    ensures r.Some? && t[0] == '+' ==> r.value == ParseNat(t[1..])
  {
    if t == [] then None
    else if t[0] == '-' || t[0] == '+' then
      assert !IsDigits(t);
      if IsDigits(t[1..]) then
        var n: int := ParseNat(t[1..]);
        Some(if t[0] == '-' then -n else n)
      else None
    else if IsDigits(t) then Some(ParseNat(t))
    else None
  }

  /** `10 ** k`. */
  function Pow10(k: nat): (p: nat)
    ensures p >= 1
  {
    if k == 0 then 1 else 10 * Pow10(k - 1)
  }

  /** `x` times ten to the power `e`, for an exponent of either sign. */
  function Scale10(x: real, e: int): real
  {
    if e >= 0 then x * Pow10(e) as real else x / Pow10(-e) as real
  }

  /** The first position of `s` holding a character of `cs`. */
  function FirstOf(s: string, cs: set<char>): (r: Option<nat>)
    ensures r.None? <==> forall j :: 0 <= j < |s| ==> s[j] !in cs
    ensures r.Some? ==> r.value < |s| && s[r.value] in cs
    ensures r.Some? ==> forall j :: 0 <= j < r.value ==> s[j] !in cs
  {
    if s == [] then None
    else if s[0] in cs then Some(0)
    else match FirstOf(s[1..], cs)
      case None => None
      case Some(i) => Some(i + 1)
  }

  /** A possibly empty run of decimal digits. */
  predicate AllDigits(s: string)
  {
    forall i :: 0 <= i < |s| ==> '0' <= s[i] <= '9'
  }

  /** The value of whole digits and fraction digits, `whole.frac`. */
  function DecimalValue(whole: string, frac: string): real
    requires AllDigits(whole) && AllDigits(frac)
  {
    ParseNat(whole) as real + ParseNat(frac) as real / Pow10(|frac|) as real
  }

  /** The significand of a float literal: digits with at most one point and
      at least one digit, as in `7`, `7.5`, `7.` or `.5`. */
  function Significand(m: string): Option<real>
  {
    match FirstOf(m, {'.'})
    case None => if IsDigits(m) then Some(ParseNat(m) as real) else None
    case Some(i) =>
      if AllDigits(m[..i]) && AllDigits(m[i + 1..]) && (i > 0 || i + 1 < |m|) then Some(DecimalValue(m[..i], m[i + 1..]))
      else None
  }

  /** An unsigned float literal: a significand, then optionally `e` or `E`
      and a signed decimal exponent. */
  function UnsignedReal(t: string): Option<real>
  {
    match FirstOf(t, {'e', 'E'})
    case None => Significand(t)
    case Some(i) =>
      match (Significand(t[..i]), ParseSigned(t[i + 1..]))
      case (Some(x), Some(e)) => Some(Scale10(x, e))
      case _ => None
  }

  /** `float(s)` for finite decimal text: surrounding whitespace, an optional
      sign, a significand and an optional exponent; `None` where Python
      raises `ValueError`. */
  function ParseReal(s: string): (r: Option<real>)
    ensures Strip(s) == [] ==> r.None?
  {
    SignedReal(Strip(s))
  }

  /** A float literal with an optional leading sign. */
  function SignedReal(t: string): Option<real>
  {
    if t != [] && (t[0] == '-' || t[0] == '+') then
      match UnsignedReal(t[1..])
      case None => None
      case Some(x) => Some(if t[0] == '-' then -x else x)
    else UnsignedReal(t)
  }

  /** `float()` agrees with `int()` on the text `int()` accepts. */
  lemma FloatOfIntegerText(s: string)
    requires ParseInt(s).Some?
    ensures ParseReal(s) == Some(ParseInt(s).value as real)
  {
    var t := Strip(s);
    if IsDigits(t) {
      DigitsAsFloat(t);
    } else {
      DigitsAsFloat(t[1..]);
    }
  }

  /** Plain digits read as a float give their integer value. */
  lemma DigitsAsFloat(d: string)
    requires IsDigits(d)
    ensures UnsignedReal(d) == Some(ParseNat(d) as real)
  {
    assert forall j :: 0 <= j < |d| ==> d[j] !in {'e', 'E'};
    assert forall j :: 0 <= j < |d| ==> d[j] !in {'.'};
  }

  /** Text `w.f` of digit runs, one of them non-empty, reads as its decimal value. */
  lemma FloatFraction(w: string, f: string)
    requires AllDigits(w) && AllDigits(f) && (w != [] || f != [])
    ensures ParseReal(w + "." + f) == Some(DecimalValue(w, f))
  {
    PointedSigned(w, f);
    PointedEnds(w, f);
    ReadsUnpadded(w + "." + f);
  }

  lemma PointedSigned(w: string, f: string)
    requires AllDigits(w) && AllDigits(f) && (w != [] || f != [])
    ensures SignedReal(w + "." + f) == Some(DecimalValue(w, f))
  {
    PointedSignificand(w, f);
    PointedNoExponent(w, f);
    PointedEnds(w, f);
  }

  /** `w.f` for digit runs starts and ends with a digit or the point. */
  lemma PointedEnds(w: string, f: string)
    requires AllDigits(w) && AllDigits(f)
    ensures var m := w + "." + f; m[0] != '-' && m[0] != '+' && !IsSpace(m[0]) && !IsSpace(m[|m| - 1])
  {
    var m := w + "." + f;
    var first := if w == [] then '.' else w[0];
    var last := if f == [] then '.' else f[|f| - 1];
    assert m[0] == first && m[|m| - 1] == last;
    NumeralNotSpace(first);
    NumeralNotSpace(last);
  }

  /** Text that neither starts nor ends with whitespace is its own `strip()`. */
  lemma Unpadded(s: string)
    requires s != [] && !IsSpace(s[0]) && !IsSpace(s[|s| - 1])
    ensures Strip(s) == s
  {
  }

  /** Digits and the decimal point are not whitespace. */
  lemma NumeralNotSpace(c: char)
    requires '0' <= c <= '9' || c == '.'
    ensures !IsSpace(c) && c != '-' && c != '+'
  {
  }

  /** The first point of `w.f` is the one after `w`. */
  lemma PointAfterWhole(w: string, f: string)
    requires AllDigits(w)
    ensures FirstOf(w + "." + f, {'.'}) == Some(|w|)
  {
    var m := w + "." + f;
    var r := FirstOf(m, {'.'});
    assert m[|w|] in {'.'};
    assert forall j :: 0 <= j < |w| ==> m[j] !in {'.'} by {
      forall j | 0 <= j < |w| ensures m[j] !in {'.'} {
        assert m[j] == w[j];
      }
    }
  }

  /** The significand of `w.f` is its decimal value. */
  lemma PointedSignificand(w: string, f: string)
    requires AllDigits(w) && AllDigits(f) && (w != [] || f != [])
    ensures Significand(w + "." + f) == Some(DecimalValue(w, f))
  {
    var m := w + "." + f;
    PointAfterWhole(w, f);
    assert m[..|w|] == w && m[|w| + 1..] == f;
  }

  /** A significand `w.f` holds no exponent marker. */
  lemma PointedNoExponent(w: string, f: string)
    requires AllDigits(w) && AllDigits(f)
    ensures FirstOf(w + "." + f, {'e', 'E'}).None?
  {
    var m := w + "." + f;
    forall j | 0 <= j < |m| ensures m[j] !in {'e', 'E'} {
      assert j < |w| ==> m[j] == w[j];
      assert j > |w| ==> m[j] == f[j - |w| - 1];
    }
  }

  /** An exponent scales the significand by that power of ten. */
  lemma FloatExponent(w: string, f: string, x: string)
    requires AllDigits(w) && AllDigits(f) && (w != [] || f != [])
    requires IsSignedDigits(x)
    ensures ParseReal(w + "." + f + "e" + x) == Some(Scale10(DecimalValue(w, f), ParseSigned(x).value))
  {
    var m := w + "." + f;
    var t := m + "e" + x;
    ExponentSigned(w, f, x);
    PointedEnds(w, f);
    var last := x[|x| - 1];
    assert IsDigits(x) || IsDigits(x[1..]) ==> '0' <= last <= '9' by {
      if !IsDigits(x) {
        assert x[1..][|x| - 2] == last;
      }
    }
    NumeralNotSpace(last);
    assert t[0] == m[0] && t[|t| - 1] == last;
    ReadsUnpadded(t);
  }

  lemma ExponentSigned(w: string, f: string, x: string)
    requires AllDigits(w) && AllDigits(f) && (w != [] || f != [])
    requires IsSignedDigits(x)
    ensures SignedReal(w + "." + f + "e" + x) == Some(Scale10(DecimalValue(w, f), ParseSigned(x).value))
  {
    var m := w + "." + f;
    var t := m + "e" + x;
    PointedSignificand(w, f);
    PointedNoExponent(w, f);
    PointedEnds(w, f);
    ExponentAfter(m, x);
    assert t[0] == m[0];
    assert t[..|m|] == m && t[|m| + 1..] == x;
  }

  /** Unpadded text reads as the literal it is. */
  lemma ReadsUnpadded(t: string)
    requires t != [] && !IsSpace(t[0]) && !IsSpace(t[|t| - 1])
    ensures ParseReal(t) == SignedReal(t)
  {
    Unpadded(t);
  }

  /** In `m + "e" + x`, the first exponent marker is the one after `m` when `m` has none. */
  lemma ExponentAfter(m: string, x: string)
    requires FirstOf(m, {'e', 'E'}).None?
    ensures FirstOf(m + "e" + x, {'e', 'E'}) == Some(|m|)
  {
    var t := m + "e" + x;
    assert t[|m|] in {'e', 'E'};
    forall j | 0 <= j < |m| ensures t[j] !in {'e', 'E'} {
      assert t[j] == m[j];
    }
  }

  /** Text whose first character after stripping cannot open a float
      literal is not a number. */
  lemma NoNumeralStart(s: string)
    requires Strip(s) != [] && Strip(s)[0] !in "0123456789.+-"
    ensures ParseReal(s).None?
  {
    NoNumeralLiteral(Strip(s));
  }

  lemma NoNumeralLiteral(t: string)
    requires t != [] && t[0] !in "0123456789.+-"
    ensures SignedReal(t).None?
  {
    match FirstOf(t, {'e', 'E'})
    case None => NoNumeralSignificand(t);
    case Some(i) =>
      if i > 0 {
        assert t[..i][0] == t[0];
        NoNumeralSignificand(t[..i]);
      } else {
        assert t[..i] == [];
      }
  }

  /** A significand cannot start with anything but a digit or the point. */
  lemma NoNumeralSignificand(m: string)
    requires m != [] && m[0] !in "0123456789."
    ensures Significand(m).None?
  {
    assert !IsDigits(m);
    match FirstOf(m, {'.'})
    case None =>
    case Some(i) =>
      assert i > 0;
      assert !AllDigits(m[..i]) by {
        assert m[..i][0] == m[0];
      }
  }

  /** A one-digit numeral is that digit. */
  lemma SingleDigit(c: char)
    requires '0' <= c <= '9'
    ensures ParseNat([c]) == c as int - '0' as int
  {
    assert [c][..0] == [];
  }

  /** Once stripped, a leading minus negates the value of unsigned text. */
  lemma SignedNegation(t: string)
    requires t != [] && t[0] != '-' && t[0] != '+'
    ensures SignedReal("-" + t) == match SignedReal(t) case None => None case Some(x) => Some(-x)
  {
    assert ("-" + t)[1..] == t;
  }

  /** Reading back what `str()` wrote gives the number again. */
  lemma ParseIntToString(n: int)
    ensures ParseInt(IntToString(n)) == Some(n)
  {
    IntToStringUnpadded(n);
    SignedReadBack(n);
  }

  lemma SignedReadBack(n: int)
    ensures ParseSigned(IntToString(n)) == Some(n)
  {
    if n < 0 {
      NegativeReadBack(n);
    } else {
      NonNegativeReadBack(n);
    }
  }

  lemma NonNegativeReadBack(n: nat)
    ensures ParseSigned(NatToString(n)) == Some(n)
  {
    ParseNatToString(n);
    DigitsRead(NatToString(n));
  }

  lemma NegativeReadBack(n: int)
    requires n < 0
    ensures ParseSigned("-" + NatToString(-n)) == Some(n)
  {
    var d := NatToString(-n);
    ParseNatToString(-n);
    SignedDigitsRead(d, n);
  }

  /** Digits alone read as their value. */
  lemma DigitsRead(d: string)
    requires IsDigits(d)
    ensures ParseSigned(d) == Some(ParseNat(d))
  {
  }

  /** Digits after a minus sign read as the negated value. */
  lemma SignedDigitsRead(d: string, k: int)
    requires IsDigits(d) && ParseNat(d) == -k
    ensures ParseSigned("-" + d) == Some(k)
  {
    var t := "-" + d;
    assert t[0] == '-' && t[1..] == d;
  }

  /** `str(n)` has no surrounding whitespace to strip. */
  lemma IntToStringUnpadded(n: int)
    ensures Strip(IntToString(n)) == IntToString(n)
  {
    IntToStringEnds(n);
    Unpadded(IntToString(n));
  }

  /** `str(n)` neither starts nor ends with whitespace. */
  lemma IntToStringEnds(n: int)
    ensures var s := IntToString(n); s != [] && !IsSpace(s[0]) && !IsSpace(s[|s| - 1])
  {
    var s := IntToString(n);
    var d := NatToString(if n < 0 then -n else n);
    assert s[|s| - 1] == d[|d| - 1];
    assert n >= 0 ==> s[0] == d[0];
  }

  /** First letter, last letter and length: often enough to tell fixed words apart. */
  function Signature(k: string): (char, char, int)
  {
    if k == [] then (' ', ' ', 0) else (k[0], k[|k| - 1], |k|)
  }

  lemma SignaturesDistinct(ks: seq<string>)
    requires forall i, j :: 0 <= i < j < |ks| ==> Signature(ks[i]) != Signature(ks[j])
    ensures Seqs.Distinct(ks)
  {
  }
}

=== FILE: wrappers.dfy ===
/** Option and Result, the two wrappers every other module uses for the
    Python code's `None` returns and raised errors. */
module Wrappers {

  datatype Option<+T> = None | Some(value: T)

  datatype Result<+T, +E> = Ok(value: T) | Err(error: E)

  /** The value when present, otherwise `default` (Python's `d.get(k, default)`). */
  function GetOr<T>(o: Option<T>, default: T): T
  {
    match o
    case Some(v) => v
    case None => default
  }
}
